=== FILE: README.md ===
# Busan youth chatbot backend: a Dafny model

The backend answers a youth-support chatbot for Busan. It crawls the city's
youth-space list and youth-program list and keeps each crawl in a JSON cache
file with a time to live. It also scrapes job postings from busanjob.net, by
region, by company or public listing, and from the overseas listing. On top
of that it answers chat messages and REST handlers. The chat handler works
from a JSON file of youth spaces: it routes a message to a reply in a fixed
first-match order, parses the "조건별 검색:" condition string, and scores
spaces against region, capacity and purpose. A one-off script imports a
spreadsheet of support programs into the job-posting table.

The model covers the record-level behaviour of all of this once HTTP, HTML,
the database and the language model are abstracted away:

- A fetched page is what the CSS selectors pick out of it: list items with
  their texts and hrefs, or tables of cells. Fetching is a function from URL
  to an optional page, `None` when the request fails.
- The clock (`now` in seconds, `today` as a calendar day), the outcome of a
  cache write, the random pick and the model's answer are parameters.
- A cache file is a `CacheFile` object whose stored entry the methods
  overwrite. The crawlers, the chat handler, the program table and the
  import are classes or methods with loops. Each is proved equal to a
  specification function, and the properties are lemmas about those
  functions.

Modules follow the source files:

- `SpaceCrawler`: services/youth_space_crawler.py.
- `ProgramCrawler`: services/youth_program_crawler.py.
- `ChatMatching` and `ChatHandler`: handlers/chat_handler.py. The first holds
  the pure predicates and replies; the second holds the handler class and the
  routing.
- `RegionalJobs`: services/regional_job_scraper.py.
- `ProgramScraper`: services/youth_program_scraper.py.
- `JobScraper`: services/scraper_service.py.
- `ProgramHandler`: handlers/program_handler.py.
- `SpaceHandler`: handlers/space_handler.py.
- `ImportJobs`: import_jobs.py.

Shared modules:

- `Cache`: the `{cached_at, data}` files.
- `Dates`: the calendar and hand-written scanners for the date regexes.
- `DatedOrder`: the "dated first, sorted; undated after" ordering the scrapers share.
- `Tables`: the row loops with caps and de-duplication.
- `Grouping`: dicts of lists in insertion order.
- `Sorting`: Python's stable `sort`/`sorted` with `reverse`.
- `Text`, `Seqs`, `Wrappers` and `Replies`: small helpers.

## Model

| member | source | states |
|---|---|---|
| Cache.Lookup | services/youth_space_crawler.py:209-218 | a read yields data exactly when the file holds an entry younger than the time to live, and then it yields that entry's data |
| Cache.AfterWrite | services/youth_space_crawler.py:227-238 | a successful write leaves the entry `{now, data}`; a failed open leaves the old file; a failed dump leaves it unreadable |
| Cache.ReadAfterWrite | services/youth_space_crawler.py:209-238 | after a successful write, a later read answers with the written data until the time to live has passed, and misses afterwards |
| Cache.FailedDumpMisses | services/youth_space_crawler.py:227-238 | after a dump that fails, every read misses |
| Cache.DataOrCrawl | services/youth_space_crawler.py:207-240 | a `get_*_data` call returns the cached data on a hit and the crawl on a miss |
| Cache.AfterGet | services/youth_space_crawler.py:207-240 | a hit leaves the cache file untouched; a miss leaves it as the write of the crawl leaves it |
| Cache.AfterGetIdempotent | services/youth_space_crawler.py:207-240 | for a positive time to live, a second call at the same instant leaves the file as the first call left it |
| Cache.RefreshServesLaterCalls | services/youth_program_crawler.py:186-220 | after a miss whose write succeeds, every call within the time to live is a hit and returns the data the refreshing call returned |
| Cache.CacheFile.Write | services/youth_space_crawler.py:227-238 | the stored entry becomes `AfterWrite` of the old one |
| Cache.CacheFile.Read | services/youth_space_crawler.py:209-218 | a read answers exactly while the file holds an entry younger than the time to live, and then with that entry's data |
| SpaceCrawler.ApplyDetailRow | services/youth_space_crawler.py:85-101 | a detail row fills address, hours or contact and no other field; a contact already set is never replaced |
| SpaceCrawler.ApplyLink | services/youth_space_crawler.py:103-117 | a link fills at most one of homepage, sns, rental and program link, by the first keyword its caption contains |
| SpaceCrawler.SpaceFromItem | services/youth_space_crawler.py:119-123 | an item yields a record only when both name and region are non-empty |
| SpaceCrawler.SummaryContactWins | services/youth_space_crawler.py:72-117 | a contact from the summary box survives the detail list's 연락처 row and every link |
| SpaceCrawler.DetailRowsKeepContact | services/youth_space_crawler.py:99-101 | a contact already set survives every detail row |
| SpaceCrawler.LinksKeepContact | services/youth_space_crawler.py:103-117 | no link changes the contact |
| SpaceCrawler.ExtractSpaceInfoFromLi | services/youth_space_crawler.py:41-128 | the loops over the detail rows and links compute `SpaceFromItem` |
| SpaceCrawler.SpacesOfItems | services/youth_space_crawler.py:130-143 | a page yields at most one record per item, each with a name and a region |
| SpaceCrawler.CrawledSpacesValid | services/youth_space_crawler.py:152-191 | every crawled record has a name and a region |
| SpaceCrawler.CrawlOfDeadSiteIsEmpty | services/youth_space_crawler.py:152-191 | pages that fail to load are skipped, so a site where every request fails yields nothing |
| SpaceCrawler.DeadPage | services/youth_space_crawler.py:158-191 | a page none of whose URLs loads yields no space |
| SpaceCrawler.YouthSpaceCrawler.ExtractSpacesFromPage | services/youth_space_crawler.py:130-143 | the loop over the items computes `SpacesOfItems` |
| SpaceCrawler.YouthSpaceCrawler.CrawlAllSpaces | services/youth_space_crawler.py:152-191 | pages 1 to 3 in order, each from the first of its URLs that loads with content, concatenated; the result is also stored in `spacesData` |
| SpaceCrawler.GetYouthSpacesData | services/youth_space_crawler.py:194-240 | returns the cached data younger than 24 h, else the crawl; on a miss the file is rewritten with `cached_at = now`, and the crawl is returned whether or not the write succeeds |
| SpaceCrawler.ShortDescription | services/youth_space_crawler.py:305-307 | a description of at most 100 characters is kept; a longer one becomes its first 100 characters followed by "..." |
| SpaceCrawler.SpaceLines | services/youth_space_crawler.py:297-318 | the formatted text is built from exactly six lines: the header and five optional parts |
| SpaceCrawler.SpaceLinks | services/youth_space_crawler.py:309-318 | at most three links are shown |
| SpaceCrawler.HeaderFirst | services/youth_space_crawler.py:297 | the text always opens with the `name[region]` header |
| SpaceCrawler.SnsNeverShown | services/youth_space_crawler.py:294-320 | the sns link has no effect on the text |
| SpaceCrawler.BareSpaceIsHeaderOnly | services/youth_space_crawler.py:294-320 | a space without optional fields formats as its header alone |
| SpaceCrawler.PresentFieldsShown | services/youth_space_crawler.py:299-307 | each non-empty address, contact, hours and description shows on its own line, the description shortened |
| SpaceCrawler.LinksInFixedOrder | services/youth_space_crawler.py:309-318 | the present links are joined with " \| " in homepage, rental, program order |
| SpaceCrawler.SearchReply | services/youth_space_crawler.py:245-265 | an empty data set gives the "unavailable" message, and a search with no match gives the not-found message |
| SpaceCrawler.SearchReplyShape | services/youth_space_crawler.py:260-265 | with matches, the reply opens with the header counting all of them and holds each of the first five; it is the header and all matches when there are at most five, and the header and the first five, nothing after, when there are more |
| SpaceCrawler.RegionSearchSelects | services/youth_space_crawler.py:250-254 | a space matches exactly when its stripped region equals the query |
| SpaceCrawler.EmptyDataDiffersFromNoMatch | services/youth_space_crawler.py:245-258 | the empty-data reply differs from the no-match reply |
| SpaceCrawler.KeywordSearchSelects | services/youth_space_crawler.py:274-281 | a space matches exactly when the lower-cased keyword occurs in its lower-cased name, description or region |
| SpaceCrawler.KeywordCaseInsensitive | services/youth_space_crawler.py:274-281 | the keyword test ignores ASCII case in the query |
| SpaceCrawler.SearchLoop | services/youth_space_crawler.py:249-291 | the filter-and-render loop computes `SearchReply` |
| SpaceCrawler.SearchSpacesByRegion | services/youth_space_crawler.py:243-265 | the region reply over the data `get_youth_spaces_data` returns, with the cache file updated as that call does |
| SpaceCrawler.SearchSpacesByKeyword | services/youth_space_crawler.py:268-291 | the keyword reply over the data `get_youth_spaces_data` returns, with the cache file updated as that call does |
| SpaceCrawler.AllSpacesGroups | services/youth_space_crawler.py:331-343 | groups come out in ascending region order, one per region that occurs; every space's region is listed, and the group sizes sum to the number of spaces |
| SpaceCrawler.RenderGroups | services/youth_space_crawler.py:339-343 | the loop over the sorted groups computes the grouped text |
| SpaceCrawler.GetAllYouthSpaces | services/youth_space_crawler.py:323-346 | the grouped listing over the data `get_youth_spaces_data` returns |
| ProgramCrawler.BracketRegion | services/youth_program_crawler.py:76-78 | a region found in the title is a district name ending in 구, occurs in brackets in the title, and is the group of the leftmost match; None exactly when no position matches |
| ProgramCrawler.BracketRegionFrom | services/youth_program_crawler.py:76-78 | a found group is a district name occurring in brackets at or after the start; None means no position from the start on matches |
| ProgramCrawler.BracketRegionFromLeftmost | services/youth_program_crawler.py:76-78 | the found bracket is the match at the leftmost position: no position before it matches |
| ProgramCrawler.FirstBracketWins | services/youth_program_crawler.py:76-78 | "[중구][동구] 청년 특강" has region 중구: the first bracket wins |
| ProgramCrawler.LinkOf | services/youth_program_crawler.py:55-60 | the link is empty exactly when the href is missing or empty |
| ProgramCrawler.ProgramFromItem | services/youth_program_crawler.py:41-103 | an item yields a record iff its state text is exactly 모집중 and it has a non-empty title; the record's status is 모집중 and its region is the bracketed district of its title, or empty |
| ProgramCrawler.ProgramsOfItems | services/youth_program_crawler.py:105-122 | at most one record per item, each open with a title |
| ProgramCrawler.CollectOrStop | services/youth_program_crawler.py:167-172 | a page whose items yield no record ends the crawl; any other page's records are collected |
| ProgramCrawler.CrawledProgramsOpen | services/youth_program_crawler.py:63-99 | every crawled record is open (모집중) with a non-empty title |
| ProgramCrawler.CrawlStopsAtEmptyPage | services/youth_program_crawler.py:157-172 | pages after the one that ends the crawl are never fetched: two sites that agree up to it give the same crawl |
| ProgramCrawler.CrawlOfDeadSiteIsEmpty | services/youth_program_crawler.py:137-175 | a site where every request fails yields nothing |
| ProgramCrawler.YouthProgramCrawler.ExtractProgramsFromPage | services/youth_program_crawler.py:105-122 | the loop over the items computes `ProgramsOfItems` |
| ProgramCrawler.YouthProgramCrawler.FetchLaterPage | services/youth_program_crawler.py:144-157 | the first pagination URL that loads with content, if any |
| ProgramCrawler.ContentPage | services/youth_program_crawler.py:150-157 | the page chosen among the pagination URLs, when there is one, has program content |
| ProgramCrawler.YouthProgramCrawler.CrawlAllPrograms | services/youth_program_crawler.py:131-178 | the loop over at most 5 pages, with its `continue` and `break`, computes the specified crawl and stores it in `programsData` |
| ProgramCrawler.YouthProgramCrawler.VisitPage | services/youth_program_crawler.py:140-174 | one turn of the loop: when it stops, the crawl from this page is empty; otherwise it is this page's records followed by the rest |
| ProgramCrawler.GetYouthProgramsData | services/youth_program_crawler.py:181-220 | returns the cached data younger than 6 h, else the crawl, which is written with `cached_at = now` and returned whatever the write does |
| ProgramCrawler.ProgramLines | services/youth_program_crawler.py:286-306 | the formatted text is built from exactly six lines: the title and five optional parts |
| ProgramCrawler.ProgramHeaderFirst | services/youth_program_crawler.py:288 | the text opens with the bold title |
| ProgramCrawler.StatusEmoji | services/youth_program_crawler.py:290-292 | status 모집중 shows with 🟢, and any other non-empty status with 🔴 |
| ProgramCrawler.PresentProgramFieldsShown | services/youth_program_crawler.py:294-304 | each present period, location, region and link shows on its own line |
| ProgramCrawler.NormalizeRegion | services/youth_program_crawler.py:230-231 | a query ending in 구 loses every 구 and keeps every other character, in order; any other query is unchanged |
| ProgramCrawler.NormalizeRegionExample | services/youth_program_crawler.py:230-231 | 해운대구 is searched as 해운대 |
| ProgramCrawler.MoreProgramsLine | services/youth_program_crawler.py:251-252 | the overflow note is empty exactly when at most eight programs match |
| ProgramCrawler.ProgramSearchReply | services/youth_program_crawler.py:225-254 | empty data gives the unavailable message, and no match gives the not-found message |
| ProgramCrawler.ProgramReplyShape | services/youth_program_crawler.py:243-254 | with matches, the reply starts with the header counting all of them and the first eight in order; eight or fewer are shown whole; with more, it ends with a note counting the rest |
| ProgramCrawler.ProgramReplyFew | services/youth_program_crawler.py:248-252 | with at most eight matches, all are shown and no overflow note follows |
| ProgramCrawler.MoreLineEnds | services/youth_program_crawler.py:251-252 | with more than eight matches, the reply ends with the note counting the programs not shown |
| ProgramCrawler.ProgramRegionSearchSelects | services/youth_program_crawler.py:230-240 | a program matches exactly when the normalised query occurs in its region, location or title |
| ProgramCrawler.ProgramKeywordSearchSelects | services/youth_program_crawler.py:263-270 | a program matches exactly when the lower-cased keyword occurs in its lower-cased title, location or region |
| ProgramCrawler.ProgramSearchLoop | services/youth_program_crawler.py:230-283 | the filter-and-render loop computes `ProgramSearchReply` |
| ProgramCrawler.SearchProgramsByRegion | services/youth_program_crawler.py:223-254 | the region reply over the data `get_youth_programs_data` returns, with that call's cache update |
| ProgramCrawler.SearchProgramsByKeyword | services/youth_program_crawler.py:257-283 | the keyword reply over the data `get_youth_programs_data` returns, with that call's cache update |
| ProgramCrawler.MoreInGroupLine | services/youth_program_crawler.py:341-342 | the per-group note is empty exactly when the group has at most three programs |
| ProgramCrawler.ProgramGroupKey | services/youth_program_crawler.py:318-329 | every program is listed under a non-empty region key |
| ProgramCrawler.CrawledGroupKey | services/youth_program_crawler.py:318-329 | a crawled program is listed under its region, or under 전체/기타 when it has none |
| ProgramCrawler.AllProgramsGroups | services/youth_program_crawler.py:317-343 | the groups come out in ascending key order, one per key that occurs; every program's key is listed and the group sizes sum to the number of programs |
| ProgramCrawler.RenderProgramGroup | services/youth_program_crawler.py:335-343 | one group's heading, its first three programs and its overflow note |
| ProgramCrawler.RenderRegionGroups | services/youth_program_crawler.py:334-343 | the loop over the sorted groups computes the grouped text |
| ProgramCrawler.GetAllYouthPrograms | services/youth_program_crawler.py:309-346 | the grouped listing over the data `get_youth_programs_data` returns |
| ProgramCrawler.CategoryIndexFrom | services/youth_program_crawler.py:363-381 | the chosen category is the first, from the given one on, whose keywords occur in the title; 기타 when none does |
| ProgramCrawler.Category | services/youth_program_crawler.py:363-381 | every program gets one of the five category names |
| ProgramCrawler.CategoryIsFirstMatch | services/youth_program_crawler.py:363-381 | a program's category is the first whose keywords hit its lower-cased title, and it is 기타 exactly when none does |
| ProgramCrawler.CategoriesPartition | services/youth_program_crawler.py:363-381 | each program is in exactly one category, so the category sizes sum to the number of programs |
| ProgramCrawler.Categorize | services/youth_program_crawler.py:363-381 | the loop leaves, for each category, exactly the programs of that category in order |
| ProgramCrawler.RenderCategories | services/youth_program_crawler.py:383-392 | the loop over the categories computes the category text |
| ProgramCrawler.GetProgramsByCategory | services/youth_program_crawler.py:349-394 | the category listing over the data `get_youth_programs_data` returns |
| ChatMatching.CapacityInfo | handlers/chat_handler.py:488-500 | "인원 제한 없음" exactly when neither bound is truthy |
| ChatMatching.CapacityInfoShowsBounds | handlers/chat_handler.py:488-500 | every truthy bound is printed |
| ChatMatching.UnlimitedMatchesEverything | handlers/chat_handler.py:392-394 | a space shown as unlimited passes every capacity option, even an unknown one |
| ChatMatching.CapacityOptionsAreRanges | handlers/chat_handler.py:396-409 | with bounds 1 ≤ min ≤ max: 1-2명 and 3-6명 match iff [min, max] meets the option's range; 7명이상 matches iff max ≥ 7; 상관없음 always matches; any other option never does |
| ChatMatching.MatchesAnyPair | handlers/chat_handler.py:433-440 | the nested loops with `found_match` find a matching pair exactly when one exists |
| ChatMatching.ListedSynonymMatches | handlers/chat_handler.py:414-440 | a space that lists one of the purpose's words as a keyword matches the purpose |
| ChatMatching.UnmappedPurposeMatchesItself | handlers/chat_handler.py:433-440 | an unmapped purpose is searched as itself, ignoring ASCII case |
| ChatMatching.ScoreCountsSatisfiedConditions | handlers/chat_handler.py:343-360 | the score never exceeds the number of conditions given, and equals it exactly when every given condition holds, with region compared for equality with the location |
| ChatMatching.MatchReasons | handlers/chat_handler.py:344-360 | one reason per satisfied condition, each naming a given condition |
| ChatMatching.ReservationMatchesIff | handlers/chat_handler.py:341-367 | a space is listed, as its scored copy, exactly when its score is positive |
| ChatMatching.ReservationMatchesScored | handlers/chat_handler.py:362-367 | every listed copy holds an unchanged record of the file and a positive score |
| ChatMatching.ByScoreOrder | handlers/chat_handler.py:449 | the sort puts the highest score first, permutes the copies, and keeps copies with equal scores in their input order |
| ChatMatching.ReservationReplyCases | handlers/chat_handler.py:331-372 | with no condition nothing is searched; with conditions but no match, the no-results message names them |
| ChatMatching.RandomReplyNamesPick | handlers/chat_handler.py:520-530 | the recommendation names the picked space |
| ChatMatching.CardHeadingNames | handlers/chat_handler.py:454-455 | a result card's heading names its space |
| ChatMatching.SearchKeywordsStartWithKeyword | handlers/chat_handler.py:200-212 | the words searched for a keyword are non-empty and start with the keyword |
| ChatMatching.RecordWithKeywordIsFound | handlers/chat_handler.py:212-233 | a space that carries the keyword itself is always found |
| ChatMatching.KeywordJsonSelects | handlers/chat_handler.py:212-233 | a space is listed exactly when some searched word and some keyword of the space are case-insensitive substrings of one another |
| ChatMatching.EmptyLinkShownOnlyInDetail | handlers/chat_handler.py:54-83 | an empty URL string prints an empty link line in the detail view but no link line on a result card |
| ChatMatching.UnnamedRecordMatchesAnything | handlers/chat_handler.py:104-114 | a space without a name or without a facility matches every input |
| ChatMatching.ShownRegionsCover | handlers/chat_handler.py:143-168 | the overview shows at most three distinct, non-empty regions; with at most three regions, every space's region is shown |
| ChatMatching.ShownRegionsFirst | handlers/chat_handler.py:143-153 | the shown regions are the first to appear: a space whose region is not shown comes after a space of every shown region |
| ChatMatching.DetailMatchesShape | handlers/chat_handler.py:116-128 | the match reply opens with the quoted query, holds each of the first five matches under its number 1 to 5, holds all of them when there are at most five, and otherwise ends with how many more there are |
| ChatMatching.DetailReplyOverviewOnlyWithoutMatch | handlers/chat_handler.py:97-131 | when some space lacks a name or facility, the detail reply is always the match list, never the overview |
| ChatHandler.ApplyPieceSlot | handlers/chat_handler.py:577-588 | a piece sets the key it names to its stripped value and leaves the other keys alone |
| ChatHandler.LastDuplicateWins | handlers/chat_handler.py:577-588 | for each of 지역, 인원 and 목적, the last piece that names it decides its value |
| ChatHandler.UnnamedKeyUnset | handlers/chat_handler.py:577-588 | a key that no piece names stays unset; pieces without '=' or with other keys change nothing |
| ChatHandler.ParseConditionPieces | handlers/chat_handler.py:574-588 | the parsing loop computes the specified conditions |
| ChatHandler.EarlyRoute | handlers/chat_handler.py:565-652 | the checks on the text alone; a condition search only when the text holds the marker, with the conditions parsed from it |
| ChatHandler.DistrictProgramRoute | handlers/chat_handler.py:603-609 | "\<district\> 프로그램" asks for that district's programs |
| ChatHandler.DistrictSpaceRoute | handlers/chat_handler.py:612-618 | a bare district name asks for that district's spaces |
| ChatHandler.ConditionSearchBeforeProgramWords | handlers/chat_handler.py:570-656 | the condition search is checked before the program words: "조건별 검색: 목적=교육/강연" holds the program word 교육 yet is a condition search, whether or not programs were found |
| ChatHandler.KeywordButtonBeforeProgramWords | handlers/chat_handler.py:624-656 | the keyword buttons are checked before the program words: the button "🎤교육/강연" holds 교육 yet searches the JSON records by its keyword, whether or not programs were found |
| ChatHandler.OldKeywordsMapToButtons | handlers/chat_handler.py:621-652 | every former label routes to a current keyword button that the keyword mapping knows |
| ChatHandler.DistrictShape | handlers/chat_handler.py:605-613 | every district name is at least two characters long, has no space, no ':' and no surrounding white space, so no district collides with the buttons or the condition marker |
| ChatHandler.ReplyInputsUnused | handlers/chat_handler.py:560-728 | only the model's route reads the model's answer, and only the text-decided routes read the JSON records and the random pick |
| ChatHandler.ChatHandler.constructor | handlers/chat_handler.py:13-41 | the handler holds the file's list, or nothing when the file is missing or unreadable |
| ChatHandler.ChatHandler.HandleSpaceDetailRequest | handlers/chat_handler.py:91-135 | the matches of the input, or the overview when there are none |
| ChatHandler.ChatHandler.ShowMatches | handlers/chat_handler.py:116-128 | the loop over the first five matches builds the match reply whose shape DetailMatchesShape states |
| ChatHandler.ChatHandler.ShowAllSpacesDetail | handlers/chat_handler.py:137-188 | groups by location and renders at most three regions |
| ChatHandler.ChatHandler.RenderRegions | handlers/chat_handler.py:151-168 | the counter loop with its `break` at three computes the rendered regions |
| ChatHandler.ChatHandler.AppendRegion | handlers/chat_handler.py:153-168 | one turn of the region loop appends the next region's block to those already rendered |
| ChatHandler.ChatHandler.RenderRegion | handlers/chat_handler.py:154-164 | a region's heading, its first two spaces and the count of the rest |
| ChatHandler.ChatHandler.SearchSpacesByKeywordJson | handlers/chat_handler.py:190-260 | the keyword search over the JSON records |
| ChatHandler.ChatHandler.HandleSpaceReservationSearch | handlers/chat_handler.py:322-384 | scores a copy of every record and keeps the positive ones; the records themselves are not changed |
| ChatHandler.ChatHandler.ScoreSpace | handlers/chat_handler.py:344-367 | one copy with its `match_score` and `match_reasons` |
| ChatHandler.ChatHandler.FormatSearchResults | handlers/chat_handler.py:445-486 | sorts by score, highest first and stable, then renders one card per copy |
| ChatHandler.ChatHandler.HandleRandomRecommendation | handlers/chat_handler.py:520-558 | the recommendation of the picked record |
| ChatHandler.ChatHandler.GenerateBotResponse | handlers/chat_handler.py:560-728 | the reply of the message's first-match route; the space cache changes only when a route reads the spaces, and the program cache only when the text reads the programs |
| ChatHandler.ChatHandler.AnswerEarly | handlers/chat_handler.py:565-652 | steps 0 to 6; only the district searches touch a cache |
| ChatHandler.ChatHandler.AnswerConditions | handlers/chat_handler.py:571-591 | step 1: parse the conditions after the marker and run the condition search |
| ChatHandler.ChatHandler.AnswerLate | handlers/chat_handler.py:654-728 | steps 7 to 9 and their cache reads |
| ChatHandler.ChatHandler.ListPrograms | handlers/chat_handler.py:658-671 | at most five programs, then how many more |
| Dates.DaysInMonth | services/regional_job_scraper.py:224-228 | a month has 28 to 31 days |
| Dates.MakeDate | services/regional_job_scraper.py:224-228 | a date only where the calendar has one, and None exactly for an impossible date |
| Dates.OrdinalMonotone | services/regional_job_scraper.py:261-266 | within a year, a later date has a larger day number |
| Dates.YmdSepAt | services/regional_job_scraper.py:206-207 | a match of `yyyy-m-d` (or `yy-m-d`) at a position has three digit groups, the first of the given width |
| Dates.KoreanYmdAt | services/regional_job_scraper.py:208 | a match of `yyyy년 m월 d일` has three digit groups, the year four digits |
| Dates.MonthDayAt | services/regional_job_scraper.py:209 | a match of `m-d` has two digit groups |
| Dates.LooseYmdAt | import_jobs.py:25-28 | a match of the import's loose pattern has three digit groups, the year four digits |
| Dates.SearchFrom | services/regional_job_scraper.py:212-214 | the search returns the leftmost match, and None only when no position matches |
| Dates.Search | services/regional_job_scraper.py:213 | `re.search` gives the match at the leftmost position where the pattern matches, and None exactly when it matches nowhere |
| Dates.FirstMatchingPattern | services/regional_job_scraper.py:212-214 | the first pattern in list order that matches somewhere |
| Dates.FirstMatch | services/regional_job_scraper.py:212-230 | None exactly when no pattern matches anywhere; otherwise the leftmost match of the first pattern, in list order, that matches |
| Dates.DateFromGroups | services/regional_job_scraper.py:215-228 | three digit groups give year, month and day, a two-digit year yy standing for 2000 + yy; two groups give month and day of the current year; only calendar-valid dates come out |
| Dates.ParseDateRegional | services/regional_job_scraper.py:198-233 | empty text and text no pattern matches give None; otherwise the first pattern that matches decides: `yyyy-m-d` and `yyyy년 m월 d일` give that date, `yy-m-d` the date in year 2000 + yy, `m-d` the date in the current year, and an impossible date gives None without trying later patterns |
| Dates.RegionalDateRoundTrip | services/regional_job_scraper.py:198-233 | a date in ISO form is read back as that date, whatever the current year |
| Dates.RegionalTwoDigitYearExample | services/regional_job_scraper.py:207-224 | "24.3.15" is 15 March 2024 |
| Dates.TwoDigitYearIsTwoThousands | services/regional_job_scraper.py:218-223 | a two-digit year yy stands for 2000 + yy |
| Dates.DateFormatsAgree | services/regional_job_scraper.py:235-240 | the regional and the listing `is_date_format` agree on every text |
| Dates.TwoDigitYmdGivesMonthDay | services/regional_job_scraper.py:235-240 | wherever `yy-m-d` matches, `m-d` does too |
| Dates.ParseListingDate | services/scraper_service.py:133-162 | empty text and text no pattern matches give None; otherwise the first pattern that matches decides: three groups give that date, two give month and day of the current year, and an impossible date gives None |
| Dates.ListingDateRoundTrip | services/youth_program_scraper.py:141-170 | a date in ISO form is read back as that date, whatever the current year |
| Dates.ListingMonthDayExample | services/scraper_service.py:133-162 | "~ 3/15" read in 2025 is 15 March 2025 |
| Dates.ListingYearAlwaysFourDigits | services/youth_program_scraper.py:158-161 | every three-group match has a four-digit year, so the two-digit-year branch never runs |
| Dates.ExtractDateFromText | services/regional_job_scraper.py:548-568 | the text of the first match of `yyyy-m-d`, `m-d` or `yyyy년 m월 d일`; otherwise 상시 모집 for standing-recruitment words, else 채용시까지 |
| Dates.ParseImportDate | import_jobs.py:21-31 | a non-text cell and text without the shape give None; otherwise the date of the three groups of the leftmost match, None when it is impossible |
| Dates.ImportDateRoundTrip | import_jobs.py:21-31 | a cell holding a date in ISO form is read back as that date |
| DatedOrder.SortedDatedInOrder | services/regional_job_scraper.py:63-78 | the sorted dated records are in date order |
| DatedOrder.DatedFirstOrder | services/regional_job_scraper.py:63-78 | a permutation of the input: the dated records first in date order, then the undated ones in their collected order |
| DatedOrder.PartitionPermutation | services/regional_job_scraper.py:63-73 | splitting by "has a parsed date" keeps every record exactly once |
| DatedOrder.DatedFirstRanked | services/scraper_service.py:58-73 | every prefix of the ordering is ranked: dated records in date order before undated ones |
| DatedOrder.DatedFirstStable | services/youth_program_scraper.py:53-68 | records with the same date keep their collected order |
| DatedOrder.DatedFirstLoop | services/youth_program_scraper.py:53-68 | the partition loop and the sort compute the specified ordering |
| Sorting.SortBySorted | handlers/chat_handler.py:449 | the sort's output is sorted |
| Sorting.SortByPermutation | handlers/chat_handler.py:449 | the sort's output is a permutation of its input |
| Sorting.SortByStable | handlers/chat_handler.py:449 | elements with equal keys keep their input order |
| Grouping.KeyOrder | services/youth_space_crawler.py:332-337 | the dict's keys are distinct |
| Grouping.KeyOrderBefore | services/youth_space_crawler.py:332-337 | the keys come in order of first appearance: an element with an earlier-listed key occurs before any element with a later-listed key |
| Grouping.KeyOrderMembers | services/youth_space_crawler.py:332-337 | every element's key is a key of the dict, and every key has a non-empty list |
| Grouping.GroupSizesSum | services/youth_space_crawler.py:332-343 | the list sizes sum to the number of elements |
| Grouping.GroupSizesSumReordered | services/youth_space_crawler.py:339-343 | the same holds for the keys in any order, such as sorted |
| Grouping.GroupSizesCover | services/youth_space_crawler.py:339-343 | groups listed under any distinct key list covering every element's key account for every element once |
| Grouping.GroupLoop | services/youth_space_crawler.py:332-337 | the grouping loop builds the dict and its key order |
| Tables.CollectCapped | services/regional_job_scraper.py:35-61 | the row loop over every table, with its cap and `break`s, collects the first `cap` records the rows yield |
| Tables.DistinctByUnique | services/youth_program_scraper.py:46-48 | no two kept records share a key |
| Tables.DistinctByKeys | services/youth_program_scraper.py:46-48 | only input records are kept, and every key of the input is kept |
| Tables.DistinctByKeepsFirst | services/youth_program_scraper.py:46-48 | a kept record is the first of its title: no record before it in the input has its title |
| Tables.CollectDistinctCapped | services/youth_program_scraper.py:30-51 | the loop with its cap and title check collects the first `cap` records of distinct titles |
| RegionalJobs.ApplyJobCell | services/regional_job_scraper.py:154-187 | once a title is set it stays, with its link; the first title cell sets title and link; company, dates and location are only filled while empty |
| RegionalJobs.JobTitleRule | services/regional_job_scraper.py:154-170 | the title is the text of the first title cell and the link is that cell's href, made absolute |
| RegionalJobs.JobFieldsFirstWins | services/regional_job_scraper.py:172-187 | a filled field keeps its value through every later cell |
| RegionalJobs.DateSwallowedBeforeCompany | services/regional_job_scraper.py:172-182 | while a title is set and no company is, a date cell is taken by the company branch and is recorded nowhere |
| RegionalJobs.ExtractJobInfo | services/regional_job_scraper.py:135-196 | None exactly for rows of fewer than three cells or without a title cell; otherwise the title cell's text and link, the row's details and the given region |
| RegionalJobs.ExtractJobInfoFromRow | services/regional_job_scraper.py:135-196 | the loop over the cell texts computes `ExtractJobInfo` |
| RegionalJobs.RecruitingNeverResumes | services/regional_job_scraper.py:242-269 | within a year, a posting that is closed on one day is closed on every later day |
| RegionalJobs.DeadlineDecides | services/regional_job_scraper.py:246-250 | a parseable deadline alone decides; title and register date do not matter |
| RegionalJobs.RegionRowJob | services/regional_job_scraper.py:38-58 | a row of four cells or more gives a job only when its title is over 2 characters, it is open and mentions the region, and it is not a first-row header; the job is given the requested type |
| RegionalJobs.GeneralRowJob | services/regional_job_scraper.py:110-124 | a row of four cells or more gives a job only when its title is over 2 characters, it is open, and it is not a table's first row; the job is given the requested type |
| RegionalJobs.GetGeneralJobs | services/regional_job_scraper.py:91-133 | computes the specified general listing |
| RegionalJobs.GetRegionJobs | services/regional_job_scraper.py:17-89 | computes the specified region listing |
| RegionalJobs.RegionRecordsQualify | services/regional_job_scraper.py:49-58 | every record of the region search is open, mentions the region and carries the requested type |
| RegionalJobs.RegionPartQualifies | services/regional_job_scraper.py:30-78 | the region search's own part is open, mentions the region, carries the requested type, and is ranked newest register date first |
| RegionalJobs.GeneralRecordsQualify | services/regional_job_scraper.py:119-124 | every record of the general listing is open and carries the requested type |
| RegionalJobs.RegionJobsShape | services/regional_job_scraper.py:17-89 | at most `max_jobs` jobs, each open and of the requested type |
| RegionalJobs.RegionJobsLeadWithRegion | services/regional_job_scraper.py:63-85 | the region search's own jobs come first, mention the region, and are ranked newest register date first, undated last |
| RegionalJobs.GeneralJobsQualify | services/regional_job_scraper.py:91-133 | every general job is open and of the requested type |
| RegionalJobs.CountryMatchIgnoresCase | services/regional_job_scraper.py:401-437 | country matching ignores ASCII case in the job and in the target |
| RegionalJobs.SimpleSynonymCovered | services/regional_job_scraper.py:504-531 | every synonym of the simple table contains a synonym of the job table |
| RegionalJobs.SimpleMatchImpliesTarget | services/regional_job_scraper.py:401-437 | a text `contains_country_simple` accepts, taken as a title, makes a job `is_target_country_job` accepts |
| RegionalJobs.ExtractJobTypeFromText | services/regional_job_scraper.py:533-546 | the first keyword in list order that occurs in the lower-cased text, else 다양한 직종 |
| RegionalJobs.FirstWordFrom | services/regional_job_scraper.py:542-546 | the found keyword occurs in the text and no keyword listed before it does; None means none occurs |
| RegionalJobs.OverseasJobFromTable | services/regional_job_scraper.py:354-399 | a job exactly when the row has four cells and a title of at least 3 characters; the cells give title, country, type and deadline, and the link is the title's href or the page URL |
| RegionalJobs.HeaderRowFrom | services/regional_job_scraper.py:690-696 | the first header row at or after a position |
| RegionalJobs.ScanOverseasTables | services/regional_job_scraper.py:685-712 | the header search with its two `break`s computes the specified job list |
| RegionalJobs.FindOverseasHeader | services/regional_job_scraper.py:690-698 | the loop finds the first header row |
| RegionalJobs.JobsAfterHeader | services/regional_job_scraper.py:700-709 | the loop collects the jobs of the rows after the header |
| RegionalJobs.CurrentJobsQualify | services/regional_job_scraper.py:714-731 | every current job is about the country and not past its deadline |
| RegionalJobs.GetOverseasJobs | services/regional_job_scraper.py:669-738 | None when the request fails, else the specified list |
| RegionalJobs.OverseasJobsShape | services/regional_job_scraper.py:714-738 | at most three jobs, each about the country and not expired, dated ones first and soonest first; with at most three current jobs all of them are listed |
| RegionalJobs.OverseasJobsQualify | services/regional_job_scraper.py:714-731 | every listed job is about the country and not expired |
| ProgramScraper.ApplyProgramCell | services/youth_program_scraper.py:91-124 | once a title is set it stays, with its link; the first title cell sets title and link; details are never touched |
| ProgramScraper.ProgramTitleRule | services/youth_program_scraper.py:95-108 | the title is the first title cell's text and the link that cell's href |
| ProgramScraper.ProgramFieldsRule | services/youth_program_scraper.py:110-124 | status is the last field text with a status word, category the first with a category word, the first date text the register date and the second the deadline |
| ProgramScraper.ProgramDetailsUntouched | services/youth_program_scraper.py:91-127 | no cell sets the details; they are joined after the loop |
| ProgramScraper.ExtractProgramInfo | services/youth_program_scraper.py:74-133 | None exactly for rows of fewer than three cells or without a title cell; otherwise the title cell's text and link and the row's details |
| ProgramScraper.ExtractProgramInfoFromRow | services/youth_program_scraper.py:74-133 | the loop over the cell texts computes `ExtractProgramInfo` |
| ProgramScraper.ProgramRow | services/youth_program_scraper.py:37-45 | a row gives a program only with a title over 2 characters, and never as a table's first row holding a header word |
| ProgramScraper.ScrapeYouthPrograms | services/youth_program_scraper.py:17-72 | computes the specified collection and ordering |
| ProgramScraper.YouthProgramsShape | services/youth_program_scraper.py:17-72 | at most `max_programs` programs, no two with the same title, each title over 2 characters, dated ones first and newest first; a permutation of the programs collected |
| ProgramScraper.CollectedProgramTitle | services/youth_program_scraper.py:44-48 | every collected program has a title over 2 characters |
| JobScraper.BaseUrlIsOrigin | services/scraper_service.py:11 | the base URL has no path |
| JobScraper.JobListUrlsExact | services/scraper_service.py:17-23 | exactly the two listing paths joined right after the base URL, company listing first |
| JobScraper.CompanyListType | services/scraper_service.py:169-170 | the first listing is typed 기업채용 because its URL contains "mbs=B" |
| JobScraper.PublicListType | services/scraper_service.py:169-170 | the second listing is typed 공공채용 because its URL does not contain "mbs=B" |
| JobScraper.ApplyListingCell | services/scraper_service.py:97-117 | a cell never sets the job type, the details or the location |
| JobScraper.ListingTitleCompanyRule | services/scraper_service.py:101-112 | the title is the first non-blank, non-digit text over 2 characters, the link its href made absolute, and the company the next text over 1 character |
| JobScraper.ListingDatesRule | services/scraper_service.py:113-117 | the first text reaching the date branch is the register date and the second the deadline |
| JobScraper.DateTextsNonEmpty | services/scraper_service.py:113-117 | the texts taken as dates are never empty |
| JobScraper.ListingFixedFields | services/scraper_service.py:82-119 | the cells never set the job type, the details or the location: the type is the listing's and details are joined after the loop |
| JobScraper.CompanyIndex | services/scraper_service.py:111-112 | the company cell comes after the title cell |
| JobScraper.ExtractListing | services/scraper_service.py:79-125 | None exactly for rows of fewer than three cells or without a title; otherwise title, link, type, and details as the " \| "-join of the non-blank, non-digit texts |
| JobScraper.ExtractListingFromRow | services/scraper_service.py:79-125 | the loop over the cell texts computes `ExtractListing` |
| JobScraper.ListingRow | services/scraper_service.py:44-53 | a row gives a posting only with a title over 2 characters and the listing's type, and not as a first-row header |
| JobScraper.ScrapeJobListings | services/scraper_service.py:25-77 | computes the specified listing |
| JobScraper.JobListingsShape | services/scraper_service.py:25-77 | at most `max_jobs` postings of the listing's type, ranked soonest deadline first, undated after |
| JobScraper.ScrapeAllListings | services/scraper_service.py:166-172 | the loop over the listing URLs merges their postings in order |
| JobScraper.GetLatestJobs | services/scraper_service.py:164-182 | computes the specified merge, sort and cut |
| JobScraper.AllListingsQualify | services/scraper_service.py:169-172 | every merged posting is a company or a public posting with a title over 2 characters |
| JobScraper.LatestJobsShape | services/scraper_service.py:164-182 | at most `max_jobs` postings, dated ones first and soonest first; when the merge holds no more than `max_jobs`, every posting of both listings is there |
| ProgramHandler.HandleApiError | handlers/program_handler.py:13-19 | always a failure carrying the error; the message begins with the context when one is given |
| ProgramHandler.GetAllPrograms | handlers/program_handler.py:29-40 | every program, with count equal to the number of programs |
| ProgramHandler.FilterProgramsByRegion | handlers/program_handler.py:61-74 | the filter loop computes the region filter |
| ProgramHandler.FilterProgramsByRegionIff | handlers/program_handler.py:61-74 | a program is kept, in order, exactly when the normalised region occurs in its region, location or title |
| ProgramHandler.SecondReadAgrees | handlers/program_handler.py:45-46 | the handler's second data read sees the data of its first and leaves the cache file as the first left it |
| ProgramHandler.GetProgramsByRegion | handlers/program_handler.py:42-59 | the crawler's region reply as message, and as data the programs the normalised query matches, counted; the cache file ends as one `get_youth_programs_data` call leaves it |
| ProgramHandler.RegionCountMatchesMessage | handlers/program_handler.py:42-57 | the count in the message's header is the count of the returned data |
| ProgramHandler.KeywordSearchReply | handlers/program_handler.py:104-131 | fails exactly when there are no programs; otherwise the data is the case-insensitive keyword filter over title, location and region, counted |
| ProgramHandler.SearchProgramsByKeyword | handlers/program_handler.py:104-131 | the keyword reply over the data `get_youth_programs_data` returns |
| ProgramHandler.CrawlProgramsManually | handlers/program_handler.py:76-102 | crawls and writes the config cache file; the file the data functions read stays as it was; a failed write is reported through the error helper |
| SpaceHandler.GetAllSpaces | handlers/space_handler.py:10-26 | every space, with count equal to the number of spaces |
| SpaceHandler.HandlerRegionLooser | handlers/space_handler.py:28-50 | every space the crawler's exact region match keeps is in the handler's data |
| SpaceHandler.HandlerRegionStrictlyLooser | handlers/space_handler.py:35 | a query for part of a region name finds it here but not in the crawler |
| SpaceHandler.SecondReadAgrees | handlers/space_handler.py:31-32 | the handler's second data read sees the data of its first and leaves the cache file as the first left it |
| SpaceHandler.GetSpacesByRegion | handlers/space_handler.py:28-50 | the crawler's region reply as message, and as data the spaces whose lower-cased region contains the lower-cased query, counted; the cache file ends as one `get_youth_spaces_data` call leaves it |
| SpaceHandler.FilterSpacesByKeyword | handlers/space_handler.py:66-73 | the filter loop computes the keyword filter |
| SpaceHandler.SearchSpacesByKeywordApi | handlers/space_handler.py:52-88 | an empty keyword fails without a search or a cache read; otherwise the crawler's keyword reply and the same keyword filter as data, counted, and the cache file ends as one `get_youth_spaces_data` call leaves it |
| SpaceHandler.GetAllSpacesFormatted | handlers/space_handler.py:90-104 | the grouped listing as a bare message |
| SpaceHandler.CrawlSpacesManually | handlers/space_handler.py:106-150 | crawls and overwrites the cache file whatever it held, with `cached_at = now`; a failed write makes the reply a failure |
| SpaceHandler.ManualCrawlServesReads | handlers/space_handler.py:115-132 | after a successful manual crawl, `get_youth_spaces_data` answers with that crawl for the next 24 hours, even where the file held fresh data before |
| ImportJobs.FindHeaderRow | import_jobs.py:7-18 | the 0-based index of the first line holding 모집 여부, 제목 and 신청기간; None when there is no such line or no file |
| ImportJobs.FindHeaderRowLoop | import_jobs.py:7-18 | the line-scanning loop with its early return computes `FindHeaderRow` |
| ImportJobs.Get | import_jobs.py:69-88 | None exactly when no stripped column name is the key |
| ImportJobs.EndDateAfterLastTilde | import_jobs.py:71-73 | the end-date text is the stripped text from the position just past the last '~' of the period |
| ImportJobs.EndDateWithoutTilde | import_jobs.py:71-73 | a period without '~' is read whole |
| ImportJobs.EndDate | import_jobs.py:71-73 | the end date, when there is one, is a valid date |
| ImportJobs.RowPostingRule | import_jobs.py:69-87 | a row is imported iff its stripped status is 모집중 and its end date parses and is today or later; the posting keeps the raw status, period, title and link, and carries the end date |
| ImportJobs.ImportedAreOpen | import_jobs.py:68-88 | every imported posting is open and ends today or later |
| ImportJobs.CollectPostings | import_jobs.py:68-88 | the row loop computes the postings in row order |
| ImportJobs.ImportSavesOpenPostings | import_jobs.py:50-95 | postings are saved only when the file has a header line, the read succeeds and a status column exists; every saved posting is open and ends today or later |
| ImportJobs.PostingTable.ImportCsvToDb | import_jobs.py:34-99 | the table is emptied first; it then holds the new postings only when the import gets through |

## Left out

- HTTP, HTML parsing and `time.sleep` are out. A fetch is a function from URL to an optional abstract page: the items or table cells the CSS selectors pick, with their texts and hrefs. Selector semantics and `get_page_content`'s encoding handling are not modelled.
- The clock is a parameter. `datetime.now()` and `date.today()` are read once per call, as `now` in seconds or `today` as a day.
- The cache's JSON serialisation and ISO time stamps reduce to an integer time in a `CacheFile`. Every way a read can fail collapses into `Unreadable`. `os.makedirs` and path building are out.
- The cache write outcome is a parameter. A failed open leaves the file; a failed dump leaves it unreadable.
- The OpenAI call and its prompt are the `modelReply` parameter.
- `random.choice` is the `pick` index parameter.
- `process_chat_message` and `delete_chat_session` are out, as is all other database code (models, transactions, user handling).
- The database delete and bulk save of import_jobs.py are a `PostingTable` whose rows are reassigned. Rollback and the error paths of the delete are out.
- pandas `read_csv` is the `read` parameter: header line to optional frame. Blank-line skipping in pandas header counting is not modelled.
- Duplicate column names in the spreadsheet are not modelled: the first matching column is read.
- Flask routing, CORS and logging (`print`) are out. Emoji are constant text.
- String functions are ASCII only: `lower()`, `isdigit()`, `strip()`, `\s` and `\d`. Unicode case folding and digits are out.
- The regular expressions are hand-written scanners for the listed patterns, not a regex engine.
- `urljoin` is simplified. An absolute href is kept, a root-relative one goes after the origin, and any other is joined to the base's directory.
- `quote` (URL quoting) is a parameter of the region search.
- In-place sorts, and the `*_date_obj` keys the scrapers add to job dicts, are modelled on values. The sort is a stable sort of a sequence, and the parsed date is a key function; aliasing of the dicts is not captured.
- `extract_overseas_job_info`, `get_overseas_jobs_with_keyword`, `get_overseas_jobs_from_text`, `extract_job_from_row_text` and `contains_country` are out. No modelled entry point calls them.
- `contains_country_simple`, `extract_job_type_from_text` and `extract_date_from_text` are modelled on their own: `RegionalJobs.ContainsCountrySimple`, `RegionalJobs.ExtractJobTypeFromText` and `Dates.ExtractDateFromText`, with their lemmas. Their callers are the functions above, which are out, so no modelled entry point reaches them.
- The youth-space JSON records are taken as well typed. Each text field is a string or absent, never `null`. The capacities are integers or absent, and the keywords are a list of strings. A record that breaks this (a `null` name, or a capacity written as the string "3") makes the chat handler raise, and its `except Exception` fallbacks answer. Those fallbacks are out: the error replies of `format_space_detail`, `handle_space_detail_request`, `handle_space_reservation_search`, `format_search_results`, `handle_random_recommendation` and the condition parsing in `generate_bot_response`; the `True` that `check_capacity_match` returns on an exception; and the `False` that `check_purpose_match` returns on one.
- The text formatting of `get_regional_jobs`, `get_overseas_jobs`, `get_youth_programs` and `get_busanjob_latest_jobs` is out. The job lists they format are modelled.
- `_get_config_path` and `load_spaces_data`'s file access are out. The loaded list is the handler constructor's parameter.
- RegionalJobs.RegionJobsShape: states the bound, the status and the type of every job. The ordering of the region part is in RegionJobsLeadWithRegion; the general part keeps the listing order and has no separate lemma.

=== FILE: cache.dfy ===
/**
 * The JSON cache files `{cached_at, data}` the crawlers keep on disk.
 *
 * A cache file is either missing, unreadable (bad JSON, a missing key, a
 * time stamp `datetime.fromisoformat` rejects), or an entry with the time it
 * was written and the data. Reading it gives the data only while
 * `now - cached_at < ttl`; anything else sends the caller back to the
 * crawler. Writing opens the file (which truncates it) and dumps the
 * JSON: when opening fails the old file stays, when dumping fails the file
 * is left truncated and so unreadable. Time is a number of seconds.
 */
module Cache {
  import opened Wrappers

  datatype Stored<T> = Absent | Unreadable | Entry(cachedAt: int, data: seq<T>)

  /** How a write of the cache file ends. */
  datatype WriteOutcome = Written | OpenFailed | DumpFailed

  /** What a read of the file at time `now` yields: the data of an entry younger than `ttl`. */
  function Lookup<T>(s: Stored<T>, now: int, ttl: int): (r: Option<seq<T>>)
    ensures r.Some? <==> s.Entry? && now - s.cachedAt < ttl
    ensures r.Some? ==> r.value == s.data
  {
    match s
    case Entry(at, data) => if now - at < ttl then Some(data) else None
    case _ => None
  }

  /** The file after writing `{cached_at: now, data: data}`. */
  function AfterWrite<T>(s: Stored<T>, outcome: WriteOutcome, now: int, data: seq<T>): (r: Stored<T>)
    ensures outcome == Written ==> r == Entry(now, data)
    ensures outcome == OpenFailed ==> r == s
    ensures outcome == DumpFailed ==> r.Unreadable?
  {
    match outcome
    case Written => Entry(now, data)
    case OpenFailed => s
    case DumpFailed => Unreadable
  }

  /**
   * Read after write: a successful write is what every read answers until
   * `ttl` seconds have passed, and no read answers it afterwards.
   */
  lemma ReadAfterWrite<T>(s: Stored<T>, now: int, data: seq<T>, later: int, ttl: int)
    requires now <= later
    ensures Lookup(AfterWrite(s, Written, now, data), later, ttl) ==
            (if later - now < ttl then Some(data) else None)
  {
  }

  /** A write that fails while dumping makes every later read miss. */
  lemma FailedDumpMisses<T>(s: Stored<T>, now: int, data: seq<T>, later: int, ttl: int)
    ensures Lookup(AfterWrite(s, DumpFailed, now, data), later, ttl).None?
  {
  }

  /** What a `get_*_data` function returns: fresh cached data, else the crawl. */
  function DataOrCrawl<T>(s: Stored<T>, now: int, ttl: int, crawl: seq<T>): (r: seq<T>)
    ensures Lookup(s, now, ttl).Some? ==> r == s.data
    ensures Lookup(s, now, ttl).None? ==> r == crawl
  {
    match Lookup(s, now, ttl)
    case Some(data) => data
    case None => crawl
  }

  /** The cache file after a `get_*_data` call: untouched on a hit, rewritten with the crawl on a miss. */
  function AfterGet<T>(s: Stored<T>, now: int, ttl: int, crawl: seq<T>, outcome: WriteOutcome): (r: Stored<T>)
    ensures Lookup(s, now, ttl).Some? ==> r == s
    ensures Lookup(s, now, ttl).None? ==> r == AfterWrite(s, outcome, now, crawl)
  {
    if Lookup(s, now, ttl).Some? then s else AfterWrite(s, outcome, now, crawl)
  }

  /**
   * A second call at the same instant leaves the file as the first call
   * left it: a written entry is fresh, and a failed write fails the same way
   * again.
   */
  lemma AfterGetIdempotent<T>(s: Stored<T>, now: int, ttl: int, crawl: seq<T>, outcome: WriteOutcome)
    requires ttl > 0
    ensures AfterGet(AfterGet(s, now, ttl, crawl, outcome), now, ttl, crawl, outcome) == AfterGet(s, now, ttl, crawl, outcome)
  {
  }

  /**
   * After a miss whose write succeeds, every call within `ttl` seconds is
   * answered from the cache with the data of the call that wrote it, and
   * no longer crawls.
   */
  lemma RefreshServesLaterCalls<T>(s: Stored<T>, now: int, later: int, ttl: int, crawl: seq<T>, laterCrawl: seq<T>)
    requires Lookup(s, now, ttl).None?
    requires now <= later < now + ttl
    ensures Lookup(AfterGet(s, now, ttl, crawl, Written), later, ttl).Some?
    ensures DataOrCrawl(AfterGet(s, now, ttl, crawl, Written), later, ttl, laterCrawl) == DataOrCrawl(s, now, ttl, crawl)
  {
    ReadAfterWrite(s, now, crawl, later, ttl);
  }

  /** One cache file, as the crawler functions and handlers see it. */
  class CacheFile<T> {
    var stored: Stored<T>

    constructor (initial: Stored<T>)
      ensures stored == initial
    {
      stored := initial;
    }

    /** Read the file at time `now`. */
    function Read(now: int, ttl: int): (r: Option<seq<T>>)
      reads this
      ensures r.Some? <==> stored.Entry? && now - stored.cachedAt < ttl
      ensures r.Some? ==> r.value == stored.data
    {
      Lookup(stored, now, ttl)
    }

    /** Writing the entry `{cached_at: now, data}`; `outcome` says how far the write got. */
    method Write(now: int, data: seq<T>, outcome: WriteOutcome)
      modifies this
      ensures stored == AfterWrite(old(stored), outcome, now, data)
    {
      match outcome
      case Written => stored := Entry(now, data);
      case OpenFailed =>
      case DumpFailed => stored := Unreadable;
    }
  }
}

=== FILE: chat_handler.dfy ===
/**
 * The chat handler: the youth-space records it loads once into an instance
 * field, the handlers that answer from them, the parser of the
 * "조건별 검색:" condition string, and the first-match routing of a chat
 * message to its reply.
 */
module ChatHandler {
  import opened Wrappers
  import opened Text
  import opened Seqs
  import opened Cache
  import opened Grouping
  import opened ChatMatching
  import opened SpaceCrawler
  import opened ProgramCrawler

  // ---------------------------------------------------------------------------
  // The condition string "조건별 검색: 지역=...|인원=...|목적=..."

  /** The `conditions` dict: only its three keys are ever set. */
  datatype Conditions = Conditions(region: Option<string>, capacity: Option<string>, purpose: Option<string>)

  const NoConditions := Conditions(None, None, None)

  const ConditionMarker := "조건별 검색:"

  /** The three keys the parser keeps. */
  const ConditionKeys: seq<string> := ["지역", "인원", "목적"]

  /** The stripped key before the first '=' of a piece, if it has one. */
  function PieceKey(piece: string): Option<string>
  {
    match IndexOfChar(piece, '=')
    case None => None
    case Some(e) => Some(Strip(piece[..e]))
  }

  /** The stripped value after the first '=' of a piece. */
  function PieceValue(piece: string): string
  {
    match IndexOfChar(piece, '=')
    case None => ""
    case Some(e) => Strip(piece[e + 1..])
  }

  /** One turn of the parsing loop. */
  function ApplyPiece(c: Conditions, piece: string): Conditions
  {
    match PieceKey(piece)
    case None => c
    case Some(key) =>
      if key == "지역" then c.(region := Some(PieceValue(piece)))
      else if key == "인원" then c.(capacity := Some(PieceValue(piece)))
      else if key == "목적" then c.(purpose := Some(PieceValue(piece)))
      else c
  }

  /** The dict after the loop over all pieces. */
  function ParsePieces(pieces: seq<string>): Conditions
  {
    if pieces == [] then NoConditions
    else ApplyPiece(ParsePieces(pieces[..|pieces| - 1]), pieces[|pieces| - 1])
  }

  /** One more piece of the prefix the parsing loop has read. */
  lemma ParsePiecesStep(pieces: seq<string>, i: nat)
    requires i < |pieces|
    ensures ParsePieces(pieces[..i + 1]) == ApplyPiece(ParsePieces(pieces[..i]), pieces[i])
  {
    assert pieces[..i + 1][..i] == pieces[..i];
  }

  /** The text after the first marker, stripped. */
  function SearchPart(text: string): string
    requires Contains(text, ConditionMarker)
  {
    Strip(text[Find(text, ConditionMarker).value + |ConditionMarker|..])
  }

  function ParseConditions(text: string): Conditions
    requires Contains(text, ConditionMarker)
  {
    ParsePieces(Split(SearchPart(text), '|'))
  }

  /** The dict entry for one of the three keys. */
  function Slot(c: Conditions, key: string): Option<string>
  {
    if key == "지역" then c.region
    else if key == "인원" then c.capacity
    else if key == "목적" then c.purpose
    else None
  }

  lemma ApplyPieceSlot(c: Conditions, piece: string, key: string)
    requires key in ConditionKeys
    ensures Slot(ApplyPiece(c, piece), key) ==
      if PieceKey(piece) == Some(key) then Some(PieceValue(piece)) else Slot(c, key)
  {
    var r := ApplyPiece(c, piece);
    match PieceKey(piece)
    case None =>
      assert r == c;
    case Some(k) =>
      var v := PieceValue(piece);
      if k == "지역" {
        assert r == c.(region := Some(v));
      } else if k == "인원" {
        assert r == c.(capacity := Some(v));
      } else if k == "목적" {
        assert r == c.(purpose := Some(v));
      } else {
        assert r == c;
      }
  }

  /** For each of the three keys, the last piece that names it decides its value. */
  lemma {:induction false} LastDuplicateWins(pieces: seq<string>, k: nat, key: string)
    requires key in ConditionKeys
    requires k < |pieces| && PieceKey(pieces[k]) == Some(key)
    requires forall m :: k < m < |pieces| ==> PieceKey(pieces[m]) != Some(key)
    ensures Slot(ParsePieces(pieces), key) == Some(PieceValue(pieces[k]))
  {
    var init := pieces[..|pieces| - 1];
    ApplyPieceSlot(ParsePieces(init), pieces[|pieces| - 1], key);
    if k < |pieces| - 1 {
      LastDuplicateWins(init, k, key);
    }
  }

  /** A key no piece names stays unset; pieces without '=' or with other keys change nothing. */
  lemma {:induction false} UnnamedKeyUnset(pieces: seq<string>, key: string)
    requires key in ConditionKeys
    requires forall m :: 0 <= m < |pieces| ==> PieceKey(pieces[m]) != Some(key)
    ensures Slot(ParsePieces(pieces), key) == None
  {
    if pieces != [] {
      var init := pieces[..|pieces| - 1];
      ApplyPieceSlot(ParsePieces(init), pieces[|pieces| - 1], key);
      UnnamedKeyUnset(init, key);
    }
  }

  /** The parsing loop over the '|'-separated pieces after the marker. */
  method ParseConditionPieces(pieces: seq<string>) returns (c: Conditions)
    ensures c == ParsePieces(pieces)
  {
    c := NoConditions;
    var i := 0;
    while i < |pieces|
      invariant 0 <= i <= |pieces|
      invariant c == ParsePieces(pieces[..i])
    {
      ParsePiecesStep(pieces, i);
      var piece := pieces[i];
      var eq := IndexOfChar(piece, '=');
      if eq.Some? {
        var key := Strip(piece[..eq.value]);
        var value := Strip(piece[eq.value + 1..]);
        assert PieceKey(piece) == Some(key) && PieceValue(piece) == value;
        if key == "지역" {
          c := c.(region := Some(value));
        } else if key == "인원" {
          c := c.(capacity := Some(value));
        } else if key == "목적" {
          c := c.(purpose := Some(value));
        }
      }
      i := i + 1;
    }
    assert pieces[..i] == pieces;
  }

  /** The three values as the search reads them: a missing one is empty, each is stripped. */
  function ToSearch(c: Conditions): SearchConditions
  {
    SearchConditions(Strip(c.region.GetOr("")), Strip(c.capacity.GetOr("")), Strip(c.purpose.GetOr("")))
  }

  // ---------------------------------------------------------------------------
  // Routing

  const Districts: seq<string> := [
    "중구", "동구", "서구", "영도구", "부산진구", "동래구", "연제구", "금정구",
    "북구", "사상구", "사하구", "강서구", "남구", "해운대구", "수영구", "기장군"
  ]

  /** The earlier keyword labels and the keyword buttons they now stand for. */
  const OldKeywords: map<string, string> := map[
    "스터디/회의" := "📝스터디/회의",
    "교육/강연" := "🎤교육/강연",
    "모임/커뮤니티" := "👥커뮤니티",
    "진로/창업" := "🚀진로/창업",
    "문화/창작" := "🎨문화/창작",
    "작업/창작실" := "🛠작업/창작실",
    "휴식/놀이" := "🧘휴식/놀이",
    "행사/이벤트" := "🎪행사/이벤트"
  ]

  const ProgramWords: seq<string> := ["프로그램", "교육", "강의", "과정", "모집", "신청", "바리스타", "취업", "컨설팅"]

  const SpaceWords: seq<string> := ["스터디", "창업", "회의", "카페", "라운지", "센터"]

  const ProgramSuffix := " 프로그램"

  /** The texts of the detail and random-recommendation buttons. */
  const DetailButtonText := "청년 공간 상세"
  const RandomButtonText := "✨ 랜덤 추천"

  /** The token the front end turns into the detail-search view. */
  const DetailSearchToken := "[SPACE_DETAIL_SEARCH]"

  /** Where a chat message goes. */
  datatype Route =
    | DetailButton
    | ConditionSearch(conditions: Conditions)
    | RandomPick
    | ProgramsInRegion(region: string)
    | SpacesInRegion(region: string)
    | KeywordButton(keyword: string)
    | ProgramListing
    | SpaceWordSearch(text: string)
    | AskModel

  /** Step 3: "<district> 프로그램", with the suffix removed everywhere and the rest stripped. */
  predicate AsksDistrictPrograms(text: string)
  {
    Contains(text, ProgramSuffix) && Strip(RemoveSubstring(text, ProgramSuffix)) in Districts
  }

  /** The checks that depend on the text alone, in the handler's order. */
  function EarlyRoute(text: string): (r: Option<Route>)
    ensures r.Some? ==> IsEarly(r.value)
    ensures r.Some? && r.value.ConditionSearch? ==>
              Contains(text, ConditionMarker) && r.value.conditions == ParseConditions(text)
  {
    if text == DetailButtonText then Some(DetailButton)
    else if Contains(text, ConditionMarker) then Some(ConditionSearch(ParseConditions(text)))
    else if text == RandomButtonText then Some(RandomPick)
    else if AsksDistrictPrograms(text) then Some(ProgramsInRegion(Strip(RemoveSubstring(text, ProgramSuffix))))
    else if Strip(text) in Districts then Some(SpacesInRegion(Strip(text)))
    else if Strip(text) in KeywordButtons then Some(KeywordButton(Strip(text)))
    else if Strip(text) in OldKeywords then Some(KeywordButton(OldKeywords[Strip(text)]))
    else None
  }

  /**
   * `generate_bot_response`'s choice: the text checks, then the program
   * listing when a program word occurs and programs were found, then the
   * space-word search, and the language model last.
   */
  function RouteOf(text: string, programsFound: bool): Route
  {
    match EarlyRoute(text)
    case Some(r) => r
    case None => LateRoute(text, programsFound)
  }

  /** The routes of steps 7 to 9, for a text no earlier check claimed. */
  function LateRoute(text: string, programsFound: bool): Route
  {
    if ContainsAny(text, ProgramWords) && programsFound then ProgramListing
    else if ContainsAny(text, SpaceWords) then SpaceWordSearch(text)
    else AskModel
  }

  /** The routes the text alone decides. */
  predicate IsEarly(route: Route)
  {
    !(route.ProgramListing? || route.SpaceWordSearch? || route.AskModel?)
  }

  /** `RouteOf` and `ReadsPrograms` seen from the early route. */
  lemma RouteOfEarly(text: string, programsFound: bool)
    ensures RouteOf(text, programsFound) ==
              if EarlyRoute(text).Some? then EarlyRoute(text).value else LateRoute(text, programsFound)
    ensures ReadsPrograms(text) ==
              if EarlyRoute(text).Some? then EarlyRoute(text).value.ProgramsInRegion? else ContainsAny(text, ProgramWords)
  {
  }

  /** Whether answering `text` calls `get_youth_programs_data`. */
  predicate ReadsPrograms(text: string)
  {
    match EarlyRoute(text)
    case Some(r) => r.ProgramsInRegion?
    case None => ContainsAny(text, ProgramWords)
  }

  /** Whether the route calls `get_youth_spaces_data` (through the crawler's search functions). */
  predicate ReadsSpaces(route: Route)
  {
    route.SpacesInRegion? || route.SpaceWordSearch?
  }

  /** Every district is a short Hangul name: no white space, no ':' and no '='. */
  lemma DistrictShape(d: string)
    requires d in Districts
    ensures |d| >= 2 && ' ' !in d && ':' !in d
    ensures !IsSpace(d[0]) && !IsSpace(d[|d| - 1])
  {
  }

  /** "<district> 프로그램" asks for that district's programs. */
  lemma DistrictProgramRoute(d: string, programsFound: bool)
    requires d in Districts
    ensures RouteOf(d + ProgramSuffix, programsFound) == ProgramsInRegion(d)
  {
    var text := d + ProgramSuffix;
    DistrictShape(d);
    assert text[|text| - 1] == '램';
    assert DetailButtonText[7] == '세';
    assert text != DetailButtonText;
    MissingCharNotContained(text, ConditionMarker, ':');
    assert RandomButtonText[6] == '천';
    assert text != RandomButtonText;
    ContainsMiddle(d, ProgramSuffix, "");
    assert d + ProgramSuffix + "" == text;
    RemoveSubstringSuffix(d, ProgramSuffix);
    StripUntrimmed(d);
  }

  /** A bare district name asks for that district's spaces. */
  lemma DistrictSpaceRoute(d: string, programsFound: bool)
    requires d in Districts
    ensures RouteOf(d, programsFound) == SpacesInRegion(d)
  {
    DistrictShape(d);
    assert DetailButtonText[2] == ' ';
    assert RandomButtonText[1] == ' ';
    MissingCharNotContained(d, ConditionMarker, ':');
    MissingCharNotContained(d, ProgramSuffix, ' ');
    StripUntrimmed(d);
  }

  /** Every earlier label routes to a current keyword button, whose mapped words the search then uses. */
  lemma OldKeywordsMapToButtons(former: string)
    requires former in OldKeywords
    ensures OldKeywords[former] in KeywordButtons && OldKeywords[former] in KeywordMapping
  {
  }

  /** The program listing needs programs: without them a program word falls through to the space words or the model. */
  lemma ProgramListingNeedsPrograms(text: string)
    requires EarlyRoute(text) == None && ContainsAny(text, ProgramWords)
    ensures ReadsPrograms(text)
    ensures RouteOf(text, true) == ProgramListing
    ensures RouteOf(text, false) == if ContainsAny(text, SpaceWords) then SpaceWordSearch(text) else AskModel
  {
  }

  /**
   * The condition search takes precedence over the program words: a condition
   * string that asks for 교육 as its purpose is a condition search, not a
   * program listing, whether or not programs were found.
   */
  lemma ConditionSearchBeforeProgramWords(programsFound: bool)
    ensures var t := ConditionMarker + " 목적=교육/강연";
            ContainsAny(t, ProgramWords) && RouteOf(t, programsFound).ConditionSearch?
  {
    var t := ConditionMarker + " 목적=교육/강연";
    ContainsMiddle(ConditionMarker + " 목적=", "교육", "/강연");
    assert ConditionMarker + " 목적=" + "교육" + "/강연" == t;
    assert ProgramWords[1] == "교육";
    assert t[0] != DetailButtonText[0];
    ContainsMiddle("", ConditionMarker, " 목적=교육/강연");
    assert "" + ConditionMarker + " 목적=교육/강연" == t;
  }

  /**
   * A keyword button takes precedence over the program words: "🎤교육/강연"
   * holds 교육 but searches the JSON records by its keyword.
   */
  lemma KeywordButtonBeforeProgramWords(programsFound: bool)
    ensures var t := "🎤교육/강연";
            ContainsAny(t, ProgramWords) && RouteOf(t, programsFound) == KeywordButton(t)
  {
    EducationButtonHasProgramWord();
    EducationButtonIsEarly();
  }

  lemma EducationButtonHasProgramWord()
    ensures ContainsAny("🎤교육/강연", ProgramWords)
  {
    ContainsMiddle("🎤", "교육", "/강연");
    assert "🎤" + "교육" + "/강연" == "🎤교육/강연";
    assert ProgramWords[1] == "교육";
  }

  lemma EducationButtonIsEarly()
    ensures EarlyRoute("🎤교육/강연") == Some(KeywordButton("🎤교육/강연"))
  {
    var t := "🎤교육/강연";
    assert t[0] != DetailButtonText[0] && t[0] != RandomButtonText[0];
    MissingCharNotContained(t, ConditionMarker, ':');
    MissingCharNotContained(t, ProgramSuffix, ' ');
    StripUntrimmed(t);
    EducationButtonNotDistrict();
    assert KeywordButtons[1] == t;
  }

  lemma EducationButtonNotDistrict()
    ensures "🎤교육/강연" !in Districts
  {
    var t := "🎤교육/강연";
    forall d | d in Districts
      ensures d != t
    {
      assert d[0] != t[0];
    }
  }

  // ---------------------------------------------------------------------------
  // Replies

  /** One program of the listing: its title, then its period and place when present. */
  function ProgramCard(p: Program): string
  {
    "🟢 **" + p.title + "**\n" + OptionalLine("📅 ", p.applicationPeriod) + OptionalLine("📍 ", p.location) + "\n"
  }

  const MaxListedPrograms := 5

  const ProgramListHeading := "**부산 청년 프로그램 모집중** ("

  const MoreListedLine := "개 프로그램 더 있음\n\n"

  const ProgramListFooter := "💡 지역명과 함께 질문하시면 해당 지역 프로그램을 찾아드려요!"

  /** The reply to a program word: at most five programs, then how many more. */
  function ProgramListReply(programs: seq<Program>): string
  {
    ProgramListHeading + NatToString(|programs|) + "개)\n\n" +
    Render(Take(programs, MaxListedPrograms), ProgramCard) +
    (if |programs| > MaxListedPrograms then "... 외 " + NatToString(|programs| - MaxListedPrograms) + MoreListedLine else "") +
    ProgramListFooter
  }

  /**
   * The reply of each route, from the JSON records, the spaces and programs
   * the crawler modules return, the index `random.choice` picks and the
   * model's answer.
   */
  function RouteReply(route: Route, records: seq<YouthSpace>, spaces: seq<Space>, programs: seq<Program>,
                      pick: nat, modelReply: string): string
    requires records != [] ==> pick < |records|
  {
    match route
    case DetailButton => DetailSearchToken
    case ConditionSearch(c) => ReservationReply(records, ToSearch(c))
    case RandomPick => RandomReply(records, pick)
    case ProgramsInRegion(region) => ProgramRegionReply(programs, region)
    case SpacesInRegion(region) => RegionReply(spaces, region)
    case KeywordButton(keyword) => KeywordJsonReply(records, keyword)
    case ProgramListing => ProgramListReply(programs)
    case SpaceWordSearch(text) => KeywordReply(spaces, text)
    case AskModel => modelReply
  }

  /**
   * Only the model's route reads the model's answer, and only the routes the
   * text alone decides read the JSON records and the random pick.
   */
  lemma ReplyInputsUnused(route: Route, records: seq<YouthSpace>, spaces: seq<Space>, programs: seq<Program>,
                          pick: nat, modelReply: string, records': seq<YouthSpace>, pick': nat, modelReply': string)
    requires records != [] ==> pick < |records|
    requires records' != [] ==> pick' < |records'|
    ensures IsEarly(route) ==>
              RouteReply(route, records, spaces, programs, pick, modelReply) ==
              RouteReply(route, records, spaces, programs, pick, modelReply')
    ensures !IsEarly(route) ==>
              RouteReply(route, records, spaces, programs, pick, modelReply) ==
              RouteReply(route, records', spaces, programs, pick', modelReply)
  {
  }

  /** The replies of steps 7 to 9 as the handler's three checks produce them. */
  lemma LateReplies(text: string, spaces: seq<Space>, programs: seq<Program>, modelReply: string)
    ensures RouteReply(LateRoute(text, programs != []), [], spaces, programs, 0, modelReply) ==
              if ContainsAny(text, ProgramWords) && programs != [] then ProgramListReply(programs)
              else if ContainsAny(text, SpaceWords) then KeywordReply(spaces, text)
              else modelReply
  {
    if ContainsAny(text, ProgramWords) && programs != [] {
      ProgramListingReply(text, spaces, programs, modelReply);
    } else if ContainsAny(text, SpaceWords) {
      SpaceWordReply(text, spaces, programs, modelReply);
    } else {
      assert LateRoute(text, programs != []) == AskModel;
    }
  }

  /** Step 7: a program word, with programs found, lists them. */
  lemma ProgramListingReply(text: string, spaces: seq<Space>, programs: seq<Program>, modelReply: string)
    requires ContainsAny(text, ProgramWords) && programs != []
    ensures RouteReply(LateRoute(text, programs != []), [], spaces, programs, 0, modelReply) == ProgramListReply(programs)
  {
    assert LateRoute(text, programs != []) == ProgramListing;
  }

  /** Step 8: otherwise a space word searches the spaces by the text. */
  lemma SpaceWordReply(text: string, spaces: seq<Space>, programs: seq<Program>, modelReply: string)
    requires !(ContainsAny(text, ProgramWords) && programs != []) && ContainsAny(text, SpaceWords)
    ensures RouteReply(LateRoute(text, programs != []), [], spaces, programs, 0, modelReply) == KeywordReply(spaces, text)
  {
    assert LateRoute(text, programs != []) == SpaceWordSearch(text);
  }

  lemma ScoredCopiesAppend(a: seq<YouthSpace>, b: seq<YouthSpace>, c: SearchConditions)
    ensures ScoredCopies(a + b, c) == ScoredCopies(a, c) + ScoredCopies(b, c)
  {
  }

  /** The handler object: the records of the youth-space JSON file, loaded once. */
  class ChatHandler {
    var spacesData: seq<YouthSpace>

    /** `load_spaces_data`: the file's list, or nothing when the file is missing or unreadable. */
    constructor(loaded: Option<seq<YouthSpace>>)
      ensures spacesData == loaded.GetOr([])
    {
      spacesData := loaded.GetOr([]);
    }

    /** `handle_space_detail_request`. */
    method HandleSpaceDetailRequest(input: string) returns (reply: string)
      ensures reply == DetailReply(spacesData, input)
    {
      if spacesData == [] {
        return SpacesMissing;
      }
      var found := FilterLoop(spacesData, NameMatch(Lower(input)));
      if found == [] {
        reply := ShowAllSpacesDetail();
      } else {
        reply := ShowMatches(input, found);
      }
    }

    /** The reply when some records match: the first five, numbered, then how many more. */
    method ShowMatches(input: string, found: seq<YouthSpace>) returns (reply: string)
      ensures reply == DetailMatchesText(input, found)
    {
      var entries := RenderIndexedLoop(Take(found, MaxDetailMatches), DetailEntry);
      reply := DetailHeading(input) + entries;
      if |found| > MaxDetailMatches {
        reply := reply + ("... 외 " + NatToString(|found| - MaxDetailMatches) + MoreSpacesLine);
      } else {
        reply := reply + "";
      }
    }

    /** `show_all_spaces_detail`: group by location, then show at most three regions. */
    method ShowAllSpacesDetail() returns (text: string)
      ensures text == OverviewText(spacesData)
    {
      var regions, order := GroupLoop(spacesData, LocationKey, SpaceItself);
      var body := RenderRegions(spacesData, regions, Take(order, 3));
      text := OverviewHeader + body + OverviewTail(spacesData);
    }

    /** The loop over the first three regions, with its counter and `break` at three. */
    method RenderRegions(spaces: seq<YouthSpace>, regions: map<string, seq<YouthSpace>>, shown: seq<string>)
        returns (body: string)
      requires |shown| <= 3
      requires forall k :: k in shown ==> k in regions && regions[k] == GroupOf(spaces, LocationKey, SpaceItself, k)
      ensures body == Render(shown, RegionBlock(spaces))
    {
      body := "";
      var count := 0;
      var i := 0;
      while i < |shown|
        invariant 0 <= i <= |shown| && count == i
        invariant body == Render(shown[..i], RegionBlock(spaces))
      {
        body := AppendRegion(spaces, regions, shown, i, body);
        count := count + 1;
        i := i + 1;
        if count >= 3 {
          break;
        }
      }
      assert i == |shown|;
      RenderWhole(shown, RegionBlock(spaces));
    }

    /** The loop body: the next region's block after the ones already rendered. */
    method AppendRegion(spaces: seq<YouthSpace>, regions: map<string, seq<YouthSpace>>, shown: seq<string>, i: nat,
                        body: string) returns (body': string)
      requires i < |shown| && shown[i] in regions && regions[shown[i]] == GroupOf(spaces, LocationKey, SpaceItself, shown[i])
      requires body == Render(shown[..i], RegionBlock(spaces))
      ensures body' == Render(shown[..i + 1], RegionBlock(spaces))
    {
      var region := shown[i];
      var block := RenderRegion(region, regions[region]);
      RenderPrefixStep(shown, i, RegionBlock(spaces));
      body' := body + block;
    }

    /** One region of the overview. */
    method RenderRegion(region: string, inRegion: seq<YouthSpace>) returns (block: string)
      ensures block == RegionBlockText(region, inRegion)
    {
      var details := RenderLoop(Take(inRegion, 2), DetailBlock);
      block := "**📍 " + region + "**\n" + details;
      if |inRegion| > 2 {
        block := block + ("... 외 " + NatToString(|inRegion| - 2) + MoreSpacesLine + "\n");
      } else {
        block := block + "\n";
      }
    }

    /** `search_spaces_by_keyword_json`. */
    method SearchSpacesByKeywordJson(keyword: string) returns (reply: string)
      ensures reply == KeywordJsonReply(spacesData, keyword)
    {
      if spacesData == [] {
        return SpacesMissing;
      }
      var words := SearchKeywords(keyword);
      var found := [];
      var i := 0;
      while i < |spacesData|
        invariant 0 <= i <= |spacesData|
        invariant found == Filter(spacesData[..i], KeywordMatch(keyword))
      {
        FilterPrefixStep(spacesData, i, KeywordMatch(keyword));
        var matched := MatchesAnyPair(words, spacesData[i].keywords);
        if matched {
          found := found + [spacesData[i]];
        }
        i := i + 1;
      }
      assert spacesData[..i] == spacesData;
      if found == [] {
        return ButtonKeywordNotFound(keyword);
      }
      var entries := RenderIndexedLoop(found, BriefEntry);
      reply := "**" + keyword + KeywordFoundTail + entries + KeywordFooter;
    }

    /** `handle_space_reservation_search`: score a copy of every record, keep the positive ones. */
    method HandleSpaceReservationSearch(conditions: Conditions) returns (reply: string)
      ensures reply == ReservationReply(spacesData, ToSearch(conditions))
    {
      var c := ToSearch(conditions);
      if c.region == "" && c.capacity == "" && c.purpose == "" {
        return NoConditionMessage;
      }
      var filtered := [];
      var i := 0;
      while i < |spacesData|
        invariant 0 <= i <= |spacesData|
        invariant filtered == ReservationMatches(spacesData[..i], c)
      {
        var space := spacesData[i];
        FilterPrefixStep(spacesData, i, ScoresAbove0(c));
        ScoredCopiesAppend(Filter(spacesData[..i], ScoresAbove0(c)), [space], c);
        var copy := ScoreSpace(space, c);
        if copy.score > 0 {
          filtered := filtered + [copy];
        }
        i := i + 1;
      }
      assert spacesData[..i] == spacesData;
      if filtered == [] {
        return NoResultsMessage(c);
      }
      reply := FormatSearchResults(filtered);
    }

    /** One turn of the scoring loop: the copy with its `match_score` and `match_reasons`. */
    method ScoreSpace(space: YouthSpace, c: SearchConditions) returns (copy: ScoredSpace)
      ensures copy == ScoredCopy(space, c)
    {
      var score := 0;
      var reasons := [];
      if c.region != "" && space.location == Some(c.region) {
        score := score + 1;
        reasons := reasons + ["지역: " + c.region];
      }
      if c.capacity != "" && CapacityMatch(space, c.capacity) {
        score := score + 1;
        reasons := reasons + ["인원: " + c.capacity];
      }
      if c.purpose != "" && PurposeMatch(space, c.purpose) {
        score := score + 1;
        reasons := reasons + ["목적: " + c.purpose];
      }
      copy := ScoredSpace(space, score, reasons);
    }

    /** `format_search_results`: sort by score, highest first, then one card per copy. */
    method FormatSearchResults(found: seq<ScoredSpace>) returns (text: string)
      ensures text == SearchResultsText(found)
    {
      var sorted := ByScore(found);
      var cards := RenderIndexedLoop(sorted, ResultEntry);
      text := "📌 **총 " + NatToString(|found|) + ResultsCountTail + cards + ResultsFooter;
    }

    /** `handle_random_recommendation`; `pick` is the index `random.choice` returns. */
    method HandleRandomRecommendation(pick: nat) returns (reply: string)
      requires spacesData != [] ==> pick < |spacesData|
      ensures reply == RandomReply(spacesData, pick)
    {
      if spacesData == [] {
        return NoSpaceToRecommend;
      }
      var space := spacesData[pick];
      reply := RandomHeader + CardHeading(1, space) + CardBody(space) + RandomFooter;
    }

    /**
     * `generate_bot_response`: the reply of the message's route. The checks
     * on the text alone (steps 0 to 6, `EarlyRoute`) come first; only a text
     * none of them claims reaches the program listing, the space words and
     * the model. The space cache is read only by the crawler's space
     * searches, the program cache only by the region program search and by
     * a message with a program word.
     */
    method GenerateBotResponse(text: string,
                               spaceCache: CacheFile<Space>, spaceFetch: string -> Option<SpacePage>, spaceOutcome: WriteOutcome,
                               programCache: CacheFile<Program>, programFetch: string -> Option<ProgramPage>, programOutcome: WriteOutcome,
                               now: int, pick: nat, modelReply: string)
        returns (reply: string)
      requires spacesData != [] ==> pick < |spacesData|
      modifies spaceCache, programCache
      ensures var programs := ProgramsData(old(programCache.stored), now, programFetch);
              reply == RouteReply(RouteOf(text, programs != []), spacesData,
                                  SpacesData(old(spaceCache.stored), now, spaceFetch), programs, pick, modelReply)
      ensures var programs := ProgramsData(old(programCache.stored), now, programFetch);
              spaceCache.stored ==
                if ReadsSpaces(RouteOf(text, programs != []))
                then SpacesCacheAfterGet(old(spaceCache.stored), now, spaceFetch, spaceOutcome)
                else old(spaceCache.stored)
      ensures programCache.stored ==
                if ReadsPrograms(text)
                then ProgramsCacheAfterGet(old(programCache.stored), now, programFetch, programOutcome)
                else old(programCache.stored)
    {
      var early := EarlyRoute(text);
      RouteOfEarly(text, ProgramsData(programCache.stored, now, programFetch) != []);
      if early.Some? {
        reply := AnswerEarly(early.value, text, spaceCache, spaceFetch, spaceOutcome, programCache, programFetch, programOutcome, now, pick);
        ReplyInputsUnused(early.value, spacesData, SpacesData(old(spaceCache.stored), now, spaceFetch),
                          ProgramsData(old(programCache.stored), now, programFetch), pick, "", [], 0, modelReply);
      } else {
        reply := AnswerLate(text, spaceCache, spaceFetch, spaceOutcome, programCache, programFetch, programOutcome, now, modelReply);
        var programs := ProgramsData(old(programCache.stored), now, programFetch);
        ReplyInputsUnused(LateRoute(text, programs != []), [], SpacesData(old(spaceCache.stored), now, spaceFetch),
                          programs, 0, modelReply, spacesData, pick, modelReply);
      }
    }

    /**
     * Steps 0 to 6: the reply of a route the text alone decides. Only the
     * district searches read a cache.
     */
    method AnswerEarly(route: Route, text: string,
                       spaceCache: CacheFile<Space>, spaceFetch: string -> Option<SpacePage>, spaceOutcome: WriteOutcome,
                       programCache: CacheFile<Program>, programFetch: string -> Option<ProgramPage>, programOutcome: WriteOutcome,
                       now: int, pick: nat)
        returns (reply: string)
      requires IsEarly(route)
      requires route.ConditionSearch? ==> Contains(text, ConditionMarker) && route.conditions == ParseConditions(text)
      requires spacesData != [] ==> pick < |spacesData|
      modifies spaceCache, programCache
      ensures reply == RouteReply(route, spacesData, SpacesData(old(spaceCache.stored), now, spaceFetch),
                                  ProgramsData(old(programCache.stored), now, programFetch), pick, "")
      ensures spaceCache.stored ==
                if route.SpacesInRegion?
                then SpacesCacheAfterGet(old(spaceCache.stored), now, spaceFetch, spaceOutcome)
                else old(spaceCache.stored)
      ensures programCache.stored ==
                if route.ProgramsInRegion?
                then ProgramsCacheAfterGet(old(programCache.stored), now, programFetch, programOutcome)
                else old(programCache.stored)
    {
      match route
      case DetailButton =>
        reply := DetailSearchToken;
      case ConditionSearch(_) =>
        reply := AnswerConditions(text);
      case RandomPick =>
        reply := HandleRandomRecommendation(pick);
      case ProgramsInRegion(region) =>
        reply := SearchProgramsByRegion(programCache, programFetch, now, programOutcome, region);
      case SpacesInRegion(region) =>
        reply := SearchSpacesByRegion(spaceCache, spaceFetch, now, spaceOutcome, region);
      case KeywordButton(keyword) =>
        reply := SearchSpacesByKeywordJson(keyword);
    }

    /** Step 1: parse the conditions after the marker and run the condition search. */
    method AnswerConditions(text: string) returns (reply: string)
      requires Contains(text, ConditionMarker)
      ensures reply == ReservationReply(spacesData, ToSearch(ParseConditions(text)))
    {
      var pieces := Split(SearchPart(text), '|');
      var conditions := ParseConditionPieces(pieces);
      reply := HandleSpaceReservationSearch(conditions);
    }

    /**
     * Steps 7 to 9 of `generate_bot_response`, for a text no earlier check
     * claimed: the program listing, the space-word search, the model.
     */
    method AnswerLate(text: string,
                      spaceCache: CacheFile<Space>, spaceFetch: string -> Option<SpacePage>, spaceOutcome: WriteOutcome,
                      programCache: CacheFile<Program>, programFetch: string -> Option<ProgramPage>, programOutcome: WriteOutcome,
                      now: int, modelReply: string)
        returns (reply: string)
      modifies spaceCache, programCache
      ensures var programs := ProgramsData(old(programCache.stored), now, programFetch);
              reply == RouteReply(LateRoute(text, programs != []), [],
                                  SpacesData(old(spaceCache.stored), now, spaceFetch), programs, 0, modelReply)
      ensures var programs := ProgramsData(old(programCache.stored), now, programFetch);
              spaceCache.stored ==
                if LateRoute(text, programs != []).SpaceWordSearch?
                then SpacesCacheAfterGet(old(spaceCache.stored), now, spaceFetch, spaceOutcome)
                else old(spaceCache.stored)
      ensures programCache.stored ==
                if ContainsAny(text, ProgramWords)
                then ProgramsCacheAfterGet(old(programCache.stored), now, programFetch, programOutcome)
                else old(programCache.stored)
    {
      LateReplies(text, SpacesData(spaceCache.stored, now, spaceFetch), ProgramsData(programCache.stored, now, programFetch), modelReply);
      if ContainsAny(text, ProgramWords) {
        var programs := GetYouthProgramsData(programCache, programFetch, now, programOutcome);
        if programs != [] {
          reply := ListPrograms(programs);
          return;
        }
      }
      if ContainsAny(text, SpaceWords) {
        reply := SearchSpacesByKeyword(spaceCache, spaceFetch, now, spaceOutcome, text);
        return;
      }
      reply := modelReply;
    }

    /** The listing of step 7: at most five programs, then how many more. */
    method ListPrograms(programs: seq<Program>) returns (reply: string)
      ensures reply == ProgramListReply(programs)
    {
      var cards := RenderLoop(Take(programs, MaxListedPrograms), ProgramCard);
      reply := ProgramListHeading + NatToString(|programs|) + "개)\n\n" + cards;
      if |programs| > MaxListedPrograms {
        reply := reply + ("... 외 " + NatToString(|programs| - MaxListedPrograms) + MoreListedLine);
      } else {
        reply := reply + "";
      }
      reply := reply + ProgramListFooter;
    }
  }
}

=== FILE: chat_matching.dfy ===
/**
 * The pure part of the chat handler: the records of the youth-space JSON
 * file, the capacity and purpose tests of the condition search, the
 * keyword search over the JSON records, and the texts the handler builds
 * from them.
 */
module ChatMatching {
  import opened Wrappers
  import opened Text
  import opened Seqs
  import opened Sorting
  import opened Grouping

  /** The `link` entry of a record: a list of URLs, one URL, or missing (or of another type). */
  datatype LinkField = NoLink | LinkList(urls: seq<string>) | LinkString(url: string)

  /**
   * One record of the youth-space JSON file. `None` stands for a missing key;
   * the capacities are JSON numbers.
   */
  datatype YouthSpace = YouthSpace(
    parentFacility: Option<string>,
    spaceName: Option<string>,
    location: Option<string>,
    introduction: Option<string>,
    eligibility: Option<string>,
    capacityMin: Option<int>,
    capacityMax: Option<int>,
    features: Option<string>,
    link: LinkField,
    keywords: seq<string>)

  const NoInfo := "정보없음"

  const SpacesMissing := "❌ 청년 공간 데이터를 불러올 수 없습니다."

  /** A field as the replies show it: 정보없음 when the record lacks it. */
  function Field(o: Option<string>): string
  {
    o.GetOr(NoInfo)
  }

  // ---------------------------------------------------------------------------
  // Capacity

  /** Python truthiness of a capacity: present and not zero. */
  predicate Truthy(n: Option<int>)
  {
    n.Some? && n.value != 0
  }

  /** `format_capacity_info`: the bounds the record has, or no limit. */
  function CapacityInfo(sp: YouthSpace): (r: string)
    ensures r == "인원 제한 없음" <==> !Truthy(sp.capacityMin) && !Truthy(sp.capacityMax)
  {
    if Truthy(sp.capacityMin) && Truthy(sp.capacityMax) then
      var r := "최소 " + IntToString(sp.capacityMin.value) + "명 ~ 최대 " + IntToString(sp.capacityMax.value) + "명";
      assert r[0] == '최';
      r
    else if Truthy(sp.capacityMax) then
      var r := "최대 " + IntToString(sp.capacityMax.value) + "명";
      assert r[0] == '최';
      r
    else if Truthy(sp.capacityMin) then
      var r := "최소 " + IntToString(sp.capacityMin.value) + "명";
      assert r[0] == '최';
      r
    else "인원 제한 없음"
  }

  /** Every truthy bound is printed. */
  lemma CapacityInfoShowsBounds(sp: YouthSpace)
    ensures Truthy(sp.capacityMin) ==> Contains(CapacityInfo(sp), IntToString(sp.capacityMin.value))
    ensures Truthy(sp.capacityMax) ==> Contains(CapacityInfo(sp), IntToString(sp.capacityMax.value))
  {
    var lo, hi := sp.capacityMin, sp.capacityMax;
    if Truthy(lo) && Truthy(hi) {
      var a, b := IntToString(lo.value), IntToString(hi.value);
      ContainsMiddle("최소 ", a, "명 ~ 최대 " + b + "명");
      assert CapacityInfo(sp) == "최소 " + a + ("명 ~ 최대 " + b + "명");
      ContainsMiddle("최소 " + a + "명 ~ 최대 ", b, "명");
      assert CapacityInfo(sp) == "최소 " + a + "명 ~ 최대 " + b + "명";
    } else if Truthy(hi) {
      ContainsMiddle("최대 ", IntToString(hi.value), "명");
    } else if Truthy(lo) {
      ContainsMiddle("최소 ", IntToString(lo.value), "명");
    }
  }

  /** `check_capacity_match(space, option)`. */
  predicate CapacityMatch(sp: YouthSpace, option: string)
  {
    var lo, hi := sp.capacityMin, sp.capacityMax;
    if !Truthy(lo) && !Truthy(hi) then true
    else if option == "1-2명" then lo.None? || lo.value <= 2
    else if option == "3-6명" then (lo.None? || lo.value <= 6) && (hi.None? || hi.value >= 3)
    else if option == "7명이상" then hi.None? || hi.value >= 7
    else option == "상관없음"
  }

  /** A record the listing shows as unlimited passes every capacity option, even an unknown one. */
  lemma UnlimitedMatchesEverything(sp: YouthSpace, option: string)
    requires CapacityInfo(sp) == "인원 제한 없음"
    ensures CapacityMatch(sp, option)
  {
  }

  predicate Overlaps(lo: int, hi: int, a: int, b: int)
  {
    lo <= b && a <= hi
  }

  /**
   * For a record with both bounds, `1 <= min <= max`, the options mean "the
   * range [min, max] meets the option's range"; '상관없음' always matches and
   * any other option never does.
   */
  lemma CapacityOptionsAreRanges(sp: YouthSpace, option: string)
    requires sp.capacityMin.Some? && sp.capacityMax.Some?
    requires 1 <= sp.capacityMin.value <= sp.capacityMax.value
    ensures option == "1-2명" ==> (CapacityMatch(sp, option) <==> Overlaps(sp.capacityMin.value, sp.capacityMax.value, 1, 2))
    ensures option == "3-6명" ==> (CapacityMatch(sp, option) <==> Overlaps(sp.capacityMin.value, sp.capacityMax.value, 3, 6))
    ensures option == "7명이상" ==> (CapacityMatch(sp, option) <==> sp.capacityMax.value >= 7)
    ensures option == "상관없음" ==> CapacityMatch(sp, option)
    ensures option !in ["1-2명", "3-6명", "7명이상", "상관없음"] ==> !CapacityMatch(sp, option)
  {
  }

  // ---------------------------------------------------------------------------
  // Keyword matching

  /** Case-insensitive containment in either direction. */
  predicate MutualSubstring(a: string, b: string)
  {
    Contains(Lower(b), Lower(a)) || Contains(Lower(a), Lower(b))
  }

  /** Some search word and some record keyword contain one another. */
  predicate AnyPairMatches(words: seq<string>, keywords: seq<string>)
  {
    exists i, j :: 0 <= i < |words| && 0 <= j < |keywords| && MutualSubstring(words[i], keywords[j])
  }

  /** The nested loops with `found_match` and two `break`s. */
  method MatchesAnyPair(words: seq<string>, keywords: seq<string>) returns (found: bool)
    ensures found == AnyPairMatches(words, keywords)
  {
    found := false;
    var i := 0;
    while i < |words|
      invariant 0 <= i <= |words|
      invariant !found
      invariant forall a, b :: 0 <= a < i && 0 <= b < |keywords| ==> !MutualSubstring(words[a], keywords[b])
    {
      var j := 0;
      while j < |keywords|
        invariant 0 <= j <= |keywords|
        invariant forall b :: 0 <= b < j ==> !MutualSubstring(words[i], keywords[b])
      {
        if MutualSubstring(words[i], keywords[j]) {
          found := true;
          break;
        }
        j := j + 1;
      }
      if found {
        break;
      }
      i := i + 1;
    }
  }

  /** The purpose buttons and the keywords each one stands for. */
  const PurposeMapping: map<string, seq<string>> := map[
    "스터디/회의" := ["📝스터디/회의", "📝 스터디/회의", "스터디", "회의"],
    "교육/강연" := ["🎤교육/강연", "🏫교육/강연", "🏫 교육/강연", "교육", "강연"],
    "커뮤니티" := ["👥커뮤니티", "👥모임/커뮤니티", "👥 모임/커뮤니티", "커뮤니티", "모임"],
    "진로/창업" := ["🚀진로/창업", "🚀 진로/창업", "진로", "창업"],
    "문화/창작" := ["🎨문화/창작", "🎨 문화/창작", "문화", "창작"],
    "작업/창작실" := ["🛠작업/창작실", "💻작업/창작실", "💻 작업/창작실", "작업", "창작실"],
    "휴식/놀이" := ["🧘휴식/놀이", "🌿휴식/놀이", "🌿 휴식/놀이", "휴식", "놀이"],
    "행사/이벤트" := ["🎪행사/이벤트", "🎬행사/이벤트", "🎬 행사/이벤트", "행사", "이벤트"]
  ]

  /** The words a purpose stands for; an unmapped purpose stands for itself. */
  function PurposeSynonyms(purpose: string): seq<string>
  {
    if purpose in PurposeMapping then PurposeMapping[purpose] else [purpose]
  }

  /** `check_purpose_match(space, purpose)`. */
  predicate PurposeMatch(sp: YouthSpace, purpose: string)
  {
    sp.keywords != [] && AnyPairMatches(PurposeSynonyms(purpose), sp.keywords)
  }

  /** A record that lists one of the purpose's words as a keyword matches it. */
  lemma ListedSynonymMatches(sp: YouthSpace, purpose: string, j: nat)
    requires j < |sp.keywords| && sp.keywords[j] in PurposeSynonyms(purpose)
    ensures PurposeMatch(sp, purpose)
  {
    var words := PurposeSynonyms(purpose);
    var i :| 0 <= i < |words| && words[i] == sp.keywords[j];
    ContainsSelf(Lower(words[i]));
    assert MutualSubstring(words[i], sp.keywords[j]);
  }

  /** An unmapped purpose is searched as itself, and matching ignores ASCII case. */
  lemma UnmappedPurposeMatchesItself(sp: YouthSpace, purpose: string, j: nat)
    requires purpose !in PurposeMapping
    requires j < |sp.keywords| && Lower(sp.keywords[j]) == Lower(purpose)
    ensures PurposeMatch(sp, purpose)
  {
    ContainsSelf(Lower(purpose));
    assert MutualSubstring(PurposeSynonyms(purpose)[0], sp.keywords[j]);
  }

  // ---------------------------------------------------------------------------
  // Condition search

  /** The three conditions after `.strip()`; an empty string is a condition not given. */
  datatype SearchConditions = SearchConditions(region: string, capacity: string, purpose: string)

  predicate RegionHolds(sp: YouthSpace, c: SearchConditions)
  {
    c.region != "" && sp.location == Some(c.region)
  }

  predicate CapacityHolds(sp: YouthSpace, c: SearchConditions)
  {
    c.capacity != "" && CapacityMatch(sp, c.capacity)
  }

  predicate PurposeHolds(sp: YouthSpace, c: SearchConditions)
  {
    c.purpose != "" && PurposeMatch(sp, c.purpose)
  }

  function Indicator(b: bool): nat
  {
    if b then 1 else 0
  }

  /** `match_score`. */
  function MatchScore(sp: YouthSpace, c: SearchConditions): nat
  {
    Indicator(RegionHolds(sp, c)) + Indicator(CapacityHolds(sp, c)) + Indicator(PurposeHolds(sp, c))
  }

  /** How many of the three conditions were given. */
  function GivenCount(c: SearchConditions): nat
  {
    Indicator(c.region != "") + Indicator(c.capacity != "") + Indicator(c.purpose != "")
  }

  /**
   * The score counts the satisfied conditions among those given: it never
   * exceeds the number given, and reaches it exactly when every given
   * condition holds.
   */
  lemma ScoreCountsSatisfiedConditions(sp: YouthSpace, c: SearchConditions)
    ensures MatchScore(sp, c) <= GivenCount(c)
    ensures MatchScore(sp, c) == GivenCount(c) <==>
      (c.region != "" ==> sp.location == Some(c.region)) &&
      (c.capacity != "" ==> CapacityMatch(sp, c.capacity)) &&
      (c.purpose != "" ==> PurposeMatch(sp, c.purpose))
  {
  }

  /** "지역: x", "인원: y", "목적: z" for the conditions given. */
  function GivenParts(c: SearchConditions): seq<string>
  {
    (if c.region != "" then ["지역: " + c.region] else []) +
    (if c.capacity != "" then ["인원: " + c.capacity] else []) +
    (if c.purpose != "" then ["목적: " + c.purpose] else [])
  }

  /** `match_reasons`: the same texts, for the conditions that hold. */
  function MatchReasons(sp: YouthSpace, c: SearchConditions): (r: seq<string>)
    ensures |r| == MatchScore(sp, c)
    ensures forall k :: 0 <= k < |r| ==> r[k] in GivenParts(c)
  {
    (if RegionHolds(sp, c) then ["지역: " + c.region] else []) +
    (if CapacityHolds(sp, c) then ["인원: " + c.capacity] else []) +
    (if PurposeHolds(sp, c) then ["목적: " + c.purpose] else [])
  }

  /** The copy of a record with `match_score` and `match_reasons` added. */
  datatype ScoredSpace = ScoredSpace(space: YouthSpace, score: int, reasons: seq<string>)

  function ScoredCopy(sp: YouthSpace, c: SearchConditions): ScoredSpace
  {
    ScoredSpace(sp, MatchScore(sp, c), MatchReasons(sp, c))
  }

  function ScoresAbove0(c: SearchConditions): YouthSpace -> bool
  {
    (sp: YouthSpace) => MatchScore(sp, c) > 0
  }

  function ScoredCopies(spaces: seq<YouthSpace>, c: SearchConditions): seq<ScoredSpace>
  {
    seq(|spaces|, k requires 0 <= k < |spaces| => ScoredCopy(spaces[k], c))
  }

  /** `filtered_spaces`: a scored copy of every record with a positive score, in file order. */
  function ReservationMatches(spaces: seq<YouthSpace>, c: SearchConditions): seq<ScoredSpace>
  {
    ScoredCopies(Filter(spaces, ScoresAbove0(c)), c)
  }

  /** A record is listed, as its scored copy, exactly when it scores above zero. */
  lemma ReservationMatchesIff(spaces: seq<YouthSpace>, c: SearchConditions, sp: YouthSpace)
    ensures ScoredCopy(sp, c) in ReservationMatches(spaces, c) <==> sp in spaces && MatchScore(sp, c) > 0
  {
    var m := Filter(spaces, ScoresAbove0(c));
    FilterIff(spaces, ScoresAbove0(c), sp);
    if ScoredCopy(sp, c) in ReservationMatches(spaces, c) {
      var k :| 0 <= k < |m| && ScoredCopies(m, c)[k] == ScoredCopy(sp, c);
      assert m[k] == sp;
    }
    if sp in m {
      var k :| 0 <= k < |m| && m[k] == sp;
      assert ScoredCopies(m, c)[k] == ScoredCopy(sp, c);
    }
  }

  /** Every listed copy carries an unchanged record of the file and a positive score. */
  lemma ReservationMatchesScored(spaces: seq<YouthSpace>, c: SearchConditions)
    ensures forall k :: 0 <= k < |ReservationMatches(spaces, c)| ==>
      var s := ReservationMatches(spaces, c)[k];
      s.space in spaces && s.score > 0 && s == ScoredCopy(s.space, c)
  {
    FilterMembers(spaces, ScoresAbove0(c));
  }

  const NoConditionMessage := "❌ 지역, 인원, 이용 목적 중 하나는 반드시 선택해주세요."

  const ConditionsUnmet := "** 조건에 맞는 청년공간을 찾을 수 없습니다.\n\n"

  const NoResultsAdvice :=
    "💡 **다른 조건으로 검색해보세요!**\n" +
    "• 지역 조건을 넓혀보거나\n" +
    "• 인원 조건을 '상관없음'으로 변경하거나\n" +
    "• 다른 이용 목적을 선택해보세요\n\n" +
    "[🔄 새로 검색하기] 버튼을 눌러 다시 시도하세요!"

  /** `format_no_results_message`. */
  function NoResultsMessage(c: SearchConditions): string
  {
    "😥 **" + Join(", ", GivenParts(c)) + ConditionsUnmet + NoResultsAdvice
  }

  /** The URL the result cards print: the first of a list, a string as is, else nothing. */
  function CardLinkUrl(link: LinkField): string
  {
    match link
    case LinkList(urls) => if |urls| > 0 then urls[0] else ""
    case LinkString(url) => url
    case NoLink => ""
  }

  // The labels of a result card's lines.
  const CardLocation := "• 📍 **위치 :** "
  const CardCapacity := "• 👥 **인원 :** "
  const CardEligibility := "• **지원 대상 :** "
  const CardFeatures := "• 🧰 **특징 :** "
  const CardLink := "• 🔗 **링크 :** "

  /** The lines below a result card's heading, shared with the random recommendation. */
  function CardBody(sp: YouthSpace): string
  {
    Field(sp.introduction) + "\n" +
    CardLocation + Field(sp.location) + "\n" +
    CardCapacity + CapacityInfo(sp) + "\n" +
    CardEligibility + Field(sp.eligibility) + "\n" +
    CardFeatures + Field(sp.features) + "\n" +
    OptionalLine(CardLink, CardLinkUrl(sp.link))
  }

  /** "**i️⃣ facility – name**" with a keycap digit. */
  function CardHeading(i: nat, sp: YouthSpace): string
  {
    "**" + NatToString(i) + "\U{FE0F}\U{20E3} " + Field(sp.parentFacility) + " – " + Field(sp.spaceName) + "**\n"
  }

  function ResultEntry(i: nat, s: ScoredSpace): string
  {
    CardHeading(i, s.space) + CardBody(s.space) + "\n---\n\n"
  }

  function ScoreKey(s: ScoredSpace): Key
  {
    IntKey(s.score)
  }

  /** The in-place sort by `match_score`, highest first (Python's sort is stable). */
  function ByScore(found: seq<ScoredSpace>): seq<ScoredSpace>
  {
    SortBy(found, ScoreKey, true)
  }

  /** Highest score first, the same copies, and equal scores in their original order. */
  lemma ByScoreOrder(found: seq<ScoredSpace>, n: int)
    ensures Sorted(ByScore(found), ScoreKey, true)
    ensures multiset(ByScore(found)) == multiset(found)
    ensures WithKey(ByScore(found), ScoreKey, IntKey(n)) == WithKey(found, ScoreKey, IntKey(n))
  {
    SortBySorted(found, ScoreKey, true);
    SortByPermutation(found, ScoreKey, true);
    SortByStable(found, ScoreKey, true, IntKey(n));
  }

  const ResultsCountTail := "개의 공간**을 찾았어요!\n\n" + "---\n\n"

  const ResultsFooter := "다른 공간을 보고싶다면? **[✨ 랜덤 추천]**(버튼)"

  /** `format_search_results`. */
  function SearchResultsText(found: seq<ScoredSpace>): string
  {
    "📌 **총 " + NatToString(|found|) + ResultsCountTail + RenderIndexed(ByScore(found), ResultEntry) + ResultsFooter
  }

  /** `handle_space_reservation_search`. */
  function ReservationReply(spaces: seq<YouthSpace>, c: SearchConditions): string
  {
    if c.region == "" && c.capacity == "" && c.purpose == "" then NoConditionMessage
    else
      var found := ReservationMatches(spaces, c);
      if found == [] then NoResultsMessage(c) else SearchResultsText(found)
  }

  /** With no condition given nothing is searched; with some given, an empty result names them. */
  lemma ReservationReplyCases(spaces: seq<YouthSpace>, c: SearchConditions)
    ensures GivenCount(c) == 0 ==> ReservationReply(spaces, c) == NoConditionMessage
    ensures GivenCount(c) > 0 && (forall i :: 0 <= i < |spaces| ==> MatchScore(spaces[i], c) == 0) ==>
      ReservationReply(spaces, c) == NoResultsMessage(c)
  {
    if forall i :: 0 <= i < |spaces| ==> MatchScore(spaces[i], c) == 0 {
      FilterNone(spaces, ScoresAbove0(c));
    }
  }

  // ---------------------------------------------------------------------------
  // Random recommendation

  const NoSpaceToRecommend := "추천할 청년공간 정보를 불러올 수 없습니다."

  const RandomHeader := "🎲 **랜덤으로 추천해드릴게요!**\n\n"

  const RandomFooter := "\n💡 다른 공간이 궁금하시면 다시 랜덤 추천을 눌러보세요!"

  /** `handle_random_recommendation`, with `random.choice` reduced to the index it picks. */
  function RandomReply(spaces: seq<YouthSpace>, pick: nat): string
    requires spaces != [] ==> pick < |spaces|
  {
    if spaces == [] then NoSpaceToRecommend
    else
      RandomHeader + CardHeading(1, spaces[pick]) + CardBody(spaces[pick]) + RandomFooter
  }

  /** The recommendation names the picked record. */
  lemma RandomReplyNamesPick(spaces: seq<YouthSpace>, pick: nat)
    requires pick < |spaces|
    ensures Contains(RandomReply(spaces, pick), Field(spaces[pick].spaceName))
  {
    var sp := spaces[pick];
    var name := Field(sp.spaceName);
    CardHeadingNames(1, sp);
    ContainsAppend(RandomHeader, CardHeading(1, sp), name);
    ContainsAppend(RandomHeader + CardHeading(1, sp), CardBody(sp), name);
    ContainsAppend(RandomHeader + CardHeading(1, sp) + CardBody(sp), RandomFooter, name);
  }

  /** A card's heading names its space. */
  lemma CardHeadingNames(i: nat, sp: YouthSpace)
    ensures Contains(CardHeading(i, sp), Field(sp.spaceName))
  {
    var head := "**" + NatToString(i) + "\U{FE0F}\U{20E3} " + Field(sp.parentFacility) + " – ";
    assert CardHeading(i, sp) == head + Field(sp.spaceName) + "**\n";
    ContainsMiddle(head, Field(sp.spaceName), "**\n");
  }

  // ---------------------------------------------------------------------------
  // Keyword search over the JSON records

  /** The keyword buttons. */
  const KeywordButtons: seq<string> := [
    "📝스터디/회의", "🎤교육/강연", "👥커뮤니티", "🚀진로/창업",
    "🎨문화/창작", "🛠작업/창작실", "🧘휴식/놀이", "🎪행사/이벤트"
  ]

  const KeywordMapping: map<string, seq<string>> := map[
    "📝스터디/회의" := ["📝스터디/회의", "📝 스터디/회의", "스터디/회의", "스터디", "회의"],
    "🎤교육/강연" := ["🎤교육/강연", "🏫교육/강연", "🏫 교육/강연", "교육/강연", "교육", "강연"],
    "👥커뮤니티" := ["👥커뮤니티", "👥모임/커뮤니티", "👥 모임/커뮤니티", "모임/커뮤니티", "커뮤니티", "모임"],
    "🚀진로/창업" := ["🚀진로/창업", "🚀 진로/창업", "진로/창업", "진로", "창업"],
    "🎨문화/창작" := ["🎨문화/창작", "🎨 문화/창작", "문화/창작", "문화", "창작"],
    "🛠작업/창작실" := ["🛠작업/창작실", "💻작업/창작실", "💻 작업/창작실", "작업/창작실", "작업", "창작실"],
    "🧘휴식/놀이" := ["🧘휴식/놀이", "🌿휴식/놀이", "🌿 휴식/놀이", "휴식/놀이", "휴식", "놀이"],
    "🎪행사/이벤트" := ["🎪행사/이벤트", "🎬행사/이벤트", "🎬 행사/이벤트", "행사/이벤트", "행사", "이벤트"]
  ]

  /** The words searched for a keyword; an unmapped keyword stands for itself. */
  function SearchKeywords(keyword: string): seq<string>
  {
    if keyword in KeywordMapping then KeywordMapping[keyword] else [keyword]
  }

  function KeywordMatch(keyword: string): YouthSpace -> bool
  {
    (sp: YouthSpace) => AnyPairMatches(SearchKeywords(keyword), sp.keywords)
  }

  /** Every word searched for a keyword is the keyword itself or one of its mapped words, the keyword first. */
  lemma SearchKeywordsStartWithKeyword(keyword: string)
    ensures |SearchKeywords(keyword)| > 0 && SearchKeywords(keyword)[0] == keyword
  {
    if keyword in KeywordMapping {
      assert keyword in KeywordMapping.Keys;
      assert keyword in {"📝스터디/회의", "🎤교육/강연", "👥커뮤니티", "🚀진로/창업", "🎨문화/창작", "🛠작업/창작실", "🧘휴식/놀이", "🎪행사/이벤트"};
    }
  }

  /** A record carrying the keyword itself is always found, whatever the mapping adds. */
  lemma RecordWithKeywordIsFound(sp: YouthSpace, keyword: string, j: nat)
    requires j < |sp.keywords| && sp.keywords[j] == keyword
    ensures KeywordMatch(keyword)(sp)
  {
    SearchKeywordsStartWithKeyword(keyword);
    ContainsSelf(Lower(keyword));
    assert MutualSubstring(SearchKeywords(keyword)[0], sp.keywords[j]);
  }

  const ButtonKeywordHelp :=
    "** 관련 청년공간을 찾을 수 없습니다.\n\n다른 키워드로 검색해보세요!\n\n💡 **사용 가능한 키워드:**\n" +
    "- 📝스터디/회의\n- 🎤교육/강연\n- 👥커뮤니티\n- 🚀진로/창업\n- 🎨문화/창작\n- 🛠작업/창작실\n- 🧘휴식/놀이\n- 🎪행사/이벤트"

  function ButtonKeywordNotFound(keyword: string): string
  {
    "**" + keyword + ButtonKeywordHelp
  }

  /** "**i.** facility - name [location]". */
  function BriefEntry(i: nat, sp: YouthSpace): string
  {
    "**" + NatToString(i) + ".** " + Field(sp.parentFacility) + " - " + Field(sp.spaceName) + " [" + Field(sp.location) + "]\n"
  }

  const KeywordFoundTail := "**로 찾은 공간입니다!\n\n"

  const KeywordFooter := "\n📌 **공간 상세 내용은**\n" + "👉 \"청년 공간 상세\" 버튼을 눌러 확인하거나,\n" + "👉 공간명을 입력해서 직접 확인해보세요!"

  /** `search_spaces_by_keyword_json`: every matching record, numbered from 1. */
  function KeywordJsonReply(spaces: seq<YouthSpace>, keyword: string): string
  {
    if spaces == [] then SpacesMissing
    else
      var found := Filter(spaces, KeywordMatch(keyword));
      if found == [] then ButtonKeywordNotFound(keyword)
      else "**" + keyword + KeywordFoundTail + RenderIndexed(found, BriefEntry) + KeywordFooter
  }

  /** The records listed for a keyword are exactly those with a matching pair of keywords, in file order. */
  lemma KeywordJsonSelects(spaces: seq<YouthSpace>, keyword: string, sp: YouthSpace)
    ensures sp in Filter(spaces, KeywordMatch(keyword)) <==>
      sp in spaces && AnyPairMatches(SearchKeywords(keyword), sp.keywords)
  {
    FilterIff(spaces, KeywordMatch(keyword), sp);
  }

  // ---------------------------------------------------------------------------
  // Detail view

  /** The link `format_space_detail` prints: as for the cards, but '정보없음' when there is none. */
  function DetailLinkUrl(link: LinkField): string
  {
    match link
    case LinkList(urls) => if |urls| > 0 then urls[0] else NoInfo
    case LinkString(url) => url
    case NoLink => NoInfo
  }

  // The labels of the detail view's lines.
  const DetailIntro := "🎯 **한 줄 소개:** "
  const DetailLocation := "• 📍 **위치:** "
  const DetailCapacity := "• 👥 **인원:** "
  const DetailEligibility := "• **지원 대상:** "
  const DetailFeatures := "• 🧰 **특징:** "
  const DetailLink := "• 🔗 **링크:** "

  /** The detail view without its link line. */
  function DetailFields(sp: YouthSpace): string
  {
    "🟩 **" + Field(sp.parentFacility) + " - " + Field(sp.spaceName) + "** - " + Field(sp.location) + "\n" +
    DetailIntro + Field(sp.introduction) + "\n" +
    DetailLocation + Field(sp.location) + "\n" +
    DetailCapacity + CapacityInfo(sp) + "\n" +
    DetailEligibility + Field(sp.eligibility) + "\n" +
    DetailFeatures + Field(sp.features) + "\n"
  }

  /** `format_space_detail`: the link line is left out only when the link is the placeholder. */
  function FormatSpaceDetail(sp: YouthSpace): string
  {
    var url := DetailLinkUrl(sp.link);
    DetailFields(sp) + (if url != NoInfo then DetailLink + url + "\n" else "")
  }

  /**
   * The two link renderings differ on an empty URL string: the detail view
   * prints an empty link line, the result cards print none.
   */
  lemma EmptyLinkShownOnlyInDetail(sp: YouthSpace)
    requires sp.link == LinkString("")
    ensures Contains(FormatSpaceDetail(sp), DetailLink + "\n")
    ensures CardLinkUrl(sp.link) == "" && OptionalLine(CardLink, CardLinkUrl(sp.link)) == ""
  {
    assert "" != NoInfo;
    assert FormatSpaceDetail(sp) == DetailFields(sp) + DetailLink + "" + "\n";
    ContainsMiddle(DetailFields(sp), DetailLink + "\n", "");
    assert DetailFields(sp) + (DetailLink + "\n") + "" == FormatSpaceDetail(sp);
  }

  /** The name or the facility and the lower-cased input are substrings of one another. */
  function NameMatch(query: string): YouthSpace -> bool
  {
    (sp: YouthSpace) =>
      var name := Lower(sp.spaceName.GetOr(""));
      var facility := Lower(sp.parentFacility.GetOr(""));
      Contains(query, name) || Contains(name, query) || Contains(query, facility) || Contains(facility, query)
  }

  /** A record without a name or without a facility (missing or empty) matches every input. */
  lemma UnnamedRecordMatchesAnything(sp: YouthSpace, input: string)
    requires sp.spaceName.GetOr("") == "" || sp.parentFacility.GetOr("") == ""
    ensures NameMatch(Lower(input))(sp)
  {
    ContainsEmpty(Lower(input));
    assert Lower("") == "";
  }

  function DetailEntry(i: nat, sp: YouthSpace): string
  {
    "**" + NatToString(i) + ".** " + FormatSpaceDetail(sp) + "\n"
  }

  const MaxDetailMatches := 5

  const DetailResultsTail := "' 검색 결과**\n\n"

  const MoreSpacesLine := "개 공간 더 있음\n"

  /** The heading of the reply for matching records: the query, quoted. */
  function DetailHeading(input: string): string
  {
    "**🔍 '" + input + DetailResultsTail
  }

  /** The count of the matching records beyond the five shown. */
  function MoreMatchesLine(n: nat): string
  {
    if n > MaxDetailMatches then "... 외 " + NatToString(n - MaxDetailMatches) + MoreSpacesLine else ""
  }

  /** The reply for a non-empty list of matching records: at most five, then how many more there are. */
  function DetailMatchesText(input: string, found: seq<YouthSpace>): string
  {
    DetailHeading(input) + RenderIndexed(Take(found, MaxDetailMatches), DetailEntry) + MoreMatchesLine(|found|)
  }

  /**
   * The reply for matching records opens with the query's heading and shows
   * each of the first five under its number; it shows them all when there
   * are at most five, and otherwise ends with how many more there are.
   */
  lemma DetailMatchesShape(input: string, found: seq<YouthSpace>)
    ensures StartsWith(DetailMatchesText(input, found), DetailHeading(input))
    ensures forall k :: 0 <= k < |found| && k < MaxDetailMatches ==>
              Contains(DetailMatchesText(input, found), DetailEntry(k + 1, found[k]))
    ensures |found| <= MaxDetailMatches ==>
              DetailMatchesText(input, found) == DetailHeading(input) + RenderIndexed(found, DetailEntry)
    ensures |found| > MaxDetailMatches ==>
              EndsWith(DetailMatchesText(input, found), "... 외 " + NatToString(|found| - MaxDetailMatches) + MoreSpacesLine)
  {
    NumberedListingShape(DetailHeading(input), found, DetailEntry, MaxDetailMatches, MoreMatchesLine(|found|),
                         DetailMatchesText(input, found));
    if |found| <= MaxDetailMatches {
      assert MoreMatchesLine(|found|) == "";
      assert DetailHeading(input) + RenderIndexed(found, DetailEntry) + "" == DetailHeading(input) + RenderIndexed(found, DetailEntry);
    }
  }

  function LocationKey(sp: YouthSpace): string
  {
    sp.location.GetOr("기타")
  }

  function SpaceItself(sp: YouthSpace): YouthSpace
  {
    sp
  }

  function DetailBlock(sp: YouthSpace): string
  {
    FormatSpaceDetail(sp) + "\n"
  }

  /** One region of the overview: its heading, at most two records, then how many more it has. */
  function RegionBlockText(region: string, inRegion: seq<YouthSpace>): string
  {
    "**📍 " + region + "**\n" + Render(Take(inRegion, 2), DetailBlock) +
    (if |inRegion| > 2 then "... 외 " + NatToString(|inRegion| - 2) + MoreSpacesLine + "\n" else "\n")
  }

  function RegionBlock(spaces: seq<YouthSpace>): string -> string
  {
    (region: string) => RegionBlockText(region, GroupOf(spaces, LocationKey, SpaceItself, region))
  }

  const OverviewHeader := "**🏢 부산 청년 공간 상세 정보**\n\n" + "아래 공간들 중 원하는 공간명을 입력하시면 더 자세한 정보를 확인할 수 있습니다!\n\n"

  const OverviewFooter :=
    "**특정 공간명을 입력**하시면 해당 공간의 상세 정보를 확인할 수 있어요!\n\n" +
    "🔍 **검색 예시:**\n" +
    "• \"커뮤니티룸\" - 커뮤니티룸 관련 공간들\n" +
    "• \"부산청년센터\" - 부산청년센터 관련 공간들\n" +
    "• \"회의실\" - 회의실이 있는 공간들"

  const MoreRegionsLine := "개 지역 더 있음\n\n"

  const SpacesTotalTail := "개**의 청년 공간이 있습니다.\n"

  /** The regions the overview shows: the first three in order of first appearance. */
  function ShownRegions(spaces: seq<YouthSpace>): seq<string>
  {
    Take(KeyOrder(spaces, LocationKey), 3)
  }

  /** The text after the region blocks. */
  function OverviewTail(spaces: seq<YouthSpace>): string
  {
    var regions := |KeyOrder(spaces, LocationKey)|;
    (if regions > 3 then "... 외 " + NatToString(regions - 3) + MoreRegionsLine else "") +
    "💡 총 **" + NatToString(|spaces|) + SpacesTotalTail + OverviewFooter
  }

  /** `show_all_spaces_detail`. */
  function OverviewText(spaces: seq<YouthSpace>): string
  {
    OverviewHeader + Render(ShownRegions(spaces), RegionBlock(spaces)) + OverviewTail(spaces)
  }

  /**
   * The overview shows distinct regions, none of them empty; with at most
   * three regions every record's region is among them.
   */
  lemma ShownRegionsCover(spaces: seq<YouthSpace>)
    ensures |ShownRegions(spaces)| <= 3
    ensures forall i, j :: 0 <= i < j < |ShownRegions(spaces)| ==> ShownRegions(spaces)[i] != ShownRegions(spaces)[j]
    ensures forall r :: r in ShownRegions(spaces) ==> GroupOf(spaces, LocationKey, SpaceItself, r) != []
    ensures |KeyOrder(spaces, LocationKey)| <= 3 ==>
      forall i :: 0 <= i < |spaces| ==> LocationKey(spaces[i]) in ShownRegions(spaces)
  {
    KeyOrderMembers(spaces, LocationKey, SpaceItself);
    var order := KeyOrder(spaces, LocationKey);
    assert forall r :: r in ShownRegions(spaces) ==> r in order;
  }

  /**
   * The shown regions are the first to appear: a record whose region is not
   * shown comes after a record of every shown region.
   */
  lemma ShownRegionsFirst(spaces: seq<YouthSpace>, n: nat, r: string)
    requires n < |spaces| && LocationKey(spaces[n]) !in ShownRegions(spaces) && r in ShownRegions(spaces)
    ensures exists m :: 0 <= m < n && LocationKey(spaces[m]) == r
  {
    var order := KeyOrder(spaces, LocationKey);
    var shown := ShownRegions(spaces);
    KeyListed(spaces, LocationKey, n);
    var j :| 0 <= j < |order| && order[j] == LocationKey(spaces[n]);
    var i :| 0 <= i < |shown| && shown[i] == r;
    assert order[i] == r;
    if j < 3 {
      assert false;
    }
    KeyOrderBefore(spaces, LocationKey, i, j, n);
  }

  /** `handle_space_detail_request`. */
  function DetailReply(spaces: seq<YouthSpace>, input: string): string
  {
    if spaces == [] then SpacesMissing
    else
      var found := Filter(spaces, NameMatch(Lower(input)));
      if found == [] then OverviewText(spaces) else DetailMatchesText(input, found)
  }

  /** The overview appears only when nothing matches; a record without a name or facility always matches. */
  lemma DetailReplyOverviewOnlyWithoutMatch(spaces: seq<YouthSpace>, input: string, k: nat)
    requires k < |spaces|
    requires spaces[k].spaceName.GetOr("") == "" || spaces[k].parentFacility.GetOr("") == ""
    ensures DetailReply(spaces, input) == DetailMatchesText(input, Filter(spaces, NameMatch(Lower(input))))
  {
    UnnamedRecordMatchesAnything(spaces[k], input);
    FilterMembers(spaces, NameMatch(Lower(input)));
  }
}

=== FILE: dated_order.dfy ===
/**
 * The ordering every busanjob.net scraper applies to what it collected:
 * records whose date text parses go first, sorted by that date (newest
 * first for register dates, soonest first for deadlines), and the records
 * without a date follow in the order they were collected. The scrapers
 * split the records into two lists, store the parsed date on each dated
 * record, sort the dated list in place and concatenate the two.
 */
module DatedOrder {
  import opened Wrappers
  import opened Dates
  import opened Seqs
  import opened Sorting

  function HasDate<T>(date: T -> Option<Date>): T -> bool
  {
    x => date(x).Some?
  }

  function LacksDate<T>(date: T -> Option<Date>): T -> bool
  {
    x => date(x).None?
  }

  /** The sort key of a dated record (records without a date are never sorted). */
  function DateKeyOf<T>(date: T -> Option<Date>): T -> Key
  {
    x => match date(x) case Some(d) => DateKey(d) case None => IntKey(0)
  }

  /** The order `a`, then `b`, that the sort may produce: chronological, or the reverse. */
  predicate DatesInOrder(a: Date, b: Date, newestFirst: bool)
  {
    if newestFirst then DateLe(b, a) else DateLe(a, b)
  }

  /** `with + without`, `with` sorted by date. */
  function DatedFirst<T>(xs: seq<T>, date: T -> Option<Date>, newestFirst: bool): seq<T>
  {
    SortBy(Filter(xs, HasDate(date)), DateKeyOf(date), newestFirst) + Filter(xs, LacksDate(date))
  }

  /** The number of records with a date: where the undated tail of `DatedFirst` starts. */
  function DatedCount<T>(xs: seq<T>, date: T -> Option<Date>): (n: nat)
    ensures n <= |xs|
  {
    |Filter(xs, HasDate(date))|
  }

  /** Every record has a date, and the dates are in order. */
  predicate DatedInOrder<T>(s: seq<T>, date: T -> Option<Date>, newestFirst: bool)
  {
    (forall i :: 0 <= i < |s| ==> date(s[i]).Some?) &&
    (forall i, j :: 0 <= i < j < |s| ==> DatesInOrder(date(s[i]).value, date(s[j]).value, newestFirst))
  }

  /** No record has a date. */
  predicate AllUndated<T>(s: seq<T>, date: T -> Option<Date>)
  {
    forall i :: 0 <= i < |s| ==> date(s[i]).None?
  }

  /** The sorted dated records are in date order. */
  lemma SortedDatedInOrder<T>(xs: seq<T>, date: T -> Option<Date>, newestFirst: bool)
    ensures DatedInOrder(SortBy(Filter(xs, HasDate(date)), DateKeyOf(date), newestFirst), date, newestFirst)
  {
    var dated := Filter(xs, HasDate(date));
    var sorted := SortBy(dated, DateKeyOf(date), newestFirst);
    SortBySorted(dated, DateKeyOf(date), newestFirst);
    SortByPermutation(dated, DateKeyOf(date), newestFirst);
    FilterMembers(xs, HasDate(date));
    forall i | 0 <= i < |sorted|
      ensures date(sorted[i]).Some?
    {
      assert sorted[i] in multiset(dated);
    }
    forall i, j | 0 <= i < j < |sorted|
      ensures DatesInOrder(date(sorted[i]).value, date(sorted[j]).value, newestFirst)
    {
      assert InOrder(DateKeyOf(date)(sorted[i]), DateKeyOf(date)(sorted[j]), newestFirst);
    }
  }

  /**
   * `DatedFirst` reorders the records and loses or adds none; the first
   * `DatedCount` of them have dates, in date order; the rest have none and
   * keep their collection order.
   */
  lemma DatedFirstOrder<T>(xs: seq<T>, date: T -> Option<Date>, newestFirst: bool)
    ensures var r := DatedFirst(xs, date, newestFirst);
            var k := DatedCount(xs, date);
            |r| == |xs| && multiset(r) == multiset(xs) &&
            DatedInOrder(r[..k], date, newestFirst) &&
            AllUndated(r[k..], date) &&
            r[k..] == Filter(xs, LacksDate(date))
  {
    var dated := Filter(xs, HasDate(date));
    var undated := Filter(xs, LacksDate(date));
    var sorted := SortBy(dated, DateKeyOf(date), newestFirst);
    var r := sorted + undated;
    var k := |dated|;
    assert r[..k] == sorted && r[k..] == undated;
    assert DatedInOrder(sorted, date, newestFirst) by {
      SortedDatedInOrder(xs, date, newestFirst);
    }
    assert AllUndated(undated, date) by {
      FilterMembers(xs, LacksDate(date));
    }
    assert multiset(r) == multiset(xs) by {
      SortByPermutation(dated, DateKeyOf(date), newestFirst);
      PartitionPermutation(xs, date);
    }
    assert |r| == |multiset(r)| == |multiset(xs)| == |xs|;
  }

  /** No undated record comes before a dated one, and the dated records are in date order. */
  predicate Ranked<T>(s: seq<T>, date: T -> Option<Date>, newestFirst: bool)
  {
    forall i, j :: 0 <= i < j < |s| && date(s[j]).Some? ==>
      date(s[i]).Some? && DatesInOrder(date(s[i]).value, date(s[j]).value, newestFirst)
  }

  /** Every prefix of `DatedFirst` (`[:max_jobs]`) is ranked. */
  lemma DatedFirstRanked<T>(xs: seq<T>, date: T -> Option<Date>, newestFirst: bool, n: nat)
    ensures Ranked(Take(DatedFirst(xs, date, newestFirst), n), date, newestFirst)
  {
    var r := DatedFirst(xs, date, newestFirst);
    var k := DatedCount(xs, date);
    DatedFirstOrder(xs, date, newestFirst);
    var t := Take(r, n);
    forall i, j | 0 <= i < j < |t| && date(t[j]).Some?
      ensures date(t[i]).Some? && DatesInOrder(date(t[i]).value, date(t[j]).value, newestFirst)
    {
      assert t[i] == r[i] && t[j] == r[j];
      assert j < k;
      assert r[..k][i] == r[i] && r[..k][j] == r[j];
    }
  }

  /** Splitting by "has a date" keeps every record exactly once. */
  lemma {:induction false} PartitionPermutation<T>(xs: seq<T>, date: T -> Option<Date>)
    ensures multiset(Filter(xs, HasDate(date))) + multiset(Filter(xs, LacksDate(date))) == multiset(xs)
  {
    if xs != [] {
      PartitionPermutation(xs[1..], date);
      var rest := multiset(Filter(xs[1..], HasDate(date))) + multiset(Filter(xs[1..], LacksDate(date)));
      assert multiset(xs) == multiset{xs[0]} + multiset(xs[1..]) by {
        assert xs == [xs[0]] + xs[1..];
      }
      if date(xs[0]).Some? {
        assert Filter(xs, HasDate(date)) == [xs[0]] + Filter(xs[1..], HasDate(date));
        assert Filter(xs, LacksDate(date)) == Filter(xs[1..], LacksDate(date));
      } else {
        assert Filter(xs, HasDate(date)) == Filter(xs[1..], HasDate(date));
        assert Filter(xs, LacksDate(date)) == [xs[0]] + Filter(xs[1..], LacksDate(date));
      }
    }
  }

  /** Records with the same date keep their collection order. */
  lemma DatedFirstStable<T>(xs: seq<T>, date: T -> Option<Date>, newestFirst: bool, d: Date)
    ensures Filter(DatedFirst(xs, date, newestFirst), KeyIs(DateKeyOf(date), DateKey(d))) ==
            Filter(xs, KeyIs(DateKeyOf(date), DateKey(d)))
  {
    var dated := Filter(xs, HasDate(date));
    var undated := Filter(xs, LacksDate(date));
    var P := KeyIs(DateKeyOf(date), DateKey(d));
    SortByStable(dated, DateKeyOf(date), newestFirst, DateKey(d));
    FilterAppend(SortBy(dated, DateKeyOf(date), newestFirst), undated, P);
    FilterMembers(xs, LacksDate(date));
    forall i | 0 <= i < |undated|
      ensures !P(undated[i])
    {
    }
    FilterNone(undated, P);
    FilterOfFilter(xs, HasDate(date), P);
  }

  /** Filtering twice with `p` then `q`, where `q` implies `p`, is filtering once with `q`. */
  lemma {:induction false} FilterOfFilter<T>(xs: seq<T>, p: T -> bool, q: T -> bool)
    requires forall x :: q(x) ==> p(x)
    ensures Filter(Filter(xs, p), q) == Filter(xs, q)
  {
    if xs != [] {
      FilterOfFilter(xs[1..], p, q);
      var h: seq<T> := if p(xs[0]) then [xs[0]] else [];
      FilterAppend(h, Filter(xs[1..], p), q);
    }
  }

  /** The partition loop, then the sort of the dated part (on values). */
  method DatedFirstLoop<T>(xs: seq<T>, date: T -> Option<Date>, newestFirst: bool) returns (r: seq<T>)
    ensures r == DatedFirst(xs, date, newestFirst)
  {
    var with: seq<T> := [];
    var without: seq<T> := [];
    var i := 0;
    while i < |xs|
      invariant 0 <= i <= |xs|
      invariant with == Filter(xs[..i], HasDate(date))
      invariant without == Filter(xs[..i], LacksDate(date))
    {
      FilterPrefixStep(xs, i, HasDate(date));
      FilterPrefixStep(xs, i, LacksDate(date));
      if date(xs[i]).Some? {
        with := with + [xs[i]];
      } else {
        without := without + [xs[i]];
      }
      i := i + 1;
    }
    assert xs[..i] == xs;
    r := SortBy(with, DateKeyOf(date), newestFirst) + without;
  }
}

=== FILE: dates.dfy ===
/**
 * Calendar dates and the date recognisers of the scrapers.
 *
 * Python builds dates with `datetime(y, m, d).date()`, which raises
 * `ValueError` outside the proleptic Gregorian calendar (years 1..9999);
 * every caller catches it and answers `None`, which `MakeDate` models.
 *
 * The regular expressions the scrapers search with are written out as
 * hand-made scanners over ASCII digits: `MatchAt` is what `re.match` of one
 * pattern does at one position, `SearchFrom` is `re.search` (the leftmost
 * position where the pattern matches), and each scanner follows the
 * backtracking order of Python's engine (a `\d{1,2}` first tries two digits,
 * then one).
 */
module Dates {
  import opened Wrappers
  import opened Text

  datatype Date = Date(year: int, month: int, day: int)

  // ---------------------------------------------------------------------------
  // Calendar

  predicate IsLeapYear(y: int)
  {
    y % 4 == 0 && (y % 100 != 0 || y % 400 == 0)
  }

  function DaysInMonth(y: int, m: int): (n: int)
    requires 1 <= m <= 12
    ensures 28 <= n <= 31
  {
    if m == 2 then (if IsLeapYear(y) then 29 else 28)
    else if m == 4 || m == 6 || m == 9 || m == 11 then 30
    else 31
  }

  /** The dates `datetime.date` accepts. */
  predicate ValidDate(d: Date)
  {
    1 <= d.year <= 9999 && 1 <= d.month <= 12 && 1 <= d.day <= DaysInMonth(d.year, d.month)
  }

  /** `datetime(y, m, d).date()`, with `None` where Python raises `ValueError`. */
  function MakeDate(y: int, m: int, d: int): (r: Option<Date>)
    ensures r.Some? ==> ValidDate(r.value) && r.value == Date(y, m, d)
    ensures r.None? ==> !ValidDate(Date(y, m, d))
  {
    if ValidDate(Date(y, m, d)) then Some(Date(y, m, d)) else None
  }

  /** `a <= b` on `datetime.date` (chronological, i.e. lexicographic on year, month, day). */
  predicate DateLe(a: Date, b: Date)
  {
    a.year < b.year || (a.year == b.year && (a.month < b.month || (a.month == b.month && a.day <= b.day)))
  }

  predicate DateLt(a: Date, b: Date)
  {
    DateLe(a, b) && a != b
  }

  function DaysBeforeYear(y: int): int
    requires y >= 1
  {
    var p := y - 1;
    p * 365 + p / 4 - p / 100 + p / 400
  }

  function DaysBeforeMonth(y: int, m: int): int
    requires 1 <= m <= 12
  {
    if m == 1 then 0 else DaysBeforeMonth(y, m - 1) + DaysInMonth(y, m - 1)
  }

  /** `date.toordinal()`: 1 for 0001-01-01, one more for every following day. */
  function Ordinal(d: Date): int
    requires ValidDate(d)
  {
    DaysBeforeYear(d.year) + DaysBeforeMonth(d.year, d.month) + d.day
  }

  /** A day of the calendar, such as `date.today()` returns. */
  type Day = d: Date | ValidDate(d) witness Date(1, 1, 1)

  /** The days before a month grow with the month: each month adds its own length. */
  lemma {:induction false} DaysBeforeMonthGrows(y: int, m1: int, m2: int)
    requires 1 <= m1 < m2 <= 12
    ensures DaysBeforeMonth(y, m1) + DaysInMonth(y, m1) <= DaysBeforeMonth(y, m2)
    decreases m2
  {
    if m1 < m2 - 1 {
      DaysBeforeMonthGrows(y, m1, m2 - 1);
    }
  }

  /** Within one year, a later date has a larger ordinal. */
  lemma OrdinalMonotone(a: Date, b: Date)
    requires ValidDate(a) && ValidDate(b) && a.year == b.year && DateLe(a, b)
    ensures Ordinal(a) <= Ordinal(b)
  {
    if a.month < b.month {
      DaysBeforeMonthGrows(a.year, a.month, b.month);
    }
  }

  /** `(a - b).days` */
  function DaysBetween(a: Date, b: Date): int
    requires ValidDate(a) && ValidDate(b)
  {
    Ordinal(a) - Ordinal(b)
  }

  // ---------------------------------------------------------------------------
  // Scanners for the date patterns

  /** What a successful match records: where it starts and ends and its groups. */
  datatype Match = Match(start: nat, end: nat, groups: seq<string>)

  /** The regular expressions the scrapers use for dates. */
  datatype Pattern =
    | FourDigitYmd   // (\d{4})[-./](\d{1,2})[-./](\d{1,2})
    | TwoDigitYmd    // (\d{2})[-./](\d{1,2})[-./](\d{1,2})
    | KoreanYmd      // (\d{4})년\s*(\d{1,2})월\s*(\d{1,2})일?
    | MonthDay       // (\d{1,2})[-./](\d{1,2})
    | YearMark       // \d{4}년
    | MonthMark      // \d{1,2}월
    | LooseYmd       // (\d{4})[.-]?\s*(\d{1,2})[.-]?\s*(\d{1,2})

  predicate DigitsAt(s: string, i: nat, n: nat)
  {
    i + n <= |s| && forall k :: i <= k < i + n ==> IsDigit(s[k])
  }

  /** The digits a `DigitsAt` check found, as a string. */
  lemma DigitsAtSlice(s: string, i: nat, n: nat)
    requires n > 0 && DigitsAt(s, i, n)
    ensures IsDigits(s[i..i + n])
  {
  }

  predicate CharAt(s: string, i: nat, c: char)
  {
    i < |s| && s[i] == c
  }

  predicate IsDateSep(c: char)
  {
    c == '-' || c == '.' || c == '/'
  }

  predicate IsYearMark(c: char)
  {
    c == '년'
  }

  predicate IsMonthMark(c: char)
  {
    c == '월'
  }

  /** `\s*`: the first position at or after `i` that is not white space. */
  function SkipSpaces(s: string, i: nat): (j: nat)
    requires i <= |s|
    decreases |s| - i
    ensures i <= j <= |s| && (j == |s| || !IsSpace(s[j]))
    ensures forall k :: i <= k < j ==> IsSpace(s[k])
  {
    if i < |s| && IsSpace(s[i]) then SkipSpaces(s, i + 1) else i
  }

  /** `(\d{1,2})` that must be followed by a character `follow` accepts; 0 when it cannot match. */
  function DigitsBefore(s: string, i: nat, follow: char -> bool): (n: nat)
    ensures n <= 2
    ensures n > 0 ==> DigitsAt(s, i, n) && i + n < |s| && follow(s[i + n])
  {
    if DigitsAt(s, i, 2) && i + 2 < |s| && follow(s[i + 2]) then 2
    else if DigitsAt(s, i, 1) && i + 1 < |s| && follow(s[i + 1]) then 1
    else 0
  }

  /** A final `(\d{1,2})`: as many digits as possible, at most two; 0 when it cannot match. */
  function TrailingDigits(s: string, i: nat): (n: nat)
    ensures n <= 2
    ensures n > 0 ==> DigitsAt(s, i, n)
    ensures n == 0 <==> !DigitsAt(s, i, 1)
  {
    if DigitsAt(s, i, 2) then 2 else if DigitsAt(s, i, 1) then 1 else 0
  }

  /** `(\d{n})[-./](\d{1,2})[-./](\d{1,2})` at position `i`. */
  function YmdSepAt(s: string, i: nat, n: nat): (r: Option<Match>)
    requires n > 0
    ensures r.Some? ==> r.value.start == i && i < r.value.end <= |s|
    ensures r.Some? ==> |r.value.groups| == 3 && |r.value.groups[0]| == n
    ensures r.Some? ==> forall k :: 0 <= k < 3 ==> IsDigits(r.value.groups[k])
  {
    if !(DigitsAt(s, i, n) && i + n < |s| && IsDateSep(s[i + n])) then None
    else
      var mo := i + n + 1;
      var ml := DigitsBefore(s, mo, IsDateSep);
      if ml == 0 then None
      else
        var da := mo + ml + 1;
        var dl := TrailingDigits(s, da);
        if dl == 0 then None
        else
          DigitsAtSlice(s, i, n);
          DigitsAtSlice(s, mo, ml);
          DigitsAtSlice(s, da, dl);
          Some(Match(i, da + dl, [s[i..i + n], s[mo..mo + ml], s[da..da + dl]]))
  }

  /** `(\d{4})년\s*(\d{1,2})월\s*(\d{1,2})일?` at position `i`. */
  function KoreanYmdAt(s: string, i: nat): (r: Option<Match>)
    ensures r.Some? ==> r.value.start == i && i < r.value.end <= |s|
    ensures r.Some? ==> |r.value.groups| == 3 && |r.value.groups[0]| == 4
    ensures r.Some? ==> forall k :: 0 <= k < 3 ==> IsDigits(r.value.groups[k])
  {
    if !(DigitsAt(s, i, 4) && CharAt(s, i + 4, '년')) then None
    else
      var mo := SkipSpaces(s, i + 5);
      var ml := DigitsBefore(s, mo, IsMonthMark);
      if ml == 0 then None
      else
        var da := SkipSpaces(s, mo + ml + 1);
        var dl := TrailingDigits(s, da);
        if dl == 0 then None
        else
          DigitsAtSlice(s, i, 4);
          DigitsAtSlice(s, mo, ml);
          DigitsAtSlice(s, da, dl);
          var e := da + dl;
          Some(Match(i, if CharAt(s, e, '일') then e + 1 else e, [s[i..i + 4], s[mo..mo + ml], s[da..da + dl]]))
  }

  /** `(\d{1,2})[-./](\d{1,2})` at position `i`. */
  function MonthDayAt(s: string, i: nat): (r: Option<Match>)
    ensures r.Some? ==> r.value.start == i && i < r.value.end <= |s|
    ensures r.Some? ==> |r.value.groups| == 2
    ensures r.Some? ==> forall k :: 0 <= k < 2 ==> IsDigits(r.value.groups[k])
  {
    var ml := DigitsBefore(s, i, IsDateSep);
    if ml == 0 then None
    else
      var da := i + ml + 1;
      var dl := TrailingDigits(s, da);
      if dl == 0 then None
      else
        DigitsAtSlice(s, i, ml);
        DigitsAtSlice(s, da, dl);
        Some(Match(i, da + dl, [s[i..i + ml], s[da..da + dl]]))
  }

  /** `[.-]?\s*` from position `i`: where the next digit group has to start. */
  function SkipLooseSep(s: string, i: nat): (j: nat)
    requires i <= |s|
    ensures i <= j <= |s|
  {
    SkipSpaces(s, if i < |s| && (s[i] == '.' || s[i] == '-') then i + 1 else i)
  }

  /**
   * How many digits the month of the loose pattern takes at `mo`: two when a
   * day can still follow, else one; 0 when the pattern cannot match.
   */
  function LooseMonthDigits(s: string, mo: nat): (n: nat)
    ensures n <= 2
    ensures n > 0 ==> DigitsAt(s, mo, n) && DigitsAt(s, SkipLooseSep(s, mo + n), 1)
  {
    if DigitsAt(s, mo, 2) && DigitsAt(s, SkipLooseSep(s, mo + 2), 1) then 2
    else if DigitsAt(s, mo, 1) && DigitsAt(s, SkipLooseSep(s, mo + 1), 1) then 1
    else 0
  }

  /** `(\d{4})[.-]?\s*(\d{1,2})[.-]?\s*(\d{1,2})` at position `i`. */
  function LooseYmdAt(s: string, i: nat): (r: Option<Match>)
    ensures r.Some? ==> r.value.start == i && i < r.value.end <= |s|
    ensures r.Some? ==> |r.value.groups| == 3 && |r.value.groups[0]| == 4
    ensures r.Some? ==> forall k :: 0 <= k < 3 ==> IsDigits(r.value.groups[k])
  {
    if !DigitsAt(s, i, 4) then None
    else
      var mo := SkipLooseSep(s, i + 4);
      var ml := LooseMonthDigits(s, mo);
      if ml == 0 then None
      else
        var da := SkipLooseSep(s, mo + ml);
        var dl := TrailingDigits(s, da);
        if dl == 0 then None
        else
          DigitsAtSlice(s, i, 4);
          DigitsAtSlice(s, mo, ml);
          DigitsAtSlice(s, da, dl);
          Some(Match(i, da + dl, [s[i..i + 4], s[mo..mo + ml], s[da..da + dl]]))
  }

  /** One pattern tried at one position (Python's `pattern.match(s, i)`). */
  function MatchAt(p: Pattern, s: string, i: nat): (r: Option<Match>)
    ensures r.Some? ==> r.value.start == i && i < r.value.end <= |s|
    ensures r.Some? ==> forall k :: 0 <= k < |r.value.groups| ==> IsDigits(r.value.groups[k])
    ensures r.Some? && (p == FourDigitYmd || p == KoreanYmd || p == LooseYmd) ==>
              |r.value.groups| == 3 && |r.value.groups[0]| == 4
    ensures r.Some? && p == TwoDigitYmd ==> |r.value.groups| == 3 && |r.value.groups[0]| == 2
    ensures r.Some? && p == MonthDay ==> |r.value.groups| == 2
  {
    match p
    case FourDigitYmd => YmdSepAt(s, i, 4)
    case TwoDigitYmd => YmdSepAt(s, i, 2)
    case KoreanYmd => KoreanYmdAt(s, i)
    case MonthDay => MonthDayAt(s, i)
    case YearMark =>
      if DigitsAt(s, i, 4) && CharAt(s, i + 4, '년') then Some(Match(i, i + 5, [])) else None
    case MonthMark =>
      var n := DigitsBefore(s, i, IsMonthMark);
      if n == 0 then None else Some(Match(i, i + n + 1, []))
    case LooseYmd => LooseYmdAt(s, i)
  }

  /** `re.search(p, s[from:])`: the match at the leftmost position where `p` matches. */
  function SearchFrom(p: Pattern, s: string, from: nat): (r: Option<Match>)
    decreases |s| - from
    ensures r.Some? ==> from <= r.value.start && MatchAt(p, s, r.value.start) == r
    ensures r.Some? ==> forall j :: from <= j < r.value.start ==> MatchAt(p, s, j).None?
    ensures r.None? ==> forall j :: from <= j < |s| ==> MatchAt(p, s, j).None?
  {
    if from >= |s| then None
    else if MatchAt(p, s, from).Some? then MatchAt(p, s, from)
    else SearchFrom(p, s, from + 1)
  }

  /** `re.search(p, s)`: the match at the leftmost position where `p` matches, if any. */
  function Search(p: Pattern, s: string): (r: Option<Match>)
    ensures r.Some? ==> MatchAt(p, s, r.value.start) == r
    ensures r.Some? ==> forall j :: 0 <= j < r.value.start ==> MatchAt(p, s, j).None?
    ensures r.None? ==> forall j :: 0 <= j < |s| ==> MatchAt(p, s, j).None?
  {
    SearchFrom(p, s, 0)
  }

  /** A match anywhere makes the search succeed. */
  lemma SearchFinds(p: Pattern, s: string, i: nat)
    requires MatchAt(p, s, i).Some?
    ensures Search(p, s).Some? && Search(p, s).value.start <= i
  {
  }

  /** Index of the first pattern, at or after `from`, that matches somewhere in `s`. */
  function FirstMatchingPattern(ps: seq<Pattern>, s: string, from: nat): (r: Option<nat>)
    decreases |ps| - from
    ensures r.Some? ==> from <= r.value < |ps| && Search(ps[r.value], s).Some?
    ensures r.Some? ==> forall k :: from <= k < r.value ==> Search(ps[k], s).None?
    ensures r.None? ==> forall k :: from <= k < |ps| ==> Search(ps[k], s).None?
  {
    if from >= |ps| then None
    else if Search(ps[from], s).Some? then Some(from)
    else FirstMatchingPattern(ps, s, from + 1)
  }

  /**
   * The patterns searched in list order: the match of the first pattern
   * that matches anywhere in `s`.
   */
  function FirstMatch(ps: seq<Pattern>, s: string): (r: Option<Match>)
    ensures r.None? <==> forall k :: 0 <= k < |ps| ==> Search(ps[k], s).None?
    ensures r.Some? <==> FirstMatchingPattern(ps, s, 0).Some?
    ensures r.Some? ==> r == Search(ps[FirstMatchingPattern(ps, s, 0).value], s)
  {
    match FirstMatchingPattern(ps, s, 0)
    case None => None
    case Some(k) => Search(ps[k], s)
  }

  // ---------------------------------------------------------------------------
  // Parsing

  /**
   * Turn the groups of a match into a date: three groups are year, month
   * and day (a two-digit year `yy` is read as `'20' + yy`), two groups are
   * month and day of `currentYear`.
   */
  function DateFromGroups(g: seq<string>, currentYear: int): (r: Option<Date>)
    ensures r.Some? ==> ValidDate(r.value)
    ensures |g| == 3 && IsDigits(g[0]) ==>
              r == MakeDate(if |g[0]| == 2 then 2000 + DecimalValue(g[0]) else DecimalValue(g[0]),
                            DecimalValue(g[1]), DecimalValue(g[2]))
    ensures |g| == 2 ==> r == MakeDate(currentYear, DecimalValue(g[0]), DecimalValue(g[1]))
    ensures |g| != 2 && |g| != 3 ==> r.None?
  {
    if |g| == 3 then
      var year := if |g[0]| == 2 then DecimalValue("20" + g[0]) else DecimalValue(g[0]);
      assert |g[0]| == 2 && IsDigits(g[0]) ==> year == 2000 + DecimalValue(g[0]) by {
        if |g[0]| == 2 && IsDigits(g[0]) {
          TwoDigitYearIsTwoThousands(g[0]);
        }
      }
      MakeDate(year, DecimalValue(g[1]), DecimalValue(g[2]))
    else if |g| == 2 then
      MakeDate(currentYear, DecimalValue(g[0]), DecimalValue(g[1]))
    else None
  }

  /** The patterns of `parse_date` in services/regional_job_scraper.py, in the order tried. */
  const RegionalDatePatterns: seq<Pattern> := [FourDigitYmd, TwoDigitYmd, KoreanYmd, MonthDay]

  /** The patterns of `parse_date` / `parse_deadline_date` in the two other scrapers. */
  const ListingDatePatterns: seq<Pattern> := [FourDigitYmd, KoreanYmd, MonthDay]

  /**
   * `parse_date` of services/regional_job_scraper.py: empty text gives None,
   * otherwise the first pattern that matches decides (an impossible date
   * gives None; later patterns are not tried).
   */
  function ParseDateRegional(s: string, currentYear: int): (r: Option<Date>)
    ensures s == "" ==> r.None?
    ensures r.Some? ==> ValidDate(r.value)
    ensures FirstMatch(RegionalDatePatterns, s).None? ==> r.None?
    ensures s != "" && FirstMatchingPattern(RegionalDatePatterns, s, 0) == Some(0) ==>
              var g := Search(FourDigitYmd, s).value.groups;
              r == MakeDate(DecimalValue(g[0]), DecimalValue(g[1]), DecimalValue(g[2]))
    ensures s != "" && FirstMatchingPattern(RegionalDatePatterns, s, 0) == Some(1) ==>
              var g := Search(TwoDigitYmd, s).value.groups;
              r == MakeDate(2000 + DecimalValue(g[0]), DecimalValue(g[1]), DecimalValue(g[2]))
    ensures s != "" && FirstMatchingPattern(RegionalDatePatterns, s, 0) == Some(2) ==>
              var g := Search(KoreanYmd, s).value.groups;
              r == MakeDate(DecimalValue(g[0]), DecimalValue(g[1]), DecimalValue(g[2]))
    ensures s != "" && FirstMatchingPattern(RegionalDatePatterns, s, 0) == Some(3) ==>
              var g := Search(MonthDay, s).value.groups;
              r == MakeDate(currentYear, DecimalValue(g[0]), DecimalValue(g[1]))
  {
    if s == "" then None
    else match FirstMatch(RegionalDatePatterns, s)
      case None => None
      case Some(m) =>
        var k := FirstMatchingPattern(RegionalDatePatterns, s, 0).value;
        assert MatchAt(RegionalDatePatterns[k], s, m.start) == Some(m);
        DateFromGroups(m.groups, currentYear)
  }

  /**
   * `parse_date` of services/youth_program_scraper.py and `parse_deadline_date`
   * of services/scraper_service.py (the two bodies are the same).
   */
  function ParseListingDate(s: string, currentYear: int): (r: Option<Date>)
    ensures s == "" ==> r.None?
    ensures r.Some? ==> ValidDate(r.value)
    ensures FirstMatch(ListingDatePatterns, s).None? ==> r.None?
    ensures s != "" && FirstMatch(ListingDatePatterns, s).Some? ==>
              var g := FirstMatch(ListingDatePatterns, s).value.groups;
              r == (if |g| == 3 then MakeDate(DecimalValue(g[0]), DecimalValue(g[1]), DecimalValue(g[2]))
                    else MakeDate(currentYear, DecimalValue(g[0]), DecimalValue(g[1])))
  {
    if s == "" then None
    else match FirstMatch(ListingDatePatterns, s)
      case None => None
      case Some(m) =>
        ListingYearAlwaysFourDigits(s);
        DateFromGroups(m.groups, currentYear)
  }

  /**
   * In the listing parser every three-group match has a four-digit year, so
   * the branch that widens a two-digit year never runs.
   */
  lemma ListingYearAlwaysFourDigits(s: string)
    requires FirstMatch(ListingDatePatterns, s).Some?
    ensures var g := FirstMatch(ListingDatePatterns, s).value.groups;
            |g| == 2 || (|g| == 3 && |g[0]| == 4)
  {
    var k := FirstMatchingPattern(ListingDatePatterns, s, 0).value;
    var m := Search(ListingDatePatterns[k], s).value;
    assert MatchAt(ListingDatePatterns[k], s, m.start) == Some(m);
  }

  /** A two-digit year `yy` stands for the year 2000 + yy. */
  lemma TwoDigitYearIsTwoThousands(yy: string)
    requires |yy| == 2 && IsDigits(yy)
    ensures DecimalValue("20" + yy) == 2000 + DecimalValue(yy)
  {
    var s := "20" + yy;
    assert s[..3][..2] == "20" && s[..2] == "20";
    assert "20"[..1] == "2" && "2"[..0] == "";
    assert DecimalValue("2") == 2;
    assert DecimalValue("20") == 20;
    assert s[..|s| - 1] == s[..3] && s[3] == yy[1] && s[..3][2] == yy[0];
    assert DecimalValue(s[..3]) == 200 + DigitValue(yy[0]);
    assert yy[..1][..0] == "" && yy[..1] == [yy[0]];
    assert DecimalValue(yy) == DigitValue(yy[0]) * 10 + DigitValue(yy[1]);
  }

  /**
   * `is_date_format` of services/regional_job_scraper.py: non-empty text in
   * which some alternative of its pattern matches somewhere.
   */
  predicate IsDateFormatRegional(s: string)
  {
    s != "" &&
    (Search(FourDigitYmd, s).Some? || Search(TwoDigitYmd, s).Some? || Search(MonthDay, s).Some? ||
     Search(YearMark, s).Some? || Search(MonthMark, s).Some?)
  }

  /** `is_date_format` of services/scraper_service.py and services/youth_program_scraper.py. */
  predicate IsDateFormat(s: string)
  {
    s != "" &&
    (Search(FourDigitYmd, s).Some? || Search(MonthDay, s).Some? ||
     Search(YearMark, s).Some? || Search(MonthMark, s).Some?)
  }

  /** Three digit groups contain a month-day shape: wherever `yy-m-d` matches, so does `yy-m`. */
  lemma TwoDigitYmdGivesMonthDay(s: string, i: nat)
    requires MatchAt(TwoDigitYmd, s, i).Some?
    ensures MatchAt(MonthDay, s, i).Some?
  {
    assert DigitsAt(s, i, 2) && i + 2 < |s| && IsDateSep(s[i + 2]);
    assert DigitsAt(s, i + 3, 1);
  }

  /**
   * The extra two-digit-year alternative of the regional recogniser never
   * changes its answer: the two `is_date_format` functions agree everywhere.
   */
  lemma DateFormatsAgree(s: string)
    ensures IsDateFormatRegional(s) == IsDateFormat(s)
  {
    var r := Search(TwoDigitYmd, s);
    if r.Some? {
      TwoDigitYmdGivesMonthDay(s, r.value.start);
      SearchFinds(MonthDay, s, r.value.start);
    }
  }

  /**
   * `extract_date_from_text` of services/regional_job_scraper.py: the text of
   * the first match of `yyyy-m-d`, then `m-d`, then `yyyy년 m월 d일`; else
   * '상시 모집' when the text speaks of standing recruitment; else '채용시까지'.
   */
  function ExtractDateFromText(text: string): (r: string)
    ensures FirstMatch([FourDigitYmd, MonthDay, KoreanYmd], text).Some? ==>
              var m := FirstMatch([FourDigitYmd, MonthDay, KoreanYmd], text).value;
              m.start < m.end <= |text| && r == text[m.start..m.end]
    ensures FirstMatch([FourDigitYmd, MonthDay, KoreanYmd], text).None? ==>
              r == (if ContainsAny(text, ["상시", "수시", "채용시까지", "연중"]) then "상시 모집" else "채용시까지")
  {
    var ps := [FourDigitYmd, MonthDay, KoreanYmd];
    match FirstMatchingPattern(ps, text, 0)
    case Some(k) =>
      var m := Search(ps[k], text).value;
      assert MatchAt(ps[k], text, m.start) == Some(m);
      text[m.start..m.end]
    case None =>
      if ContainsAny(text, ["상시", "수시", "채용시까지", "연중"]) then "상시 모집" else "채용시까지"
  }

  // ---------------------------------------------------------------------------
  // Reading back a formatted date

  /** `date.isoformat()`: `YYYY-MM-DD`, each field zero-padded. */
  function IsoFormat(d: Date): (r: string)
    requires ValidDate(d)
    ensures |r| == 10
  {
    PadDigits(d.year, 4) + "-" + PadDigits(d.month, 2) + "-" + PadDigits(d.day, 2)
  }

  /** The digit groups of an ISO date read back as its year, month and day. */
  lemma IsoGroupValues(d: Date)
    requires ValidDate(d)
    ensures DecimalValue(PadDigits(d.year, 4)) == d.year
    ensures DecimalValue(PadDigits(d.month, 2)) == d.month
    ensures DecimalValue(PadDigits(d.day, 2)) == d.day
  {
    assert Pow10(2) == 100 && Pow10(4) == 10000;
    PadDigitsRoundTrip(d.year, 4);
    PadDigitsRoundTrip(d.month, 2);
    PadDigitsRoundTrip(d.day, 2);
  }

  /** Both `yyyy-m-d` patterns match an ISO date from its first character, with its three fields as groups. */
  lemma IsoMatches(d: Date)
    requires ValidDate(d)
    ensures var s := IsoFormat(d);
            var m := Match(0, 10, [PadDigits(d.year, 4), PadDigits(d.month, 2), PadDigits(d.day, 2)]);
            Search(FourDigitYmd, s) == Some(m) && Search(LooseYmd, s) == Some(m)
  {
    var s := IsoFormat(d);
    var y, mo, da := PadDigits(d.year, 4), PadDigits(d.month, 2), PadDigits(d.day, 2);
    assert s[..4] == y && s[5..7] == mo && s[8..10] == da;
    assert s[4] == '-' && s[7] == '-';
    assert forall k :: 0 <= k < 4 ==> IsDigit(s[k]) by {
      forall k | 0 <= k < 4 ensures IsDigit(s[k]) { assert s[k] == y[k]; }
    }
    assert forall k :: 5 <= k < 7 ==> IsDigit(s[k]) by {
      forall k | 5 <= k < 7 ensures IsDigit(s[k]) { assert s[k] == mo[k - 5]; }
    }
    assert forall k :: 8 <= k < 10 ==> IsDigit(s[k]) by {
      forall k | 8 <= k < 10 ensures IsDigit(s[k]) { assert s[k] == da[k - 8]; }
    }
    assert SkipSpaces(s, 5) == 5 && SkipSpaces(s, 8) == 8;
    assert MatchAt(FourDigitYmd, s, 0) == Some(Match(0, 10, [y, mo, da]));
    assert MatchAt(LooseYmd, s, 0) == Some(Match(0, 10, [y, mo, da]));
  }

  /**
   * The listing scrapers read an ISO date back as the same date, whatever
   * the current year.
   */
  lemma ListingDateRoundTrip(d: Date, currentYear: int)
    requires ValidDate(d)
    ensures ParseListingDate(IsoFormat(d), currentYear) == Some(d)
  {
    IsoMatches(d);
    IsoGroupValues(d);
    assert FirstMatchingPattern(ListingDatePatterns, IsoFormat(d), 0) == Some(0);
  }

  /** The regional scraper reads an ISO date back as the same date. */
  lemma RegionalDateRoundTrip(d: Date, currentYear: int)
    requires ValidDate(d)
    ensures ParseDateRegional(IsoFormat(d), currentYear) == Some(d)
  {
    IsoMatches(d);
    IsoGroupValues(d);
    assert FirstMatchingPattern(RegionalDatePatterns, IsoFormat(d), 0) == Some(0);
  }

  /** Text with no run of four digits matches neither four-digit-year pattern anywhere. */
  lemma NoFourDigitRun(s: string)
    requires forall j :: 0 <= j < |s| ==> !DigitsAt(s, j, 4)
    ensures Search(FourDigitYmd, s).None? && Search(KoreanYmd, s).None?
  {
    assert forall j :: 0 <= j < |s| ==> MatchAt(FourDigitYmd, s, j).None? && MatchAt(KoreanYmd, s, j).None?;
  }

  /** "24.3.15" has no four-digit year. */
  lemma TwoDigitYearTextNoYear()
    ensures Search(FourDigitYmd, "24.3.15").None?
  {
    var s := "24.3.15";
    NoFourDigitRun(s) by {
      assert !IsDigit(s[2]) && !IsDigit(s[4]);
      forall j | 0 <= j < |s| ensures !DigitsAt(s, j, 4) {
        if j + 4 <= |s| {
          assert !IsDigit(s[if j <= 2 then 2 else 4]);
        }
      }
    }
  }

  /** "24.3.15" matches `yy-m-d` from its start. */
  lemma TwoDigitYearTextMatch()
    ensures Search(TwoDigitYmd, "24.3.15") == Some(Match(0, 7, ["24", "3", "15"]))
  {
    var s := "24.3.15";
    assert !IsDigit(s[4]);
    assert DigitsAt(s, 0, 2) && !DigitsAt(s, 3, 2) && DigitsAt(s, 3, 1) && DigitsAt(s, 5, 2);
    assert DigitsBefore(s, 3, IsDateSep) == 1 && TrailingDigits(s, 5) == 2;
    assert s[0..2] == "24" && s[3..4] == "3" && s[5..7] == "15";
    assert MatchAt(TwoDigitYmd, s, 0) == Some(Match(0, 7, ["24", "3", "15"]));
  }

  /** The regional scraper reads "24.3.15" as 15 March 2024: a two-digit year is in the 2000s. */
  lemma RegionalTwoDigitYearExample(currentYear: int)
    ensures ParseDateRegional("24.3.15", currentYear) == Some(Date(2024, 3, 15))
  {
    TwoDigitYearTextFirst();
    TwoDigitYearTextMatch();
    TwoDigitYearTextValues();
  }

  /** Of the regional patterns, `yy-m-d` is the first to match "24.3.15". */
  lemma TwoDigitYearTextFirst()
    ensures FirstMatchingPattern(RegionalDatePatterns, "24.3.15", 0) == Some(1)
  {
    TwoDigitYearTextNoYear();
    TwoDigitYearTextMatch();
  }

  lemma TwoDigitYearTextValues()
    ensures DecimalValue("24") == 24 && DecimalValue("3") == 3 && DecimalValue("15") == 15
  {
    assert "24"[..1] == "2" && "3"[..0] == "" && "15"[..1] == "1";
  }

  /** "~ 3/15" has no four-digit year. */
  lemma MonthDayTextNoYear()
    ensures Search(FourDigitYmd, "~ 3/15").None? && Search(KoreanYmd, "~ 3/15").None?
  {
    var s := "~ 3/15";
    NoFourDigitRun(s) by {
      assert !IsDigit(s[0]) && !IsDigit(s[1]) && !IsDigit(s[3]);
      forall j | 0 <= j < |s| ensures !DigitsAt(s, j, 4) {
        if j + 4 <= |s| {
          assert !IsDigit(s[if j < 2 then j else 3]);
        }
      }
    }
  }

  /** "~ 3/15" matches `m-d` from its third character. */
  lemma MonthDayTextMatch()
    ensures Search(MonthDay, "~ 3/15") == Some(Match(2, 6, ["3", "15"]))
  {
    var s := "~ 3/15";
    assert !IsDigit(s[0]) && !IsDigit(s[1]) && !IsDigit(s[3]);
    assert MatchAt(MonthDay, s, 0).None? && MatchAt(MonthDay, s, 1).None?;
    assert !DigitsAt(s, 2, 2) && DigitsAt(s, 2, 1) && DigitsAt(s, 4, 2);
    assert DigitsBefore(s, 2, IsDateSep) == 1 && TrailingDigits(s, 4) == 2;
    assert s[2..3] == "3" && s[4..6] == "15";
    assert MatchAt(MonthDay, s, 2) == Some(Match(2, 6, ["3", "15"]));
  }

  /** A month and day without a year are dated in the current year. */
  lemma ListingMonthDayExample()
    ensures ParseListingDate("~ 3/15", 2025) == Some(Date(2025, 3, 15))
  {
    MonthDayTextNoYear();
    MonthDayTextMatch();
    assert FirstMatchingPattern(ListingDatePatterns, "~ 3/15", 0) == Some(2);
    assert "3"[..0] == "" && "15"[..1] == "1";
    assert DecimalValue("3") == 3 && DecimalValue("15") == 15;
  }

  /** The spreadsheet import reads an ISO date cell back as the same date. */
  lemma ImportDateRoundTrip(d: Date)
    requires ValidDate(d)
    ensures ParseImportDate(TextValue(IsoFormat(d))) == Some(d)
  {
    IsoMatches(d);
    IsoGroupValues(d);
  }

  // ---------------------------------------------------------------------------
  // import_jobs.py

  /** A value read from a spreadsheet cell: text, or something else (a number, a missing value). */
  datatype CellValue = TextValue(text: string) | OtherValue

  /**
   * `parse_date` of import_jobs.py: only text is parsed; the first
   * `yyyy[.-] m[.-] d` shape decides, and an impossible date gives None.
   */
  function ParseImportDate(v: CellValue): (r: Option<Date>)
    ensures v.OtherValue? ==> r.None?
    ensures r.Some? ==> ValidDate(r.value)
    ensures v.TextValue? && Search(LooseYmd, v.text).None? ==> r.None?
    ensures v.TextValue? && Search(LooseYmd, v.text).Some? ==>
              var g := Search(LooseYmd, v.text).value.groups;
              r == MakeDate(DecimalValue(g[0]), DecimalValue(g[1]), DecimalValue(g[2]))
  {
    match v
    case OtherValue => None
    case TextValue(s) =>
      match Search(LooseYmd, s)
      case None => None
      case Some(m) =>
        MakeDate(DecimalValue(m.groups[0]), DecimalValue(m.groups[1]), DecimalValue(m.groups[2]))
  }
}

=== FILE: grouping.dfy ===
/**
 * The grouping idiom of the listing replies: a dict from each element's
 * key to the list of the values of the elements with that key, filled in
 * one pass. A Python dict remembers insertion order, so the model keeps the keys in
 * order of first appearance next to the map.
 */
module Grouping {
  import opened Seqs

  /** The keys in the order they first appear (the dict's insertion order). */
  function KeyOrder<T>(xs: seq<T>, key: T -> string): (r: seq<string>)
    ensures forall i, j :: 0 <= i < j < |r| ==> r[i] != r[j]
  {
    if xs == [] then []
    else
      var r := KeyOrder(xs[..|xs| - 1], key);
      var k := key(xs[|xs| - 1]);
      if k in r then r else r + [k]
  }

  /** The list the dict holds for key `k`: the values of the elements with that key, in order. */
  function GroupOf<T, V>(xs: seq<T>, key: T -> string, value: T -> V, k: string): (r: seq<V>)
    ensures |r| <= |xs|
  {
    if xs == [] then []
    else
      var last := xs[|xs| - 1];
      GroupOf(xs[..|xs| - 1], key, value, k) + (if key(last) == k then [value(last)] else [])
  }

  /** Every key of the dict comes from some element, and every element's key is in the dict. */
  lemma {:induction false} KeyOrderMembers<T, V>(xs: seq<T>, key: T -> string, value: T -> V)
    ensures forall i :: 0 <= i < |xs| ==> key(xs[i]) in KeyOrder(xs, key)
    ensures forall k :: k in KeyOrder(xs, key) ==> GroupOf(xs, key, value, k) != []
  {
    if xs != [] {
      var init := xs[..|xs| - 1];
      KeyOrderMembers(init, key, value);
      forall i | 0 <= i < |xs|
        ensures key(xs[i]) in KeyOrder(xs, key)
      {
        if i < |xs| - 1 {
          assert xs[i] == init[i];
        }
      }
    }
  }

  /** Every key of the dict is the key of some element. */
  lemma {:induction false} KeyOrderFromElements<T>(xs: seq<T>, key: T -> string)
    ensures forall k :: k in KeyOrder(xs, key) ==> exists m :: 0 <= m < |xs| && key(xs[m]) == k
  {
    if xs != [] {
      var n := |xs| - 1;
      KeyOrderFromElements(xs[..n], key);
      forall k | k in KeyOrder(xs, key)
        ensures exists m :: 0 <= m < |xs| && key(xs[m]) == k
      {
        if k in KeyOrder(xs[..n], key) {
          var m :| 0 <= m < n && key(xs[..n][m]) == k;
          assert xs[m] == xs[..n][m];
        } else {
          assert key(xs[n]) == k;
        }
      }
    }
  }

  /** The key of the element at `n` is a key of the dict. */
  lemma KeyListed<T>(xs: seq<T>, key: T -> string, n: nat)
    requires n < |xs|
    ensures key(xs[n]) in KeyOrder(xs, key)
  {
    KeyOrderMembers(xs, key, (x: T) => x);
  }

  /** A key of the dict is the key of some element. */
  lemma KeyFromElement<T>(xs: seq<T>, key: T -> string, k: string)
    requires k in KeyOrder(xs, key)
    ensures exists m :: 0 <= m < |xs| && key(xs[m]) == k
  {
    KeyOrderFromElements(xs, key);
  }

  /**
   * The keys come in order of first appearance: wherever the key listed at
   * `j` occurs, an element with the key listed at `i < j` occurs earlier.
   */
  lemma {:induction false} KeyOrderBefore<T>(xs: seq<T>, key: T -> string, i: nat, j: nat, n: nat)
    requires i < j < |KeyOrder(xs, key)| && n < |xs| && key(xs[n]) == KeyOrder(xs, key)[j]
    ensures exists m :: 0 <= m < n && key(xs[m]) == KeyOrder(xs, key)[i]
  {
    var last := |xs| - 1;
    var init := xs[..last];
    var ri := KeyOrder(init, key);
    assert KeyOrder(xs, key)[i] == ri[i];
    if j < |ri| {
      assert KeyOrder(xs, key)[j] == ri[j];
      var n' := n;
      if n == last {
        KeyFromElement(init, key, ri[j]);
        n' :| 0 <= n' < last && key(init[n']) == ri[j];
      } else {
        assert init[n] == xs[n];
      }
      KeyOrderBefore(init, key, i, j, n');
      var m :| 0 <= m < n' && key(init[m]) == ri[i];
      assert xs[m] == init[m];
    } else {
      KeyFromElement(init, key, ri[i]);
      var m :| 0 <= m < last && key(init[m]) == ri[i];
      assert xs[m] == init[m];
      if n < last {
        assert init[n] == xs[n];
        KeyListed(init, key, n);
      }
    }
  }

  lemma {:induction false} GroupOfAbsentKey<T, V>(xs: seq<T>, key: T -> string, value: T -> V, k: string)
    requires k !in KeyOrder(xs, key)
    ensures GroupOf(xs, key, value, k) == []
  {
    if xs != [] {
      GroupOfAbsentKey(xs[..|xs| - 1], key, value, k);
    }
  }

  /** The size of each group, as a function of its key. */
  function GroupSize<T, V>(xs: seq<T>, key: T -> string, value: T -> V): string -> int
  {
    k => |GroupOf(xs, key, value, k)|
  }

  lemma {:induction false} GroupSizesGrow<T, V>(keys: seq<string>, xs: seq<T>, key: T -> string, value: T -> V, x: T)
    requires forall i, j :: 0 <= i < j < |keys| ==> keys[i] != keys[j]
    ensures SumOf(keys, GroupSize(xs + [x], key, value)) ==
            SumOf(keys, GroupSize(xs, key, value)) + (if key(x) in keys then 1 else 0)
  {
    if keys != [] {
      var init := keys[..|keys| - 1];
      GroupSizesGrow(init, xs, key, value, x);
      assert (xs + [x])[..|xs + [x]| - 1] == xs;
      assert key(x) in keys <==> key(x) in init || key(x) == keys[|keys| - 1];
    }
  }

  /** Every element lands in exactly one group: the group sizes add up to the number of elements. */
  lemma {:induction false} GroupSizesSum<T, V>(xs: seq<T>, key: T -> string, value: T -> V)
    ensures SumOf(KeyOrder(xs, key), GroupSize(xs, key, value)) == |xs|
  {
    if xs != [] {
      var init := xs[..|xs| - 1];
      var x := xs[|xs| - 1];
      assert xs == init + [x];
      GroupSizesSum(init, key, value);
      var keys := KeyOrder(init, key);
      GroupSizesGrow(keys, init, key, value, x);
      if key(x) !in keys {
        GroupOfAbsentKey(init, key, value, key(x));
        assert KeyOrder(xs, key) == keys + [key(x)];
        SumOfAppend(keys, [key(x)], GroupSize(xs, key, value));
        assert SumOf([key(x)], GroupSize(xs, key, value)) == |GroupOf(xs, key, value, key(x))| by {
          assert [key(x)][..0] == [];
        }
      }
    }
  }

  /** The same sum over any reordering of the keys, such as `sorted(groups.items())`. */
  lemma GroupSizesSumReordered<T, V>(xs: seq<T>, key: T -> string, value: T -> V, keys: seq<string>)
    requires multiset(keys) == multiset(KeyOrder(xs, key))
    ensures SumOf(keys, GroupSize(xs, key, value)) == |xs|
  {
    GroupSizesSum(xs, key, value);
    SumOfPermutation(keys, KeyOrder(xs, key), GroupSize(xs, key, value));
  }

  lemma {:induction false} EmptyGroups<T, V>(keys: seq<string>, key: T -> string, value: T -> V)
    ensures SumOf(keys, GroupSize([], key, value)) == 0
  {
    if keys != [] {
      EmptyGroups(keys[..|keys| - 1], key, value);
    }
  }

  /**
   * Groups listed under any fixed list of distinct keys that covers every
   * element's key also account for every element exactly once.
   */
  lemma {:induction false} GroupSizesCover<T, V>(xs: seq<T>, key: T -> string, value: T -> V, keys: seq<string>)
    requires forall i, j :: 0 <= i < j < |keys| ==> keys[i] != keys[j]
    requires forall i :: 0 <= i < |xs| ==> key(xs[i]) in keys
    ensures SumOf(keys, GroupSize(xs, key, value)) == |xs|
  {
    if xs == [] {
      EmptyGroups(keys, key, value);
    } else {
      var init := xs[..|xs| - 1];
      var x := xs[|xs| - 1];
      assert xs == init + [x];
      GroupSizesCover(init, key, value, keys);
      GroupSizesGrow(keys, init, key, value, x);
    }
  }

  /** The grouping loop: the dict and its insertion order. */
  method GroupLoop<T, V>(xs: seq<T>, key: T -> string, value: T -> V) returns (groups: map<string, seq<V>>, order: seq<string>)
    ensures order == KeyOrder(xs, key)
    ensures groups.Keys == set k | k in order
    ensures forall k :: k in groups ==> groups[k] == GroupOf(xs, key, value, k)
  {
    groups := map[];
    order := [];
    var i := 0;
    while i < |xs|
      invariant 0 <= i <= |xs|
      invariant order == KeyOrder(xs[..i], key)
      invariant groups.Keys == set k | k in order
      invariant forall k :: k in groups ==> groups[k] == GroupOf(xs[..i], key, value, k)
    {
      var k := key(xs[i]);
      assert xs[..i + 1][..i] == xs[..i];
      if k !in groups {
        GroupOfAbsentKey(xs[..i], key, value, k);
        groups := groups[k := []];
        order := order + [k];
      }
      groups := groups[k := groups[k] + [value(xs[i])]];
      i := i + 1;
    }
    assert xs[..i] == xs;
  }
}

=== FILE: import_jobs.dfy ===
/**
 * import_jobs.py: the one-off import of the youth-support spreadsheet
 * (a CSV export) into the job posting table. The table is emptied, the
 * header line is located by its keywords, and every row whose status is
 * '모집중' and whose application period ends today or later becomes a
 * posting.
 *
 * Reading the file and parsing it as CSV are not modelled: the lines of
 * the file and the frame pandas reads from a given header line are inputs.
 */
module ImportJobs {
  import opened Wrappers
  import opened Text
  import opened Seqs
  import opened Dates

  // ---------------------------------------------------------------------------
  // find_header_row

  /** A header line names the status, title and period columns. */
  predicate IsHeaderLine(line: string)
  {
    Contains(line, "모집 여부") && Contains(line, "제목") && Contains(line, "신청기간")
  }

  /**
   * The 0-based number of the header line; `file` is None when the file does
   * not exist. None also when no line is a header line.
   */
  function FindHeaderRow(file: Option<seq<string>>): (r: Option<nat>)
    ensures r.Some? ==> file.Some? && r.value < |file.value| && IsHeaderLine(file.value[r.value]) &&
                        forall j :: 0 <= j < r.value ==> !IsHeaderLine(file.value[j])
    ensures r.None? && file.Some? ==> forall j :: 0 <= j < |file.value| ==> !IsHeaderLine(file.value[j])
  {
    match file
    case None => None
    case Some(lines) => FirstFrom(lines, IsHeaderLine, 0)
  }

  /** The scan over the lines, returning at the first header line. */
  method FindHeaderRowLoop(file: Option<seq<string>>) returns (r: Option<nat>)
    ensures r == FindHeaderRow(file)
  {
    if file.None? {
      return None;
    }
    var lines := file.value;
    var i := 0;
    while i < |lines|
      invariant 0 <= i <= |lines|
      invariant forall j :: 0 <= j < i ==> !IsHeaderLine(lines[j])
    {
      if IsHeaderLine(lines[i]) {
        FirstFromUnique(lines, IsHeaderLine, 0, i);
        return Some(i);
      }
      i := i + 1;
    }
    return None;
  }

  // ---------------------------------------------------------------------------
  // The frame and its cells

  /**
   * A cell as pandas hands it over: text, or a number or missing value
   * (NaN), kept with what `str()` shows for it ("nan" for a missing one).
   */
  datatype Field = Text(text: string) | NonText(shown: string)

  /** How a cell reads as text. */
  function Show(f: Field): string
  {
    match f
    case Text(t) => t
    case NonText(s) => s
  }

  /** The frame read with the header line: the header's column names as written, and the data rows. */
  datatype Frame = Frame(columns: seq<string>, rows: seq<seq<Field>>)

  /** The column that goes by `key` once the column names are stripped. */
  function ColumnOf(columns: seq<string>, key: string): Option<nat>
  {
    FirstFrom(columns, (c: string) => Strip(c) == key, 0)
  }

  /** The cell of column `key`: None when no column goes by `key`; a row shorter than the header reads NaN. */
  function Get(columns: seq<string>, row: seq<Field>, key: string): (r: Option<Field>)
    ensures r.None? <==> forall i :: 0 <= i < |columns| ==> Strip(columns[i]) != key
  {
    match ColumnOf(columns, key)
    case None => None
    case Some(i) => if i < |row| then Some(row[i]) else Some(NonText("nan"))
  }

  /** The cell of column `key` as text; empty when there is no such column. */
  function ShownOr(columns: seq<string>, row: seq<Field>, key: string): string
  {
    match Get(columns, row, key)
    case None => ""
    case Some(f) => Show(f)
  }

  // ---------------------------------------------------------------------------
  // The end of the application period

  /** The stripped last '~'-separated piece of the period. */
  function EndDateText(period: string): string
  {
    var pieces := Split(period, '~');
    Strip(pieces[|pieces| - 1])
  }

  /** The end date text is the stripped text after the last '~': `k` is the position just past it, 0 when there is none. */
  lemma EndDateAfterLastTilde(period: string, k: nat)
    requires k <= |period| && '~' !in period[k..] && (k == 0 || period[k - 1] == '~')
    ensures EndDateText(period) == Strip(period[k..])
  {
    var pieces := Split(period, '~');
    var last := pieces[|pieces| - 1];
    var k0 := |period| - |last|;
    SplitLastSuffix(period, '~');
    assert last == period[k0..] && '~' !in last;
    AfterLastUnique(period, '~', k, k0);
  }

  /** A period without '~' is read whole. */
  lemma EndDateWithoutTilde(period: string)
    requires '~' !in period
    ensures EndDateText(period) == Strip(period)
  {
    SplitLastSuffix(period, '~');
  }

  /** The end of the period, parsed as a date. */
  function EndDate(period: string): (r: Option<Date>)
    ensures r.Some? ==> ValidDate(r.value)
  {
    ParseImportDate(TextValue(EndDateText(period)))
  }

  // ---------------------------------------------------------------------------
  // The rows that become postings

  /** A row of the JobPosting table. */
  datatype Posting = Posting(
    status: Option<Field>, title: Option<Field>, period: string,
    organization: Option<Field>, schedule: Option<Field>, phone: Option<Field>,
    email: Option<Field>, target: Option<Field>, details: Option<Field>,
    link: Option<Field>, endDate: Date)

  /** The posting a row gives, or None when it is not open or its period is over. */
  function RowPosting(columns: seq<string>, row: seq<Field>, today: Day): Option<Posting>
  {
    if Strip(ShownOr(columns, row, "모집 여부")) != "모집중" then None
    else
      var period := ShownOr(columns, row, "신청기간");
      match EndDate(period)
      case None => None
      case Some(end) =>
        if !DateLe(today, end) then None
        else Some(Posting(
          Get(columns, row, "모집 여부"), Get(columns, row, "제목"), period,
          Get(columns, row, "담당기관"), Get(columns, row, "진행일정"), Get(columns, row, "문의 전화"),
          Get(columns, row, "문의 이메일"), Get(columns, row, "지원대상"), Get(columns, row, "상세정보"),
          Get(columns, row, "URL"), end))
  }

  /**
   * A row is imported exactly when its stripped status is '모집중' and the
   * end of its period parses to a date no earlier than today; the posting
   * keeps the raw status and period and carries that end date.
   */
  lemma RowPostingRule(columns: seq<string>, row: seq<Field>, today: Day)
    ensures var period := ShownOr(columns, row, "신청기간");
            RowPosting(columns, row, today).Some? <==>
              Strip(ShownOr(columns, row, "모집 여부")) == "모집중" &&
              EndDate(period).Some? && DateLe(today, EndDate(period).value)
    ensures RowPosting(columns, row, today).Some? ==>
              var p := RowPosting(columns, row, today).value;
              p.status.Some? && Strip(Show(p.status.value)) == "모집중" &&
              p.period == ShownOr(columns, row, "신청기간") &&
              Some(p.endDate) == EndDate(p.period) && DateLe(today, p.endDate) &&
              p.title == Get(columns, row, "제목") && p.link == Get(columns, row, "URL")
  {
  }

  /** The postings of the rows, in row order. */
  function Postings(columns: seq<string>, rows: seq<seq<Field>>, today: Day): seq<Posting>
  {
    Choose(rows, (row: seq<Field>) => RowPosting(columns, row, today))
  }

  /** Every imported posting is open and ends today or later. */
  lemma ImportedAreOpen(columns: seq<string>, rows: seq<seq<Field>>, today: Day, p: Posting)
    requires p in Postings(columns, rows, today)
    ensures p.status.Some? && Strip(Show(p.status.value)) == "모집중"
    ensures Some(p.endDate) == EndDate(p.period) && DateLe(today, p.endDate)
  {
    ChooseMembers(rows, (row: seq<Field>) => RowPosting(columns, row, today), p);
    var i :| 0 <= i < |rows| && RowPosting(columns, rows[i], today) == Some(p);
    RowPostingRule(columns, rows[i], today);
  }

  /** The loop over the frame's rows that appends the postings. */
  method CollectPostings(columns: seq<string>, rows: seq<seq<Field>>, today: Day) returns (out: seq<Posting>)
    ensures out == Postings(columns, rows, today)
  {
    out := [];
    var i := 0;
    while i < |rows|
      invariant 0 <= i <= |rows|
      invariant out == Postings(columns, rows[..i], today)
    {
      assert rows[..i + 1][..i] == rows[..i];
      var status := Strip(ShownOr(columns, rows[i], "모집 여부"));
      if status == "모집중" {
        var period := ShownOr(columns, rows[i], "신청기간");
        var end := EndDate(period);
        if end.Some? && DateLe(today, end.value) {
          var row := rows[i];
          out := out + [Posting(
            Get(columns, row, "모집 여부"), Get(columns, row, "제목"), period,
            Get(columns, row, "담당기관"), Get(columns, row, "진행일정"), Get(columns, row, "문의 전화"),
            Get(columns, row, "문의 이메일"), Get(columns, row, "지원대상"), Get(columns, row, "상세정보"),
            Get(columns, row, "URL"), end.value)];
        }
      }
      i := i + 1;
    }
    assert rows[..i] == rows;
  }

  // ---------------------------------------------------------------------------
  // import_csv_to_db

  /** How an import ends: no header line, a failed read, no status column, or the postings saved. */
  datatype Outcome = NoHeader | ReadFailed | NoStatusColumn | Imported(postings: seq<Posting>)

  /**
   * The import: `read(h)` is the frame pandas reads with line `h` as the
   * header, None when reading raises.
   */
  function ImportCsv(file: Option<seq<string>>, read: nat -> Option<Frame>, today: Day): Outcome
  {
    match FindHeaderRow(file)
    case None => NoHeader
    case Some(h) =>
      match read(h)
      case None => ReadFailed
      case Some(frame) =>
        if ColumnOf(frame.columns, "모집 여부").None? then NoStatusColumn
        else Imported(Postings(frame.columns, frame.rows, today))
  }

  /** The rows the table holds after an import ends this way: only an import that got through saves any. */
  function SavedRows(outcome: Outcome): seq<Posting>
  {
    if outcome.Imported? then outcome.postings else []
  }

  /**
   * An import saves postings only when the file has a header line, the
   * frame read from it has a status column, and then every saved posting is
   * open and ends today or later.
   */
  lemma ImportSavesOpenPostings(file: Option<seq<string>>, read: nat -> Option<Frame>, today: Day, p: Posting)
    requires p in SavedRows(ImportCsv(file, read, today))
    ensures FindHeaderRow(file).Some?
    ensures read(FindHeaderRow(file).value).Some?
    ensures exists i :: 0 <= i < |read(FindHeaderRow(file).value).value.columns| &&
                        Strip(read(FindHeaderRow(file).value).value.columns[i]) == "모집 여부"
    ensures p.status.Some? && Strip(Show(p.status.value)) == "모집중"
    ensures Some(p.endDate) == EndDate(p.period) && DateLe(today, p.endDate)
  {
    var frame := read(FindHeaderRow(file).value).value;
    var k := ColumnOf(frame.columns, "모집 여부").value;
    assert Strip(frame.columns[k]) == "모집 여부";
    ImportedAreOpen(frame.columns, frame.rows, today, p);
  }

  /** The JobPosting table. */
  class PostingTable {
    var rows: seq<Posting>

    constructor (initial: seq<Posting>)
      ensures rows == initial
    {
      rows := initial;
    }

    /**
     * `import_csv_to_db`: the table is emptied first, whatever follows, and
     * holds the new postings when the import gets through.
     */
    method ImportCsvToDb(file: Option<seq<string>>, read: nat -> Option<Frame>, today: Day) returns (outcome: Outcome)
      modifies this
      ensures outcome == ImportCsv(file, read, today)
      ensures rows == SavedRows(outcome)
    {
      rows := [];
      var header := FindHeaderRowLoop(file);
      if header.None? {
        return NoHeader;
      }
      var frame := read(header.value);
      if frame.None? {
        return ReadFailed;
      }
      if ColumnOf(frame.value.columns, "모집 여부").None? {
        return NoStatusColumn;
      }
      var postings := CollectPostings(frame.value.columns, frame.value.rows, today);
      if postings != [] {
        rows := postings;
      }
      return Imported(postings);
    }
  }
}

=== FILE: job_scraper.dfy ===
/**
 * services/scraper_service.py: the latest company and public job postings
 * of busanjob.net, soonest deadline first.
 *
 * Pages are tables of cells (module Tables); fetching is a function from URL
 * to an optional page (`None` for a request that raises), and the current
 * year is a parameter. The one-second pause between the two requests is
 * not modelled.
 */
module JobScraper {
  import opened Wrappers
  import opened Text
  import opened Seqs
  import opened Dates
  import opened Sorting
  import opened Tables
  import opened DatedOrder

  /** The `job_info` dict of `extract_job_info_from_row`. */
  datatype Listing = Listing(
    jobType: string, company: string, title: string, location: string, deadline: string,
    registerDate: string, link: string, details: string)

  function BlankListing(jobType: string): Listing
  {
    Listing(jobType, "", "", "", "", "", "", "")
  }

  // ---------------------------------------------------------------------------
  // get_job_list_urls

  const BaseUrl := "https://busanjob.net"
  const ListPage := "/01_emif/emif01_1.asp?"
  /** The query that marks the company listing. */
  const CompanyMarker := "mbs=B"
  const CompanyJobsPath := ListPage + CompanyMarker
  const PublicJobsPath := ListPage + "mbs=P"

  /** `get_job_list_urls`: each listing path joined onto the base URL. */
  function JobListUrls(): seq<string>
  {
    [UrlJoin(BaseUrl, CompanyJobsPath), UrlJoin(BaseUrl, PublicJobsPath)]
  }

  /** The posting type a listing URL stands for: company jobs when it carries the company marker. */
  function JobTypeOf(url: string): string
  {
    if Contains(url, CompanyMarker) then "기업채용" else "공공채용"
  }

  /** The base URL has no path, so it is its own origin. */
  lemma BaseUrlIsOrigin()
    ensures Origin(BaseUrl) == BaseUrl
  {
    BaseUrlScheme();
    assert '/' !in BaseUrl[8..];
  }

  /** The scheme separator of the base URL ends at its eighth character. */
  lemma BaseUrlScheme()
    ensures Find(BaseUrl, "://") == Some(5)
  {
    forall j | 0 <= j < 5
      ensures !OccursAt(BaseUrl, "://", j)
    {
      assert BaseUrl[j..j + 3][0] == BaseUrl[j];
    }
    assert BaseUrl[5..8] == "://";
  }

  /** `urljoin` puts each listing path right after the base URL. */
  lemma JobListUrlsExact()
    ensures JobListUrls() == [BaseUrl + CompanyJobsPath, BaseUrl + PublicJobsPath]
  {
    BaseUrlIsOrigin();
    assert CompanyJobsPath[0] == ListPage[0] == '/';
    assert PublicJobsPath[0] == ListPage[0];
  }

  /** The first listing is the company one. */
  lemma CompanyListType()
    ensures JobTypeOf(JobListUrls()[0]) == "기업채용"
  {
    JobListUrlsExact();
    assert BaseUrl + CompanyJobsPath == BaseUrl + ListPage + CompanyMarker + "";
    ContainsMiddle(BaseUrl + ListPage, CompanyMarker, "");
  }

  lemma BaseUrlHasNoB()
    ensures 'B' !in BaseUrl
  {
  }

  lemma PublicPathHasNoB()
    ensures 'B' !in PublicJobsPath
  {
    assert 'B' !in ListPage;
  }

  /** The second listing is the public one: its URL has no `B` at all. */
  lemma PublicListType()
    ensures JobTypeOf(JobListUrls()[1]) == "공공채용"
  {
    JobListUrlsExact();
    BaseUrlHasNoB();
    PublicPathHasNoB();
    assert 'B' !in BaseUrl + PublicJobsPath;
    assert 'B' in CompanyMarker;
    MissingCharNotContained(BaseUrl + PublicJobsPath, CompanyMarker, 'B');
  }

  // ---------------------------------------------------------------------------
  // extract_job_info_from_row

  /** A cell that becomes the title while none is set: a non-blank text over 2 characters. */
  predicate ListingTitleCell(c: Cell)
  {
    !IsBlank(c.text) && |c.text| > 2
  }

  /** A cell that becomes the company once a title is set: a non-blank text over 1 character. */
  predicate CompanyCell(c: Cell)
  {
    !IsBlank(c.text) && |c.text| > 1
  }

  /** One turn of the loop over the cell texts. */
  function ApplyListingCell(j: Listing, c: Cell, base: string): (r: Listing)
    ensures r.jobType == j.jobType && r.details == j.details && r.location == j.location
  {
    var text := c.text;
    if IsBlank(text) then j
    else if j.title == "" && |text| > 2 then j.(title := text, link := CellLink(base, c, j.link))
    else if j.company == "" && j.title != "" && |text| > 1 then j.(company := text)
    else if IsDateFormat(text) then
      if j.registerDate == "" then j.(registerDate := text)
      else if j.deadline == "" then j.(deadline := text)
      else j
    else j
  }

  function ApplyListingCells(j: Listing, cells: Row, base: string): Listing
  {
    if cells == [] then j
    else ApplyListingCell(ApplyListingCells(j, cells[..|cells| - 1], base), cells[|cells| - 1], base)
  }

  function ListingTitle(cells: Row): Option<nat>
  {
    FirstFrom(cells, ListingTitleCell, 0)
  }

  /** The company cell: the first company cell after the title cell. */
  function CompanyIndex(cells: Row): (r: Option<nat>)
    ensures r.Some? ==> ListingTitle(cells).Some? && ListingTitle(cells).value < r.value < |cells|
  {
    match ListingTitle(cells)
    case None => None
    case Some(k) => FirstFrom(cells, CompanyCell, k + 1)
  }

  /** How the title and company cells change when the row grows by one cell. */
  lemma TitleCompanyPrefix(cells: Row, n: nat)
    requires n < |cells|
    ensures var pre := cells[..n];
            var ext := cells[..n + 1];
            ListingTitle(ext) == (if ListingTitle(pre).Some? then ListingTitle(pre)
                                  else if ListingTitleCell(cells[n]) then Some(n) else None) &&
            CompanyIndex(ext) == (if ListingTitle(pre).None? || CompanyIndex(pre).Some? then CompanyIndex(pre)
                                  else if CompanyCell(cells[n]) then Some(n) else None)
  {
    FirstFromPrefix(cells, ListingTitleCell, 0, n);
    if ListingTitle(cells[..n]).Some? {
      FirstFromPrefix(cells, CompanyCell, ListingTitle(cells[..n]).value + 1, n);
    }
  }

  /**
   * The title is the first non-blank text over 2 characters and the link is
   * that cell's `href` (made absolute); the company is the first non-blank
   * text over 1 character after it.
   */
  lemma {:induction false} ListingTitleCompanyRule(jobType: string, cells: Row, base: string)
    ensures var r := ApplyListingCells(BlankListing(jobType), cells, base);
            match ListingTitle(cells)
            case None => r.title == "" && r.link == "" && r.company == ""
            case Some(k) =>
              r.title == cells[k].text && r.link == CellLink(base, cells[k], "") &&
              r.company == match CompanyIndex(cells) case None => "" case Some(m) => cells[m].text
  {
    if cells != [] {
      var n := |cells| - 1;
      ListingTitleCompanyRule(jobType, cells[..n], base);
      TitleCompanyPrefix(cells, n);
      assert cells[..n + 1] == cells;
    }
  }

  /**
   * Whether the last cell of `pre + [c]` reaches the date branch: it is not
   * blank, not taken as the title or the company, and has a date shape.
   */
  predicate ReachesDate(pre: Row, c: Cell)
  {
    !IsBlank(c.text) &&
    !(ListingTitle(pre).None? && |c.text| > 2) &&
    !(ListingTitle(pre).Some? && CompanyIndex(pre).None? && |c.text| > 1) &&
    IsDateFormat(c.text)
  }

  /** The texts the date branch sees, in order. */
  function DateTexts(cells: Row): seq<string>
  {
    if cells == [] then []
    else
      var n := |cells| - 1;
      DateTexts(cells[..n]) + (if ReachesDate(cells[..n], cells[n]) then [cells[n].text] else [])
  }

  function NthOr(xs: seq<string>, k: nat, default: string): string
  {
    if k < |xs| then xs[k] else default
  }

  /** The date branch's texts are never empty. */
  lemma DateTextsNonEmpty(cells: Row)
    ensures forall t :: t in DateTexts(cells) ==> t != ""
  {
    if cells != [] {
      DateTextsNonEmpty(cells[..|cells| - 1]);
    }
  }

  /** After the cells `pre`, the title and company fields are set exactly when their cells were found. */
  lemma TitleCompanySet(jobType: string, pre: Row, base: string)
    ensures var j := ApplyListingCells(BlankListing(jobType), pre, base);
            (j.title == "" <==> ListingTitle(pre).None?) &&
            (ListingTitle(pre).Some? ==> (j.company == "" <==> CompanyIndex(pre).None?))
  {
    ListingTitleCompanyRule(jobType, pre, base);
  }

  /** One cell moves a date into the first empty date field exactly when it reaches the date branch. */
  lemma DateStep(j: Listing, pre: Row, c: Cell, base: string)
    requires j.title == "" <==> ListingTitle(pre).None?
    requires ListingTitle(pre).Some? ==> (j.company == "" <==> CompanyIndex(pre).None?)
    ensures var r := ApplyListingCell(j, c, base);
            if ReachesDate(pre, c) && j.registerDate == "" then
              r.registerDate == c.text && r.deadline == j.deadline
            else if ReachesDate(pre, c) && j.deadline == "" then
              r.registerDate == j.registerDate && r.deadline == c.text
            else
              r.registerDate == j.registerDate && r.deadline == j.deadline
  {
  }

  /** The first text that reaches the date branch is the register date and the second the deadline. */
  lemma {:induction false} ListingDatesRule(jobType: string, cells: Row, base: string)
    ensures var r := ApplyListingCells(BlankListing(jobType), cells, base);
            r.registerDate == NthOr(DateTexts(cells), 0, "") && r.deadline == NthOr(DateTexts(cells), 1, "")
  {
    if cells != [] {
      var n := |cells| - 1;
      var pre := cells[..n];
      ListingDatesRule(jobType, pre, base);
      TitleCompanySet(jobType, pre, base);
      var j := ApplyListingCells(BlankListing(jobType), pre, base);
      DateStep(j, pre, cells[n], base);
      DateTextsNonEmpty(pre);
      var d := DateTexts(pre);
      assert |d| > 0 ==> d[0] in d;
      assert |d| > 1 ==> d[1] in d;
      assert ApplyListingCells(BlankListing(jobType), cells, base) == ApplyListingCell(j, cells[n], base);
      assert DateTexts(cells) == d + (if ReachesDate(pre, cells[n]) then [cells[n].text] else []);
    }
  }

  /** A text that is not blank and not all digits is part of `details`. */
  predicate IsListingDetail(t: string)
  {
    !IsBlank(t)
  }

  /** `extract_job_info_from_row` of the busanjob.net listing scraper. */
  function ExtractListing(cells: Row, jobType: string, base: string): (r: Option<Listing>)
    ensures r.Some? <==> |cells| >= 3 && ListingTitle(cells).Some?
    ensures r.Some? ==> var k := ListingTitle(cells).value;
                        r.value.title == cells[k].text && r.value.link == CellLink(base, cells[k], "") &&
                        r.value.jobType == jobType && r.value.details == Join(" | ", Filter(Texts(cells), IsListingDetail))
  {
    if |cells| < 3 then None
    else
      var j := ApplyListingCells(BlankListing(jobType), cells, base);
      ListingTitleCompanyRule(jobType, cells, base);
      ListingFixedFields(jobType, cells, base);
      if j.title != "" then Some(j.(details := Join(" | ", Filter(Texts(cells), IsListingDetail)))) else None
  }

  /** The job type, details and location are never set by a cell. */
  lemma {:induction false} ListingFixedFields(jobType: string, cells: Row, base: string)
    ensures var r := ApplyListingCells(BlankListing(jobType), cells, base);
            r.jobType == jobType && r.details == "" && r.location == ""
  {
    if cells != [] {
      ListingFixedFields(jobType, cells[..|cells| - 1], base);
    }
  }

  /** The method form: the loop over the cell texts filling the dict. */
  method ExtractListingFromRow(cells: Row, jobType: string, base: string) returns (r: Option<Listing>)
    ensures r == ExtractListing(cells, jobType, base)
  {
    if |cells| < 3 {
      return None;
    }
    var j := BlankListing(jobType);
    var i := 0;
    while i < |cells|
      invariant 0 <= i <= |cells|
      invariant j == ApplyListingCells(BlankListing(jobType), cells[..i], base)
    {
      assert cells[..i + 1][..i] == cells[..i];
      j := ApplyListingCell(j, cells[i], base);
      i := i + 1;
    }
    assert cells[..i] == cells;
    j := j.(details := Join(" | ", Filter(Texts(cells), IsListingDetail)));
    r := if j.title != "" then Some(j) else None;
  }

  // ---------------------------------------------------------------------------
  // scrape_job_listings and get_latest_jobs

  const ListingHeaderWords: seq<string> := ["번호", "제목", "회사", "등록일", "마감일"]

  /** What one row of a listing adds to `jobs`. */
  function ListingRow(url: string, jobType: string, i: nat, cells: Row): (r: Option<Listing>)
    ensures r.Some? ==> |r.value.title| > 2 && r.value.jobType == jobType
    ensures r.Some? ==> |cells| >= 3 && !(i == 0 && IsHeaderRow(cells, ListingHeaderWords))
  {
    if |cells| < 3 then None
    else if i == 0 && IsHeaderRow(cells, ListingHeaderWords) then None
    else
      match ExtractListing(cells, jobType, url)
      case None => None
      case Some(j) => if |j.title| > 2 then Some(j) else None
  }

  function ListingPick(url: string, jobType: string): (nat, Row) -> Option<Listing>
  {
    (i: nat, cells: Row) => ListingRow(url, jobType, i, cells)
  }

  /** The parsed deadline of a posting. */
  function DeadlineOf(currentYear: int): Listing -> Option<Date>
  {
    (j: Listing) => ParseListingDate(j.deadline, currentYear)
  }

  /**
   * `scrape_job_listings(url, job_type, max_jobs)`: at most `maxJobs`
   * postings, those with a deadline first and soonest first; none when the
   * request raises.
   */
  function JobListings(fetch: string -> Option<seq<Table>>, url: string, jobType: string, maxJobs: nat,
                       currentYear: int): seq<Listing>
  {
    match fetch(url)
    case None => []
    case Some(tables) => DatedFirst(Take(PickTables(tables, ListingPick(url, jobType)), maxJobs), DeadlineOf(currentYear), false)
  }

  method ScrapeJobListings(fetch: string -> Option<seq<Table>>, url: string, jobType: string, maxJobs: nat,
                           currentYear: int)
    returns (jobs: seq<Listing>)
    ensures jobs == JobListings(fetch, url, jobType, maxJobs, currentYear)
  {
    var page := fetch(url);
    if page.None? {
      return [];
    }
    var collected := CollectCapped(page.value, ListingPick(url, jobType), maxJobs);
    jobs := DatedFirstLoop(collected, DeadlineOf(currentYear), false);
  }

  /** At most `maxJobs` postings of the listing's type, ranked soonest deadline first. */
  lemma JobListingsShape(fetch: string -> Option<seq<Table>>, url: string, jobType: string, maxJobs: nat,
                         currentYear: int)
    ensures var r := JobListings(fetch, url, jobType, maxJobs, currentYear);
            |r| <= maxJobs && Ranked(r, DeadlineOf(currentYear), false) &&
            forall x :: x in r ==> x.jobType == jobType && |x.title| > 2
  {
    if fetch(url).Some? {
      var all := PickTables(fetch(url).value, ListingPick(url, jobType));
      var collected := Take(all, maxJobs);
      var r := DatedFirst(collected, DeadlineOf(currentYear), false);
      assert multiset(r) == multiset(collected) && |r| <= maxJobs by {
        DatedFirstOrder(collected, DeadlineOf(currentYear), false);
      }
      assert Ranked(r, DeadlineOf(currentYear), false) by {
        DatedFirstRanked(collected, DeadlineOf(currentYear), false, |r|);
        assert Take(r, |r|) == r;
      }
      forall x | x in r
        ensures x.jobType == jobType && |x.title| > 2
      {
        assert x in all by {
          assert x in multiset(collected);
        }
        PickTablesFrom(fetch(url).value, ListingPick(url, jobType), x);
      }
    }
  }

  /** The postings of the listings, one listing after the other. */
  function AllListings(fetch: string -> Option<seq<Table>>, urls: seq<string>, maxJobs: nat, currentYear: int): seq<Listing>
  {
    if urls == [] then []
    else
      var u := urls[|urls| - 1];
      AllListings(fetch, urls[..|urls| - 1], maxJobs, currentYear) + JobListings(fetch, u, JobTypeOf(u), maxJobs, currentYear)
  }

  /** `get_latest_jobs(max_jobs)`: both listings merged, dated first and soonest first, cut to `maxJobs`. */
  function LatestJobs(fetch: string -> Option<seq<Table>>, maxJobs: nat, currentYear: int): seq<Listing>
  {
    Take(DatedFirst(AllListings(fetch, JobListUrls(), maxJobs, currentYear), DeadlineOf(currentYear), false), maxJobs)
  }

  method GetLatestJobs(fetch: string -> Option<seq<Table>>, maxJobs: nat, currentYear: int) returns (jobs: seq<Listing>)
    ensures jobs == LatestJobs(fetch, maxJobs, currentYear)
  {
    var all := ScrapeAllListings(fetch, JobListUrls(), maxJobs, currentYear);
    var date := DeadlineOf(currentYear);
    var withDates := Filter(all, HasDate(date));
    var withoutDates := Filter(all, LacksDate(date));
    jobs := Take(SortBy(withDates, DateKeyOf(date), false) + withoutDates, maxJobs);
  }

  /** The loop over the listing URLs, extending the merged list. */
  method ScrapeAllListings(fetch: string -> Option<seq<Table>>, urls: seq<string>, maxJobs: nat, currentYear: int)
    returns (all: seq<Listing>)
    ensures all == AllListings(fetch, urls, maxJobs, currentYear)
  {
    all := [];
    var u := 0;
    while u < |urls|
      invariant 0 <= u <= |urls|
      invariant all == AllListings(fetch, urls[..u], maxJobs, currentYear)
    {
      assert urls[..u + 1][..u] == urls[..u];
      var jobType := JobTypeOf(urls[u]);
      var listed := ScrapeJobListings(fetch, urls[u], jobType, maxJobs, currentYear);
      all := all + listed;
      u := u + 1;
    }
    assert urls[..u] == urls;
  }

  /** Every merged posting is a company or a public posting, with a title over 2 characters. */
  lemma AllListingsQualify(fetch: string -> Option<seq<Table>>, urls: seq<string>, maxJobs: nat, currentYear: int)
    ensures forall x :: x in AllListings(fetch, urls, maxJobs, currentYear) ==>
              (x.jobType == "기업채용" || x.jobType == "공공채용") && |x.title| > 2
  {
    if urls != [] {
      var u := urls[|urls| - 1];
      AllListingsQualify(fetch, urls[..|urls| - 1], maxJobs, currentYear);
      JobListingsShape(fetch, u, JobTypeOf(u), maxJobs, currentYear);
    }
  }

  /**
   * At most `maxJobs` postings, dated ones first and soonest first; and,
   * when the merge holds no more than `maxJobs`, every posting of both
   * listings is there.
   */
  lemma LatestJobsShape(fetch: string -> Option<seq<Table>>, maxJobs: nat, currentYear: int)
    ensures var r := LatestJobs(fetch, maxJobs, currentYear);
            |r| <= maxJobs && Ranked(r, DeadlineOf(currentYear), false) &&
            forall x :: x in r ==> (x.jobType == "기업채용" || x.jobType == "공공채용") && |x.title| > 2
    ensures var all := AllListings(fetch, JobListUrls(), maxJobs, currentYear);
            |all| <= maxJobs ==> multiset(LatestJobs(fetch, maxJobs, currentYear)) == multiset(all)
  {
    var all := AllListings(fetch, JobListUrls(), maxJobs, currentYear);
    var ordered := DatedFirst(all, DeadlineOf(currentYear), false);
    DatedFirstRanked(all, DeadlineOf(currentYear), false, maxJobs);
    DatedFirstOrder(all, DeadlineOf(currentYear), false);
    AllListingsQualify(fetch, JobListUrls(), maxJobs, currentYear);
    forall x | x in Take(ordered, maxJobs)
      ensures (x.jobType == "기업채용" || x.jobType == "공공채용") && |x.title| > 2
    {
      assert x in multiset(ordered);
    }
    if |all| <= maxJobs {
      assert Take(ordered, maxJobs) == ordered;
    }
  }
}

=== FILE: program_crawler.dfy ===
/**
 * services/youth_program_crawler.py: the crawler of the programs the Busan
 * youth portal lists as open for application (모집중), its 6-hour cache,
 * and the text replies built from its data.
 *
 * A fetched page is abstracted to what the crawler's CSS selectors pick
 * out of it: the number of `.recruit_state` elements and, for every
 * `ul li`, the texts (`get_text(strip=True)`) and href the extraction reads.
 */
module ProgramCrawler {
  import opened Wrappers
  import opened Text
  import opened Seqs
  import opened Sorting
  import opened Cache
  import opened Grouping

  /** One program, as `extract_program_info_from_li` builds it. */
  datatype Program = Program(
    title: string, region: string, location: string, status: string,
    applicationPeriod: string, link: string, programDate: string, description: string)

  /**
   * One `ul li`: the `href` of its first `a` (`''` when missing), whether it
   * has a `.recruit_state`, the text of `.recruit_state .ing`, of
   * `.recruit_tit`, of the spans of `.recruit_date` and of `.part3`.
   */
  datatype ProgramItem = ProgramItem(
    anchorHref: Option<string>, hasRecruitState: bool, stateText: Option<string>,
    title: Option<string>, dateSpans: Option<seq<string>>, part3: Option<string>)

  /** A list page: the number of `.recruit_state` elements and the `ul li` items. */
  datatype ProgramPage = ProgramPage(recruitStateCount: nat, items: seq<ProgramItem>)

  const ProgramBaseUrl: string := "https://young.busan.go.kr"

  /** The only status the crawler keeps. */
  const Recruiting: string := "모집중"

  // ---------------------------------------------------------------------------
  // The district in a title: re.search(r'\[([^]]+구)\]', title).group(1)

  /** A text the pattern's group can capture: no `]`, at least one character, then 구. */
  predicate IsDistrictName(g: string)
  {
    |g| >= 2 && g[|g| - 1] == '구' && ']' !in g
  }

  /**
   * The group of a match starting at `i`. `[^]]+` cannot cross a `]`, so the
   * match, if any, ends at the first `]` after the `[`.
   */
  function BracketRegionAt(s: string, i: nat): (r: Option<string>)
    ensures r.Some? ==> IsDistrictName(r.value) && OccursAt(s, "[" + r.value + "]", i)
  {
    if i < |s| && s[i] == '[' then
      match IndexOfChar(s[i + 1..], ']')
      case None => None
      case Some(k) =>
        if k >= 2 && s[i + k] == '구' then
          var g := s[i + 1..i + 1 + k];
          assert s[i..i + |g| + 2] == "[" + g + "]";
          Some(g)
        else None
    else None
  }

  /** The leftmost match at or after `from`. */
  function BracketRegionFrom(s: string, from: nat): (r: Option<string>)
    decreases |s| - from
    ensures r.Some? ==> IsDistrictName(r.value) && exists i :: from <= i && OccursAt(s, "[" + r.value + "]", i)
    ensures r.None? ==> forall i :: from <= i < |s| ==> BracketRegionAt(s, i).None?
  {
    if from >= |s| then None
    else
      match BracketRegionAt(s, from)
      case Some(g) => Some(g)
      case None => BracketRegionFrom(s, from + 1)
  }

  /** The bracket found is the leftmost: every position before it has none. */
  lemma {:induction false} BracketRegionFromLeftmost(s: string, from: nat)
    decreases |s| - from
    requires BracketRegionFrom(s, from).Some?
    ensures exists i :: from <= i < |s| && BracketRegionAt(s, i) == BracketRegionFrom(s, from) &&
                        forall j :: from <= j < i ==> BracketRegionAt(s, j).None?
  {
    if BracketRegionAt(s, from).None? {
      BracketRegionFromLeftmost(s, from + 1);
    }
  }

  /**
   * The district named in brackets in a title, if any: the group of the
   * leftmost match, as `re.search` takes it.
   */
  function BracketRegion(title: string): (r: Option<string>)
    ensures r.Some? ==> IsDistrictName(r.value) && Contains(title, "[" + r.value + "]")
    ensures r.Some? ==> exists i :: 0 <= i < |title| && BracketRegionAt(title, i) == r &&
                                    forall j :: 0 <= j < i ==> BracketRegionAt(title, j).None?
    ensures r.None? <==> forall i :: 0 <= i < |title| ==> BracketRegionAt(title, i).None?
  {
    if BracketRegionFrom(title, 0).Some? then
      BracketRegionFromLeftmost(title, 0);
      BracketRegionFrom(title, 0)
    else None
  }

  /** Of two bracketed districts, the first one is the region. */
  lemma FirstBracketWins()
    ensures BracketRegion("[중구][동구] 청년 특강") == Some("중구")
  {
    var s := "[중구][동구] 청년 특강";
    var t := s[1..];
    assert t[0] == '중' && t[1] == '구' && t[2] == ']';
    assert t[1..][1..][0] == ']';
    assert IndexOfChar(t[1..][1..], ']') == Some(0);
    assert IndexOfChar(t[1..], ']') == Some(1);
    assert IndexOfChar(t, ']') == Some(2);
    assert s[1..3] == "중구";
    assert BracketRegionAt(s, 0) == Some("중구");
  }

  // ---------------------------------------------------------------------------
  // extract_program_info_from_li, extract_programs_from_page

  /** The link: the href resolved against the portal, when there is one. */
  function LinkOf(href: Option<string>): (r: string)
    ensures href.None? || href.value == "" <==> r == ""
  {
    match href
    case Some(h) => if h != "" then UrlJoin(ProgramBaseUrl, h) else ""
    case None => ""
  }

  /**
   * The record an item yields: only items marked 모집중 with a non-empty
   * title; the region is the district bracketed in the title, the period the
   * second date span, the location the `.part3` text.
   */
  function ProgramFromItem(item: ProgramItem): (r: Option<Program>)
    ensures r.Some? <==> item.stateText == Some(Recruiting) && item.title.Some? && item.title.value != ""
    ensures r.Some? ==> r.value.status == Recruiting && r.value.title == item.title.value
    ensures r.Some? ==> r.value.region == BracketRegion(r.value.title).GetOr("")
    ensures r.Some? ==> r.value.programDate == "" && r.value.description == ""
  {
    if item.stateText != Some(Recruiting) then None
    else
      var title := item.title.GetOr("");
      var region := match BracketRegion(title) case Some(g) => g case None => "";
      var period :=
        if item.dateSpans.Some? && |item.dateSpans.value| >= 2 then item.dateSpans.value[1] else "";
      var location := item.part3.GetOr("");
      if title != "" then Some(Program(title, region, location, Recruiting, period, LinkOf(item.anchorHref), "", ""))
      else None
  }

  /** A crawled record: open for application and titled. */
  predicate IsOpenProgram(p: Program)
  {
    p.status == Recruiting && p.title != ""
  }

  /** The records of a page, in item order, from the items that have a `.recruit_state`. */
  /** One more item of the prefix the extraction loop has read. */
  lemma ProgramsOfItemsStep(items: seq<ProgramItem>, i: nat)
    requires i < |items|
    ensures ProgramsOfItems(items[..i + 1]) ==
              ProgramsOfItems(items[..i]) +
              (if items[i].hasRecruitState && ProgramFromItem(items[i]).Some? then [ProgramFromItem(items[i]).value] else [])
  {
    assert items[..i + 1][..i] == items[..i];
  }

  function ProgramsOfItems(items: seq<ProgramItem>): (r: seq<Program>)
    ensures |r| <= |items|
    ensures forall k :: 0 <= k < |r| ==> IsOpenProgram(r[k])
  {
    if items == [] then []
    else
      var last := items[|items| - 1];
      var info := if last.hasRecruitState then ProgramFromItem(last) else None;
      ProgramsOfItems(items[..|items| - 1]) + (if info.Some? then [info.value] else [])
  }

  /** `has_program_content`: a page was loaded and has at least one `.recruit_state`. */
  predicate HasProgramContent(soup: Option<ProgramPage>)
  {
    soup.Some? && soup.value.recruitStateCount > 0
  }

  // ---------------------------------------------------------------------------
  // crawl_all_programs

  const ProgramListUrl: string := "https://young.busan.go.kr/policySupport/act.nm?menuCd=261"

  /** The pagination URLs tried, in order, for a page after the first. */
  function PageUrls(page: nat): seq<string>
  {
    var n := NatToString(page);
    [ProgramListUrl + "&pageIndex=" + n, ProgramListUrl + "&page=" + n, ProgramListUrl + "&currentPage=" + n]
  }

  /** The first of `urls` that loads with content. */
  function ContentPage(fetch: string -> Option<ProgramPage>, urls: seq<string>): (r: Option<ProgramPage>)
    ensures r.None? || HasProgramContent(r)
  {
    if urls == [] then None
    else if HasProgramContent(fetch(urls[0])) then fetch(urls[0])
    else ContentPage(fetch, urls[1..])
  }

  /** What a page does to the crawl. */
  datatype PageOutcome = StopCrawl | SkipPage | Collect(programs: seq<Program>)

  /** A page whose items yield no records ends the crawl. */
  function CollectOrStop(ps: seq<Program>): (r: PageOutcome)
    ensures r.Collect? ==> r.programs == ps && ps != []
    ensures r.StopCrawl? <==> ps == []
  {
    if ps == [] then StopCrawl else Collect(ps)
  }

  /**
   * Page 1 that fails to load is skipped; a later page for which no
   * pagination URL loads with content ends the crawl.
   */
  function PageStep(fetch: string -> Option<ProgramPage>, page: nat): PageOutcome
  {
    if page == 1 then
      match fetch(ProgramListUrl)
      case None => SkipPage
      case Some(p) => CollectOrStop(ProgramsOfItems(p.items))
    else
      match ContentPage(fetch, PageUrls(page))
      case None => StopCrawl
      case Some(p) => CollectOrStop(ProgramsOfItems(p.items))
  }

  /** The number of pages `crawl_all_programs` visits at most. */
  const ProgramPages: nat := 5

  /** The records of pages `page`..5, stopping at the first page that ends the crawl. */
  function CrawlFrom(fetch: string -> Option<ProgramPage>, page: nat): seq<Program>
    requires page >= 1
    decreases ProgramPages + 1 - page
  {
    if page > ProgramPages then []
    else
      match PageStep(fetch, page)
      case StopCrawl => []
      case SkipPage => CrawlFrom(fetch, page + 1)
      case Collect(ps) => ps + CrawlFrom(fetch, page + 1)
  }

  /** One page of the crawl, seen from the page the loop fetched. */
  lemma CrawlFromPage(fetch: string -> Option<ProgramPage>, page: nat, soup: Option<ProgramPage>)
    requires 1 <= page <= ProgramPages
    requires page == 1 ==> soup == fetch(ProgramListUrl)
    requires page > 1 ==> soup == ContentPage(fetch, PageUrls(page)) ||
                          (!HasProgramContent(soup) && ContentPage(fetch, PageUrls(page)).None?)
    ensures page == 1 && soup.None? ==> CrawlFrom(fetch, page) == CrawlFrom(fetch, page + 1)
    ensures page > 1 && !HasProgramContent(soup) ==> CrawlFrom(fetch, page) == []
    ensures soup.Some? && (page == 1 || HasProgramContent(soup)) ==>
              CrawlFrom(fetch, page) ==
                if ProgramsOfItems(soup.value.items) == [] then []
                else ProgramsOfItems(soup.value.items) + CrawlFrom(fetch, page + 1)
  {
  }

  function CrawledPrograms(fetch: string -> Option<ProgramPage>): seq<Program>
  {
    CrawlFrom(fetch, 1)
  }

  lemma {:induction false} CrawlFromOpen(fetch: string -> Option<ProgramPage>, page: nat)
    requires page >= 1
    decreases ProgramPages + 1 - page
    ensures forall k :: 0 <= k < |CrawlFrom(fetch, page)| ==> IsOpenProgram(CrawlFrom(fetch, page)[k])
  {
    if page <= ProgramPages {
      CrawlFromOpen(fetch, page + 1);
      var rest := CrawlFrom(fetch, page + 1);
      match PageStep(fetch, page)
      case StopCrawl =>
      case SkipPage =>
      case Collect(ps) =>
        var page1 := if page == 1 then fetch(ProgramListUrl) else ContentPage(fetch, PageUrls(page));
        assert ps == ProgramsOfItems(page1.value.items);
        forall k | 0 <= k < |ps + rest|
          ensures IsOpenProgram((ps + rest)[k])
        {
          if k >= |ps| {
            assert (ps + rest)[k] == rest[k - |ps|];
          }
        }
    }
  }

  /** Every crawled record is open for application and has a title. */
  lemma CrawledProgramsOpen(fetch: string -> Option<ProgramPage>)
    ensures forall k :: 0 <= k < |CrawledPrograms(fetch)| ==> IsOpenProgram(CrawledPrograms(fetch)[k])
  {
    CrawlFromOpen(fetch, 1);
  }

  /** `fetch` and `other` answer the same for the URLs of pages 1..`last`. */
  predicate AgreeUpTo(fetch: string -> Option<ProgramPage>, other: string -> Option<ProgramPage>, last: nat)
  {
    fetch(ProgramListUrl) == other(ProgramListUrl) &&
    forall page, k :: 2 <= page <= last && 0 <= k < |PageUrls(page)| ==> fetch(PageUrls(page)[k]) == other(PageUrls(page)[k])
  }

  lemma {:induction false} ContentPageAgree(fetch: string -> Option<ProgramPage>, other: string -> Option<ProgramPage>, urls: seq<string>)
    requires forall k :: 0 <= k < |urls| ==> fetch(urls[k]) == other(urls[k])
    ensures ContentPage(fetch, urls) == ContentPage(other, urls)
  {
    if urls != [] {
      assert fetch(urls[0]) == other(urls[0]);
      forall k | 0 <= k < |urls[1..]|
        ensures fetch(urls[1..][k]) == other(urls[1..][k])
      {
        assert urls[1..][k] == urls[k + 1];
      }
      ContentPageAgree(fetch, other, urls[1..]);
    }
  }

  lemma {:induction false} CrawlFromAgree(fetch: string -> Option<ProgramPage>, other: string -> Option<ProgramPage>, page: nat, stop: nat)
    requires 1 <= page && 1 <= stop <= ProgramPages
    requires PageStep(fetch, stop).StopCrawl?
    requires AgreeUpTo(fetch, other, stop)
    requires page <= stop
    decreases ProgramPages + 1 - page
    ensures CrawlFrom(fetch, page) == CrawlFrom(other, page)
  {
    if page > 1 {
      var urls := PageUrls(page);
      forall k | 0 <= k < |urls|
        ensures fetch(urls[k]) == other(urls[k])
      {
      }
      ContentPageAgree(fetch, other, urls);
    }
    assert PageStep(fetch, page) == PageStep(other, page);
    if page < stop {
      CrawlFromAgree(fetch, other, page + 1, stop);
    }
  }

  /**
   * Pages after the one that ends the crawl are never looked at: two sites
   * that agree up to that page give the same crawl.
   */
  lemma CrawlStopsAtEmptyPage(fetch: string -> Option<ProgramPage>, other: string -> Option<ProgramPage>, stop: nat)
    requires 1 <= stop <= ProgramPages
    requires PageStep(fetch, stop).StopCrawl?
    requires AgreeUpTo(fetch, other, stop)
    ensures CrawledPrograms(fetch) == CrawledPrograms(other)
  {
    CrawlFromAgree(fetch, other, 1, stop);
  }

  /** When every request fails, the crawl yields nothing: page 1 is skipped and page 2 ends it. */
  lemma CrawlOfDeadSiteIsEmpty(fetch: string -> Option<ProgramPage>)
    requires forall url :: fetch(url).None?
    ensures CrawledPrograms(fetch) == []
  {
    var urls := PageUrls(2);
    assert fetch(ProgramListUrl).None?;
    assert fetch(urls[0]).None? && fetch(urls[1]).None? && fetch(urls[2]).None?;
    assert urls[1..][1..][1..] == [];
    assert ContentPage(fetch, urls).None?;
  }

  class YouthProgramCrawler {
    var programsData: seq<Program>

    constructor ()
      ensures programsData == []
    {
      programsData := [];
    }

    /** `extract_programs_from_page` */
    method ExtractProgramsFromPage(page: ProgramPage) returns (programs: seq<Program>)
      ensures programs == ProgramsOfItems(page.items)
    {
      programs := [];
      var i := 0;
      while i < |page.items|
        invariant 0 <= i <= |page.items|
        invariant programs == ProgramsOfItems(page.items[..i])
      {
        ProgramsOfItemsStep(page.items, i);
        var item := page.items[i];
        var info := None;
        if item.hasRecruitState {
          info := ProgramFromItem(item);
        }
        if info.Some? {
          programs := programs + [info.value];
        }
        i := i + 1;
      }
      assert page.items[..i] == page.items;
    }

    /** The pagination URLs of a later page, tried in order until one loads with content. */
    method FetchLaterPage(fetch: string -> Option<ProgramPage>, page: nat) returns (soup: Option<ProgramPage>)
      ensures soup == ContentPage(fetch, PageUrls(page)) || (!HasProgramContent(soup) && ContentPage(fetch, PageUrls(page)).None?)
    {
      var urls := PageUrls(page);
      soup := None;
      var u := 0;
      while u < |urls| && !HasProgramContent(soup)
        invariant 0 <= u <= |urls|
        invariant HasProgramContent(soup) ==> soup == ContentPage(fetch, urls)
        invariant !HasProgramContent(soup) ==> ContentPage(fetch, urls) == ContentPage(fetch, urls[u..])
      {
        soup := fetch(urls[u]);
        assert urls[u..][1..] == urls[u + 1..];
        u := u + 1;
      }
    }

    /**
     * `crawl_all_programs`: pages 1 to 5, stopping at the first page that
     * ends the crawl; the result is also kept in `programsData`.
     */
    method CrawlAllPrograms(fetch: string -> Option<ProgramPage>) returns (all: seq<Program>)
      modifies this
      ensures all == CrawledPrograms(fetch)
      ensures programsData == all
    {
      all := [];
      var page := 1;
      while page <= ProgramPages
        invariant 1 <= page <= ProgramPages + 1
        invariant all + CrawlFrom(fetch, page) == CrawledPrograms(fetch)
      {
        var pagePrograms, stop := VisitPage(fetch, page);
        if stop {
          break;
        }
        all := all + pagePrograms;
        page := page + 1;
      }
      programsData := all;
    }

    /**
     * One turn of the crawl loop: page 1 that fails to load contributes
     * nothing (`continue`); a later page without content, or a page whose
     * items yield no record, ends the crawl (`break`).
     */
    method VisitPage(fetch: string -> Option<ProgramPage>, page: nat) returns (pagePrograms: seq<Program>, stop: bool)
      requires 1 <= page <= ProgramPages
      ensures stop ==> CrawlFrom(fetch, page) == []
      ensures !stop ==> CrawlFrom(fetch, page) == pagePrograms + CrawlFrom(fetch, page + 1)
    {
      var soup: Option<ProgramPage>;
      if page == 1 {
        soup := fetch(ProgramListUrl);
        CrawlFromPage(fetch, page, soup);
        if soup.None? {
          return [], false;
        }
      } else {
        soup := FetchLaterPage(fetch, page);
        CrawlFromPage(fetch, page, soup);
        if !HasProgramContent(soup) {
          return [], true;
        }
      }
      pagePrograms := ExtractProgramsFromPage(soup.value);
      stop := pagePrograms == [];
    }
  }

  // ---------------------------------------------------------------------------
  // get_youth_programs_data

  /** Cached programs stay valid for 6 hours. */
  const ProgramsTtl: int := 6 * 60 * 60

  function ProgramsData(stored: Stored<Program>, now: int, fetch: string -> Option<ProgramPage>): seq<Program>
  {
    DataOrCrawl(stored, now, ProgramsTtl, CrawledPrograms(fetch))
  }

  function ProgramsCacheAfterGet(stored: Stored<Program>, now: int, fetch: string -> Option<ProgramPage>, outcome: WriteOutcome): Stored<Program>
  {
    AfterGet(stored, now, ProgramsTtl, CrawledPrograms(fetch), outcome)
  }

  /**
   * `get_youth_programs_data`: answer from the cache file while it is younger
   * than 6 hours; otherwise crawl once, write the crawl with `cached_at =
   * now`, and return the crawl whether or not the write succeeds.
   */
  method GetYouthProgramsData(cache: CacheFile<Program>, fetch: string -> Option<ProgramPage>, now: int, outcome: WriteOutcome)
      returns (programs: seq<Program>)
    modifies cache
    ensures programs == ProgramsData(old(cache.stored), now, fetch)
    ensures cache.stored == ProgramsCacheAfterGet(old(cache.stored), now, fetch, outcome)
  {
    var cached := cache.Read(now, ProgramsTtl);
    if cached.Some? {
      return cached.value;
    }
    var crawler := new YouthProgramCrawler();
    programs := crawler.CrawlAllPrograms(fetch);
    cache.Write(now, programs, outcome);
  }

  // ---------------------------------------------------------------------------
  // format_program_info

  /** 🟢 for a program open for application, 🔴 for any other status; no line without a status. */
  function StatusLine(status: string): string
  {
    if status == "" then "" else (if status == Recruiting then "🟢" else "🔴") + " " + status + "\n"
  }

  function ProgramHeader(p: Program): string
  {
    "**" + p.title + "**\n"
  }

  /** The lines of `format_program_info`, in order; an absent field gives an empty line. */
  function ProgramLines(p: Program): (r: seq<string>)
    ensures |r| == 6
  {
    [ ProgramHeader(p),
      StatusLine(p.status),
      OptionalLine("📅 신청기간: ", p.applicationPeriod),
      OptionalLine("📍 장소: ", p.location),
      OptionalLine("🏛️ 지역: ", p.region),
      if p.link == "" then "" else "🔗 [자세히 보기](" + p.link + ")\n" ]
  }

  /** `format_program_info` */
  function FormatProgramInfo(p: Program): string
  {
    Concat(ProgramLines(p))
  }

  /** The output opens with the bold title. */
  lemma ProgramHeaderFirst(p: Program)
    ensures StartsWith(FormatProgramInfo(p), ProgramHeader(p))
  {
    ConcatSplit(ProgramLines(p), 0);
  }

  /** The status shows with 🟢 exactly when it is 모집중, with 🔴 when it is any other non-empty text. */
  lemma StatusEmoji(p: Program)
    ensures p.status == Recruiting ==> Contains(FormatProgramInfo(p), "🟢 " + Recruiting + "\n")
    ensures p.status != "" && p.status != Recruiting ==> Contains(FormatProgramInfo(p), "🔴 " + p.status + "\n")
  {
    if p.status == Recruiting {
      assert StatusLine(p.status) == "🟢 " + Recruiting + "\n";
    } else if p.status != "" {
      assert StatusLine(p.status) == "🔴 " + p.status + "\n";
    }
    ConcatContains(ProgramLines(p), 1);
  }

  /** Each present field shows on its own line. */
  lemma PresentProgramFieldsShown(p: Program)
    ensures p.applicationPeriod != "" ==> Contains(FormatProgramInfo(p), "📅 신청기간: " + p.applicationPeriod + "\n")
    ensures p.location != "" ==> Contains(FormatProgramInfo(p), "📍 장소: " + p.location + "\n")
    ensures p.region != "" ==> Contains(FormatProgramInfo(p), "🏛️ 지역: " + p.region + "\n")
    ensures p.link != "" ==> Contains(FormatProgramInfo(p), "🔗 [자세히 보기](" + p.link + ")\n")
  {
    var lines := ProgramLines(p);
    ConcatContains(lines, 2);
    ConcatContains(lines, 3);
    ConcatContains(lines, 4);
    ConcatContains(lines, 5);
  }

  /** One entry of a search reply: the formatted program and a blank line. */
  function ProgramEntry(p: Program): string
  {
    FormatProgramInfo(p) + "\n"
  }

  // ---------------------------------------------------------------------------
  // search_programs_by_region, search_programs_by_keyword

  const ProgramsUnavailable: string := "현재 청년 프로그램 정보를 가져올 수 없습니다."

  /** The most programs a search reply shows. */
  const MaxShownPrograms: nat := 8

  /** The region query without 구 when it ends in 구 (`replace` drops every 구 in it). */
  function NormalizeRegion(region: string): (r: string)
    ensures EndsWith(region, "구") ==> r == Filter(region, (x: char) => x != '구')
    ensures EndsWith(region, "구") ==> '구' !in r
    ensures !EndsWith(region, "구") ==> r == region
  {
    if EndsWith(region, "구") then RemoveAll(region, '구') else region
  }

  /** The text `n` inside the region, location or title. */
  function FieldsContain(n: string): Program -> bool
  {
    (p: Program) => Contains(p.region, n) || Contains(p.location, n) || Contains(p.title, n)
  }

  /** The region test: the normalised query inside the region, location or title. */
  function RegionIn(region: string): Program -> bool
  {
    FieldsContain(NormalizeRegion(region))
  }

  /** The keyword test: lower-cased query inside lower-cased title, location or region. */
  function KeywordIn(keyword: string): Program -> bool
  {
    (p: Program) => var k := Lower(keyword);
      Contains(Lower(p.title), k) || Contains(Lower(p.location), k) || Contains(Lower(p.region), k)
  }

  /** The note on matches beyond the eight shown. */
  function MoreProgramsLine(n: nat): (r: string)
    ensures n <= MaxShownPrograms <==> r == ""
  {
    if n > MaxShownPrograms then "\n... 외 " + NatToString(n - MaxShownPrograms) + "개 프로그램 더 있음" else ""
  }

  /** A search reply: the first eight matches under a header that counts all of them, then the overflow note. */
  function ProgramSearchReply(programs: seq<Program>, p: Program -> bool, notFound: string, header: nat -> string): (r: string)
    ensures programs == [] ==> r == ProgramsUnavailable
    ensures programs != [] && Filter(programs, p) == [] ==> r == notFound
  {
    if programs == [] then ProgramsUnavailable
    else
      var matches := Filter(programs, p);
      if matches == [] then notFound
      else header(|matches|) + Render(Take(matches, MaxShownPrograms), ProgramEntry) + MoreProgramsLine(|matches|)
  }

  function ProgramRegionNotFound(region: string): string
  {
    "**" + region + "**에서 현재 모집중인 청년 프로그램을 찾을 수 없습니다.\n\n다른 지역을 검색해보세요!"
  }

  function ProgramRegionHeader(region: string): nat -> string
  {
    (n: nat) => "**" + region + " 청년 프로그램** (" + NatToString(n) + "개 모집중)\n\n"
  }

  function ProgramKeywordNotFound(keyword: string): string
  {
    "**" + keyword + "** 관련 모집중인 청년 프로그램을 찾을 수 없습니다.\n\n다른 키워드로 검색해보세요!"
  }

  function ProgramKeywordHeader(keyword: string): nat -> string
  {
    (n: nat) => "🔍 **" + keyword + "** 검색 결과 (" + NatToString(n) + "개 모집중)\n\n"
  }

  /** The reply of `search_programs_by_region` for the programs it gets. */
  function ProgramRegionReply(programs: seq<Program>, region: string): string
  {
    ProgramSearchReply(programs, RegionIn(region), ProgramRegionNotFound(region), ProgramRegionHeader(region))
  }

  /** The reply of `search_programs_by_keyword` for the programs it gets. */
  function ProgramKeywordReply(programs: seq<Program>, keyword: string): string
  {
    ProgramSearchReply(programs, KeywordIn(keyword), ProgramKeywordNotFound(keyword), ProgramKeywordHeader(keyword))
  }

  /**
   * With matches, a reply shows at most eight of them, in their original
   * order, and ends with a note counting the rest exactly when there are
   * more than eight.
   */
  lemma ProgramReplyShape(programs: seq<Program>, p: Program -> bool, notFound: string, header: nat -> string, m: seq<Program>)
    requires programs != [] && m == Filter(programs, p) && m != []
    ensures StartsWith(ProgramSearchReply(programs, p, notFound, header), header(|m|) + Render(Take(m, MaxShownPrograms), ProgramEntry))
    ensures |m| <= MaxShownPrograms ==> ProgramSearchReply(programs, p, notFound, header) == header(|m|) + Render(m, ProgramEntry)
    ensures |m| > MaxShownPrograms ==>
              EndsWith(ProgramSearchReply(programs, p, notFound, header),
                       "\n... 외 " + NatToString(|m| - MaxShownPrograms) + "개 프로그램 더 있음")
  {
    var head := header(|m|) + Render(Take(m, MaxShownPrograms), ProgramEntry);
    assert ProgramSearchReply(programs, p, notFound, header) == head + MoreProgramsLine(|m|);
    StartsEndsAppend(head, MoreProgramsLine(|m|));
    if |m| <= MaxShownPrograms {
      ProgramReplyFew(head, m);
    } else {
      MoreLineEnds(head, |m|);
    }
  }

  /** Eight matches or fewer are all shown, with no note after them. */
  lemma ProgramReplyFew(head: string, m: seq<Program>)
    requires |m| <= MaxShownPrograms
    ensures Take(m, MaxShownPrograms) == m && head + MoreProgramsLine(|m|) == head
  {
    assert MoreProgramsLine(|m|) == "";
  }

  /** A reply that ends with the overflow note ends with the count of the programs not shown. */
  lemma MoreLineEnds(head: string, n: nat)
    requires n > MaxShownPrograms
    ensures EndsWith(head + MoreProgramsLine(n), "\n... 외 " + NatToString(n - MaxShownPrograms) + "개 프로그램 더 있음")
  {
    StartsEndsAppend(head, MoreProgramsLine(n));
  }

  /**
   * The region search keeps a program exactly when the query, with a
   * trailing 구 dropped, occurs in its region, location or title: "해운대구"
   * also finds programs that only mention 해운대.
   */
  lemma ProgramRegionSearchSelects(programs: seq<Program>, region: string, p: Program)
    ensures p in Filter(programs, RegionIn(region)) <==>
              p in programs &&
              (Contains(p.region, NormalizeRegion(region)) || Contains(p.location, NormalizeRegion(region)) ||
               Contains(p.title, NormalizeRegion(region)))
  {
    FilterIff(programs, RegionIn(region), p);
  }

  /** 해운대구 is searched as 해운대. */
  lemma NormalizeRegionExample()
    ensures NormalizeRegion("해운대구") == "해운대"
  {
    assert EndsWith("해운대구", "구");
    var s := "해운대구";
    assert s[1..][1..][1..] == "구";
    assert RemoveAll("구", '구') == "";
    assert RemoveAll(s[1..][1..], '구') == "대";
    assert RemoveAll(s[1..], '구') == "운대";
  }

  /** The keyword search keeps a program exactly when the lower-cased keyword occurs in its title, location or region. */
  lemma ProgramKeywordSearchSelects(programs: seq<Program>, keyword: string, p: Program)
    ensures p in Filter(programs, KeywordIn(keyword)) <==>
              p in programs &&
              (Contains(Lower(p.title), Lower(keyword)) || Contains(Lower(p.location), Lower(keyword)) ||
               Contains(Lower(p.region), Lower(keyword)))
  {
    FilterIff(programs, KeywordIn(keyword), p);
  }

  /** The shared body of the two searches: filter, then show at most eight. */
  method ProgramSearchLoop(programs: seq<Program>, p: Program -> bool, notFound: string, header: nat -> string)
      returns (reply: string)
    ensures reply == ProgramSearchReply(programs, p, notFound, header)
  {
    if programs == [] {
      return ProgramsUnavailable;
    }
    var filtered := FilterLoop(programs, p);
    if filtered == [] {
      return notFound;
    }
    var shown := RenderLoop(Take(filtered, MaxShownPrograms), ProgramEntry);
    reply := header(|filtered|) + shown;
    if |filtered| > MaxShownPrograms {
      reply := reply + "\n... 외 " + NatToString(|filtered| - MaxShownPrograms) + "개 프로그램 더 있음";
    }
  }

  /** `search_programs_by_region`: the programs come from `get_youth_programs_data`. */
  method SearchProgramsByRegion(cache: CacheFile<Program>, fetch: string -> Option<ProgramPage>, now: int, outcome: WriteOutcome, region: string)
      returns (reply: string)
    modifies cache
    ensures reply == ProgramRegionReply(ProgramsData(old(cache.stored), now, fetch), region)
    ensures cache.stored == ProgramsCacheAfterGet(old(cache.stored), now, fetch, outcome)
  {
    var programs := GetYouthProgramsData(cache, fetch, now, outcome);
    reply := ProgramSearchLoop(programs, RegionIn(region), ProgramRegionNotFound(region), ProgramRegionHeader(region));
  }

  /** `search_programs_by_keyword`: the programs come from `get_youth_programs_data`. */
  method SearchProgramsByKeyword(cache: CacheFile<Program>, fetch: string -> Option<ProgramPage>, now: int, outcome: WriteOutcome, keyword: string)
      returns (reply: string)
    modifies cache
    ensures reply == ProgramKeywordReply(ProgramsData(old(cache.stored), now, fetch), keyword)
    ensures cache.stored == ProgramsCacheAfterGet(old(cache.stored), now, fetch, outcome)
  {
    var programs := GetYouthProgramsData(cache, fetch, now, outcome);
    reply := ProgramSearchLoop(programs, KeywordIn(keyword), ProgramKeywordNotFound(keyword), ProgramKeywordHeader(keyword));
  }

  // ---------------------------------------------------------------------------
  // Groups of at most three: get_all_youth_programs, get_programs_by_category

  function ProgramItself(p: Program): Program
  {
    p
  }

  /** The note on the programs of a group beyond the three shown. */
  function MoreInGroupLine(n: nat): (r: string)
    ensures n <= 3 <==> r == ""
  {
    if n > 3 then "     ... 외 " + NatToString(n - 3) + "개 더\n" else ""
  }

  /** One group: its heading and size, the first three programs, the overflow note and a blank line. */
  function ProgramGroupText(heading: string, ps: seq<Program>, line: Program -> string): string
  {
    "**" + heading + "** (" + NatToString(|ps|) + "개)\n" + Render(Take(ps, 3), line) + MoreInGroupLine(|ps|) + "\n"
  }

  /** The region a program is listed under: its region, else the district in its title, else 전체/기타. */
  function ProgramGroupKey(p: Program): (k: string)
    ensures k != ""
  {
    if p.region != "" && p.region != "기타" then p.region
    else match BracketRegion(p.title)
      case Some(g) => g
      case None => "전체/기타"
  }

  /** For a crawled record, the listing region is simply its region, or 전체/기타 when it has none. */
  lemma CrawledGroupKey(item: ProgramItem)
    requires ProgramFromItem(item).Some?
    ensures var p := ProgramFromItem(item).value;
            ProgramGroupKey(p) == if p.region == "" then "전체/기타" else p.region
  {
    var p := ProgramFromItem(item).value;
    if p.region == "기타" {
      assert p.region[|p.region| - 1] != '구';
    }
  }

  /** The title line and, when present, the period line of a listed program. */
  function BriefLines(p: Program): string
  {
    p.title + "\n" + (if p.applicationPeriod != "" then p.applicationPeriod + "\n" else "")
  }

  function ProgramsIn(programs: seq<Program>, region: string): seq<Program>
  {
    GroupOf(programs, ProgramGroupKey, ProgramItself, region)
  }

  /** The regions in the sorted order the listing emits them. */
  function SortedProgramRegions(programs: seq<Program>): seq<string>
  {
    SortBy(KeyOrder(programs, ProgramGroupKey), TextKeyOf, false)
  }

  /**
   * The groups come out in ascending region order, one per listing region
   * that occurs, and every program is counted in exactly one of them.
   */
  lemma AllProgramsGroups(programs: seq<Program>)
    ensures Sorted(SortedProgramRegions(programs), TextKeyOf, false)
    ensures multiset(SortedProgramRegions(programs)) == multiset(KeyOrder(programs, ProgramGroupKey))
    ensures forall i :: 0 <= i < |programs| ==> ProgramGroupKey(programs[i]) in SortedProgramRegions(programs)
    ensures SumOf(SortedProgramRegions(programs), GroupSize(programs, ProgramGroupKey, ProgramItself)) == |programs|
  {
    var order := KeyOrder(programs, ProgramGroupKey);
    SortBySorted(order, TextKeyOf, false);
    SortByPermutation(order, TextKeyOf, false);
    KeyOrderMembers(programs, ProgramGroupKey, ProgramItself);
    forall i | 0 <= i < |programs|
      ensures ProgramGroupKey(programs[i]) in SortedProgramRegions(programs)
    {
      assert ProgramGroupKey(programs[i]) in multiset(order);
    }
    GroupSizesSumReordered(programs, ProgramGroupKey, ProgramItself, SortedProgramRegions(programs));
  }

  function RegionGroupsText(programs: seq<Program>, regions: seq<string>): string
  {
    if regions == [] then ""
    else
      var region := regions[|regions| - 1];
      RegionGroupsText(programs, regions[..|regions| - 1]) + ProgramGroupText(region, ProgramsIn(programs, region), BriefLines)
  }

  /** The reply of `get_all_youth_programs` for the programs it gets. */
  function AllProgramsReply(programs: seq<Program>): string
  {
    if programs == [] then ProgramsUnavailable
    else
      "**부산 청년 프로그램 모집중** (" + NatToString(|programs|) + "개)\n\n"
      + RegionGroupsText(programs, SortedProgramRegions(programs))
      + "💡 지역명이나 프로그램명으로 자세한 정보를 검색해보세요!"
  }

  /** One group, rendered with loops. */
  method RenderProgramGroup(heading: string, ps: seq<Program>, line: Program -> string) returns (text: string)
    ensures text == ProgramGroupText(heading, ps, line)
  {
    var shown := RenderLoop(Take(ps, 3), line);
    text := "**" + heading + "** (" + NatToString(|ps|) + "개)\n" + shown;
    if |ps| > 3 {
      text := text + "     ... 외 " + NatToString(|ps| - 3) + "개 더\n";
    }
    text := text + "\n";
  }

  /** The loop over the groups in sorted region order. */
  method RenderRegionGroups(programs: seq<Program>, regions: map<string, seq<Program>>, sorted: seq<string>) returns (body: string)
    requires forall r :: r in sorted ==> r in regions && regions[r] == ProgramsIn(programs, r)
    ensures body == RegionGroupsText(programs, sorted)
  {
    body := "";
    var g := 0;
    while g < |sorted|
      invariant 0 <= g <= |sorted|
      invariant body == RegionGroupsText(programs, sorted[..g])
    {
      assert sorted[..g + 1][..g] == sorted[..g];
      var group := RenderProgramGroup(sorted[g], regions[sorted[g]], BriefLines);
      body := body + group;
      g := g + 1;
    }
    assert sorted[..g] == sorted;
  }

  /** `get_all_youth_programs`: group by listing region, then list the groups in sorted region order. */
  method GetAllYouthPrograms(cache: CacheFile<Program>, fetch: string -> Option<ProgramPage>, now: int, outcome: WriteOutcome)
      returns (reply: string)
    modifies cache
    ensures reply == AllProgramsReply(ProgramsData(old(cache.stored), now, fetch))
    ensures cache.stored == ProgramsCacheAfterGet(old(cache.stored), now, fetch, outcome)
  {
    var programs := GetYouthProgramsData(cache, fetch, now, outcome);
    if programs == [] {
      return ProgramsUnavailable;
    }
    var regions, order := GroupLoop(programs, ProgramGroupKey, ProgramItself);
    var sorted := SortBy(order, TextKeyOf, false);
    forall r | r in sorted
      ensures r in regions
    {
      SortByPermutation(order, TextKeyOf, false);
      assert r in multiset(order);
    }
    var body := RenderRegionGroups(programs, regions, sorted);
    reply := "**부산 청년 프로그램 모집중** (" + NatToString(|programs|) + "개)\n\n" + body
      + "💡 지역명이나 프로그램명으로 자세한 정보를 검색해보세요!";
  }

  // ---------------------------------------------------------------------------
  // get_programs_by_category

  /** The categories, in the order of the dict and of the reply. */
  const CategoryNames: seq<string> := ["취업/진로", "교육/강의", "창업", "문화/예술", "기타"]

  /** The keywords of the first four categories; 기타 takes the rest. */
  const CategoryKeywords: seq<seq<string>> := [
    ["취업", "job", "컨설팅", "면접", "이력서"],
    ["교육", "강의", "과정", "교실", "스쿨"],
    ["창업", "사업", "비즈니스"],
    ["문화", "예술", "공연", "전시", "음악", "미술"]
  ]

  /** The first category from `c` on whose keywords occur in `title`; 4 (기타) when none does. */
  function CategoryIndexFrom(title: string, c: nat): (k: nat)
    requires c <= 4
    decreases 4 - c
    ensures c <= k <= 4
    ensures k < 4 ==> ContainsAny(title, CategoryKeywords[k])
    ensures forall j :: c <= j < k ==> !ContainsAny(title, CategoryKeywords[j])
  {
    if c == 4 then 4
    else if ContainsAny(title, CategoryKeywords[c]) then c
    else CategoryIndexFrom(title, c + 1)
  }

  /** The category of a program: the `if`/`elif` chain over its lower-cased title. */
  function Category(p: Program): (r: string)
    ensures r in CategoryNames
  {
    CategoryNames[CategoryIndexFrom(Lower(p.title), 0)]
  }

  /**
   * A program goes to the first category whose keywords occur in its
   * lower-cased title, and to 기타 exactly when none does.
   */
  lemma CategoryIsFirstMatch(p: Program)
    ensures var k := CategoryIndexFrom(Lower(p.title), 0);
            Category(p) == CategoryNames[k] &&
            (k < 4 ==> ContainsAny(Lower(p.title), CategoryKeywords[k])) &&
            (forall j :: 0 <= j < k ==> !ContainsAny(Lower(p.title), CategoryKeywords[j])) &&
            (Category(p) == "기타" <==> forall j :: 0 <= j < 4 ==> !ContainsAny(Lower(p.title), CategoryKeywords[j]))
  {
    var k := CategoryIndexFrom(Lower(p.title), 0);
    if k < 4 {
      assert CategoryNames[k] != "기타" by {
        assert CategoryNames[k][0] != '기';
      }
    }
  }

  function ProgramsOfCategory(programs: seq<Program>, category: string): seq<Program>
  {
    GroupOf(programs, Category, ProgramItself, category)
  }

  lemma CategoryNamesDistinct()
    ensures forall i, j :: 0 <= i < j < |CategoryNames| ==> CategoryNames[i] != CategoryNames[j]
  {
    var n := CategoryNames;
    assert n[0][0] == '취' && n[1][0] == '교' && n[2][0] == '창' && n[3][0] == '문' && n[4][0] == '기';
  }

  /** The categories split the programs: each program is in exactly one, so the sizes add up. */
  lemma CategoriesPartition(programs: seq<Program>)
    ensures SumOf(CategoryNames, GroupSize(programs, Category, ProgramItself)) == |programs|
  {
    CategoryNamesDistinct();
    GroupSizesCover(programs, Category, ProgramItself, CategoryNames);
  }

  function TitleLine(p: Program): string
  {
    p.title + "\n"
  }

  /** The categories in order, each shown only when it holds a program. */
  function CategoriesText(programs: seq<Program>, names: seq<string>): string
  {
    if names == [] then ""
    else
      var name := names[|names| - 1];
      var ps := ProgramsOfCategory(programs, name);
      CategoriesText(programs, names[..|names| - 1]) + (if ps == [] then "" else ProgramGroupText(name, ps, TitleLine))
  }

  /** The reply of `get_programs_by_category` for the programs it gets. */
  function CategoryReply(programs: seq<Program>): string
  {
    if programs == [] then ProgramsUnavailable
    else "**카테고리별 청년 프로그램**\n\n" + CategoriesText(programs, CategoryNames)
  }

  /** The sorting loop: each program appended to its category's list. */
  method Categorize(programs: seq<Program>) returns (categories: map<string, seq<Program>>)
    ensures forall name :: name in CategoryNames ==> name in categories && categories[name] == ProgramsOfCategory(programs, name)
  {
    categories := map["취업/진로" := [], "교육/강의" := [], "창업" := [], "문화/예술" := [], "기타" := []];
    var i := 0;
    while i < |programs|
      invariant 0 <= i <= |programs|
      invariant forall name :: name in CategoryNames ==> name in categories && categories[name] == ProgramsOfCategory(programs[..i], name)
    {
      assert programs[..i + 1][..i] == programs[..i];
      var category := Category(programs[i]);
      categories := categories[category := categories[category] + [programs[i]]];
      i := i + 1;
    }
    assert programs[..i] == programs;
  }

  /** The loop over the categories in their fixed order. */
  method RenderCategories(programs: seq<Program>, categories: map<string, seq<Program>>, names: seq<string>) returns (body: string)
    requires forall name :: name in names ==> name in categories && categories[name] == ProgramsOfCategory(programs, name)
    ensures body == CategoriesText(programs, names)
  {
    body := "";
    var c := 0;
    while c < |names|
      invariant 0 <= c <= |names|
      invariant body == CategoriesText(programs, names[..c])
    {
      assert names[..c + 1][..c] == names[..c];
      var name := names[c];
      var ps := categories[name];
      if ps != [] {
        var group := RenderProgramGroup(name, ps, TitleLine);
        body := body + group;
      }
      c := c + 1;
    }
    assert names[..c] == names;
  }

  /** `get_programs_by_category` */
  method GetProgramsByCategory(cache: CacheFile<Program>, fetch: string -> Option<ProgramPage>, now: int, outcome: WriteOutcome)
      returns (reply: string)
    modifies cache
    ensures reply == CategoryReply(ProgramsData(old(cache.stored), now, fetch))
    ensures cache.stored == ProgramsCacheAfterGet(old(cache.stored), now, fetch, outcome)
  {
    var programs := GetYouthProgramsData(cache, fetch, now, outcome);
    if programs == [] {
      return ProgramsUnavailable;
    }
    var categories := Categorize(programs);
    var body := RenderCategories(programs, categories, CategoryNames);
    reply := "**카테고리별 청년 프로그램**\n\n" + body;
  }
}

=== FILE: program_handler.dfy ===
/**
 * handlers/program_handler.py: the JSON API over the program crawler.
 *
 * The handlers read the programs through `get_youth_programs_data`, whose
 * cache file is `youth_programs_cache.json` relative to the working
 * directory; the manual crawl writes `config/youth_programs_cache.json`.
 * These are two different files, so they are two `CacheFile` objects here.
 * An exception text (`str(e)`) is a parameter.
 */
module ProgramHandler {
  import opened Wrappers
  import opened Text
  import opened Seqs
  import opened Cache
  import opened Replies
  import opened ProgramCrawler

  /** `_handle_api_error`: a failure whose message names the interrupted action when there is one. */
  function HandleApiError(error: string, context: string): (r: Reply<Program>)
    ensures r.Failed? && r.error == Some(error) && !r.Success()
    ensures context != "" ==> StartsWith(r.message, context)
    ensures context == "" ==> r.message == "오류가 발생했습니다."
  {
    Failed(Some(error), if context != "" then context + " 중 오류가 발생했습니다." else "오류가 발생했습니다.")
  }

  /** `get_all_programs`: every program, counted. */
  method GetAllPrograms(cache: CacheFile<Program>, fetch: string -> Option<ProgramPage>, now: int, outcome: WriteOutcome)
      returns (r: Reply<Program>)
    modifies cache
    ensures r.Listing? && r.data == ProgramsData(old(cache.stored), now, fetch) && r.count == |r.data|
    ensures r.message == NatToString(|r.data|) + "개의 모집중인 프로그램을 찾았습니다."
    ensures cache.stored == ProgramsCacheAfterGet(old(cache.stored), now, fetch, outcome)
  {
    var programs := GetYouthProgramsData(cache, fetch, now, outcome);
    r := Listing(programs, |programs|, NatToString(|programs|) + "개의 모집중인 프로그램을 찾았습니다.", None);
  }

  /** `_filter_programs_by_region`: the programs whose region, location or title contains `normalized`. */
  method FilterProgramsByRegion(programs: seq<Program>, normalized: string) returns (filtered: seq<Program>)
    ensures filtered == Filter(programs, FieldsContain(normalized))
  {
    filtered := [];
    var i := 0;
    while i < |programs|
      invariant 0 <= i <= |programs|
      invariant filtered == Filter(programs[..i], FieldsContain(normalized))
    {
      var p := programs[i];
      FilterSnoc(programs[..i], p, FieldsContain(normalized));
      assert programs[..i + 1] == programs[..i] + [p];
      if Contains(p.region, normalized) || Contains(p.location, normalized) || Contains(p.title, normalized) {
        filtered := filtered + [p];
      }
      i := i + 1;
    }
    assert programs[..i] == programs;
  }

  /** The filter keeps, in order, exactly the programs with the text in one of the three fields. */
  lemma FilterProgramsByRegionIff(programs: seq<Program>, normalized: string, p: Program)
    ensures p in Filter(programs, FieldsContain(normalized)) <==>
              p in programs && (Contains(p.region, normalized) || Contains(p.location, normalized) || Contains(p.title, normalized))
  {
    FilterIff(programs, FieldsContain(normalized), p);
  }

  /**
   * The second `get_youth_programs_data` of a handler sees the data the
   * first one returned: a hit stays a hit, and after a miss the file either
   * holds that crawl (a hit now) or is still stale or unreadable (the same
   * crawl again); and it leaves the file as the first one left it.
   */
  lemma SecondReadAgrees(stored: Stored<Program>, now: int, fetch: string -> Option<ProgramPage>, outcome: WriteOutcome)
    ensures ProgramsData(ProgramsCacheAfterGet(stored, now, fetch, outcome), now, fetch) == ProgramsData(stored, now, fetch)
    ensures ProgramsCacheAfterGet(ProgramsCacheAfterGet(stored, now, fetch, outcome), now, fetch, outcome) ==
            ProgramsCacheAfterGet(stored, now, fetch, outcome)
  {
    AfterGetIdempotent(stored, now, ProgramsTtl, CrawledPrograms(fetch), outcome);
  }

  /**
   * `get_programs_by_region`: the message is the crawler's region reply, the
   * data the programs the normalised query matches, read again after it.
   */
  method GetProgramsByRegion(cache: CacheFile<Program>, fetch: string -> Option<ProgramPage>, now: int, outcome: WriteOutcome, region: string)
      returns (r: Reply<Program>)
    modifies cache
    ensures r.Listing? && r.query == Some(region) && r.count == |r.data|
    ensures r.message == ProgramRegionReply(ProgramsData(old(cache.stored), now, fetch), region)
    ensures r.data == Filter(ProgramsData(old(cache.stored), now, fetch), RegionIn(region))
    ensures cache.stored == ProgramsCacheAfterGet(old(cache.stored), now, fetch, outcome)
  {
    var message := SearchProgramsByRegion(cache, fetch, now, outcome, region);
    ghost var first := ProgramsData(old(cache.stored), now, fetch);
    SecondReadAgrees(old(cache.stored), now, fetch, outcome);
    var programs := GetYouthProgramsData(cache, fetch, now, outcome);
    assert programs == first;
    var normalized := if EndsWith(region, "구") then RemoveAll(region, '구') else region;
    var filtered := FilterProgramsByRegion(programs, normalized);
    r := Listing(filtered, |filtered|, message, Some(region));
  }

  /**
   * The count the region reply's header states is the count the handler
   * returns: the handler's data is exactly what the crawler's search matched.
   */
  lemma RegionCountMatchesMessage(programs: seq<Program>, region: string)
    requires programs != [] && Filter(programs, RegionIn(region)) != []
    ensures var data := Filter(programs, RegionIn(region));
            StartsWith(ProgramRegionReply(programs, region), ProgramRegionHeader(region)(|data|))
  {
    var data := Filter(programs, RegionIn(region));
    ProgramReplyShape(programs, RegionIn(region), ProgramRegionNotFound(region), ProgramRegionHeader(region), data);
  }

  function KeywordMessage(keyword: string, n: nat): string
  {
    keyword + " 관련 " + NatToString(n) + "개 프로그램을 찾았습니다."
  }

  const NoProgramsMessage: string := "현재 프로그램 정보를 가져올 수 없습니다."

  /** The reply of `search_programs_by_keyword` for the programs it gets. */
  function KeywordSearchReply(programs: seq<Program>, keyword: string): (r: Reply<Program>)
    ensures programs == [] <==> !r.Success()
    ensures programs == [] ==> r == Failed(None, NoProgramsMessage)
    ensures programs != [] ==> r.Listing? && r.count == |r.data| && r.query == Some(keyword)
    ensures programs != [] ==> forall p :: p in r.data <==>
              p in programs && (Contains(Lower(p.title), Lower(keyword)) || Contains(Lower(p.location), Lower(keyword)) ||
                                Contains(Lower(p.region), Lower(keyword)))
  {
    if programs == [] then Failed(None, NoProgramsMessage)
    else
      var data := Filter(programs, KeywordIn(keyword));
      assert forall p :: p in data <==> p in programs && KeywordIn(keyword)(p) by {
        forall p
          ensures p in data <==> p in programs && KeywordIn(keyword)(p)
        {
          FilterIff(programs, KeywordIn(keyword), p);
        }
      }
      Listing(data, |data|, KeywordMessage(keyword, |data|), Some(keyword))
  }

  /** `search_programs_by_keyword` */
  method SearchProgramsByKeyword(cache: CacheFile<Program>, fetch: string -> Option<ProgramPage>, now: int, outcome: WriteOutcome, keyword: string)
      returns (r: Reply<Program>)
    modifies cache
    ensures r == KeywordSearchReply(ProgramsData(old(cache.stored), now, fetch), keyword)
    ensures cache.stored == ProgramsCacheAfterGet(old(cache.stored), now, fetch, outcome)
  {
    var programs := GetYouthProgramsData(cache, fetch, now, outcome);
    if programs == [] {
      return Failed(None, NoProgramsMessage);
    }
    var filtered := FilterLoop(programs, KeywordIn(keyword));
    r := Listing(filtered, |filtered|, KeywordMessage(keyword, |filtered|), Some(keyword));
  }

  /**
   * `crawl_programs_manually`: crawl and write the config file; a failed
   * write is reported through `_handle_api_error`. The file the data
   * functions read is left alone.
   */
  method CrawlProgramsManually(configCache: CacheFile<Program>, readCache: CacheFile<Program>,
                               fetch: string -> Option<ProgramPage>, now: int, outcome: WriteOutcome, error: string)
      returns (r: Reply<Program>)
    requires configCache != readCache
    modifies configCache
    ensures configCache.stored == AfterWrite(old(configCache.stored), outcome, now, CrawledPrograms(fetch))
    ensures readCache.stored == old(readCache.stored)
    ensures outcome == Written ==>
              r == Listing(CrawledPrograms(fetch), |CrawledPrograms(fetch)|,
                           "크롤링 완료! " + NatToString(|CrawledPrograms(fetch)|) + "개의 모집중인 프로그램을 수집했습니다.", None)
    ensures outcome != Written ==> r == HandleApiError(error, "크롤링")
  {
    var crawler := new YouthProgramCrawler();
    var programs := crawler.CrawlAllPrograms(fetch);
    configCache.Write(now, programs, outcome);
    if outcome != Written {
      return HandleApiError(error, "크롤링");
    }
    r := Listing(programs, |programs|, "크롤링 완료! " + NatToString(|programs|) + "개의 모집중인 프로그램을 수집했습니다.", None);
  }
}

=== FILE: program_scraper.dfy ===
/**
 * services/youth_program_scraper.py: the youth programs listed on
 * busanjob.net, read from its program table.
 *
 * The page is a sequence of tables (module Tables); fetching is a function
 * from URL to an optional page (`None` for a request that raises), and the
 * current year is a parameter.
 */
module ProgramScraper {
  import opened Wrappers
  import opened Text
  import opened Seqs
  import opened Dates
  import opened Tables
  import opened DatedOrder

  /** The `program_info` dict `extract_program_info_from_row` fills. */
  datatype ListedProgram = ListedProgram(
    title: string, category: string, status: string, registerDate: string, deadline: string,
    link: string, details: string)

  function BlankProgram(): ListedProgram
  {
    ListedProgram("", "", "", "", "", "", "")
  }

  const StatusWords: seq<string> := ["모집중", "마감", "진행중", "종료", "접수중"]
  const CategoryWords: seq<string> := ["교육", "문화", "취업", "창업", "체험", "프로그램"]

  // ---------------------------------------------------------------------------
  // extract_program_info_from_row

  /** One turn of the loop over the cell texts: the first branch that applies decides. */
  function ApplyProgramCell(p: ListedProgram, c: Cell, base: string): (r: ListedProgram)
    ensures p.title != "" ==> r.title == p.title && r.link == p.link
    ensures p.title == "" && TitleCell(c) ==> r.title == c.text && r.link == CellLink(base, c, p.link)
    ensures p.title == "" && !TitleCell(c) ==> r.title == "" && r.link == p.link
    ensures r.details == p.details
  {
    var text := c.text;
    if IsBlank(text) then p
    else if p.title == "" && |text| > 3 then
      if c.href.Some? then p.(title := text, link := CellLink(base, c, p.link))
      else if |text| > 5 then p.(title := text)
      else p
    else if ContainsAny(text, StatusWords) then p.(status := text)
    else if ContainsAny(text, CategoryWords) then
      if p.category == "" then p.(category := text) else p
    else if IsDateFormat(text) then
      if p.registerDate == "" then p.(registerDate := text)
      else if p.deadline == "" then p.(deadline := text)
      else p
    else p
  }

  function ApplyProgramCells(p: ListedProgram, cells: Row, base: string): ListedProgram
  {
    if cells == [] then p
    else ApplyProgramCell(ApplyProgramCells(p, cells[..|cells| - 1], base), cells[|cells| - 1], base)
  }

  /** The title is the text of the first title cell and the link that cell's `href`. */
  lemma {:induction false} ProgramTitleRule(p: ListedProgram, cells: Row, base: string)
    requires p.title == ""
    ensures var r := ApplyProgramCells(p, cells, base);
            match FirstTitle(cells)
            case None => r.title == "" && r.link == p.link
            case Some(k) => r.title == cells[k].text && r.link == CellLink(base, cells[k], p.link)
  {
    if cells != [] {
      var n := |cells| - 1;
      ProgramTitleRule(p, cells[..n], base);
      FirstFromPrefix(cells, TitleCell, 0, n);
      assert cells[..n + 1] == cells;
    }
  }

  /**
   * The texts that reach the status, category and date branches, in order:
   * non-blank texts read while a title is already set, or too short (at most
   * 3 characters) to be taken for one.
   */
  function FieldTexts(cells: Row): seq<string>
  {
    if cells == [] then []
    else
      var n := |cells| - 1;
      var text := cells[n].text;
      FieldTexts(cells[..n]) + (if !IsBlank(text) && (FirstTitle(cells[..n]).Some? || |text| <= 3) then [text] else [])
  }

  /** A text the status branch takes. */
  predicate StatusText(t: string)
  {
    t != "" && ContainsAny(t, StatusWords)
  }

  /** A text the category branch takes: a category word and no status word. */
  predicate CategoryText(t: string)
  {
    t != "" && !ContainsAny(t, StatusWords) && ContainsAny(t, CategoryWords)
  }

  /** A text the date branch takes: a date shape and neither kind of word. */
  predicate DateText(t: string)
  {
    t != "" && !ContainsAny(t, StatusWords) && !ContainsAny(t, CategoryWords) && IsDateFormat(t)
  }

  function LastOr(xs: seq<string>, default: string): string
  {
    if xs == [] then default else xs[|xs| - 1]
  }

  function NthOr(xs: seq<string>, k: nat, default: string): string
  {
    if k < |xs| then xs[k] else default
  }

  /**
   * The three fields as the field texts `t` leave them: the status is the
   * last text with a status word (later ones overwrite it), the category the
   * first with a category word, the register date the first date text and
   * the deadline the second.
   */
  predicate FieldsMatch(p: ListedProgram, t: seq<string>)
  {
    p.status == LastOr(Filter(t, StatusText), "") &&
    p.category == NthOr(Filter(t, CategoryText), 0, "") &&
    p.registerDate == NthOr(Filter(t, DateText), 0, "") &&
    p.deadline == NthOr(Filter(t, DateText), 1, "")
  }

  /** The text at `k` of a filter is not empty when the filter only keeps non-empty texts. */
  lemma NthOrNonEmpty(t: seq<string>, p: string -> bool, k: nat)
    requires forall x :: p(x) ==> x != ""
    ensures (NthOr(Filter(t, p), k, "") != "") == (k < |Filter(t, p)|)
  {
    FilterMembers(t, p);
  }

  /** A field text moves the fields along with the texts seen. */
  lemma FieldStep(p: ListedProgram, c: Cell, base: string, t: seq<string>)
    requires FieldsMatch(p, t)
    requires !IsBlank(c.text) && (p.title != "" || |c.text| <= 3)
    ensures FieldsMatch(ApplyProgramCell(p, c, base), t + [c.text])
  {
    FilterSnoc(t, c.text, StatusText);
    FilterSnoc(t, c.text, CategoryText);
    FilterSnoc(t, c.text, DateText);
    NthOrNonEmpty(t, CategoryText, 0);
    NthOrNonEmpty(t, DateText, 0);
    NthOrNonEmpty(t, DateText, 1);
  }

  /** Cells that are blank, or taken by the title branch, fill none of the three fields. */
  lemma NonFieldStep(p: ListedProgram, c: Cell, base: string, t: seq<string>)
    requires FieldsMatch(p, t)
    requires !(!IsBlank(c.text) && (p.title != "" || |c.text| <= 3))
    ensures FieldsMatch(ApplyProgramCell(p, c, base), t)
  {
  }

  /**
   * The status is the last field text with a status word; the category is
   * the first with a category word; the first date text is the register
   * date and the second the deadline.
   */
  lemma {:induction false} ProgramFieldsRule(cells: Row, base: string)
    ensures FieldsMatch(ApplyProgramCells(BlankProgram(), cells, base), FieldTexts(cells))
  {
    if cells != [] {
      var n := |cells| - 1;
      var pre := cells[..n];
      var c := cells[n];
      var s := ApplyProgramCells(BlankProgram(), pre, base);
      ProgramFieldsRule(pre, base);
      ProgramTitleRule(BlankProgram(), pre, base);
      if !IsBlank(c.text) && (FirstTitle(pre).Some? || |c.text| <= 3) {
        FieldStep(s, c, base, FieldTexts(pre));
      } else {
        NonFieldStep(s, c, base, FieldTexts(pre));
        assert FieldTexts(cells) == FieldTexts(pre);
      }
    }
  }

  /**
   * `extract_program_info_from_row`: rows of fewer than three cells and rows
   * without a title cell give `None`.
   */
  function ExtractProgramInfo(cells: Row, base: string): (r: Option<ListedProgram>)
    ensures r.Some? <==> |cells| >= 3 && FirstTitle(cells).Some?
    ensures r.Some? ==> var k := FirstTitle(cells).value;
                        r.value.title == cells[k].text && r.value.link == CellLink(base, cells[k], "")
    ensures r.Some? ==> r.value.details == RowDetails(cells)
  {
    if |cells| < 3 then None
    else
      var p := ApplyProgramCells(BlankProgram(), cells, base);
      ProgramTitleRule(BlankProgram(), cells, base);
      ProgramDetailsUntouched(BlankProgram(), cells, base);
      if p.title != "" then Some(p.(details := RowDetails(cells))) else None
  }

  lemma {:induction false} ProgramDetailsUntouched(p: ListedProgram, cells: Row, base: string)
    ensures ApplyProgramCells(p, cells, base).details == p.details
  {
    if cells != [] {
      ProgramDetailsUntouched(p, cells[..|cells| - 1], base);
    }
  }

  /** The method form: the loop over the cell texts filling the record. */
  method ExtractProgramInfoFromRow(cells: Row, base: string) returns (r: Option<ListedProgram>)
    ensures r == ExtractProgramInfo(cells, base)
  {
    if |cells| < 3 {
      return None;
    }
    var p := BlankProgram();
    var i := 0;
    while i < |cells|
      invariant 0 <= i <= |cells|
      invariant p == ApplyProgramCells(BlankProgram(), cells[..i], base)
    {
      assert cells[..i + 1][..i] == cells[..i];
      p := ApplyProgramCell(p, cells[i], base);
      i := i + 1;
    }
    assert cells[..i] == cells;
    p := p.(details := RowDetails(cells));
    r := if p.title != "" then Some(p) else None;
  }

  // ---------------------------------------------------------------------------
  // scrape_youth_programs

  const ProgramListUrl := "https://www.busanjob.net/03_part/part01_ddr.asp"
  const ProgramHeaderWords: seq<string> := ["번호", "제목", "분류", "등록일", "마감일", "상태"]

  /** What one row adds, before the title check against the programs already held. */
  function ProgramRow(url: string, i: nat, cells: Row): (r: Option<ListedProgram>)
    ensures r.Some? ==> |r.value.title| > 2 && r == ExtractProgramInfo(cells, url)
    ensures r.Some? ==> |cells| >= 3 && !(i == 0 && IsHeaderRow(cells, ProgramHeaderWords))
  {
    if |cells| < 3 then None
    else if i == 0 && IsHeaderRow(cells, ProgramHeaderWords) then None
    else
      match ExtractProgramInfo(cells, url)
      case None => None
      case Some(p) => if |p.title| > 2 then Some(p) else None
  }

  function ProgramPick(url: string): (nat, Row) -> Option<ListedProgram>
  {
    (i: nat, cells: Row) => ProgramRow(url, i, cells)
  }

  function TitleOf(): ListedProgram -> string
  {
    (p: ListedProgram) => p.title
  }

  /** The parsed register date of a program. */
  function RegisterDateOf(currentYear: int): ListedProgram -> Option<Date>
  {
    (p: ListedProgram) => ParseListingDate(p.registerDate, currentYear)
  }

  /** The programs held when the loop stops: the first of each title, at most `maxPrograms`. */
  function CollectedPrograms(tables: seq<Table>, maxPrograms: nat): seq<ListedProgram>
  {
    Take(DistinctBy(PickTables(tables, ProgramPick(ProgramListUrl)), TitleOf()), maxPrograms)
  }

  /**
   * `scrape_youth_programs(max_programs)`: the collected programs with a
   * register date, newest first, then the others; no programs when the
   * request raises.
   */
  function YouthPrograms(fetch: string -> Option<seq<Table>>, maxPrograms: nat, currentYear: int): seq<ListedProgram>
  {
    match fetch(ProgramListUrl)
    case None => []
    case Some(tables) => DatedFirst(CollectedPrograms(tables, maxPrograms), RegisterDateOf(currentYear), true)
  }

  method ScrapeYouthPrograms(fetch: string -> Option<seq<Table>>, maxPrograms: nat, currentYear: int)
    returns (programs: seq<ListedProgram>)
    ensures programs == YouthPrograms(fetch, maxPrograms, currentYear)
  {
    var page := fetch(ProgramListUrl);
    if page.None? {
      return [];
    }
    var collected := CollectDistinctCapped(page.value, ProgramPick(ProgramListUrl), TitleOf(), maxPrograms);
    programs := DatedFirstLoop(collected, RegisterDateOf(currentYear), true);
  }

  /**
   * At most `maxPrograms` programs, no two with the same title, every title
   * longer than 2; dated ones first, newest first; and they are exactly the
   * programs collected, reordered.
   */
  lemma YouthProgramsShape(fetch: string -> Option<seq<Table>>, maxPrograms: nat, currentYear: int)
    ensures var r := YouthPrograms(fetch, maxPrograms, currentYear);
            |r| <= maxPrograms && UniqueKeys(r, TitleOf()) && Ranked(r, RegisterDateOf(currentYear), true) &&
            forall x :: x in r ==> |x.title| > 2
    ensures fetch(ProgramListUrl).Some? ==>
              multiset(YouthPrograms(fetch, maxPrograms, currentYear)) ==
              multiset(CollectedPrograms(fetch(ProgramListUrl).value, maxPrograms))
  {
    if fetch(ProgramListUrl).Some? {
      var tables := fetch(ProgramListUrl).value;
      var all := PickTables(tables, ProgramPick(ProgramListUrl));
      var collected := CollectedPrograms(tables, maxPrograms);
      var r := DatedFirst(collected, RegisterDateOf(currentYear), true);
      DatedFirstOrder(collected, RegisterDateOf(currentYear), true);
      DatedFirstRanked(collected, RegisterDateOf(currentYear), true, |r|);
      assert Take(r, |r|) == r;
      DistinctByUnique(all, TitleOf());
      UniqueKeysTake(DistinctBy(all, TitleOf()), TitleOf(), maxPrograms);
      UniqueKeysPermutation(collected, r, TitleOf());
      forall x | x in r
        ensures |x.title| > 2
      {
        assert x in multiset(collected);
        CollectedProgramTitle(tables, maxPrograms, x);
      }
    }
  }

  lemma CollectedProgramTitle(tables: seq<Table>, maxPrograms: nat, x: ListedProgram)
    requires x in CollectedPrograms(tables, maxPrograms)
    ensures |x.title| > 2
  {
    var all := PickTables(tables, ProgramPick(ProgramListUrl));
    DistinctByKeys(all, TitleOf());
    PickTablesFrom(tables, ProgramPick(ProgramListUrl), x);
  }
}

=== FILE: regional_jobs.dfy ===
/**
 * services/regional_job_scraper.py: busanjob.net job listings searched by
 * region, and the overseas listing filtered by country.
 *
 * Pages are tables of cells (module Tables); fetching is a function from URL
 * to an optional page (`None` for a request that raises), `quote` is the URL
 * quoting of `urllib.parse`, and `today` is `date.today()` (its year is the
 * `datetime.now().year` that month-day dates are read in).
 */
module RegionalJobs {
  import opened Wrappers
  import opened Text
  import opened Seqs
  import opened Dates
  import opened Tables
  import opened DatedOrder

  /** The `job_info` dict `extract_job_info_from_row` fills. */
  datatype Job = Job(
    title: string, company: string, location: string, jobType: string, deadline: string,
    registerDate: string, link: string, details: string, region: string)

  /** The record before any cell is read: only the region is set (empty when none is given). */
  function BlankJob(region: string): Job
  {
    Job("", "", "", "", "", "", "", "", region)
  }

  const LocationWords: seq<string> := ["구", "군", "부산", "해운대", "강서", "기장"]

  // ---------------------------------------------------------------------------
  // extract_job_info_from_row

  /** Company, dates and location are only ever filled while empty: a later cell never replaces them. */
  predicate KeepsFilled(j: Job, r: Job)
  {
    (j.company != "" ==> r.company == j.company) &&
    (j.registerDate != "" ==> r.registerDate == j.registerDate) &&
    (j.deadline != "" ==> r.deadline == j.deadline) &&
    (j.location != "" ==> r.location == j.location) &&
    r.jobType == j.jobType && r.details == j.details && r.region == j.region
  }

  /** One turn of the loop over the cell texts: the first branch that applies decides. */
  function ApplyJobCell(j: Job, c: Cell, base: string): (r: Job)
    ensures j.title != "" ==> r.title == j.title && r.link == j.link
    ensures j.title == "" && TitleCell(c) ==> r.title == c.text && r.link == CellLink(base, c, j.link)
    ensures j.title == "" && !TitleCell(c) ==> r.title == "" && r.link == j.link
    ensures KeepsFilled(j, r)
  {
    var text := c.text;
    if IsBlank(text) then j
    else if j.title == "" && |text| > 3 then
      if c.href.Some? then j.(title := text, link := CellLink(base, c, j.link))
      else if |text| > 5 then j.(title := text)
      else j
    else if j.company == "" && j.title != "" && |text| > 1 then
      if text != j.title && !IsDateFormatRegional(text) then j.(company := text) else j
    else if IsDateFormatRegional(text) then
      if j.registerDate == "" then j.(registerDate := text)
      else if j.deadline == "" then j.(deadline := text)
      else j
    else if ContainsAny(text, LocationWords) then
      if j.location == "" then j.(location := text) else j
    else j
  }

  /** The cells applied in order. */
  function ApplyJobCells(j: Job, cells: Row, base: string): Job
  {
    if cells == [] then j else ApplyJobCell(ApplyJobCells(j, cells[..|cells| - 1], base), cells[|cells| - 1], base)
  }

  /**
   * The title is the text of the first title cell, and the link is that
   * cell's `href` (made absolute); with no title cell both stay as they were.
   */
  lemma {:induction false} JobTitleRule(j: Job, cells: Row, base: string)
    requires j.title == ""
    ensures var r := ApplyJobCells(j, cells, base);
            match FirstTitle(cells)
            case None => r.title == "" && r.link == j.link
            case Some(k) => r.title == cells[k].text && r.link == CellLink(base, cells[k], j.link)
  {
    if cells != [] {
      var n := |cells| - 1;
      var prev := ApplyJobCells(j, cells[..n], base);
      JobTitleRule(j, cells[..n], base);
      assert FirstTitle(cells) == if FirstTitle(cells[..n]).Some? then FirstTitle(cells[..n])
                                  else if TitleCell(cells[n]) then Some(n) else None by {
        FirstFromPrefix(cells, TitleCell, 0, n);
        assert cells[..n + 1] == cells;
      }
      assert ApplyJobCells(j, cells, base) == ApplyJobCell(prev, cells[n], base);
    }
  }

  /** A field, once filled by some cell, keeps that value through every later cell. */
  lemma {:induction false} JobFieldsFirstWins(j: Job, cells: Row, base: string, i: nat)
    requires i <= |cells|
    ensures KeepsFilled(ApplyJobCells(j, cells[..i], base), ApplyJobCells(j, cells, base))
    decreases |cells|
  {
    if i == |cells| {
      assert cells[..i] == cells;
    } else {
      var n := |cells| - 1;
      JobFieldsFirstWins(j, cells[..n], base, i);
      assert cells[..n][..i] == cells[..i];
    }
  }

  /**
   * While a title is set and no company is, a cell of two or more characters
   * is taken by the company branch: when it is a date it is not recorded
   * anywhere, since the date branch is an `elif` of that branch.
   */
  lemma DateSwallowedBeforeCompany(j: Job, c: Cell, base: string)
    requires j.title != "" && j.company == "" && !IsBlank(c.text) && |c.text| > 1
    requires IsDateFormatRegional(c.text)
    ensures ApplyJobCell(j, c, base) == j
  {
  }

  /**
   * `extract_job_info_from_row`: rows of fewer than three cells and rows
   * without a title cell give `None`.
   */
  function ExtractJobInfo(cells: Row, base: string, region: string): (r: Option<Job>)
    ensures r.Some? <==> |cells| >= 3 && FirstTitle(cells).Some?
    ensures r.Some? ==> var k := FirstTitle(cells).value;
                        r.value.title == cells[k].text && r.value.link == CellLink(base, cells[k], "")
    ensures r.Some? ==> r.value.details == RowDetails(cells) && r.value.region == region && r.value.jobType == ""
  {
    if |cells| < 3 then None
    else
      var j := ApplyJobCells(BlankJob(region), cells, base);
      JobTitleRule(BlankJob(region), cells, base);
      JobFieldsFirstWins(BlankJob(region), cells, base, 0);
      if j.title != "" then Some(j.(details := RowDetails(cells))) else None
  }

  /** The method form: the loop over the cell texts filling the record. */
  method ExtractJobInfoFromRow(cells: Row, base: string, region: string) returns (r: Option<Job>)
    ensures r == ExtractJobInfo(cells, base, region)
  {
    if |cells| < 3 {
      return None;
    }
    var j := BlankJob(region);
    var i := 0;
    while i < |cells|
      invariant 0 <= i <= |cells|
      invariant j == ApplyJobCells(BlankJob(region), cells[..i], base)
    {
      assert cells[..i + 1][..i] == cells[..i];
      j := ApplyJobCell(j, cells[i], base);
      i := i + 1;
    }
    assert cells[..i] == cells;
    j := j.(details := RowDetails(cells));
    r := if j.title != "" then Some(j) else None;
  }

  // ---------------------------------------------------------------------------
  // is_currently_recruiting

  const ClosedWords: seq<string> := ["마감", "종료", "완료"]
  const OpenWords: seq<string> := ["모집중", "접수중", "채용중", "recruiting"]

  /**
   * A parseable deadline alone decides; otherwise a closed word in the
   * lower-cased title says no and an open word says yes; otherwise a
   * parseable register date at most 30 days old decides; otherwise yes.
   */
  predicate IsCurrentlyRecruiting(j: Job, today: Day)
  {
    match ParseDateRegional(j.deadline, today.year)
    case Some(d) => DateLe(today, d)
    case None =>
      var title := Lower(j.title);
      if ContainsAny(title, ClosedWords) then false
      else if ContainsAny(title, OpenWords) then true
      else
        match ParseDateRegional(j.registerDate, today.year)
        case Some(r) => DaysBetween(today, r) <= 30
        case None => true
  }

  /**
   * Within one year, a posting that is no longer open stays closed on every
   * later day: its deadline has passed, its title is closed, or its register
   * date only gets older.
   */
  lemma RecruitingNeverResumes(j: Job, earlier: Day, later: Day)
    requires earlier.year == later.year && DateLe(earlier, later)
    requires !IsCurrentlyRecruiting(j, earlier)
    ensures !IsCurrentlyRecruiting(j, later)
  {
    if ParseDateRegional(j.deadline, earlier.year).None? && !ContainsAny(Lower(j.title), ClosedWords) {
      OrdinalMonotone(earlier, later);
    }
  }

  /** A parseable deadline overrides the title and the register date. */
  lemma DeadlineDecides(j: Job, today: Day, title: string, registerDate: string)
    requires ParseDateRegional(j.deadline, today.year).Some?
    ensures IsCurrentlyRecruiting(j, today) == IsCurrentlyRecruiting(j.(title := title, registerDate := registerDate), today)
  {
  }

  // ---------------------------------------------------------------------------
  // get_region_jobs and get_general_jobs

  const PublicListUrl := "https://busanjob.net/01_emif/emif01_1.asp"
  const CompanyListUrl := "https://busanjob.net/01_emif/emif01.asp"

  /** The listing searched: public jobs for "공공", company jobs otherwise. */
  function ListUrl(jobType: string): string
  {
    if jobType == "공공" then PublicListUrl else CompanyListUrl
  }

  function RegionSearchUrl(region: string, jobType: string, quote: string -> string): string
  {
    ListUrl(jobType) + "?keyword=" + quote(region) + "&region="
  }

  const RegionHeaderWords: seq<string> := ["번호", "제목", "회사", "등록일", "마감일", "구분"]

  /** The region occurs in the title, the company or the location. */
  predicate MentionsRegion(j: Job, region: string)
  {
    Contains(j.title, region) || Contains(j.company, region) || Contains(j.location, region)
  }

  /** What one row of the region search adds to `jobs`. */
  function RegionRowJob(url: string, region: string, jobType: string, today: Day, i: nat, cells: Row): (r: Option<Job>)
    ensures r.Some? ==> IsCurrentlyRecruiting(r.value, today) && MentionsRegion(r.value, region) &&
                        r.value.jobType == jobType && |r.value.title| > 2
    ensures r.Some? ==> |cells| >= 4 && !(i == 0 && IsHeaderRow(cells, RegionHeaderWords))
  {
    if |cells| < 4 then None
    else if i == 0 && IsHeaderRow(cells, RegionHeaderWords) then None
    else
      match ExtractJobInfo(cells, url, region)
      case None => None
      case Some(j) =>
        if |j.title| > 2 && IsCurrentlyRecruiting(j, today) && MentionsRegion(j, region) then Some(j.(jobType := jobType))
        else None
  }

  function RegionPick(url: string, region: string, jobType: string, today: Day): (nat, Row) -> Option<Job>
  {
    (i: nat, cells: Row) => RegionRowJob(url, region, jobType, today, i, cells)
  }

  /** What one row of the general listing adds: the first row of each table is skipped unread. */
  function GeneralRowJob(url: string, jobType: string, today: Day, i: nat, cells: Row): (r: Option<Job>)
    ensures r.Some? ==> IsCurrentlyRecruiting(r.value, today) && r.value.jobType == jobType && |r.value.title| > 2
    ensures r.Some? ==> |cells| >= 4 && i != 0
  {
    if |cells| < 4 || i == 0 then None
    else
      match ExtractJobInfo(cells, url, "")
      case None => None
      case Some(j) =>
        if |j.title| > 2 && IsCurrentlyRecruiting(j, today) then Some(j.(jobType := jobType)) else None
  }

  function GeneralPick(url: string, jobType: string, today: Day): (nat, Row) -> Option<Job>
  {
    (i: nat, cells: Row) => GeneralRowJob(url, jobType, today, i, cells)
  }

  /** `get_general_jobs(max_jobs, job_type)` */
  function GeneralJobs(fetch: string -> Option<seq<Table>>, maxJobs: nat, jobType: string, today: Day): seq<Job>
  {
    var url := ListUrl(jobType);
    match fetch(url)
    case None => []
    case Some(tables) => Take(PickTables(tables, GeneralPick(url, jobType, today)), maxJobs)
  }

  method GetGeneralJobs(fetch: string -> Option<seq<Table>>, maxJobs: nat, jobType: string, today: Day)
    returns (jobs: seq<Job>)
    ensures jobs == GeneralJobs(fetch, maxJobs, jobType, today)
  {
    var url := ListUrl(jobType);
    var page := fetch(url);
    if page.None? {
      return [];
    }
    jobs := CollectCapped(page.value, GeneralPick(url, jobType, today), maxJobs);
  }

  /** The register date a job is sorted by, read in the current year. */
  function RegisterDateOf(year: int): Job -> Option<Date>
  {
    (j: Job) => ParseDateRegional(j.registerDate, year)
  }

  /** The region search's own records, collected up to `maxJobs` and ordered newest first. */
  function RegionPart(tables: seq<Table>, url: string, region: string, jobType: string, maxJobs: nat, today: Day): seq<Job>
  {
    var collected := Take(PickTables(tables, RegionPick(url, region, jobType, today)), maxJobs);
    Take(DatedFirst(collected, RegisterDateOf(today.year), true), maxJobs)
  }

  /**
   * `get_region_jobs`: the region search's records, newest register date
   * first and undated ones after, then general listings while fewer than
   * `maxJobs`; a failed request gives no jobs.
   */
  function RegionJobs(fetch: string -> Option<seq<Table>>, quote: string -> string, region: string, jobType: string,
                      maxJobs: nat, today: Day): seq<Job>
  {
    var url := RegionSearchUrl(region, jobType, quote);
    match fetch(url)
    case None => []
    case Some(tables) =>
      var part := RegionPart(tables, url, region, jobType, maxJobs, today);
      if |part| < maxJobs then Take(part + GeneralJobs(fetch, maxJobs - |part|, jobType, today), maxJobs)
      else Take(part, maxJobs)
  }

  method GetRegionJobs(fetch: string -> Option<seq<Table>>, quote: string -> string, region: string, jobType: string,
                       maxJobs: nat, today: Day)
    returns (jobs: seq<Job>)
    ensures jobs == RegionJobs(fetch, quote, region, jobType, maxJobs, today)
  {
    var url := RegionSearchUrl(region, jobType, quote);
    var page := fetch(url);
    if page.None? {
      return [];
    }
    var collected := CollectCapped(page.value, RegionPick(url, region, jobType, today), maxJobs);
    var ordered := DatedFirstLoop(collected, RegisterDateOf(today.year), true);
    var finalJobs := Take(ordered, maxJobs);
    if |finalJobs| < maxJobs {
      var general := GetGeneralJobs(fetch, maxJobs - |finalJobs|, jobType, today);
      finalJobs := finalJobs + general;
    }
    jobs := Take(finalJobs, maxJobs);
  }

  /** Every record the rows yield satisfies what the row filter demands. */
  lemma RegionRecordsQualify(tables: seq<Table>, url: string, region: string, jobType: string, today: Day, x: Job)
    requires x in PickTables(tables, RegionPick(url, region, jobType, today))
    ensures IsCurrentlyRecruiting(x, today) && MentionsRegion(x, region) && x.jobType == jobType
  {
    PickTablesFrom(tables, RegionPick(url, region, jobType, today), x);
  }

  lemma GeneralRecordsQualify(tables: seq<Table>, url: string, jobType: string, today: Day, x: Job)
    requires x in PickTables(tables, GeneralPick(url, jobType, today))
    ensures IsCurrentlyRecruiting(x, today) && x.jobType == jobType
  {
    PickTablesFrom(tables, GeneralPick(url, jobType, today), x);
  }

  /**
   * `get_region_jobs` returns at most `maxJobs` open postings of the
   * requested type; the region search's own records come first, and among
   * them those with a register date come first, newest first.
   */
  lemma RegionJobsShape(fetch: string -> Option<seq<Table>>, quote: string -> string, region: string, jobType: string,
                        maxJobs: nat, today: Day)
    ensures var r := RegionJobs(fetch, quote, region, jobType, maxJobs, today);
            |r| <= maxJobs &&
            forall x :: x in r ==> IsCurrentlyRecruiting(x, today) && x.jobType == jobType
  {
    var url := RegionSearchUrl(region, jobType, quote);
    if fetch(url).Some? {
      var part := RegionPart(fetch(url).value, url, region, jobType, maxJobs, today);
      RegionPartQualifies(fetch(url).value, url, region, jobType, maxJobs, today);
      if |part| < maxJobs {
        var general := GeneralJobs(fetch, maxJobs - |part|, jobType, today);
        GeneralJobsQualify(fetch, maxJobs - |part|, jobType, today);
        assert forall x :: x in part + general ==> x in part || x in general;
      }
    }
  }

  /**
   * The region search's own records lead the answer: they mention the
   * region and are ranked newest register date first, undated last.
   */
  lemma RegionJobsLeadWithRegion(fetch: string -> Option<seq<Table>>, quote: string -> string, region: string,
                                 jobType: string, maxJobs: nat, today: Day)
    requires fetch(RegionSearchUrl(region, jobType, quote)).Some?
    ensures var url := RegionSearchUrl(region, jobType, quote);
            var part := RegionPart(fetch(url).value, url, region, jobType, maxJobs, today);
            part <= RegionJobs(fetch, quote, region, jobType, maxJobs, today) &&
            (forall x :: x in part ==> MentionsRegion(x, region)) &&
            Ranked(part, RegisterDateOf(today.year), true)
  {
    var url := RegionSearchUrl(region, jobType, quote);
    var part := RegionPart(fetch(url).value, url, region, jobType, maxJobs, today);
    RegionPartQualifies(fetch(url).value, url, region, jobType, maxJobs, today);
    if |part| < maxJobs {
      var general := GeneralJobs(fetch, maxJobs - |part|, jobType, today);
      assert (part + general)[..|part|] == part;
    }
  }

  /** The region search's part: open postings of the type that mention the region, ranked newest first. */
  lemma RegionPartQualifies(tables: seq<Table>, url: string, region: string, jobType: string, maxJobs: nat, today: Day)
    ensures var part := RegionPart(tables, url, region, jobType, maxJobs, today);
            (forall x :: x in part ==> IsCurrentlyRecruiting(x, today) && MentionsRegion(x, region) && x.jobType == jobType) &&
            Ranked(part, RegisterDateOf(today.year), true)
  {
    var collected := Take(PickTables(tables, RegionPick(url, region, jobType, today)), maxJobs);
    var part := RegionPart(tables, url, region, jobType, maxJobs, today);
    DatedFirstRanked(collected, RegisterDateOf(today.year), true, maxJobs);
    DatedFirstOrder(collected, RegisterDateOf(today.year), true);
    forall x | x in part
      ensures IsCurrentlyRecruiting(x, today) && MentionsRegion(x, region) && x.jobType == jobType
    {
      assert x in multiset(DatedFirst(collected, RegisterDateOf(today.year), true));
      RegionRecordsQualify(tables, url, region, jobType, today, x);
    }
  }

  lemma GeneralJobsQualify(fetch: string -> Option<seq<Table>>, maxJobs: nat, jobType: string, today: Day)
    ensures forall x :: x in GeneralJobs(fetch, maxJobs, jobType, today) ==> IsCurrentlyRecruiting(x, today) && x.jobType == jobType
  {
    var url := ListUrl(jobType);
    if fetch(url).Some? {
      forall x | x in GeneralJobs(fetch, maxJobs, jobType, today)
        ensures IsCurrentlyRecruiting(x, today) && x.jobType == jobType
      {
        GeneralRecordsQualify(fetch(url).value, url, jobType, today, x);
      }
    }
  }


  // ---------------------------------------------------------------------------
  // Country matching and job types

  /** The synonyms `is_target_country_job` tries for a country. */
  const CountryMapping: map<string, seq<string>> := map[
    "일본" := ["japan", "japanese", "일본"],
    "미국" := ["usa", "america", "american", "미국"],
    "중국" := ["china", "chinese", "중국"],
    "독일" := ["germany", "german", "독일"],
    "베트남" := ["vietnam", "vietnamese", "베트남"],
    "싱가포르" := ["singapore", "싱가포르"],
    "말레이시아" := ["malaysia", "말레이시아"],
    "캐나다" := ["canada", "캐나다"],
    "호주" := ["australia", "호주"],
    "폴란드" := ["poland", "polish", "폴란드"],
    "인도" := ["india", "indian", "인도"],
    "태국" := ["thailand", "thai", "태국"]]

  /** The synonyms `contains_country_simple` tries. */
  const CountryMaps: map<string, seq<string>> := map[
    "일본" := ["japan", "japanese"],
    "미국" := ["usa", "america", "american"],
    "중국" := ["china", "chinese"],
    "독일" := ["germany", "german"],
    "베트남" := ["vietnam", "vietnamese"],
    "싱가포르" := ["singapore"],
    "말레이시아" := ["malaysia"],
    "캐나다" := ["canada"],
    "호주" := ["australia", "australian"]]

  /** Some synonym of `country` in `mapping` occurs in one of the texts. */
  predicate SynonymOccurs(mapping: map<string, seq<string>>, country: string, texts: seq<string>)
  {
    country in mapping &&
    exists k, t :: 0 <= k < |mapping[country]| && 0 <= t < |texts| && Contains(texts[t], mapping[country][k])
  }

  /** `contains_country_simple(text, country)` */
  predicate ContainsCountrySimple(text: string, country: string)
  {
    var t := Lower(text);
    var c := Lower(country);
    Contains(t, c) || SynonymOccurs(CountryMaps, c, [t])
  }

  /** One row of the overseas table. */
  datatype OverseasJob = OverseasJob(title: string, country: string, jobType: string, deadline: string, link: string)

  /** `is_target_country_job(job_info, target_country)` */
  predicate IsTargetCountryJob(j: OverseasJob, target: string)
  {
    var t := Lower(target);
    var title := Lower(j.title);
    var country := Lower(j.country);
    Contains(title, t) || Contains(country, t) || SynonymOccurs(CountryMapping, t, [title, country])
  }

  /** Matching ignores ASCII case in the job and in the target. */
  lemma CountryMatchIgnoresCase(j: OverseasJob, target: string)
    ensures IsTargetCountryJob(j, target) ==
            IsTargetCountryJob(j.(title := Lower(j.title), country := Lower(j.country)), Lower(target))
  {
    LowerIdempotent(j.title);
    LowerIdempotent(j.country);
    LowerIdempotent(target);
  }

  /** Every synonym of the simple table contains one of the job table's synonyms. */
  lemma SimpleSynonymCovered(c: string, kw: string)
    requires c in CountryMaps && kw in CountryMaps[c]
    ensures c in CountryMapping && exists k :: 0 <= k < |CountryMapping[c]| && Contains(kw, CountryMapping[c][k])
  {
    if kw == "japanese" {
      ContainsMiddle("", "japan", "ese");
      assert CountryMapping[c][0] == "japan";
    } else if kw == "australian" {
      ContainsMiddle("", "australia", "n");
      assert CountryMapping[c][0] == "australia";
    } else {
      ContainsSelf(kw);
      var k :| 0 <= k < |CountryMaps[c]| && CountryMaps[c][k] == kw;
      assert CountryMapping[c][k] == kw;
    }
  }

  /**
   * The row test of the keyword search is no stricter than the job test:
   * a text that `contains_country_simple` accepts, taken as a title, makes
   * a job `is_target_country_job` accepts.
   */
  lemma SimpleMatchImpliesTarget(text: string, country: string, j: OverseasJob)
    requires j.title == text
    requires ContainsCountrySimple(text, country)
    ensures IsTargetCountryJob(j, country)
  {
    var t := Lower(text);
    var c := Lower(country);
    if !Contains(t, c) {
      var k, i :| 0 <= k < |CountryMaps[c]| && 0 <= i < 1 && Contains([t][i], CountryMaps[c][k]);
      SimpleSynonymCovered(c, CountryMaps[c][k]);
      var m :| 0 <= m < |CountryMapping[c]| && Contains(CountryMaps[c][k], CountryMapping[c][m]);
      ContainsTransitive(t, CountryMaps[c][k], CountryMapping[c][m]);
      assert [t, Lower(j.country)][0] == t;
    }
  }

  const JobKeywords: seq<string> := [
    "개발자", "엔지니어", "매니저", "디자이너", "마케팅", "영업",
    "관리", "교사", "간호사", "요리사", "기술자", "상담원",
    "developer", "engineer", "manager", "designer", "marketing"]

  const DefaultJobType := "다양한 직종"

  /** The first of `words`, at or after `i`, that occurs in `s`. */
  function FirstWordFrom(s: string, words: seq<string>, i: nat): (r: Option<nat>)
    requires i <= |words|
    decreases |words| - i
    ensures r.Some? ==> i <= r.value < |words| && Contains(s, words[r.value])
    ensures forall k :: i <= k < |words| && (r.None? || k < r.value) ==> !Contains(s, words[k])
  {
    if i == |words| then None
    else if Contains(s, words[i]) then Some(i)
    else FirstWordFrom(s, words, i + 1)
  }

  /**
   * `extract_job_type_from_text`: the first keyword, in list order, that
   * occurs in the lower-cased text; '다양한 직종' when none does.
   */
  function ExtractJobTypeFromText(text: string): (r: string)
    ensures (forall k :: 0 <= k < |JobKeywords| ==> !Contains(Lower(text), JobKeywords[k])) ==> r == DefaultJobType
    ensures (exists k :: 0 <= k < |JobKeywords| && Contains(Lower(text), JobKeywords[k])) ==>
              exists k :: 0 <= k < |JobKeywords| && r == JobKeywords[k] && Contains(Lower(text), r) &&
                          forall m :: 0 <= m < k ==> !Contains(Lower(text), JobKeywords[m])
  {
    match FirstWordFrom(Lower(text), JobKeywords, 0)
    case Some(k) => JobKeywords[k]
    case None => DefaultJobType
  }

  // ---------------------------------------------------------------------------
  // get_overseas_jobs

  const OverseasUrl := "https://busanjob.net/01_emif/emif01_2.asp"

  /**
   * `extract_overseas_job_from_table`: the first four cells are title,
   * country, job type and deadline; a title shorter than 3 gives `None`;
   * the link is the title cell's `href` (made absolute), else the page URL.
   */
  function OverseasJobFromTable(cells: Row, base: string): (r: Option<OverseasJob>)
    ensures r.Some? <==> |cells| >= 4 && |cells[0].text| >= 3
    ensures r.Some? ==> r.value.title == cells[0].text && r.value.country == cells[1].text &&
                        r.value.jobType == cells[2].text && r.value.deadline == cells[3].text
    ensures r.Some? ==> r.value.link == CellLink(base, cells[0], base)
  {
    if |cells| < 4 then None
    else
      var link := CellLink(base, cells[0], base);
      var title := cells[0].text;
      if title == "" || |title| < 3 then None
      else Some(OverseasJob(title, cells[1].text, cells[2].text, cells[3].text, link))
  }

  const OverseasHeaderWords: seq<string> := ["공고명", "기관명", "국가", "직종", "마감일"]

  /** A row of four or more cells whose joined texts mention a header word. */
  predicate IsOverseasHeader(cells: Row)
  {
    |cells| >= 4 && ContainsAny(Join(" ", Texts(cells)), OverseasHeaderWords)
  }

  /** The first header row at or after `i`. */
  function HeaderRowFrom(rows: Table, i: nat): (r: Option<nat>)
    requires i <= |rows|
    decreases |rows| - i
    ensures r.Some? ==> i <= r.value < |rows| && IsOverseasHeader(rows[r.value])
    ensures forall k :: i <= k < |rows| && (r.None? || k < r.value) ==> !IsOverseasHeader(rows[k])
  {
    if i == |rows| then None
    else if IsOverseasHeader(rows[i]) then Some(i)
    else HeaderRowFrom(rows, i + 1)
  }

  /** The jobs of the rows (after a header), in order. */
  function JobsOfRows(rows: Table, base: string): seq<OverseasJob>
  {
    if rows == [] then []
    else
      var cells := rows[|rows| - 1];
      var job := if |cells| >= 4 then OverseasJobFromTable(cells, base) else None;
      JobsOfRows(rows[..|rows| - 1], base) + (match job case Some(x) => [x] case None => [])
  }

  /** The rows after the header of the first table that has one; none without a header. */
  function OverseasTableJobs(tables: seq<Table>, base: string): seq<OverseasJob>
  {
    if tables == [] then []
    else
      match HeaderRowFrom(tables[0], 0)
      case Some(h) => JobsOfRows(tables[0][h + 1..], base)
      case None => OverseasTableJobs(tables[1..], base)
  }

  /** The header search of `get_overseas_jobs`, with its two `break`s. */
  method ScanOverseasTables(tables: seq<Table>, base: string) returns (jobs: seq<OverseasJob>)
    ensures jobs == OverseasTableJobs(tables, base)
  {
    var t := 0;
    while t < |tables|
      invariant 0 <= t <= |tables|
      invariant OverseasTableJobs(tables[t..], base) == OverseasTableJobs(tables, base)
    {
      var h := FindOverseasHeader(tables[t]);
      assert tables[t..][0] == tables[t] && tables[t..][1..] == tables[t + 1..];
      if h.Some? {
        jobs := JobsAfterHeader(tables[t], h.value, base);
        return;
      }
      t := t + 1;
    }
    jobs := [];
  }

  /** The inner loop over the rows, looking for the header row. */
  method FindOverseasHeader(rows: Table) returns (h: Option<nat>)
    ensures h == HeaderRowFrom(rows, 0)
  {
    var i := 0;
    while i < |rows|
      invariant 0 <= i <= |rows|
      invariant HeaderRowFrom(rows, i) == HeaderRowFrom(rows, 0)
    {
      if IsOverseasHeader(rows[i]) {
        return Some(i);
      }
      i := i + 1;
    }
    h := None;
  }

  /** The jobs of the rows after the header row. */
  method JobsAfterHeader(rows: Table, h: nat, base: string) returns (jobs: seq<OverseasJob>)
    requires h < |rows|
    ensures jobs == JobsOfRows(rows[h + 1..], base)
  {
    jobs := [];
    var j := h + 1;
    while j < |rows|
      invariant h + 1 <= j <= |rows|
      invariant jobs == JobsOfRows(rows[h + 1..j], base)
    {
      assert rows[h + 1..j + 1][..j - h - 1] == rows[h + 1..j] && rows[h + 1..j + 1][j - h - 1] == rows[j];
      var cells := rows[j];
      if |cells| >= 4 {
        var job := OverseasJobFromTable(cells, base);
        if job.Some? {
          jobs := jobs + [job.value];
        }
      }
      j := j + 1;
    }
    assert rows[h + 1..j] == rows[h + 1..];
  }

  /** The parsed deadline of a job, read in the current year. */
  function DeadlineOf(year: int): OverseasJob -> Option<Date>
  {
    (j: OverseasJob) => ParseDateRegional(j.deadline, year)
  }

  /** Kept by the deadline filter: a deadline today or later, or none that parses. */
  function NotExpired(today: Day): OverseasJob -> bool
  {
    (j: OverseasJob) => match ParseDateRegional(j.deadline, today.year) case Some(d) => DateLe(today, d) case None => true
  }

  function TargetFor(country: string): OverseasJob -> bool
  {
    (j: OverseasJob) => IsTargetCountryJob(j, country)
  }

  /** The jobs of the country still open, in the order they are listed. */
  function CurrentOverseasJobs(tables: seq<Table>, country: string, today: Day): seq<OverseasJob>
  {
    Filter(Filter(OverseasTableJobs(tables, OverseasUrl), TargetFor(country)), NotExpired(today))
  }

  /**
   * What `get_overseas_jobs` lists: the current jobs with a deadline,
   * soonest first, then those without, at most three.
   */
  function OverseasJobs(tables: seq<Table>, country: string, today: Day): seq<OverseasJob>
  {
    Take(DatedFirst(CurrentOverseasJobs(tables, country, today), DeadlineOf(today.year), false), 3)
  }

  /** Each current job is about the country and not past its deadline. */
  lemma CurrentJobsQualify(tables: seq<Table>, country: string, today: Day, x: OverseasJob)
    requires x in CurrentOverseasJobs(tables, country, today)
    ensures IsTargetCountryJob(x, country) && NotExpired(today)(x)
  {
    var filtered := Filter(OverseasTableJobs(tables, OverseasUrl), TargetFor(country));
    FilterMembers(filtered, NotExpired(today));
    FilterMembers(OverseasTableJobs(tables, OverseasUrl), TargetFor(country));
  }

  /** The list part of `get_overseas_jobs`; `None` when the request raises. */
  method GetOverseasJobs(fetch: string -> Option<seq<Table>>, country: string, today: Day)
    returns (r: Option<seq<OverseasJob>>)
    ensures fetch(OverseasUrl).None? ==> r.None?
    ensures fetch(OverseasUrl).Some? ==> r == Some(OverseasJobs(fetch(OverseasUrl).value, country, today))
  {
    var page := fetch(OverseasUrl);
    if page.None? {
      return None;
    }
    var jobs := ScanOverseasTables(page.value, OverseasUrl);
    var filtered := FilterLoop(jobs, TargetFor(country));
    var current := FilterLoop(filtered, NotExpired(today));
    var ordered := DatedFirstLoop(current, DeadlineOf(today.year), false);
    r := Some(Take(ordered, 3));
  }

  /**
   * At most three jobs, each about the country and not past its deadline;
   * dated ones first, soonest first; and when there are at most three
   * current jobs, all of them are listed.
   */
  lemma OverseasJobsShape(tables: seq<Table>, country: string, today: Day)
    ensures var r := OverseasJobs(tables, country, today);
            |r| <= 3 &&
            (forall x :: x in r ==> IsTargetCountryJob(x, country) && NotExpired(today)(x)) &&
            Ranked(r, DeadlineOf(today.year), false)
    ensures var current := CurrentOverseasJobs(tables, country, today);
            |current| <= 3 ==> multiset(OverseasJobs(tables, country, today)) == multiset(current)
  {
    var current := CurrentOverseasJobs(tables, country, today);
    var ordered := DatedFirst(current, DeadlineOf(today.year), false);
    assert OverseasJobs(tables, country, today) == Take(ordered, 3);
    DatedFirstRanked(current, DeadlineOf(today.year), false, 3);
    OverseasJobsQualify(tables, country, today);
    if |current| <= 3 {
      DatedFirstOrder(current, DeadlineOf(today.year), false);
      assert Take(ordered, 3) == ordered;
    }
  }

  lemma OverseasJobsQualify(tables: seq<Table>, country: string, today: Day)
    ensures forall x :: x in OverseasJobs(tables, country, today) ==> IsTargetCountryJob(x, country) && NotExpired(today)(x)
  {
    var current := CurrentOverseasJobs(tables, country, today);
    var ordered := DatedFirst(current, DeadlineOf(today.year), false);
    DatedFirstOrder(current, DeadlineOf(today.year), false);
    forall x | x in OverseasJobs(tables, country, today)
      ensures IsTargetCountryJob(x, country) && NotExpired(today)(x)
    {
      assert x in multiset(ordered);
      CurrentJobsQualify(tables, country, today, x);
    }
  }
}

=== FILE: replies.dfy ===
/**
 * The JSON objects the Flask handlers return, as a datatype: a listing
 * (`success: True` with `data`, `count`, `message` and, for searches, the
 * query echoed back), a bare message (`success: True` with `message` only),
 * or a failure (`success: False` with an optional `error` and a `message`).
 */
module Replies {
  import opened Wrappers

  datatype Reply<T> =
    | Listing(data: seq<T>, count: int, message: string, query: Option<string>)
    | Message(message: string)
    | Failed(error: Option<string>, message: string)
  {
    /** The `success` field. */
    predicate Success()
    {
      !Failed?
    }
  }
}

=== FILE: seqs.dfy ===
/**
 * List operations shared by the services: the filter that every loop
 * appending the elements that pass a test computes, and Python slicing
 * `xs[:n]`.
 */
module Seqs {
  import opened Wrappers

  /** The elements of `s` that satisfy `p`, in their original order. */
  function Filter<T>(s: seq<T>, p: T -> bool): (r: seq<T>)
    ensures |r| <= |s|
  {
    if s == [] then [] else (if p(s[0]) then [s[0]] else []) + Filter(s[1..], p)
  }

  /** The filter keeps exactly the elements of `s` that pass `p`. */
  lemma {:induction false} FilterMembers<T>(s: seq<T>, p: T -> bool)
    ensures forall i :: 0 <= i < |Filter(s, p)| ==> Filter(s, p)[i] in s && p(Filter(s, p)[i])
    ensures forall i :: 0 <= i < |s| && p(s[i]) ==> s[i] in Filter(s, p)
  {
    if s != [] {
      FilterMembers(s[1..], p);
      var r := Filter(s, p);
      var h: seq<T> := if p(s[0]) then [s[0]] else [];
      assert r == h + Filter(s[1..], p);
      forall i | 0 <= i < |s| && p(s[i])
        ensures s[i] in r
      {
        if i > 0 { assert s[i] == s[1..][i - 1]; }
      }
    }
  }

  /** An element is in the filter exactly when it is in `s` and passes `p`. */
  lemma FilterIff<T>(s: seq<T>, p: T -> bool, x: T)
    ensures x in Filter(s, p) <==> x in s && p(x)
  {
    FilterMembers(s, p);
    if x in Filter(s, p) {
      var i :| 0 <= i < |Filter(s, p)| && Filter(s, p)[i] == x;
    }
    if x in s && p(x) {
      var i :| 0 <= i < |s| && s[i] == x;
    }
  }

  /**
   * The loop that appends, in order, the elements of `s` that pass `p`.
   */
  method FilterLoop<T>(s: seq<T>, p: T -> bool) returns (out: seq<T>)
    ensures out == Filter(s, p)
  {
    out := [];
    var i := 0;
    while i < |s|
      invariant 0 <= i <= |s|
      invariant out == Filter(s[..i], p)
    {
      FilterSnoc(s[..i], s[i], p);
      assert s[..i + 1] == s[..i] + [s[i]];
      if p(s[i]) {
        out := out + [s[i]];
      }
      i := i + 1;
    }
    assert s[..i] == s;
  }

  /** Filtering distributes over concatenation, so the order of the input is kept. */
  lemma {:induction false} FilterAppend<T>(a: seq<T>, b: seq<T>, p: T -> bool)
    ensures Filter(a + b, p) == Filter(a, p) + Filter(b, p)
  {
    if a == [] {
      assert a + b == b;
    } else {
      var h: seq<T> := if p(a[0]) then [a[0]] else [];
      assert (a + b)[0] == a[0];
      assert (a + b)[1..] == a[1..] + b;
      assert Filter(a + b, p) == h + Filter(a[1..] + b, p);
      FilterAppend(a[1..], b, p);
      assert Filter(a, p) == h + Filter(a[1..], p);
    }
  }

  /** Filtering a sequence is filtering its two halves. */
  lemma FilterSplit<T>(s: seq<T>, k: nat, p: T -> bool)
    requires k <= |s|
    ensures Filter(s, p) == Filter(s[..k], p) + Filter(s[k..], p)
  {
    assert s == s[..k] + s[k..];
    FilterAppend(s[..k], s[k..], p);
  }

  /** The step a filtering loop performs when it looks at one more element. */
  lemma FilterSnoc<T>(s: seq<T>, x: T, p: T -> bool)
    ensures Filter(s + [x], p) == Filter(s, p) + (if p(x) then [x] else [])
  {
    FilterAppend(s, [x], p);
  }

  /** The same step, stated on the prefix `s[..i]` a loop has already looked at. */
  lemma FilterPrefixStep<T>(s: seq<T>, i: nat, p: T -> bool)
    requires i < |s|
    ensures Filter(s[..i + 1], p) == Filter(s[..i], p) + (if p(s[i]) then [s[i]] else [])
  {
    assert s[..i + 1] == s[..i] + [s[i]];
    FilterSnoc(s[..i], s[i], p);
  }

  /** A filter keeps every element exactly when every element passes. */
  lemma {:induction false} FilterAll<T>(s: seq<T>, p: T -> bool)
    requires forall i :: 0 <= i < |s| ==> p(s[i])
    ensures Filter(s, p) == s
  {
    if s != [] {
      FilterAll(s[1..], p);
    }
  }

  /** Python's `s[:n]` for a non-negative `n`. */
  function Take<T>(s: seq<T>, n: nat): (r: seq<T>)
    ensures |r| == if n <= |s| then n else |s|
    ensures r <= s
    ensures |s| <= n ==> r == s
  {
    if n <= |s| then s[..n] else s
  }

  /** Python's `s[n:]` for a non-negative `n`. */
  function Drop<T>(s: seq<T>, n: nat): (r: seq<T>)
    ensures Take(s, n) + r == s
  {
    if n <= |s| then s[n..] else []
  }

  /** Filtering with a test that fails everywhere gives the empty sequence. */
  lemma {:induction false} FilterNone<T>(s: seq<T>, p: T -> bool)
    requires forall i :: 0 <= i < |s| ==> !p(s[i])
    ensures Filter(s, p) == []
  {
    if s != [] {
      FilterNone(s[1..], p);
    }
  }

  /** The sum of `f` over `xs`. */
  function SumOf<T>(xs: seq<T>, f: T -> int): int
  {
    if xs == [] then 0 else SumOf(xs[..|xs| - 1], f) + f(xs[|xs| - 1])
  }

  lemma {:induction false} SumOfAppend<T>(xs: seq<T>, ys: seq<T>, f: T -> int)
    ensures SumOf(xs + ys, f) == SumOf(xs, f) + SumOf(ys, f)
  {
    if ys != [] {
      assert (xs + ys)[..|xs + ys| - 1] == xs + ys[..|ys| - 1];
      SumOfAppend(xs, ys[..|ys| - 1], f);
    } else {
      assert xs + ys == xs;
    }
  }

  /** `xs` without its element at `j`. */
  function Without<T>(xs: seq<T>, j: nat): (r: seq<T>)
    requires j < |xs|
    ensures |r| == |xs| - 1
  {
    xs[..j] + xs[j + 1..]
  }

  lemma WithoutMultiset<T>(xs: seq<T>, j: nat)
    requires j < |xs|
    ensures multiset(Without(xs, j)) == multiset(xs) - multiset{xs[j]}
  {
    assert xs == xs[..j] + [xs[j]] + xs[j + 1..];
  }

  /** Taking the term at `j` out of a sum. */
  lemma {:induction false} SumOfWithout<T>(ys: seq<T>, j: nat, f: T -> int)
    requires j < |ys|
    ensures SumOf(ys, f) == SumOf(Without(ys, j), f) + f(ys[j])
  {
    var n := |ys| - 1;
    var w := Without(ys, j);
    if j == n {
      assert w == ys[..n];
    } else {
      SumOfWithout(ys[..n], j, f);
      assert w[..n - 1] == Without(ys[..n], j);
      assert w[n - 1] == ys[n];
    }
  }

  /** A sum does not depend on the order of its terms. */
  lemma {:induction false} SumOfPermutation<T>(xs: seq<T>, ys: seq<T>, f: T -> int)
    requires multiset(xs) == multiset(ys)
    ensures SumOf(xs, f) == SumOf(ys, f)
    decreases |xs|
  {
    if xs == [] {
      assert |ys| == |multiset(ys)| == 0;
    } else {
      var n := |xs| - 1;
      var x := xs[n];
      var init := xs[..n];
      assert x in multiset(ys) by { assert x in xs; }
      var j :| 0 <= j < |ys| && ys[j] == x;
      var rest := Without(ys, j);
      assert SumOf(init, f) == SumOf(rest, f) by {
        assert multiset(init) == multiset(xs) - multiset{x} by {
          assert xs == init + [x];
        }
        WithoutMultiset(ys, j);
        SumOfPermutation(init, rest, f);
      }
      assert SumOf(ys, f) == SumOf(rest, f) + f(x) by {
        SumOfWithout(ys, j, f);
      }
    }
  }

  /** `min(a, b)` */
  function Min(a: int, b: int): int
  {
    if a <= b then a else b
  }

  /** The first index at or after `i` whose element passes `p`. */
  function FirstFrom<T>(xs: seq<T>, p: T -> bool, i: nat): (r: Option<nat>)
    requires i <= |xs|
    decreases |xs| - i
    ensures r.Some? ==> i <= r.value < |xs| && p(xs[r.value])
    ensures forall k :: i <= k < |xs| && (r.None? || k < r.value) ==> !p(xs[k])
  {
    if i == |xs| then None
    else if p(xs[i]) then Some(i)
    else FirstFrom(xs, p, i + 1)
  }

  /** Two ways of naming the first element that passes `p` agree. */
  lemma FirstFromUnique<T>(xs: seq<T>, p: T -> bool, i: nat, k: nat)
    requires i <= k < |xs| && p(xs[k]) && forall j :: i <= j < k ==> !p(xs[j])
    ensures FirstFrom(xs, p, i) == Some(k)
  {
  }

  /** How the first element that passes `p` changes when the sequence grows by one. */
  lemma FirstFromPrefix<T>(xs: seq<T>, p: T -> bool, i: nat, n: nat)
    requires i <= n < |xs|
    ensures FirstFrom(xs[..n + 1], p, i) ==
            if FirstFrom(xs[..n], p, i).Some? then FirstFrom(xs[..n], p, i)
            else if p(xs[n]) then Some(n) else None
  {
    var pre := xs[..n];
    var ext := xs[..n + 1];
    assert forall j :: 0 <= j < n ==> pre[j] == ext[j];
    match FirstFrom(pre, p, i)
    case Some(k) =>
      FirstFromUnique(ext, p, i, k);
    case None =>
      if p(xs[n]) {
        assert ext[n] == xs[n];
        FirstFromUnique(ext, p, i, n);
      }
  }

  /** The results `f` gives for the elements of `xs`, skipping None, in order (a loop that appends when `f` yields). */
  function Choose<A, B>(xs: seq<A>, f: A -> Option<B>): (r: seq<B>)
    ensures |r| <= |xs|
  {
    if xs == [] then []
    else
      var n := |xs| - 1;
      Choose(xs[..n], f) + (match f(xs[n]) case Some(y) => [y] case None => [])
  }

  /** A value is chosen exactly when `f` yields it for some element. */
  lemma {:induction false} ChooseMembers<A, B>(xs: seq<A>, f: A -> Option<B>, y: B)
    ensures y in Choose(xs, f) <==> exists i :: 0 <= i < |xs| && f(xs[i]) == Some(y)
  {
    if xs != [] {
      var n := |xs| - 1;
      ChooseMembers(xs[..n], f, y);
      if y in Choose(xs, f) && y !in Choose(xs[..n], f) {
        assert f(xs[n]) == Some(y);
      }
      if exists i :: 0 <= i < |xs| && f(xs[i]) == Some(y) {
        var i :| 0 <= i < |xs| && f(xs[i]) == Some(y);
        if i < n {
          assert xs[..n][i] == xs[i];
        }
      }
    }
  }
}

=== FILE: sorting.dfy ===
/**
 * Python's `list.sort(key=..., reverse=...)` and `sorted(...)`.
 *
 * The services sort by dates (`register_date_obj`, `deadline_date`), by an
 * integer score (`match_score`) and by region names (`sorted(d.items())`,
 * whose keys are distinct). Python's sort is stable, also with
 * `reverse=True`: elements with equal keys keep their input order. The
 * model is a stable insertion sort, and the lemmas below state the three
 * facts that pin its result down: sorted, a permutation, stable.
 */
module Sorting {
  import opened Dates
  import opened Seqs

  /** A sort key: the three kinds of value the services sort by. */
  datatype Key = IntKey(n: int) | TextKey(s: string) | DateKey(d: Date)

  /** Strings sorted as themselves. */
  function TextKeyOf(s: string): Key
  {
    TextKey(s)
  }

  /** Python's `<=` on `str`: lexicographic by code point. */
  predicate TextLe(x: string, y: string)
  {
    if x == [] then true
    else if y == [] then false
    else if x[0] != y[0] then x[0] < y[0]
    else TextLe(x[1..], y[1..])
  }

  function KindRank(k: Key): int
  {
    match k
    case IntKey(_) => 0
    case TextKey(_) => 1
    case DateKey(_) => 2
  }

  /**
   * `<=` on keys of the same kind. Keys of different kinds never meet in one
   * sort of the source (Python would raise `TypeError`); they are ordered by
   * kind so that the order is total.
   */
  predicate KeyLe(a: Key, b: Key)
  {
    if KindRank(a) != KindRank(b) then KindRank(a) < KindRank(b)
    else match a
      case IntKey(x) => x <= b.n
      case TextKey(x) => TextLe(x, b.s)
      case DateKey(x) => DateLe(x, b.d)
  }

  lemma {:induction false} TextLeTotal(x: string, y: string)
    ensures TextLe(x, y) || TextLe(y, x)
    ensures TextLe(x, y) && TextLe(y, x) ==> x == y
  {
    if x != [] && y != [] && x[0] == y[0] {
      TextLeTotal(x[1..], y[1..]);
      if TextLe(x, y) && TextLe(y, x) {
        assert x == [x[0]] + x[1..] && y == [y[0]] + y[1..];
      }
    }
  }

  lemma {:induction false} TextLeTransitive(x: string, y: string, z: string)
    requires TextLe(x, y) && TextLe(y, z)
    ensures TextLe(x, z)
  {
    if x != [] && y != [] && z != [] && x[0] == y[0] && y[0] == z[0] {
      TextLeTransitive(x[1..], y[1..], z[1..]);
    }
  }

  /** `KeyLe` is a total order. */
  lemma KeyLeTotal(a: Key, b: Key)
    ensures KeyLe(a, a)
    ensures KeyLe(a, b) || KeyLe(b, a)
    ensures KeyLe(a, b) && KeyLe(b, a) ==> a == b
  {
    match a
    case TextKey(x) =>
      TextLeTotal(x, x);
      if b.TextKey? { TextLeTotal(x, b.s); }
    case _ =>
  }

  lemma KeyLeTransitive(a: Key, b: Key, c: Key)
    requires KeyLe(a, b) && KeyLe(b, c)
    ensures KeyLe(a, c)
  {
    if a.TextKey? && b.TextKey? && c.TextKey? {
      TextLeTransitive(a.s, b.s, c.s);
    }
  }

  /** `a` may stand before `b` in the output: `a <= b`, or `a >= b` with `reverse=True`. */
  predicate InOrder(a: Key, b: Key, desc: bool)
  {
    if desc then KeyLe(b, a) else KeyLe(a, b)
  }

  lemma InOrderTotal(a: Key, b: Key, desc: bool)
    ensures InOrder(a, a, desc)
    ensures !InOrder(a, b, desc) ==> InOrder(b, a, desc) && a != b
  {
    KeyLeTotal(a, b);
  }

  lemma InOrderTransitive(a: Key, b: Key, c: Key, desc: bool)
    requires InOrder(a, b, desc) && InOrder(b, c, desc)
    ensures InOrder(a, c, desc)
  {
    if desc { KeyLeTransitive(c, b, a); } else { KeyLeTransitive(a, b, c); }
  }

  predicate Sorted<T>(s: seq<T>, key: T -> Key, desc: bool)
  {
    forall i, j :: 0 <= i < j < |s| ==> InOrder(key(s[i]), key(s[j]), desc)
  }

  /**
   * Where a stable sort puts a new last element `x` into the sorted `t`:
   * after every element that may stand before it.
   */
  function InsertPos<T>(t: seq<T>, x: T, key: T -> Key, desc: bool): (p: nat)
    ensures p <= |t|
    ensures forall j :: p <= j < |t| ==> !InOrder(key(t[j]), key(x), desc)
    ensures p > 0 ==> InOrder(key(t[p - 1]), key(x), desc)
  {
    if t == [] then 0
    else if InOrder(key(t[|t| - 1]), key(x), desc) then |t|
    else InsertPos(t[..|t| - 1], x, key, desc)
  }

  function Insert<T>(t: seq<T>, x: T, key: T -> Key, desc: bool): seq<T>
  {
    var p := InsertPos(t, x, key, desc);
    t[..p] + [x] + t[p..]
  }

  /** `sorted(s, key=key, reverse=desc)`. */
  function SortBy<T>(s: seq<T>, key: T -> Key, desc: bool): (r: seq<T>)
    ensures |r| == |s|
  {
    if s == [] then []
    else Insert(SortBy(s[..|s| - 1], key, desc), s[|s| - 1], key, desc)
  }

  lemma InsertSorted<T>(t: seq<T>, x: T, key: T -> Key, desc: bool)
    requires Sorted(t, key, desc)
    ensures Sorted(Insert(t, x, key, desc), key, desc)
  {
    var p := InsertPos(t, x, key, desc);
    var r := Insert(t, x, key, desc);
    forall j | 0 <= j < p
      ensures InOrder(key(t[j]), key(x), desc)
    {
      if j < p - 1 {
        InOrderTransitive(key(t[j]), key(t[p - 1]), key(x), desc);
      }
    }
    forall j | p <= j < |t|
      ensures InOrder(key(x), key(t[j]), desc)
    {
      InOrderTotal(key(t[j]), key(x), desc);
    }
    forall i, j | 0 <= i < j < |r|
      ensures InOrder(key(r[i]), key(r[j]), desc)
    {
      if i < p && j > p {
        assert r[i] == t[i] && r[j] == t[j - 1];
      } else if i > p {
        assert r[i] == t[i - 1] && r[j] == t[j - 1];
      }
    }
  }

  /** The sort's output is in key order. */
  lemma {:induction false} SortBySorted<T>(s: seq<T>, key: T -> Key, desc: bool)
    ensures Sorted(SortBy(s, key, desc), key, desc)
  {
    if s != [] {
      SortBySorted(s[..|s| - 1], key, desc);
      InsertSorted(SortBy(s[..|s| - 1], key, desc), s[|s| - 1], key, desc);
    }
  }

  lemma InsertPermutation<T>(t: seq<T>, x: T, key: T -> Key, desc: bool)
    ensures multiset(Insert(t, x, key, desc)) == multiset(t) + multiset{x}
  {
    var p := InsertPos(t, x, key, desc);
    calc {
      multiset(Insert(t, x, key, desc));
      multiset(t[..p] + [x] + t[p..]);
      multiset(t[..p]) + multiset{x} + multiset(t[p..]);
      { assert t == t[..p] + t[p..]; }
      multiset(t) + multiset{x};
    }
  }

  /** The sort's output holds the same elements, as often, as its input. */
  lemma {:induction false} SortByPermutation<T>(s: seq<T>, key: T -> Key, desc: bool)
    ensures multiset(SortBy(s, key, desc)) == multiset(s)
  {
    if s != [] {
      var init := s[..|s| - 1];
      SortByPermutation(init, key, desc);
      InsertPermutation(SortBy(init, key, desc), s[|s| - 1], key, desc);
      assert s == init + [s[|s| - 1]];
    }
  }

  /** The test "has key `k`" as a function value. */
  function KeyIs<T>(key: T -> Key, k: Key): T -> bool
  {
    x => key(x) == k
  }

  /** Elements with key `k`, in order. */
  function WithKey<T>(s: seq<T>, key: T -> Key, k: Key): seq<T>
  {
    Filter(s, KeyIs(key, k))
  }

  /** Nothing after the insertion position has the inserted element's key. */
  lemma AfterInsertPosOtherKeys<T>(t: seq<T>, x: T, key: T -> Key, desc: bool)
    ensures var p := InsertPos(t, x, key, desc);
            Filter(t[p..], KeyIs(key, key(x))) == []
  {
    var p := InsertPos(t, x, key, desc);
    var b := t[p..];
    forall j | 0 <= j < |b|
      ensures !KeyIs(key, key(x))(b[j])
    {
      assert b[j] == t[p + j];
      InOrderTotal(key(x), key(x), desc);
    }
    FilterNone(b, KeyIs(key, key(x)));
  }

  /** Filtering a sequence with one element put in at `p`. */
  lemma FilterInsertAt<T>(t: seq<T>, p: nat, x: T, P: T -> bool)
    requires p <= |t|
    ensures Filter(t[..p] + [x] + t[p..], P) == Filter(t[..p], P) + (if P(x) then [x] else []) + Filter(t[p..], P)
  {
    FilterAppend(t[..p] + [x], t[p..], P);
    FilterSnoc(t[..p], x, P);
  }

  lemma InsertStable<T>(t: seq<T>, x: T, key: T -> Key, desc: bool, k: Key)
    ensures WithKey(Insert(t, x, key, desc), key, k) ==
            WithKey(t, key, k) + (if key(x) == k then [x] else [])
  {
    var p := InsertPos(t, x, key, desc);
    FilterInsertAt(t, p, x, KeyIs(key, k));
    FilterSplit(t, p, KeyIs(key, k));
    if key(x) == k {
      AfterInsertPosOtherKeys(t, x, key, desc);
    }
  }

  /** Stability: for every key, the elements with that key keep their input order. */
  lemma {:induction false} SortByStable<T>(s: seq<T>, key: T -> Key, desc: bool, k: Key)
    ensures WithKey(SortBy(s, key, desc), key, k) == WithKey(s, key, k)
  {
    if s != [] {
      var init := s[..|s| - 1];
      var x := s[|s| - 1];
      SortByStable(init, key, desc, k);
      InsertStable(SortBy(init, key, desc), x, key, desc, k);
      assert s == init + [x];
      FilterSnoc(init, x, KeyIs(key, k));
    }
  }
}

=== FILE: space_crawler.dfy ===
/**
 * services/youth_space_crawler.py: the crawler of the Busan youth-space
 * list, its 24-hour cache, and the text replies built from its data.
 *
 * A fetched page is abstracted to what the crawler's CSS selectors pick
 * out of it: the list items, and for each item the texts
 * (`get_text(strip=True)`) and hrefs the extraction reads. Fetching is a
 * function from URL to an optional page (`None` for a failed request).
 */
module SpaceCrawler {
  import opened Wrappers
  import opened Text
  import opened Seqs
  import opened Sorting
  import opened Cache
  import opened Grouping

  /** One youth space, as `extract_space_info_from_li` builds it. */
  datatype Space = Space(
    region: string, name: string, contact: string, description: string,
    address: string, hours: string, homepage: string, sns: string,
    rentalLink: string, programLink: string)

  const EmptySpace := Space("", "", "", "", "", "", "", "", "", "")

  /** `a.toggle .plc_box`: the texts of `.plc_gu`, of the spans of `.plc_tit` and of `.plc_part`. */
  datatype PlcBox = PlcBox(gu: Option<string>, titleSpans: Option<seq<string>>, part: Option<string>)

  /** One `.splink_list a`: the text of its `.splink_txt`, if any, and its `href` ('' when missing). */
  datatype LinkAnchor = LinkAnchor(caption: Option<string>, href: string)

  /**
   * `.toggle_inner`: the text of `.spif_con`, the rows of `.arrow_list ul`
   * (each the texts of the row's spans) and the links.
   */
  datatype ToggleInner = ToggleInner(description: Option<string>, arrowRows: Option<seq<seq<string>>>, links: seq<LinkAnchor>)

  /** One `li.toggle_type` of the list. */
  datatype SpaceItem = SpaceItem(box: Option<PlcBox>, inner: Option<ToggleInner>)

  /** A list page: the number of `.toggle_type` elements and the items of `.policy_list.space_list ul`. */
  datatype SpacePage = SpacePage(toggleCount: nat, items: seq<SpaceItem>)

  // ---------------------------------------------------------------------------
  // extract_space_info_from_li

  /** The summary box sets region, name (the second title span) and contact. */
  function FromBox(sp: Space, box: Option<PlcBox>): Space
  {
    match box
    case None => sp
    case Some(b) =>
      var withRegion := if b.gu.Some? then sp.(region := b.gu.value) else sp;
      var withName :=
        if b.titleSpans.Some? && |b.titleSpans.value| >= 2 then withRegion.(name := b.titleSpans.value[1])
        else withRegion;
      if b.part.Some? then withName.(contact := b.part.value) else withName
  }

  /** One row of the detail list: a label span and a value span. */
  function ApplyDetailRow(sp: Space, spans: seq<string>): (r: Space)
    ensures sp.contact != "" ==> r.contact == sp.contact
    ensures r.(address := sp.address, hours := sp.hours, contact := sp.contact) == sp
  {
    if |spans| < 2 then sp
    else
      var caption, value := spans[0], spans[1];
      if Contains(caption, "주소") then sp.(address := value)
      else if Contains(caption, "이용시간") || Contains(caption, "운영시간") then sp.(hours := value)
      else if Contains(caption, "연락처") then (if sp.contact == "" then sp.(contact := value) else sp)
      else sp
  }

  /** The rows applied in order. */
  function ApplyDetailRows(sp: Space, rows: seq<seq<string>>): Space
  {
    if rows == [] then sp else ApplyDetailRow(ApplyDetailRows(sp, rows[..|rows| - 1]), rows[|rows| - 1])
  }

  /** One link: its label decides which field its href fills, first keyword first. */
  function ApplyLink(sp: Space, link: LinkAnchor): (r: Space)
    ensures r.(homepage := sp.homepage, sns := sp.sns, rentalLink := sp.rentalLink, programLink := sp.programLink) == sp
  {
    match link.caption
    case None => sp
    case Some(text) =>
      if Contains(text, "홈페이지") then sp.(homepage := link.href)
      else if Contains(text, "SNS") then sp.(sns := link.href)
      else if Contains(text, "대관") then sp.(rentalLink := link.href)
      else if Contains(text, "프로그램") then sp.(programLink := link.href)
      else sp
  }

  function ApplyLinks(sp: Space, links: seq<LinkAnchor>): Space
  {
    if links == [] then sp else ApplyLink(ApplyLinks(sp, links[..|links| - 1]), links[|links| - 1])
  }

  function FromInner(sp: Space, inner: Option<ToggleInner>): Space
  {
    match inner
    case None => sp
    case Some(t) =>
      var withDescription := if t.description.Some? then sp.(description := t.description.value) else sp;
      var withRows := if t.arrowRows.Some? then ApplyDetailRows(withDescription, t.arrowRows.value) else withDescription;
      ApplyLinks(withRows, t.links)
  }

  predicate HasNameAndRegion(sp: Space)
  {
    sp.name != "" && sp.region != ""
  }

  /** The record an item yields, kept only when it has both a name and a region. */
  function SpaceFromItem(item: SpaceItem): (r: Option<Space>)
    ensures r.Some? ==> HasNameAndRegion(r.value)
  {
    var sp := FromInner(FromBox(EmptySpace, item.box), item.inner);
    if HasNameAndRegion(sp) then Some(sp) else None
  }

  lemma {:induction false} DetailRowsKeepContact(sp: Space, rows: seq<seq<string>>)
    requires sp.contact != ""
    ensures ApplyDetailRows(sp, rows).contact == sp.contact
  {
    if rows != [] {
      DetailRowsKeepContact(sp, rows[..|rows| - 1]);
    }
  }

  lemma {:induction false} LinksKeepContact(sp: Space, links: seq<LinkAnchor>)
    ensures ApplyLinks(sp, links).contact == sp.contact
  {
    if links != [] {
      LinksKeepContact(sp, links[..|links| - 1]);
    }
  }

  /** A contact from the summary box is never replaced by the detail list's 연락처 row. */
  lemma SummaryContactWins(item: SpaceItem)
    requires item.box.Some? && item.box.value.part.Some? && item.box.value.part.value != ""
    requires SpaceFromItem(item).Some?
    ensures SpaceFromItem(item).value.contact == item.box.value.part.value
  {
    var sp := FromBox(EmptySpace, item.box);
    if item.inner.Some? {
      var t := item.inner.value;
      var withDescription := if t.description.Some? then sp.(description := t.description.value) else sp;
      if t.arrowRows.Some? {
        DetailRowsKeepContact(withDescription, t.arrowRows.value);
      }
      var withRows := if t.arrowRows.Some? then ApplyDetailRows(withDescription, t.arrowRows.value) else withDescription;
      LinksKeepContact(withRows, t.links);
    }
  }

  /** `extract_space_info_from_li`: the detail rows and links are read in loops. */
  method ExtractSpaceInfoFromLi(item: SpaceItem) returns (r: Option<Space>)
    ensures r == SpaceFromItem(item)
  {
    var sp := FromBox(EmptySpace, item.box);
    if item.inner.Some? {
      var t := item.inner.value;
      if t.description.Some? {
        sp := sp.(description := t.description.value);
      }
      if t.arrowRows.Some? {
        var rows := t.arrowRows.value;
        var start := sp;
        var i := 0;
        while i < |rows|
          invariant 0 <= i <= |rows|
          invariant sp == ApplyDetailRows(start, rows[..i])
        {
          assert rows[..i + 1][..i] == rows[..i];
          sp := ApplyDetailRow(sp, rows[i]);
          i := i + 1;
        }
        assert rows[..i] == rows;
      }
      var start := sp;
      var j := 0;
      while j < |t.links|
        invariant 0 <= j <= |t.links|
        invariant sp == ApplyLinks(start, t.links[..j])
      {
        assert t.links[..j + 1][..j] == t.links[..j];
        sp := ApplyLink(sp, t.links[j]);
        j := j + 1;
      }
      assert t.links[..j] == t.links;
    }
    r := if HasNameAndRegion(sp) then Some(sp) else None;
  }

  // ---------------------------------------------------------------------------
  // Crawling

  /** The records of a page's items, in item order, skipping items that yield none. */
  function SpacesOfItems(items: seq<SpaceItem>): (r: seq<Space>)
    ensures |r| <= |items|
    ensures forall k :: 0 <= k < |r| ==> HasNameAndRegion(r[k])
  {
    if items == [] then []
    else
      var last := SpaceFromItem(items[|items| - 1]);
      SpacesOfItems(items[..|items| - 1]) + (if last.Some? then [last.value] else [])
  }

  /** `has_space_content`: a page was loaded and has at least one `.toggle_type`. */
  predicate HasSpaceContent(soup: Option<SpacePage>)
  {
    soup.Some? && soup.value.toggleCount > 0
  }

  const SpaceListUrl: string := "https://young.busan.go.kr/space/list.nm"

  /**
   * The page `crawl_all_spaces` works on for page number `page`: the list
   * URL for page 1; for later pages the `pageIndex` URL when it loads with
   * content, else whatever the `page` URL gives.
   */
  function PageSoup(fetch: string -> Option<SpacePage>, page: nat): Option<SpacePage>
  {
    if page == 1 then fetch(SpaceListUrl)
    else
      var first := fetch(SpaceListUrl + "?pageIndex=" + NatToString(page));
      if HasSpaceContent(first) then first
      else fetch(SpaceListUrl + "?page=" + NatToString(page))
  }

  /** The spaces of one page; a page that fails to load contributes nothing. */
  function PageSpaces(fetch: string -> Option<SpacePage>, page: nat): seq<Space>
  {
    match PageSoup(fetch, page)
    case None => []
    case Some(p) => SpacesOfItems(p.items)
  }

  /** The spaces of pages 1..`pages`, concatenated in page order. */
  function CrawledSpaces(fetch: string -> Option<SpacePage>, pages: nat): seq<Space>
  {
    if pages == 0 then [] else CrawledSpaces(fetch, pages - 1) + PageSpaces(fetch, pages)
  }

  /** Every crawled record has a name and a region. */
  lemma {:induction false} CrawledSpacesValid(fetch: string -> Option<SpacePage>, pages: nat)
    ensures forall k :: 0 <= k < |CrawledSpaces(fetch, pages)| ==> HasNameAndRegion(CrawledSpaces(fetch, pages)[k])
  {
    if pages > 0 {
      CrawledSpacesValid(fetch, pages - 1);
    }
  }

  lemma DeadPage(fetch: string -> Option<SpacePage>, page: nat)
    requires forall url :: fetch(url).None?
    ensures PageSpaces(fetch, page) == []
  {
    var first := SpaceListUrl + "?pageIndex=" + NatToString(page);
    var second := SpaceListUrl + "?page=" + NatToString(page);
    assert fetch(SpaceListUrl).None? && fetch(first).None? && fetch(second).None?;
  }

  /** When every request fails, the crawl yields nothing. */
  lemma {:induction false} CrawlOfDeadSiteIsEmpty(fetch: string -> Option<SpacePage>, pages: nat)
    requires forall url :: fetch(url).None?
    ensures CrawledSpaces(fetch, pages) == []
  {
    if pages > 0 {
      CrawlOfDeadSiteIsEmpty(fetch, pages - 1);
      DeadPage(fetch, pages);
    }
  }

  /** The number of pages `crawl_all_spaces` visits. */
  const SpacePages: nat := 3

  class YouthSpaceCrawler {
    var spacesData: seq<Space>

    constructor ()
      ensures spacesData == []
    {
      spacesData := [];
    }

    /** `extract_spaces_from_page` */
    method ExtractSpacesFromPage(page: SpacePage) returns (spaces: seq<Space>)
      ensures spaces == SpacesOfItems(page.items)
    {
      spaces := [];
      var i := 0;
      while i < |page.items|
        invariant 0 <= i <= |page.items|
        invariant spaces == SpacesOfItems(page.items[..i])
      {
        assert page.items[..i + 1][..i] == page.items[..i];
        var info := ExtractSpaceInfoFromLi(page.items[i]);
        if info.Some? {
          spaces := spaces + [info.value];
        }
        i := i + 1;
      }
      assert page.items[..i] == page.items;
    }

    /** `crawl_all_spaces`: pages 1 to 3, in order; the result is also kept in `spacesData`. */
    method CrawlAllSpaces(fetch: string -> Option<SpacePage>) returns (all: seq<Space>)
      modifies this
      ensures all == CrawledSpaces(fetch, SpacePages)
      ensures spacesData == all
    {
      all := [];
      var page := 1;
      while page <= SpacePages
        invariant 1 <= page <= SpacePages + 1
        invariant all == CrawledSpaces(fetch, page - 1)
      {
        var soup: Option<SpacePage>;
        if page == 1 {
          soup := fetch(SpaceListUrl);
        } else {
          var urls := [SpaceListUrl + "?pageIndex=" + NatToString(page), SpaceListUrl + "?page=" + NatToString(page)];
          soup := None;
          var u := 0;
          while u < |urls|
            invariant 0 <= u <= |urls|
            invariant u == 1 ==> soup == fetch(urls[0]) && !HasSpaceContent(soup)
            invariant u == 2 ==> soup == PageSoup(fetch, page)
          {
            soup := fetch(urls[u]);
            if HasSpaceContent(soup) {
              break;
            }
            u := u + 1;
          }
        }
        if soup.Some? {
          var pageSpaces := ExtractSpacesFromPage(soup.value);
          all := all + pageSpaces;
        }
        page := page + 1;
      }
      spacesData := all;
    }
  }

  // ---------------------------------------------------------------------------
  // get_youth_spaces_data

  /** Cached spaces stay valid for 24 hours. */
  const SpacesTtl: int := 24 * 60 * 60

  /** What `get_youth_spaces_data` returns: fresh cached data, else a new crawl. */
  function SpacesData(stored: Stored<Space>, now: int, fetch: string -> Option<SpacePage>): seq<Space>
  {
    DataOrCrawl(stored, now, SpacesTtl, CrawledSpaces(fetch, SpacePages))
  }

  /** The cache file after `get_youth_spaces_data`. */
  function SpacesCacheAfterGet(stored: Stored<Space>, now: int, fetch: string -> Option<SpacePage>, outcome: WriteOutcome): Stored<Space>
  {
    AfterGet(stored, now, SpacesTtl, CrawledSpaces(fetch, SpacePages), outcome)
  }

  /**
   * `get_youth_spaces_data`: answer from the cache file while it is younger
   * than 24 hours; otherwise crawl once, write the crawl with `cached_at =
   * now`, and return the crawl whether or not the write succeeds.
   */
  method GetYouthSpacesData(cache: CacheFile<Space>, fetch: string -> Option<SpacePage>, now: int, outcome: WriteOutcome)
      returns (spaces: seq<Space>)
    modifies cache
    ensures spaces == SpacesData(old(cache.stored), now, fetch)
    ensures cache.stored == SpacesCacheAfterGet(old(cache.stored), now, fetch, outcome)
  {
    var cached := cache.Read(now, SpacesTtl);
    if cached.Some? {
      return cached.value;
    }
    var crawler := new YouthSpaceCrawler();
    spaces := crawler.CrawlAllSpaces(fetch);
    cache.Write(now, spaces, outcome);
  }

  // ---------------------------------------------------------------------------
  // format_space_info

  /** A description longer than 100 characters is cut to its first 100 and marked with "...". */
  function ShortDescription(d: string): (r: string)
    ensures |d| <= 100 ==> r == d
    ensures |d| > 100 ==> |r| == 103 && r[..100] == d[..100] && r[100..] == "..."
  {
    if |d| > 100 then d[..100] + "..." else d
  }

  /** A markdown link `[caption](url)`. */
  function LinkText(caption: string, url: string): string
  {
    "[" + caption + "](" + url + ")"
  }

  /** The links shown for a space, in homepage, rental, program order; empty ones are left out. */
  function SpaceLinks(sp: Space): (r: seq<string>)
    ensures |r| <= 3
  {
    (if sp.homepage != "" then [LinkText("홈페이지", sp.homepage)] else []) +
    (if sp.rentalLink != "" then [LinkText("대관신청", sp.rentalLink)] else []) +
    (if sp.programLink != "" then [LinkText("프로그램", sp.programLink)] else [])
  }

  function SpaceHeader(sp: Space): string
  {
    "**" + sp.name + "[" + sp.region + "]**\n"
  }

  function LinksLine(sp: Space): string
  {
    var links := SpaceLinks(sp);
    if links == [] then "" else "🔗 " + Join(" | ", links) + "\n"
  }

  /** The lines of `format_space_info`, in order; an absent field gives an empty line. */
  function SpaceLines(sp: Space): (r: seq<string>)
    ensures |r| == 6
  {
    [ SpaceHeader(sp),
      OptionalLine("📍 ", sp.address),
      OptionalLine("📞 ", sp.contact),
      OptionalLine("🕒 ", sp.hours),
      OptionalLine("📝 ", if sp.description == "" then "" else ShortDescription(sp.description)),
      LinksLine(sp) ]
  }

  /** `format_space_info` */
  function FormatSpaceInfo(sp: Space): (r: string)
  {
    Concat(SpaceLines(sp))
  }

  /** The output always opens with the `name[region]` header. */
  lemma HeaderFirst(sp: Space)
    ensures StartsWith(FormatSpaceInfo(sp), SpaceHeader(sp))
  {
    ConcatSplit(SpaceLines(sp), 0);
  }

  /** The sns link never shows: spaces that differ only in it format the same. */
  lemma SnsNeverShown(sp: Space, sns: string)
    ensures FormatSpaceInfo(sp.(sns := sns)) == FormatSpaceInfo(sp)
  {
    assert SpaceLines(sp.(sns := sns)) == SpaceLines(sp);
  }

  /** A space with no optional field formats as its header alone. */
  lemma {:induction false} BareSpaceIsHeaderOnly(sp: Space)
    requires sp.address == "" && sp.contact == "" && sp.hours == "" && sp.description == ""
    requires sp.homepage == "" && sp.rentalLink == "" && sp.programLink == ""
    ensures FormatSpaceInfo(sp) == SpaceHeader(sp)
  {
    var lines := SpaceLines(sp);
    assert lines[1..] == ["", "", "", "", ""];
    assert Concat(["", "", "", "", ""]) == "" by {
      assert ["", "", "", "", ""][1..] == ["", "", "", ""];
      assert ["", "", "", ""][1..] == ["", "", ""];
      assert ["", "", ""][1..] == ["", ""];
      assert ["", ""][1..] == [""];
      assert [""][1..] == [];
    }
  }

  /** Each present field shows on its own line, the description cut to 100 characters. */
  lemma PresentFieldsShown(sp: Space)
    ensures sp.address != "" ==> Contains(FormatSpaceInfo(sp), "📍 " + sp.address + "\n")
    ensures sp.contact != "" ==> Contains(FormatSpaceInfo(sp), "📞 " + sp.contact + "\n")
    ensures sp.hours != "" ==> Contains(FormatSpaceInfo(sp), "🕒 " + sp.hours + "\n")
    ensures sp.description != "" ==> Contains(FormatSpaceInfo(sp), "📝 " + ShortDescription(sp.description) + "\n")
  {
    var lines := SpaceLines(sp);
    ConcatContains(lines, 1);
    ConcatContains(lines, 2);
    ConcatContains(lines, 3);
    ConcatContains(lines, 4);
  }

  /** All three links present: they are joined with " | " in homepage, rental, program order. */
  lemma LinksInFixedOrder(sp: Space)
    requires sp.homepage != "" && sp.rentalLink != "" && sp.programLink != ""
    ensures Contains(FormatSpaceInfo(sp),
                     "🔗 " + LinkText("홈페이지", sp.homepage) + " | " + LinkText("대관신청", sp.rentalLink)
                     + " | " + LinkText("프로그램", sp.programLink) + "\n")
  {
    var a, b, c := LinkText("홈페이지", sp.homepage), LinkText("대관신청", sp.rentalLink), LinkText("프로그램", sp.programLink);
    assert SpaceLinks(sp) == [a, b, c];
    assert [a, b, c][1..] == [b, c] && [b, c][1..] == [c];
    assert Join(" | ", [c]) == c;
    assert Join(" | ", [b, c]) == b + " | " + c;
    assert Join(" | ", [a, b, c]) == a + " | " + (b + " | " + c);
    assert LinksLine(sp) == "🔗 " + a + " | " + b + " | " + c + "\n";
    ConcatContains(SpaceLines(sp), 5);
  }

  /** One entry of a search reply: the formatted space and a blank line. */
  function SpaceEntry(sp: Space): string
  {
    FormatSpaceInfo(sp) + "\n"
  }

  // ---------------------------------------------------------------------------
  // search_spaces_by_region, search_spaces_by_keyword

  const SpacesUnavailable: string := "현재 청년공간 정보를 가져올 수 없습니다."

  /** The most spaces a search reply shows. */
  const MaxShownSpaces: nat := 5

  /** The crawler's region test: the stripped region equals the query exactly. */
  function RegionIs(region: string): Space -> bool
  {
    (sp: Space) => Strip(sp.region) == region
  }

  /** The crawler's keyword test: lower-cased query inside lower-cased name, description or region. */
  function KeywordIn(keyword: string): Space -> bool
  {
    (sp: Space) => var k := Lower(keyword);
          Contains(Lower(sp.name), k) || Contains(Lower(sp.description), k) || Contains(Lower(sp.region), k)
  }

  /** A search reply: the first five matches under a header that counts all of them. */
  function SearchReply(spaces: seq<Space>, p: Space -> bool, notFound: string, header: nat -> string): (r: string)
    ensures spaces == [] ==> r == SpacesUnavailable
    ensures spaces != [] && Filter(spaces, p) == [] ==> r == notFound
  {
    if spaces == [] then SpacesUnavailable
    else
      var matches := Filter(spaces, p);
      if matches == [] then notFound
      else header(|matches|) + Render(Take(matches, MaxShownSpaces), SpaceEntry)
  }

  function RegionNotFound(region: string): string
  {
    "**" + region + "**에서 청년공간을 찾을 수 없습니다.\n\n다른 지역을 검색해보세요!"
  }

  function RegionHeader(region: string): nat -> string
  {
    (n: nat) => "**" + region + " 청년공간(" + NatToString(n) + "개)**\n\n"
  }

  function KeywordNotFound(keyword: string): string
  {
    "**" + keyword + "** 관련 청년공간을 찾을 수 없습니다.\n\n다른 키워드로 검색해보세요!"
  }

  function KeywordHeader(keyword: string): nat -> string
  {
    (n: nat) => "🔍 **" + keyword + "** 검색 결과 (" + NatToString(n) + "개)\n\n"
  }

  /** The reply of `search_spaces_by_region` for the spaces it gets. */
  function RegionReply(spaces: seq<Space>, region: string): string
  {
    SearchReply(spaces, RegionIs(region), RegionNotFound(region), RegionHeader(region))
  }

  /** The reply of `search_spaces_by_keyword` for the spaces it gets. */
  function KeywordReply(spaces: seq<Space>, keyword: string): string
  {
    SearchReply(spaces, KeywordIn(keyword), KeywordNotFound(keyword), KeywordHeader(keyword))
  }

  /**
   * With matches, a search reply opens with the header counting all of
   * them, shows each of the first five, and all of them when there are at
   * most five; beyond five it ends with the fifth, the rest unmentioned.
   */
  lemma SearchReplyShape(spaces: seq<Space>, p: Space -> bool, notFound: string, header: nat -> string, m: seq<Space>)
    requires spaces != [] && m == Filter(spaces, p) && m != []
    ensures StartsWith(SearchReply(spaces, p, notFound, header), header(|m|))
    ensures forall k :: 0 <= k < |m| && k < MaxShownSpaces ==>
              Contains(SearchReply(spaces, p, notFound, header), SpaceEntry(m[k]))
    ensures |m| <= MaxShownSpaces ==> SearchReply(spaces, p, notFound, header) == header(|m|) + Render(m, SpaceEntry)
    ensures |m| > MaxShownSpaces ==>
              SearchReply(spaces, p, notFound, header) == header(|m|) + Render(m[..MaxShownSpaces], SpaceEntry)
  {
    var shown := Take(m, MaxShownSpaces);
    var reply := SearchReply(spaces, p, notFound, header);
    assert reply == header(|m|) + Render(shown, SpaceEntry);
    StartsEndsAppend(header(|m|), Render(shown, SpaceEntry));
    forall k | 0 <= k < |m| && k < MaxShownSpaces
      ensures Contains(reply, SpaceEntry(m[k]))
    {
      RenderedInside(header(|m|), shown, SpaceEntry, "", k);
      assert header(|m|) + Render(shown, SpaceEntry) + "" == reply;
      assert shown[k] == m[k];
    }
  }

  /** The region search keeps a space exactly when its stripped region is the query. */
  lemma RegionSearchSelects(spaces: seq<Space>, region: string, sp: Space)
    ensures sp in Filter(spaces, RegionIs(region)) <==> sp in spaces && Strip(sp.region) == region
  {
    FilterIff(spaces, RegionIs(region), sp);
  }

  /** An empty data set and a search without matches give different replies. */
  lemma EmptyDataDiffersFromNoMatch(region: string)
    ensures RegionNotFound(region) != SpacesUnavailable
  {
    assert RegionNotFound(region)[0] == '*';
  }

  /** The keyword search keeps a space exactly when the lower-cased keyword occurs in its name, description or region. */
  lemma KeywordSearchSelects(spaces: seq<Space>, keyword: string, sp: Space)
    ensures sp in Filter(spaces, KeywordIn(keyword)) <==>
              sp in spaces &&
              (Contains(Lower(sp.name), Lower(keyword)) || Contains(Lower(sp.description), Lower(keyword)) ||
               Contains(Lower(sp.region), Lower(keyword)))
  {
    FilterIff(spaces, KeywordIn(keyword), sp);
  }

  /** The keyword test ignores ASCII case in the query. */
  lemma KeywordCaseInsensitive(keyword: string, sp: Space)
    ensures KeywordIn(Lower(keyword))(sp) == KeywordIn(keyword)(sp)
  {
    LowerIdempotent(keyword);
  }

  /** The shared body of the two searches: filter, then show at most five. */
  method SearchLoop(spaces: seq<Space>, p: Space -> bool, notFound: string, header: nat -> string) returns (reply: string)
    ensures reply == SearchReply(spaces, p, notFound, header)
  {
    if spaces == [] {
      return SpacesUnavailable;
    }
    var filtered := FilterLoop(spaces, p);
    if filtered == [] {
      return notFound;
    }
    var shown := RenderLoop(Take(filtered, MaxShownSpaces), SpaceEntry);
    reply := header(|filtered|) + shown;
  }

  /** `search_spaces_by_region`: the spaces come from `get_youth_spaces_data`. */
  method SearchSpacesByRegion(cache: CacheFile<Space>, fetch: string -> Option<SpacePage>, now: int, outcome: WriteOutcome, region: string)
      returns (reply: string)
    modifies cache
    ensures reply == RegionReply(SpacesData(old(cache.stored), now, fetch), region)
    ensures cache.stored == SpacesCacheAfterGet(old(cache.stored), now, fetch, outcome)
  {
    var spaces := GetYouthSpacesData(cache, fetch, now, outcome);
    reply := SearchLoop(spaces, RegionIs(region), RegionNotFound(region), RegionHeader(region));
  }

  /** `search_spaces_by_keyword`: the spaces come from `get_youth_spaces_data`. */
  method SearchSpacesByKeyword(cache: CacheFile<Space>, fetch: string -> Option<SpacePage>, now: int, outcome: WriteOutcome, keyword: string)
      returns (reply: string)
    modifies cache
    ensures reply == KeywordReply(SpacesData(old(cache.stored), now, fetch), keyword)
    ensures cache.stored == SpacesCacheAfterGet(old(cache.stored), now, fetch, outcome)
  {
    var spaces := GetYouthSpacesData(cache, fetch, now, outcome);
    reply := SearchLoop(spaces, KeywordIn(keyword), KeywordNotFound(keyword), KeywordHeader(keyword));
  }

  // ---------------------------------------------------------------------------
  // get_all_youth_spaces

  function SpaceRegion(sp: Space): string
  {
    sp.region
  }

  function SpaceName(sp: Space): string
  {
    sp.name
  }

  /** The names listed under a region: those of its spaces, in their original order. */
  function NamesIn(spaces: seq<Space>, region: string): seq<string>
  {
    GroupOf(spaces, SpaceRegion, SpaceName, region)
  }

  /** The region order `sorted(regions.items())` emits. */
  function SortedRegions(spaces: seq<Space>): seq<string>
  {
    SortBy(KeyOrder(spaces, SpaceRegion), TextKeyOf, false)
  }

  /**
   * The groups come out in ascending region order, one per region that
   * occurs, and every space is counted in exactly one of them.
   */
  lemma AllSpacesGroups(spaces: seq<Space>)
    ensures Sorted(SortedRegions(spaces), TextKeyOf, false)
    ensures multiset(SortedRegions(spaces)) == multiset(KeyOrder(spaces, SpaceRegion))
    ensures forall i :: 0 <= i < |spaces| ==> spaces[i].region in SortedRegions(spaces)
    ensures SumOf(SortedRegions(spaces), GroupSize(spaces, SpaceRegion, SpaceName)) == |spaces|
  {
    var order := KeyOrder(spaces, SpaceRegion);
    SortBySorted(order, TextKeyOf, false);
    SortByPermutation(order, TextKeyOf, false);
    KeyOrderMembers(spaces, SpaceRegion, SpaceName);
    forall i | 0 <= i < |spaces|
      ensures spaces[i].region in SortedRegions(spaces)
    {
      assert SpaceRegion(spaces[i]) in multiset(order);
    }
    GroupSizesSumReordered(spaces, SpaceRegion, SpaceName, SortedRegions(spaces));
  }

  function NameLine(name: string): string
  {
    "  • " + name + "\n"
  }

  function GroupText(region: string, names: seq<string>): string
  {
    "**📍 " + region + "** (" + NatToString(|names|) + "개)\n" + Render(names, NameLine) + "\n"
  }

  function GroupsText(spaces: seq<Space>, regions: seq<string>): string
  {
    if regions == [] then ""
    else GroupsText(spaces, regions[..|regions| - 1]) + GroupText(regions[|regions| - 1], NamesIn(spaces, regions[|regions| - 1]))
  }

  /** The reply of `get_all_youth_spaces` for the spaces it gets. */
  function AllSpacesReply(spaces: seq<Space>): string
  {
    if spaces == [] then SpacesUnavailable
    else
      "**부산 청년공간 전체 목록** (" + NatToString(|spaces|) + "개)\n\n"
      + GroupsText(spaces, SortedRegions(spaces))
      + "💡 지역명이나 공간명으로 자세한 정보를 검색해보세요!"
  }

  /** The loop over the groups in sorted region order. */
  method RenderGroups(spaces: seq<Space>, regions: map<string, seq<string>>, sorted: seq<string>) returns (body: string)
    requires forall r :: r in sorted ==> r in regions && regions[r] == NamesIn(spaces, r)
    ensures body == GroupsText(spaces, sorted)
  {
    body := "";
    var g := 0;
    while g < |sorted|
      invariant 0 <= g <= |sorted|
      invariant body == GroupsText(spaces, sorted[..g])
    {
      assert sorted[..g + 1][..g] == sorted[..g];
      var region := sorted[g];
      var names := regions[region];
      var lines := RenderLoop(names, NameLine);
      body := body + ("**📍 " + region + "** (" + NatToString(|names|) + "개)\n" + lines + "\n");
      g := g + 1;
    }
    assert sorted[..g] == sorted;
  }

  /** `get_all_youth_spaces`: group names by region, then list the groups in sorted region order. */
  method GetAllYouthSpaces(cache: CacheFile<Space>, fetch: string -> Option<SpacePage>, now: int, outcome: WriteOutcome)
      returns (reply: string)
    modifies cache
    ensures reply == AllSpacesReply(SpacesData(old(cache.stored), now, fetch))
    ensures cache.stored == SpacesCacheAfterGet(old(cache.stored), now, fetch, outcome)
  {
    var spaces := GetYouthSpacesData(cache, fetch, now, outcome);
    if spaces == [] {
      return SpacesUnavailable;
    }
    var regions, order := GroupLoop(spaces, SpaceRegion, SpaceName);
    var sorted := SortBy(order, TextKeyOf, false);
    forall r | r in sorted
      ensures r in regions
    {
      SortByPermutation(order, TextKeyOf, false);
      assert r in multiset(order);
    }
    var body := RenderGroups(spaces, regions, sorted);
    reply := "**부산 청년공간 전체 목록** (" + NatToString(|spaces|) + "개)\n\n" + body
      + "💡 지역명이나 공간명으로 자세한 정보를 검색해보세요!";
  }
}

=== FILE: space_handler.dfy ===
/**
 * handlers/space_handler.py: the JSON API over the space crawler. The
 * manual crawl writes the same cache file `get_youth_spaces_data` reads.
 * An exception text (`str(e)`) is a parameter.
 */
module SpaceHandler {
  import opened Wrappers
  import opened Text
  import opened Seqs
  import opened Cache
  import opened Replies
  import opened SpaceCrawler

  /** `get_all_spaces`: every space, counted. */
  method GetAllSpaces(cache: CacheFile<Space>, fetch: string -> Option<SpacePage>, now: int, outcome: WriteOutcome)
      returns (r: Reply<Space>)
    modifies cache
    ensures r.Listing? && r.data == SpacesData(old(cache.stored), now, fetch) && r.count == |r.data|
    ensures r.message == NatToString(|r.data|) + "개의 청년공간을 찾았습니다."
    ensures cache.stored == SpacesCacheAfterGet(old(cache.stored), now, fetch, outcome)
  {
    var spaces := GetYouthSpacesData(cache, fetch, now, outcome);
    r := Listing(spaces, |spaces|, NatToString(|spaces|) + "개의 청년공간을 찾았습니다.", None);
  }

  /** The handler's region test: the lower-cased query inside the lower-cased region. */
  function RegionContains(region: string): Space -> bool
  {
    (sp: Space) => Contains(Lower(sp.region), Lower(region))
  }

  /**
   * The handler's test is looser than the crawler's: every space the
   * crawler's exact match keeps is also in the handler's data.
   */
  lemma HandlerRegionLooser(spaces: seq<Space>, region: string, sp: Space)
    requires sp in Filter(spaces, RegionIs(region))
    ensures sp in Filter(spaces, RegionContains(region))
  {
    FilterIff(spaces, RegionIs(region), sp);
    StripOccurs(sp.region);
    LowerContains(sp.region, region);
    FilterIff(spaces, RegionContains(region), sp);
  }

  /** ... and strictly looser: a query for part of a region name finds it here only. */
  lemma HandlerRegionStrictlyLooser()
    ensures var sp := EmptySpace.(region := "중구");
            RegionContains("중")(sp) && !RegionIs("중")(sp)
  {
    var region := "중구";
    assert !IsSpace(region[0]) && !IsSpace(region[1]);
    assert StripLeft(region) == region;
    assert StripRight(region) == region;
    var lr, lq := Lower(region), Lower("중");
    assert lr[0] == '중' && lr[1] == '구' && lq[0] == '중';
    assert lr[0..1] == lq;
    assert OccursAt(lr, lq, 0);
  }

  /**
   * The second `get_youth_spaces_data` of a handler sees the data the first
   * one returned, and leaves the file as the first one left it.
   */
  lemma SecondReadAgrees(stored: Stored<Space>, now: int, fetch: string -> Option<SpacePage>, outcome: WriteOutcome)
    ensures SpacesData(SpacesCacheAfterGet(stored, now, fetch, outcome), now, fetch) == SpacesData(stored, now, fetch)
    ensures SpacesCacheAfterGet(SpacesCacheAfterGet(stored, now, fetch, outcome), now, fetch, outcome) ==
            SpacesCacheAfterGet(stored, now, fetch, outcome)
  {
    AfterGetIdempotent(stored, now, SpacesTtl, CrawledSpaces(fetch, SpacePages), outcome);
  }

  /** `get_spaces_by_region`: the crawler's region reply as message, the looser substring match as data. */
  method GetSpacesByRegion(cache: CacheFile<Space>, fetch: string -> Option<SpacePage>, now: int, outcome: WriteOutcome, region: string)
      returns (r: Reply<Space>)
    modifies cache
    ensures r.Listing? && r.query == Some(region) && r.count == |r.data|
    ensures r.message == RegionReply(SpacesData(old(cache.stored), now, fetch), region)
    ensures r.data == Filter(SpacesData(old(cache.stored), now, fetch), RegionContains(region))
    ensures cache.stored == SpacesCacheAfterGet(old(cache.stored), now, fetch, outcome)
  {
    var message := SearchSpacesByRegion(cache, fetch, now, outcome, region);
    SecondReadAgrees(old(cache.stored), now, fetch, outcome);
    var spaces := GetYouthSpacesData(cache, fetch, now, outcome);
    var filtered := FilterLoop(spaces, RegionContains(region));
    r := Listing(filtered, |filtered|, message, Some(region));
  }

  const KeywordRequired: Reply<Space> := Failed(Some("검색 키워드가 필요합니다."), "검색 키워드를 입력해주세요.")

  /** The keyword filter loop of `search_spaces_by_keyword`. */
  method FilterSpacesByKeyword(spaces: seq<Space>, keyword: string) returns (filtered: seq<Space>)
    ensures filtered == Filter(spaces, KeywordIn(keyword))
  {
    filtered := [];
    var k := Lower(keyword);
    var i := 0;
    while i < |spaces|
      invariant 0 <= i <= |spaces|
      invariant filtered == Filter(spaces[..i], KeywordIn(keyword))
    {
      var sp := spaces[i];
      FilterSnoc(spaces[..i], sp, KeywordIn(keyword));
      assert spaces[..i + 1] == spaces[..i] + [sp];
      if Contains(Lower(sp.name), k) || Contains(Lower(sp.description), k) || Contains(Lower(sp.region), k) {
        filtered := filtered + [sp];
      }
      i := i + 1;
    }
    assert spaces[..i] == spaces;
  }

  /**
   * `search_spaces_by_keyword`: an empty keyword fails without searching
   * (the cache is not touched); otherwise the crawler's keyword reply as
   * message and the same keyword filter as data.
   */
  method SearchSpacesByKeywordApi(cache: CacheFile<Space>, fetch: string -> Option<SpacePage>, now: int, outcome: WriteOutcome, keyword: string)
      returns (r: Reply<Space>)
    modifies cache
    ensures keyword == "" ==> r == KeywordRequired && cache.stored == old(cache.stored)
    ensures keyword != "" ==> r.Listing? && r.query == Some(keyword) && r.count == |r.data|
    ensures keyword != "" ==> r.message == KeywordReply(SpacesData(old(cache.stored), now, fetch), keyword)
    ensures keyword != "" ==> r.data == Filter(SpacesData(old(cache.stored), now, fetch), KeywordIn(keyword))
    ensures keyword != "" ==> cache.stored == SpacesCacheAfterGet(old(cache.stored), now, fetch, outcome)
  {
    if keyword == "" {
      return KeywordRequired;
    }
    var message := SearchSpacesByKeyword(cache, fetch, now, outcome, keyword);
    SecondReadAgrees(old(cache.stored), now, fetch, outcome);
    var spaces := GetYouthSpacesData(cache, fetch, now, outcome);
    var filtered := FilterSpacesByKeyword(spaces, keyword);
    r := Listing(filtered, |filtered|, message, Some(keyword));
  }

  /** `get_all_spaces_formatted`: the grouped text listing as a bare message. */
  method GetAllSpacesFormatted(cache: CacheFile<Space>, fetch: string -> Option<SpacePage>, now: int, outcome: WriteOutcome)
      returns (r: Reply<Space>)
    modifies cache
    ensures r == Message(AllSpacesReply(SpacesData(old(cache.stored), now, fetch)))
    ensures cache.stored == SpacesCacheAfterGet(old(cache.stored), now, fetch, outcome)
  {
    var text := GetAllYouthSpaces(cache, fetch, now, outcome);
    r := Message(text);
  }

  function CrawledMessage(n: nat): string
  {
    "크롤링 완료! " + NatToString(n) + "개의 청년공간을 수집했습니다."
  }

  const CrawlFailedMessage: string := "크롤링 중 오류가 발생했습니다."

  /**
   * `crawl_spaces_manually`: crawl and overwrite the cache file whatever it
   * holds; unlike the lazy path, a failed write makes the reply a failure.
   */
  method CrawlSpacesManually(cache: CacheFile<Space>, fetch: string -> Option<SpacePage>, now: int, outcome: WriteOutcome, error: string)
      returns (r: Reply<Space>)
    modifies cache
    ensures cache.stored == AfterWrite(old(cache.stored), outcome, now, CrawledSpaces(fetch, SpacePages))
    ensures outcome == Written ==>
              r == Listing(CrawledSpaces(fetch, SpacePages), |CrawledSpaces(fetch, SpacePages)|,
                           CrawledMessage(|CrawledSpaces(fetch, SpacePages)|), None)
    ensures outcome != Written ==> r == Failed(Some(error), CrawlFailedMessage)
  {
    var crawler := new YouthSpaceCrawler();
    var spaces := crawler.CrawlAllSpaces(fetch);
    cache.Write(now, spaces, outcome);
    if outcome != Written {
      return Failed(Some(error), CrawlFailedMessage);
    }
    r := Listing(spaces, |spaces|, CrawledMessage(|spaces|), None);
  }

  /**
   * After a successful manual crawl, `get_youth_spaces_data` answers with
   * that crawl for the next 24 hours, even where the file held fresh data
   * before.
   */
  lemma ManualCrawlServesReads(stored: Stored<Space>, now: int, later: int, crawl: seq<Space>, fetch: string -> Option<SpacePage>)
    requires now <= later < now + SpacesTtl
    ensures SpacesData(AfterWrite(stored, Written, now, crawl), later, fetch) == crawl
  {
    ReadAfterWrite(stored, now, crawl, later, SpacesTtl);
  }
}

=== FILE: tables.dfy ===
/**
 * The HTML tables the busanjob.net scrapers read, and the capped collection
 * loop they all share.
 *
 * A page is abstracted to what `soup.find_all('table')`, `table.find_all('tr')`
 * and `row.find_all(['td', 'th'])` give: tables of rows of cells. A cell is
 * the two texts the scrapers read from it (`get_text()` and
 * `get_text(strip=True)`) and its first link, if any.
 *
 * Every scraper walks the tables in order and the rows of each table with
 * their index in that table, stops once it holds `max` records, and turns
 * each row into at most one record; `pick(i, cells)` is that per-row
 * decision (cell count, header skip, extraction and acceptance).
 */
module Tables {
  import opened Wrappers
  import opened Text
  import opened Seqs

  /**
   * One `td`/`th`: `raw` is `get_text()`, `text` is `get_text(strip=True)`,
   * and `href` is `Some(h)` when the cell holds an `a` element, `h` being its
   * `href` attribute (`""` when the attribute is missing: every scraper only
   * tests it for truth).
   */
  datatype Cell = Cell(raw: string, text: string, href: Option<string>)

  type Row = seq<Cell>
  type Table = seq<Row>

  /** The stripped texts of the cells. */
  function Texts(cells: Row): (r: seq<string>)
    ensures |r| == |cells|
    ensures forall k :: 0 <= k < |cells| ==> r[k] == cells[k].text
  {
    seq(|cells|, k requires 0 <= k < |cells| => cells[k].text)
  }

  /** `not text or text.isdigit()`: the cells every extraction skips. */
  predicate IsBlank(text: string)
  {
    text == "" || IsDigits(text)
  }

  /** `href if href.startswith('http') else urljoin(base_url, href)` */
  function LinkFor(base: string, href: string): (r: string)
    ensures StartsWith(href, "http") ==> r == href
    ensures href != "" ==> EndsWith(r, href)
  {
    if StartsWith(href, "http") then
      assert href[|href| - |href|..] == href;
      href
    else UrlJoin(base, href)
  }

  /**
   * Some word occurs in the text of some cell: the test that marks the first row of a table as its header.
   */
  predicate IsHeaderRow(cells: Row, words: seq<string>)
  {
    exists c :: 0 <= c < |cells| && ContainsAny(cells[c].raw, words)
  }

  // ---------------------------------------------------------------------------
  // The title and details rules of the register-date listings

  /** A cell that becomes the title while none is set: over 3 characters with a link, or over 5. */
  predicate TitleCell(c: Cell)
  {
    !IsBlank(c.text) && ((c.href.Some? && |c.text| > 3) || |c.text| > 5)
  }

  /** The link a title cell leaves: its `href` made absolute, or `link` unchanged when it has none. */
  function CellLink(base: string, c: Cell, link: string): string
  {
    if c.href.Some? && c.href.value != "" then LinkFor(base, c.href.value) else link
  }

  /** The cell that gives the title: the first title cell. */
  function FirstTitle(cells: Row): Option<nat>
  {
    FirstFrom(cells, TitleCell, 0)
  }

  /** `t and not t.isdigit() and len(t) > 1`: the texts that make up `details`. */
  predicate IsDetailText(t: string)
  {
    t != "" && !IsDigits(t) && |t| > 1
  }

  /** `' | '.join(...)` of the detail texts. */
  function RowDetails(cells: Row): string
  {
    Join(" | ", Filter(Texts(cells), IsDetailText))
  }

  // ---------------------------------------------------------------------------
  // The records a page yields, before the cap

  /** The records the rows of one table yield, in row order; row `i` is decided by `pick(i, row)`. */
  function PickRows<T>(rows: Table, pick: (nat, Row) -> Option<T>): (r: seq<T>)
    ensures |r| <= |rows|
  {
    if rows == [] then []
    else
      var i := |rows| - 1;
      PickRows(rows[..i], pick) + (match pick(i, rows[i]) case Some(x) => [x] case None => [])
  }

  /** The records all tables yield, table after table. */
  function PickTables<T>(tables: seq<Table>, pick: (nat, Row) -> Option<T>): seq<T>
  {
    if tables == [] then []
    else PickTables(tables[..|tables| - 1], pick) + PickRows(tables[|tables| - 1], pick)
  }

  /** A record comes from some row of some table, and is what `pick` made of that row. */
  lemma {:induction false} PickRowsFrom<T>(rows: Table, pick: (nat, Row) -> Option<T>, x: T)
    requires x in PickRows(rows, pick)
    ensures exists i :: 0 <= i < |rows| && pick(i, rows[i]) == Some(x)
  {
    var n := |rows| - 1;
    if x in PickRows(rows[..n], pick) {
      PickRowsFrom(rows[..n], pick, x);
      var i :| 0 <= i < |rows[..n]| && pick(i, rows[..n][i]) == Some(x);
      assert rows[..n][i] == rows[i];
    } else {
      assert pick(n, rows[n]) == Some(x);
    }
  }

  lemma {:induction false} PickTablesFrom<T>(tables: seq<Table>, pick: (nat, Row) -> Option<T>, x: T)
    requires x in PickTables(tables, pick)
    ensures exists t, i :: 0 <= t < |tables| && 0 <= i < |tables[t]| && pick(i, tables[t][i]) == Some(x)
  {
    var n := |tables| - 1;
    if x in PickTables(tables[..n], pick) {
      PickTablesFrom(tables[..n], pick, x);
      var t, i :| 0 <= t < |tables[..n]| && 0 <= i < |tables[..n][t]| && pick(i, tables[..n][t][i]) == Some(x);
      assert tables[..n][t] == tables[t];
    } else {
      PickRowsFrom(tables[n], pick, x);
    }
  }

  lemma PickRowsStep<T>(rows: Table, i: nat, pick: (nat, Row) -> Option<T>)
    requires i < |rows|
    ensures PickRows(rows[..i + 1], pick) ==
            PickRows(rows[..i], pick) + (match pick(i, rows[i]) case Some(x) => [x] case None => [])
  {
    assert rows[..i + 1][..i] == rows[..i];
  }

  lemma PickRowsStepAfter<T>(before: seq<T>, rows: Table, i: nat, pick: (nat, Row) -> Option<T>)
    requires i < |rows|
    ensures pick(i, rows[i]).None? ==> before + PickRows(rows[..i + 1], pick) == before + PickRows(rows[..i], pick)
    ensures pick(i, rows[i]).Some? ==>
              before + PickRows(rows[..i + 1], pick) == before + PickRows(rows[..i], pick) + [pick(i, rows[i]).value]
  {
    PickRowsStep(rows, i, pick);
  }

  lemma {:induction false} PickRowsPrefix<T>(rows: Table, i: nat, pick: (nat, Row) -> Option<T>)
    requires i <= |rows|
    ensures PickRows(rows[..i], pick) <= PickRows(rows, pick)
    decreases |rows|
  {
    if i == |rows| {
      assert rows[..i] == rows;
    } else {
      var n := |rows| - 1;
      PickRowsPrefix(rows[..n], i, pick);
      assert rows[..n][..i] == rows[..i];
    }
  }

  lemma PickTablesStep<T>(tables: seq<Table>, t: nat, pick: (nat, Row) -> Option<T>)
    requires t < |tables|
    ensures PickTables(tables[..t + 1], pick) == PickTables(tables[..t], pick) + PickRows(tables[t], pick)
  {
    assert tables[..t + 1][..t] == tables[..t];
  }

  lemma {:induction false} PickTablesPrefix<T>(tables: seq<Table>, t: nat, pick: (nat, Row) -> Option<T>)
    requires t <= |tables|
    ensures PickTables(tables[..t], pick) <= PickTables(tables, pick)
    decreases |tables|
  {
    if t == |tables| {
      assert tables[..t] == tables;
    } else {
      var n := |tables| - 1;
      PickTablesPrefix(tables[..n], t, pick);
      assert tables[..n][..t] == tables[..t];
    }
  }

  // ---------------------------------------------------------------------------
  // The cap

  /** Once `cap` records are in, what follows no longer matters. */
  lemma TakePrefixFull<T>(a: seq<T>, b: seq<T>, cap: nat)
    requires a <= b && |a| >= cap
    ensures Take(a, cap) == Take(b, cap)
  {
    assert a[..cap] == b[..cap];
  }

  /** Below the cap, one more record is appended. */
  lemma TakeSnoc<T>(a: seq<T>, x: T, cap: nat)
    requires |a| < cap
    ensures Take(a + [x], cap) == a + [x]
  {
  }

  /**
   * The loop the busanjob.net scrapers share: the rows of every table in
   * turn, with a `break` out of both loops once `cap` records are held,
   * appending what `pick` makes of each row.
   * It collects the first `cap` records the page yields.
   */
  method CollectCapped<T>(tables: seq<Table>, pick: (nat, Row) -> Option<T>, cap: nat) returns (out: seq<T>)
    ensures out == Take(PickTables(tables, pick), cap)
  {
    out := [];
    var t := 0;
    while t < |tables|
      invariant 0 <= t <= |tables|
      invariant out == Take(PickTables(tables[..t], pick), cap)
    {
      out := CollectRows(tables[t], pick, cap, PickTables(tables[..t], pick), out);
      PickTablesStep(tables, t, pick);
      if |out| >= cap {
        PickTablesPrefix(tables, t + 1, pick);
        TakePrefixFull(PickTables(tables[..t + 1], pick), PickTables(tables, pick), cap);
        return;
      }
      t := t + 1;
    }
    assert tables[..t] == tables;
  }

  /** The inner loop of `CollectCapped`, over the rows of one table. */
  method CollectRows<T>(rows: Table, pick: (nat, Row) -> Option<T>, cap: nat, ghost before: seq<T>, out0: seq<T>)
    returns (out: seq<T>)
    requires out0 == Take(before, cap)
    ensures out == Take(before + PickRows(rows, pick), cap)
  {
    out := out0;
    var i := 0;
    while i < |rows|
      invariant 0 <= i <= |rows|
      invariant out == Take(before + PickRows(rows[..i], pick), cap)
    {
      if |out| >= cap {
        PickRowsPrefix(rows, i, pick);
        TakePrefixFull(before + PickRows(rows[..i], pick), before + PickRows(rows, pick), cap);
        return;
      }
      PickRowsStepAfter(before, rows, i, pick);
      var x := pick(i, rows[i]);
      if x.Some? {
        TakeSnoc(before + PickRows(rows[..i], pick), x.value, cap);
        out := out + [x.value];
      }
      i := i + 1;
    }
    assert rows[..i] == rows;
  }

  // ---------------------------------------------------------------------------
  // De-duplication by title

  /** Some record in `xs` has key `k`. */
  predicate HasKey<T>(xs: seq<T>, key: T -> string, k: string)
  {
    exists j :: 0 <= j < |xs| && key(xs[j]) == k
  }

  /**
   * Each record appended unless one with its key is already held: the
   * first record of every key, in order.
   */
  function DistinctBy<T>(xs: seq<T>, key: T -> string): (r: seq<T>)
    ensures |r| <= |xs|
  {
    if xs == [] then []
    else
      var d := DistinctBy(xs[..|xs| - 1], key);
      if HasKey(d, key, key(xs[|xs| - 1])) then d else d + [xs[|xs| - 1]]
  }

  /** No two records share a key. */
  predicate UniqueKeys<T>(xs: seq<T>, key: T -> string)
  {
    forall i, j :: 0 <= i < j < |xs| ==> key(xs[i]) != key(xs[j])
  }

  /** Reordering records keeps their keys distinct. */
  lemma {:induction false} UniqueKeysPermutation<T>(xs: seq<T>, ys: seq<T>, key: T -> string)
    requires multiset(xs) == multiset(ys) && UniqueKeys(xs, key)
    ensures UniqueKeys(ys, key)
    decreases |ys|
  {
    if ys != [] {
      var n := |ys| - 1;
      var y := ys[n];
      var pre := ys[..n];
      assert ys == pre + [y];
      assert y in multiset(xs) by { assert y in ys; }
      var j :| 0 <= j < |xs| && xs[j] == y;
      var rest := Without(xs, j);
      assert multiset(rest) == multiset(pre) by {
        WithoutMultiset(xs, j);
        assert multiset(ys) == multiset(pre) + multiset{y};
      }
      UniqueKeysWithout(xs, j, key);
      UniqueKeysPermutation(rest, pre, key);
      forall x | x in pre
        ensures key(x) != key(y)
      {
        assert x in multiset(rest);
      }
      UniqueKeysSnoc(pre, y, key);
    }
  }

  /** A record whose key no earlier record has keeps the keys distinct. */
  lemma UniqueKeysSnoc<T>(xs: seq<T>, y: T, key: T -> string)
    requires UniqueKeys(xs, key) && forall x :: x in xs ==> key(x) != key(y)
    ensures UniqueKeys(xs + [y], key)
  {
    var r := xs + [y];
    forall a, b | 0 <= a < b < |r|
      ensures key(r[a]) != key(r[b])
    {
      assert r[a] == xs[a];
      if b < |xs| {
        assert r[b] == xs[b];
      }
    }
  }

  /** Dropping one record keeps keys distinct, and no other record has its key. */
  lemma UniqueKeysWithout<T>(xs: seq<T>, j: nat, key: T -> string)
    requires j < |xs| && UniqueKeys(xs, key)
    ensures UniqueKeys(Without(xs, j), key)
    ensures forall x :: x in Without(xs, j) ==> key(x) != key(xs[j])
  {
    var rest := Without(xs, j);
    forall a, b | 0 <= a < b < |rest|
      ensures key(rest[a]) != key(rest[b])
    {
      var a' := if a < j then a else a + 1;
      var b' := if b < j then b else b + 1;
      assert rest[a] == xs[a'] && rest[b] == xs[b'];
    }
    forall x | x in rest
      ensures key(x) != key(xs[j])
    {
      var m :| 0 <= m < |rest| && rest[m] == x;
      var m' := if m < j then m else m + 1;
      assert rest[m] == xs[m'];
    }
  }

  /** A prefix of records with distinct keys has distinct keys. */
  lemma UniqueKeysTake<T>(xs: seq<T>, key: T -> string, n: nat)
    requires UniqueKeys(xs, key)
    ensures UniqueKeys(Take(xs, n), key)
  {
  }

  /** No two records of the result share a key. */
  lemma {:induction false} DistinctByUnique<T>(xs: seq<T>, key: T -> string)
    ensures UniqueKeys(DistinctBy(xs, key), key)
  {
    if xs != [] {
      var d := DistinctBy(xs[..|xs| - 1], key);
      var x := xs[|xs| - 1];
      DistinctByUnique(xs[..|xs| - 1], key);
      if !HasKey(d, key, key(x)) {
        var r := d + [x];
        forall i, j | 0 <= i < j < |r|
          ensures key(r[i]) != key(r[j])
        {
          assert r[i] == d[i];
          if j == |d| {
            assert r[j] == x;
            assert key(d[i]) != key(x);
          } else {
            assert r[j] == d[j];
          }
        }
        assert DistinctBy(xs, key) == r;
      }
    }
  }

  /** Every key of the input is kept, and only records of the input are kept. */
  lemma {:induction false} DistinctByKeys<T>(xs: seq<T>, key: T -> string)
    ensures forall x :: x in DistinctBy(xs, key) ==> x in xs
    ensures forall i :: 0 <= i < |xs| ==> HasKey(DistinctBy(xs, key), key, key(xs[i]))
  {
    if xs != [] {
      var n := |xs| - 1;
      var d := DistinctBy(xs[..n], key);
      DistinctByKeys(xs[..n], key);
      forall i | 0 <= i < |xs|
        ensures HasKey(DistinctBy(xs, key), key, key(xs[i]))
      {
        if i < n {
          assert xs[..n][i] == xs[i];
          var j :| 0 <= j < |d| && key(d[j]) == key(xs[..n][i]);
          assert DistinctBy(xs, key)[j] == d[j];
        } else if !HasKey(d, key, key(xs[n])) {
          assert DistinctBy(xs, key)[|d|] == xs[n];
        }
      }
    }
  }

  /**
   * A kept record is the first of its key: it sits in the input at a
   * position before which no record has its key.
   */
  lemma {:induction false} DistinctByKeepsFirst<T>(xs: seq<T>, key: T -> string, x: T)
    requires x in DistinctBy(xs, key)
    ensures exists i :: 0 <= i < |xs| && xs[i] == x && forall j :: 0 <= j < i ==> key(xs[j]) != key(x)
  {
    var n := |xs| - 1;
    var init := xs[..n];
    var d := DistinctBy(init, key);
    if x in d {
      DistinctByKeepsFirst(init, key, x);
      var i :| 0 <= i < n && init[i] == x && forall j :: 0 <= j < i ==> key(init[j]) != key(x);
      assert xs[i] == x;
      forall j | 0 <= j < i
        ensures key(xs[j]) != key(x)
      {
        assert xs[j] == init[j];
      }
    } else {
      assert x == xs[n] && !HasKey(d, key, key(x));
      DistinctByKeys(init, key);
      forall j | 0 <= j < n
        ensures key(xs[j]) != key(x)
      {
        assert xs[j] == init[j];
      }
    }
  }

  lemma DistinctByStep<T>(xs: seq<T>, i: nat, key: T -> string)
    requires i < |xs|
    ensures var d := DistinctBy(xs[..i], key);
            DistinctBy(xs[..i + 1], key) == if HasKey(d, key, key(xs[i])) then d else d + [xs[i]]
  {
    assert xs[..i + 1][..i] == xs[..i];
  }

  lemma DistinctBySnoc<T>(xs: seq<T>, x: T, key: T -> string)
    ensures var d := DistinctBy(xs, key);
            DistinctBy(xs + [x], key) == if HasKey(d, key, key(x)) then d else d + [x]
  {
    assert (xs + [x])[..|xs|] == xs;
  }

  lemma {:induction false} DistinctByPrefix<T>(xs: seq<T>, i: nat, key: T -> string)
    requires i <= |xs|
    ensures DistinctBy(xs[..i], key) <= DistinctBy(xs, key)
    decreases |xs|
  {
    if i == |xs| {
      assert xs[..i] == xs;
    } else {
      var n := |xs| - 1;
      DistinctByPrefix(xs[..n], i, key);
      assert xs[..n][..i] == xs[..i];
    }
  }

  /** The de-duplicated records of a longer input start with those of a shorter one. */
  lemma DistinctByGrows<T>(a: seq<T>, b: seq<T>, key: T -> string)
    requires a <= b
    ensures DistinctBy(a, key) <= DistinctBy(b, key)
  {
    assert b[..|a|] == a;
    DistinctByPrefix(b, |a|, key);
  }

  /** Below the cap, the de-duplicating loop appends a record exactly when its key is new. */
  lemma DistinctTakeStep<T>(seen: seq<T>, x: T, key: T -> string, cap: nat, out: seq<T>)
    requires out == Take(DistinctBy(seen, key), cap) && |out| < cap
    ensures Take(DistinctBy(seen + [x], key), cap) == if HasKey(out, key, key(x)) then out else out + [x]
  {
    DistinctBySnoc(seen, x, key);
  }

  /**
   * `CollectCapped` with the de-duplication of `scrape_youth_programs`: a
   * record is appended only when no record already held has its key.
   */
  method CollectDistinctCapped<T>(tables: seq<Table>, pick: (nat, Row) -> Option<T>, key: T -> string, cap: nat)
    returns (out: seq<T>)
    ensures out == Take(DistinctBy(PickTables(tables, pick), key), cap)
  {
    out := [];
    var t := 0;
    while t < |tables|
      invariant 0 <= t <= |tables|
      invariant out == Take(DistinctBy(PickTables(tables[..t], pick), key), cap)
    {
      out := CollectDistinctRows(tables[t], pick, key, cap, PickTables(tables[..t], pick), out);
      PickTablesStep(tables, t, pick);
      if |out| >= cap {
        PickTablesPrefix(tables, t + 1, pick);
        DistinctByGrows(PickTables(tables[..t + 1], pick), PickTables(tables, pick), key);
        TakePrefixFull(DistinctBy(PickTables(tables[..t + 1], pick), key), DistinctBy(PickTables(tables, pick), key), cap);
        return;
      }
      t := t + 1;
    }
    assert tables[..t] == tables;
  }

  /** Once the cap is reached, the rows still to come change nothing. */
  lemma DistinctRowsCapped<T>(before: seq<T>, rows: Table, i: nat, pick: (nat, Row) -> Option<T>, key: T -> string, cap: nat)
    requires i <= |rows| && |Take(DistinctBy(before + PickRows(rows[..i], pick), key), cap)| >= cap
    ensures Take(DistinctBy(before + PickRows(rows[..i], pick), key), cap) ==
            Take(DistinctBy(before + PickRows(rows, pick), key), cap)
  {
    var seen := before + PickRows(rows[..i], pick);
    PickRowsPrefix(rows, i, pick);
    assert seen <= before + PickRows(rows, pick);
    DistinctByGrows(seen, before + PickRows(rows, pick), key);
    TakePrefixFull(DistinctBy(seen, key), DistinctBy(before + PickRows(rows, pick), key), cap);
  }

  /** One more row, below the cap: its record is kept unless its key was seen. */
  lemma DistinctRowsStep<T>(before: seq<T>, rows: Table, i: nat, pick: (nat, Row) -> Option<T>, key: T -> string,
                            cap: nat, out: seq<T>)
    requires i < |rows| && out == Take(DistinctBy(before + PickRows(rows[..i], pick), key), cap) && |out| < cap
    ensures Take(DistinctBy(before + PickRows(rows[..i + 1], pick), key), cap) ==
            match pick(i, rows[i])
            case None => out
            case Some(x) => if HasKey(out, key, key(x)) then out else out + [x]
  {
    PickRowsStepAfter(before, rows, i, pick);
    match pick(i, rows[i])
    case None =>
    case Some(x) =>
      DistinctTakeStep(before + PickRows(rows[..i], pick), x, key, cap, out);
  }

  method CollectDistinctRows<T>(rows: Table, pick: (nat, Row) -> Option<T>, key: T -> string, cap: nat,
                                ghost before: seq<T>, out0: seq<T>)
    returns (out: seq<T>)
    requires out0 == Take(DistinctBy(before, key), cap)
    ensures out == Take(DistinctBy(before + PickRows(rows, pick), key), cap)
  {
    out := out0;
    var i := 0;
    assert before + PickRows(rows[..0], pick) == before;
    while i < |rows|
      invariant 0 <= i <= |rows|
      invariant out == Take(DistinctBy(before + PickRows(rows[..i], pick), key), cap)
    {
      if |out| >= cap {
        DistinctRowsCapped(before, rows, i, pick, key, cap);
        return;
      }
      DistinctRowsStep(before, rows, i, pick, key, cap, out);
      var x := pick(i, rows[i]);
      if x.Some? && !HasKey(out, key, key(x.value)) {
        out := out + [x.value];
      }
      i := i + 1;
    }
    assert rows[..i] == rows;
  }
}

=== FILE: text.dfy ===
/**
 * The string operations the services rely on, restricted to what the model
 * needs: substring search (`p in s`), ASCII case folding (`lower()`), ASCII
 * digits (`isdigit()`), ASCII white space (`strip()`), `join`, `split`,
 * `replace(c, '')`, integer formatting and a simplified `urljoin`.
 */
module Text {
  import opened Wrappers
  import Seqs

  // ---------------------------------------------------------------------------
  // Substring search

  /** `p` occurs in `s` starting at index `i`. */
  predicate OccursAt(s: string, p: string, i: int)
  {
    0 <= i && i + |p| <= |s| && s[i..i + |p|] == p
  }

  /** Index of the first occurrence of `p` in `s` at or after `from` (`str.find`). */
  function FindFrom(s: string, p: string, from: nat): (r: Option<nat>)
    decreases |s| - from
    ensures r.Some? ==> from <= r.value && OccursAt(s, p, r.value)
    ensures r.Some? ==> forall j :: from <= j < r.value ==> !OccursAt(s, p, j)
    ensures r.None? ==> forall j :: from <= j ==> !OccursAt(s, p, j)
  {
    if from + |p| > |s| then None
    else if s[from..from + |p|] == p then Some(from)
    else FindFrom(s, p, from + 1)
  }

  function Find(s: string, p: string): Option<nat>
  {
    FindFrom(s, p, 0)
  }

  /** Python's `p in s` on strings. */
  predicate Contains(s: string, p: string)
  {
    Find(s, p).Some?
  }

  lemma ContainsIff(s: string, p: string)
    ensures Contains(s, p) <==> exists j :: OccursAt(s, p, j)
  {
  }

  lemma ContainsEmpty(s: string)
    ensures Contains(s, "")
  {
    assert OccursAt(s, "", 0);
  }

  lemma ContainsSelf(s: string)
    ensures Contains(s, s)
  {
    assert OccursAt(s, s, 0);
  }

  /** A string occurs in any text built around it. */
  lemma ContainsMiddle(a: string, b: string, c: string)
    ensures Contains(a + b + c, b)
  {
    assert (a + b + c)[|a|..|a| + |b|] == b;
    assert OccursAt(a + b + c, b, |a|);
  }

  /** A text inside a text inside `s` is inside `s`. */
  lemma ContainsTransitive(s: string, a: string, b: string)
    requires Contains(s, a) && Contains(a, b)
    ensures Contains(s, b)
  {
    var i := Find(s, a).value;
    var k := Find(a, b).value;
    assert OccursAt(s, a, i) && OccursAt(a, b, k);
    forall j | 0 <= j < |b|
      ensures s[i + k + j] == b[j]
    {
      assert s[i..i + |a|][k + j] == s[i + k + j];
      assert a[k..k + |b|][j] == a[k + j];
    }
    assert s[i + k..i + k + |b|] == b;
    assert OccursAt(s, b, i + k);
  }

  /** The strings of `xs` one after another (`''.join(xs)`). */
  function Concat(xs: seq<string>): string
  {
    if xs == [] then "" else xs[0] + Concat(xs[1..])
  }

  lemma {:induction false} ConcatSplit(xs: seq<string>, k: nat)
    requires k < |xs|
    ensures Concat(xs) == Concat(xs[..k]) + xs[k] + Concat(xs[k + 1..])
  {
    if k > 0 {
      ConcatSplit(xs[1..], k - 1);
      assert xs[1..][..k - 1] == xs[1..k];
      assert xs[1..][k..] == xs[k + 1..];
      assert xs[..k] == [xs[0]] + xs[1..k];
      assert Concat(xs[..k]) == xs[0] + Concat(xs[1..k]);
    } else {
      assert xs[..0] == [];
      assert xs[1..] == xs[k + 1..];
    }
  }

  /** Every piece occurs in the concatenation. */
  lemma ConcatContains(xs: seq<string>, k: nat)
    requires k < |xs|
    ensures Contains(Concat(xs), xs[k])
  {
    ConcatSplit(xs, k);
    ContainsMiddle(Concat(xs[..k]), xs[k], Concat(xs[k + 1..]));
  }

  /** The texts `f` makes of the elements of `xs`, concatenated in order. */
  function Render<T>(xs: seq<T>, f: T -> string): string
  {
    if xs == [] then "" else Render(xs[..|xs| - 1], f) + f(xs[|xs| - 1])
  }

  /** The step a rendering loop performs when it renders one more element. */
  lemma RenderPrefixStep<T>(xs: seq<T>, i: nat, f: T -> string)
    requires i < |xs|
    ensures Render(xs[..i + 1], f) == Render(xs[..i], f) + f(xs[i])
  {
    assert xs[..i + 1][..i] == xs[..i];
  }

  /** Rendering the whole of `xs` as the slice a loop ends with. */
  lemma RenderWhole<T>(xs: seq<T>, f: T -> string)
    ensures Render(xs[..|xs|], f) == Render(xs, f)
  {
    assert xs[..|xs|] == xs;
  }

  method RenderLoop<T>(xs: seq<T>, f: T -> string) returns (text: string)
    ensures text == Render(xs, f)
  {
    text := "";
    var i := 0;
    while i < |xs|
      invariant 0 <= i <= |xs|
      invariant text == Render(xs[..i], f)
    {
      assert xs[..i + 1][..i] == xs[..i];
      text := text + f(xs[i]);
      i := i + 1;
    }
    assert xs[..i] == xs;
  }

  /** The texts `f` makes of the elements of `xs`, numbered from 1, concatenated in order. */
  function RenderIndexed<T>(xs: seq<T>, f: (nat, T) -> string): string
  {
    if xs == [] then "" else RenderIndexed(xs[..|xs| - 1], f) + f(|xs|, xs[|xs| - 1])
  }

  method RenderIndexedLoop<T>(xs: seq<T>, f: (nat, T) -> string) returns (text: string)
    ensures text == RenderIndexed(xs, f)
  {
    text := "";
    var i := 0;
    while i < |xs|
      invariant 0 <= i <= |xs|
      invariant text == RenderIndexed(xs[..i], f)
    {
      assert xs[..i + 1][..i] == xs[..i];
      text := text + f(i + 1, xs[i]);
      i := i + 1;
    }
    assert xs[..i] == xs;
  }

  /** Whatever occurs in one part of a text occurs in the whole. */
  lemma ContainsAppend(a: string, b: string, x: string)
    requires Contains(a, x) || Contains(b, x)
    ensures Contains(a + b, x)
  {
    if Contains(a, x) {
      ContainsMiddle("", a, b);
      assert "" + a + b == a + b;
      ContainsTransitive(a + b, a, x);
    } else {
      ContainsMiddle(a, b, "");
      assert a + b + "" == a + b;
      ContainsTransitive(a + b, b, x);
    }
  }

  /** The text of every element occurs in the rendering. */
  lemma {:induction false} RenderContains<T>(xs: seq<T>, f: T -> string, k: nat)
    requires k < |xs|
    ensures Contains(Render(xs, f), f(xs[k]))
    decreases |xs|
  {
    var init := xs[..|xs| - 1];
    ContainsSelf(f(xs[|xs| - 1]));
    if k < |xs| - 1 {
      RenderContains(init, f, k);
      assert init[k] == xs[k];
    }
    ContainsAppend(Render(init, f), f(xs[|xs| - 1]), f(xs[k]));
  }

  /** The text of every element occurs in the numbered rendering, under its position counted from 1. */
  lemma {:induction false} RenderIndexedContains<T>(xs: seq<T>, f: (nat, T) -> string, k: nat)
    requires k < |xs|
    ensures Contains(RenderIndexed(xs, f), f(k + 1, xs[k]))
    decreases |xs|
  {
    var init := xs[..|xs| - 1];
    ContainsSelf(f(|xs|, xs[|xs| - 1]));
    if k < |xs| - 1 {
      RenderIndexedContains(init, f, k);
      assert init[k] == xs[k];
    }
    ContainsAppend(RenderIndexed(init, f), f(|xs|, xs[|xs| - 1]), f(k + 1, xs[k]));
  }

  /** The text of every element of a rendering occurs in any text built around it. */
  lemma RenderedInside<T>(head: string, xs: seq<T>, f: T -> string, tail: string, k: nat)
    requires k < |xs|
    ensures Contains(head + Render(xs, f) + tail, f(xs[k]))
  {
    RenderContains(xs, f, k);
    ContainsMiddle(head, Render(xs, f), tail);
    ContainsTransitive(head + Render(xs, f) + tail, Render(xs, f), f(xs[k]));
  }

  /** The same for a numbered rendering: an element occurs under its position counted from 1. */
  lemma RenderedIndexedInside<T>(head: string, xs: seq<T>, f: (nat, T) -> string, tail: string, k: nat)
    requires k < |xs|
    ensures Contains(head + RenderIndexed(xs, f) + tail, f(k + 1, xs[k]))
  {
    RenderIndexedContains(xs, f, k);
    ContainsMiddle(head, RenderIndexed(xs, f), tail);
    ContainsTransitive(head + RenderIndexed(xs, f) + tail, RenderIndexed(xs, f), f(k + 1, xs[k]));
  }

  /** A text made of a heading, some middle and a closing line opens with the one and ends with the other. */
  lemma FramedText(heading: string, middle: string, closing: string)
    ensures StartsWith(heading + middle + closing, heading) && EndsWith(heading + middle + closing, closing)
  {
    assert heading + middle + closing == heading + (middle + closing);
    StartsEndsAppend(heading, middle + closing);
    StartsEndsAppend(heading + middle, closing);
  }

  /** A numbered listing of the first `n` elements holds each of them under its number. */
  lemma NumberedListingHolds<T>(heading: string, xs: seq<T>, f: (nat, T) -> string, n: nat, closing: string)
    ensures forall k :: 0 <= k < |xs| && k < n ==>
              Contains(heading + RenderIndexed(Seqs.Take(xs, n), f) + closing, f(k + 1, xs[k]))
  {
    var shown := Seqs.Take(xs, n);
    forall k | 0 <= k < |xs| && k < n
      ensures Contains(heading + RenderIndexed(shown, f) + closing, f(k + 1, xs[k]))
    {
      RenderedIndexedInside(heading, shown, f, closing, k);
      assert shown[k] == xs[k];
    }
  }

  /**
   * A numbered listing of the first `n` elements between a heading and a
   * closing line: it opens with the heading, ends with the closing line,
   * holds every shown element under its number, and all of them when there
   * are at most `n`.
   */
  lemma NumberedListingShape<T>(heading: string, xs: seq<T>, f: (nat, T) -> string, n: nat, closing: string, text: string)
    requires text == heading + RenderIndexed(Seqs.Take(xs, n), f) + closing
    ensures StartsWith(text, heading) && EndsWith(text, closing)
    ensures forall k :: 0 <= k < |xs| && k < n ==> Contains(text, f(k + 1, xs[k]))
    ensures |xs| <= n ==> text == heading + RenderIndexed(xs, f) + closing
  {
    FramedText(heading, RenderIndexed(Seqs.Take(xs, n), f), closing);
    NumberedListingHolds(heading, xs, f, n, closing);
  }

  /** A line `prefix + value`, present only when the value is not empty. */
  function OptionalLine(prefix: string, value: string): (r: string)
    ensures value == "" <==> r == ""
  {
    if value == "" then "" else prefix + value + "\n"
  }

  /** Some of the words occurs in `s`. */
  predicate ContainsAny(s: string, words: seq<string>)
  {
    exists k :: 0 <= k < |words| && Contains(s, words[k])
  }

  predicate StartsWith(s: string, p: string)
  {
    p <= s
  }

  predicate EndsWith(s: string, p: string)
  {
    |p| <= |s| && s[|s| - |p|..] == p
  }

  /** A concatenation starts with its first part and ends with its second. */
  lemma StartsEndsAppend(a: string, b: string)
    ensures StartsWith(a + b, a) && EndsWith(a + b, b)
  {
    assert (a + b)[|a + b| - |b|..] == b;
  }

  // ---------------------------------------------------------------------------
  // Characters

  predicate IsDigit(c: char)
  {
    '0' <= c <= '9'
  }

  /** Python's `str.isdigit()` (ASCII digits only): non-empty and all digits. */
  predicate IsDigits(s: string)
  {
    |s| > 0 && forall i :: 0 <= i < |s| ==> IsDigit(s[i])
  }

  /** The white space that `str.strip()` and `\s` recognise (ASCII part). */
  predicate IsSpace(c: char)
  {
    c == ' ' || c == '\t' || c == '\n' || c == '\r' || c == '\U{000B}' || c == '\U{000C}'
  }

  function LowerChar(c: char): char
  {
    if 'A' <= c <= 'Z' then (c as int + 32) as char else c
  }

  /** `str.lower()` on the ASCII letters; every other character is kept. */
  function Lower(s: string): (r: string)
    ensures |r| == |s|
    ensures forall i :: 0 <= i < |s| ==> r[i] == LowerChar(s[i])
  {
    seq(|s|, i requires 0 <= i < |s| => LowerChar(s[i]))
  }

  /** Lower-casing keeps substrings: a text found in `s` is found, lower-cased, in `Lower(s)`. */
  lemma LowerContains(s: string, p: string)
    requires Contains(s, p)
    ensures Contains(Lower(s), Lower(p))
  {
    var i := Find(s, p).value;
    assert Lower(s)[i..i + |p|] == Lower(p);
    assert OccursAt(Lower(s), Lower(p), i);
  }

  lemma LowerIdempotent(s: string)
    ensures Lower(Lower(s)) == Lower(s)
  {
  }

  // ---------------------------------------------------------------------------
  // strip()

  /** The first index at or after `i` that does not hold white space (`|s|` when there is none). */
  function SpaceRunEnd(s: string, i: nat): (k: nat)
    requires i <= |s|
    decreases |s| - i
    ensures i <= k <= |s|
    ensures k == |s| || !IsSpace(s[k])
    ensures forall j :: i <= j < k ==> IsSpace(s[j])
  {
    if i < |s| && IsSpace(s[i]) then SpaceRunEnd(s, i + 1) else i
  }

  /** The last index at or before `j` that is preceded by no white space (`0` when there is none). */
  function SpaceRunStart(s: string, j: nat): (k: nat)
    requires j <= |s|
    ensures k <= j
    ensures k == 0 || !IsSpace(s[k - 1])
    ensures forall i :: k <= i < j ==> IsSpace(s[i])
  {
    if j > 0 && IsSpace(s[j - 1]) then SpaceRunStart(s, j - 1) else j
  }

  function StripLeft(s: string): (r: string)
    ensures |r| <= |s| && r == s[|s| - |r|..]
    ensures r == [] || !IsSpace(r[0])
    ensures forall i :: 0 <= i < |s| - |r| ==> IsSpace(s[i])
  {
    s[SpaceRunEnd(s, 0)..]
  }

  function StripRight(s: string): (r: string)
    ensures |r| <= |s| && r == s[..|r|]
    ensures r == [] || !IsSpace(r[|r| - 1])
    ensures forall i :: |r| <= i < |s| ==> IsSpace(s[i])
  {
    s[..SpaceRunStart(s, |s|)]
  }

  /** `str.strip()`: drop leading and trailing white space. */
  function Strip(s: string): (r: string)
    ensures r == [] || (!IsSpace(r[0]) && !IsSpace(r[|r| - 1]))
  {
    StripRight(StripLeft(s))
  }

  /** `strip()` keeps a piece of its input: the stripped text occurs in it. */
  lemma StripOccurs(s: string)
    ensures Contains(s, Strip(s))
  {
    var l := StripLeft(s);
    var r := StripRight(l);
    assert s[|s| - |l|..][..|r|] == r;
    assert s[|s| - |l|..|s| - |l| + |r|] == r;
    assert OccursAt(s, r, |s| - |l|);
  }

  lemma StripRightKeepsFirst(s: string)
    requires s != [] && !IsSpace(s[0])
    ensures StripRight(s) != [] && StripRight(s)[0] == s[0]
  {
  }

  lemma {:induction false} StripIdempotent(s: string)
    ensures Strip(Strip(s)) == Strip(s)
  {
    var t := Strip(s);
    if t != [] {
      assert StripLeft(t) == t;
    }
    assert StripRight(StripLeft(t)) == StripRight(t);
  }

  // ---------------------------------------------------------------------------
  // join, split, replace

  /** `sep.join(xs)`. */
  function Join(sep: string, xs: seq<string>): string
  {
    if |xs| == 0 then ""
    else if |xs| == 1 then xs[0]
    else xs[0] + sep + Join(sep, xs[1..])
  }

  /** The first index at or after `i` that holds `c`. */
  function IndexOfCharFrom(s: string, c: char, i: nat): (r: Option<nat>)
    requires i <= |s|
    decreases |s| - i
    ensures r.Some? ==> i <= r.value < |s| && s[r.value] == c
    ensures forall j :: i <= j < |s| && (r.None? || j < r.value) ==> s[j] != c
  {
    if i == |s| then None
    else if s[i] == c then Some(i)
    else IndexOfCharFrom(s, c, i + 1)
  }

  /** `s.find(c)`, `None` for -1. */
  function IndexOfChar(s: string, c: char): (r: Option<nat>)
    ensures r.Some? ==> r.value < |s| && s[r.value] == c && c !in s[..r.value]
    ensures r.None? ==> c !in s
  {
    IndexOfCharFrom(s, c, 0)
  }

  /** `s.split(c)` for a one-character separator. */
  function Split(s: string, c: char): (r: seq<string>)
    decreases |s|
    ensures |r| >= 1
    ensures forall k :: 0 <= k < |r| ==> c !in r[k]
  {
    match IndexOfChar(s, c)
    case None => [s]
    case Some(i) => [s[..i]] + Split(s[i + 1..], c)
  }

  /** Splitting and joining with the same separator gives back the input. */
  lemma {:induction false} SplitJoin(s: string, c: char)
    decreases |s|
    ensures Join([c], Split(s, c)) == s
  {
    match IndexOfChar(s, c)
    case None =>
    case Some(i) =>
      var rest := Split(s[i + 1..], c);
      SplitJoin(s[i + 1..], c);
      assert Split(s, c) == [s[..i]] + rest;
      assert Join([c], Split(s, c)) == s[..i] + [c] + Join([c], rest);
      assert s == s[..i] + [c] + s[i + 1..];
  }

  /**
   * `s.split(c)[-1]` is the tail of `s` after its last `c`, or all of `s`
   * when `c` does not occur in it.
   */
  lemma SplitLastSuffix(s: string, c: char)
    ensures var r := Split(s, c);
            var t := r[|r| - 1];
            var k := |s| - |t|;
            0 <= k && t == s[k..] && (k == 0 || s[k - 1] == c) &&
            (c !in s ==> t == s)
  {
    SplitLastPiece(s, c);
    if c !in s {
      assert Split(s, c) == [s];
    }
  }

  /** The last piece of `Split(s, c)` is a suffix of `s` that starts at 0 or just after a `c`. */
  lemma {:induction false} SplitLastPiece(s: string, c: char)
    decreases |s|
    ensures var r := Split(s, c);
            var t := r[|r| - 1];
            var k := |s| - |t|;
            0 <= k && t == s[k..] && (k == 0 || s[k - 1] == c)
  {
    match IndexOfChar(s, c)
    case None =>
      assert Split(s, c) == [s];
    case Some(i) =>
      var rest := s[i + 1..];
      var r := Split(rest, c);
      SplitLastPiece(rest, c);
      assert Split(s, c) == [s[..i]] + r;
      assert s[i] in s;
      SuffixAfter(s, i, r[|r| - 1], c);
  }

  /** A suffix of `s[i + 1..]` that starts after a `c` (or at its start) is such a suffix of `s` when `s[i] == c`. */
  lemma SuffixAfter(s: string, i: nat, t: string, c: char)
    requires i < |s| && s[i] == c
    requires |t| <= |s[i + 1..]| && t == s[i + 1..][|s[i + 1..]| - |t|..]
    requires |t| == |s[i + 1..]| || s[i + 1..][|s[i + 1..]| - |t| - 1] == c
    ensures |t| < |s| && t == s[|s| - |t|..] && s[|s| - |t| - 1] == c
  {
    assert s[i + 1..][|s[i + 1..]| - |t|..] == s[|s| - |t|..];
  }

  /** Only one position lies just past the last `c` (or is 0 when `c` does not occur). */
  lemma AfterLastUnique(s: string, c: char, k1: nat, k2: nat)
    requires k1 <= |s| && c !in s[k1..] && (k1 == 0 || s[k1 - 1] == c)
    requires k2 <= |s| && c !in s[k2..] && (k2 == 0 || s[k2 - 1] == c)
    ensures k1 == k2
  {
  }

  /** `s.replace(c, '')`: every occurrence of `c` removed, the other characters kept in order. */
  function RemoveAll(s: string, c: char): (r: string)
    ensures r == Seqs.Filter(s, (x: char) => x != c)
    ensures c !in r
    ensures |r| <= |s|
    ensures c !in s ==> r == s
  {
    if |s| == 0 then ""
    else (if s[0] == c then "" else [s[0]]) + RemoveAll(s[1..], c)
  }

  /** `s.replace(p, '')` for a non-empty `p`: occurrences removed left to right, without overlap. */
  function RemoveSubstring(s: string, p: string): (r: string)
    requires p != []
    decreases |s|
    ensures |r| <= |s|
    ensures !Contains(s, p) ==> r == s
  {
    if |s| < |p| then s
    else if s[..|p|] == p then RemoveSubstring(s[|p|..], p)
    else
      assert !Contains(s, p) ==> !Contains(s[1..], p) by {
        if Contains(s[1..], p) {
          var j := Find(s[1..], p).value;
          assert s[1 + j..1 + j + |p|] == s[1..][j..j + |p|];
          assert OccursAt(s, p, j + 1);
        }
      }
      [s[0]] + RemoveSubstring(s[1..], p)
  }

  /** Removing `p` from a text that ends with it, where `p`'s first character occurs nowhere before, leaves the front. */
  lemma {:induction false} RemoveSubstringSuffix(a: string, p: string)
    requires p != [] && p[0] !in a
    ensures RemoveSubstring(a + p, p) == a
  {
    if a == [] {
      assert a + p == p;
      assert RemoveSubstring(p[|p|..], p) == [];
    } else {
      var s := a + p;
      assert s[0] == a[0] != p[0];
      assert s[..|p|] != p;
      assert s[1..] == a[1..] + p;
      RemoveSubstringSuffix(a[1..], p);
      assert [a[0]] + a[1..] == a;
    }
  }

  /** A text lacking one of `p`'s characters does not contain `p`. */
  lemma MissingCharNotContained(s: string, p: string, c: char)
    requires c in p && c !in s
    ensures !Contains(s, p)
  {
    ContainsIff(s, p);
  }

  /** A text without white space at either end is its own `strip()`. */
  lemma StripUntrimmed(s: string)
    requires s != [] && !IsSpace(s[0]) && !IsSpace(s[|s| - 1])
    ensures Strip(s) == s
  {
    assert StripLeft(s) == s;
  }

  // ---------------------------------------------------------------------------
  // Integers as decimal text

  function DigitChar(d: int): char
    requires 0 <= d <= 9
  {
    ('0' as int + d) as char
  }

  function DigitValue(c: char): int
  {
    if IsDigit(c) then c as int - '0' as int else 0
  }

  /** `int(s)` for a string of ASCII digits. */
  function DecimalValue(s: string): (v: nat)
  {
    if |s| == 0 then 0 else DecimalValue(s[..|s| - 1]) * 10 + DigitValue(s[|s| - 1])
  }

  /** `str(n)` for a natural number. */
  function NatToString(n: nat): (r: string)
    ensures IsDigits(r)
  {
    if n < 10 then [DigitChar(n)] else NatToString(n / 10) + [DigitChar(n % 10)]
  }

  /** `str(n)` / an f-string field for any integer. */
  function IntToString(n: int): string
  {
    if n < 0 then "-" + NatToString(-n) else NatToString(n)
  }

  /** Reading back a formatted number gives the number. */
  lemma {:induction false} NatToStringRoundTrip(n: nat)
    ensures DecimalValue(NatToString(n)) == n
  {
    if n >= 10 {
      var t := NatToString(n / 10);
      NatToStringRoundTrip(n / 10);
      assert (t + [DigitChar(n % 10)])[..|t|] == t;
    }
  }

  /** `'%0*d' % (w, n)`: the last `w` decimal digits of `n`, with leading zeros. */
  function PadDigits(n: nat, w: nat): (r: string)
    ensures |r| == w
    ensures w > 0 ==> IsDigits(r)
  {
    if w == 0 then "" else PadDigits(n / 10, w - 1) + [DigitChar(n % 10)]
  }

  function Pow10(w: nat): (p: nat)
    ensures p >= 1
  {
    if w == 0 then 1 else 10 * Pow10(w - 1)
  }

  /** Reading back a zero-padded number that fits its width gives the number. */
  lemma {:induction false} PadDigitsRoundTrip(n: nat, w: nat)
    requires n < Pow10(w)
    ensures DecimalValue(PadDigits(n, w)) == n
  {
    if w > 0 {
      var t := PadDigits(n / 10, w - 1);
      assert n / 10 < Pow10(w - 1);
      PadDigitsRoundTrip(n / 10, w - 1);
      assert (t + [DigitChar(n % 10)])[..|t|] == t;
    }
  }

  // ---------------------------------------------------------------------------
  // urljoin

  predicate IsAbsoluteUrl(href: string)
  {
    StartsWith(href, "http://") || StartsWith(href, "https://")
  }

  /** Scheme and host of an absolute URL: everything before the first `/` after `://`. */
  function Origin(base: string): (r: string)
    ensures r <= base
  {
    match Find(base, "://")
    case None => base
    case Some(i) =>
      match IndexOfChar(base[i + 3..], '/')
      case None => base
      case Some(k) => base[..i + 3 + k]
  }

  /** The directory part of `base`: origin plus path up to and including its last `/`. */
  function Directory(base: string): string
  {
    var o := Origin(base);
    var rest := base[|o|..];
    var path := match IndexOfChar(rest, '?') case None => rest case Some(q) => rest[..q];
    o + LastSlashPrefix(path)
  }

  function LastSlashPrefix(path: string): (r: string)
    ensures |r| > 0 && r[|r| - 1] == '/'
  {
    if |path| == 0 then "/"
    else if path[|path| - 1] == '/' then path
    else LastSlashPrefix(path[..|path| - 1])
  }

  /** `urllib.parse.urljoin(base, href)` for the references the scrapers see. */
  function UrlJoin(base: string, href: string): (r: string)
    ensures href == "" ==> r == base
    ensures IsAbsoluteUrl(href) ==> r == href
    ensures href != "" ==> EndsWith(r, href)
  {
    if href == "" then base
    else if IsAbsoluteUrl(href) then href
    else if href[0] == '/' then Origin(base) + href
    else Directory(base) + href
  }
}

=== FILE: wrappers.dfy ===
/** Optional values: Python's `None` versus a present value. */
module Wrappers {
  datatype Option<+T> = None | Some(value: T) {
    function GetOr(default: T): T {
      match this
      case Some(v) => v
      case None => default
    }
  }
}
